=== FILE: README.md ===
# phpPgAdmin dump and import core, modelled in Dafny

This project models the core of phpPgAdmin's database export and import in Dafny and proves properties of the model.

**Export side**
- The dumpers (`FunctionDumper`, `TriggerDumper`, `RuleDumper`, `AggregateDumper`, `SequenceDumper`, `DomainDumper`, `RoleDumper`, `TypeDumper`, `TableDumper`) write SQL DDL for one catalog object each. They write to an output stream, which is modelled as the list of `write` calls (`Output.Writer`).
- `DumpFactory` picks the dumper for a subject name.
- `SqlFormatter` turns streamed table rows into `COPY ... FROM stdin` blocks, or into single-row or multi-row `INSERT` statements. `CopyText` states what a `COPY` text line decodes back to.
- `ObjectNode` and `DependencyGraph` order the objects of a dump so that each object comes after the objects it depends on. Objects on a dependency cycle are reported as circular.

**Import side**
- `StatementExecutor` runs the statements of an uploaded dump against a server:
  - it rewrites each statement for the server's version (`IF NOT EXISTS`, `OR REPLACE`, `EXECUTE FUNCTION`/`EXECUTE PROCEDURE`);
  - it applies the user's options for ownership, rights, policies, dropping and data;
  - it truncates each table once before its first data statement;
  - it logs and counts errors.
- `SessionSettingsApplier` collects the allowed `SET` statements of a dump, caches them, and replays them on a fresh connection.
- `JsonRowParser` incrementally reads rows from a JSON export that arrives in chunks.
- `js/import/utils.js` provides the byte helpers of the browser-side importer: FNV-1a hashing, recognising compressed formats by their magic bytes, and hex conversion.

**How the model works**
- Pure logic is written as functions and lemmas.
- Objects that the source updates in place are classes whose methods are proved against those functions: the writer, the executor, the session settings, the parser state, the nodes and the graph.
- Collaborators whose code is outside this model are inputs:
  - the database driver's quoting and escaping functions;
  - catalog query results;
  - the server's replies to statements;
  - the statement classifier.

Server versions are written in tenths (9.5 is 95, 14 is 140). A PHP string is a `seq<char>`, and each char stands for one byte.

## Model

| member | source | states |
|---|---|---|
| `FunctionDump.FunctionWrites` | libraries/PhpPgAdmin/Database/Dump/FunctionDumper.php:10-50 | nothing is written without a `function_oid` or when the lookup finds no row; otherwise the `-- Function: schema.name` header (from the row, uncleaned), the DROP naming the identity arguments only under `clean`, and last the definition followed by `;` |
| `FunctionDump.FunctionDumper.Dump` | libraries/PhpPgAdmin/Database/Dump/FunctionDumper.php:10-50 | appends to the output exactly the writes `FunctionWrites` describes |
| `TriggerDump.TriggerWrites` | libraries/PhpPgAdmin/Database/Dump/TriggerDumper.php:10-45 | nothing without a trigger and a table name; otherwise the header always, the DROP only under `clean`, and the definition with `;` only when the lookup finds a row, so a failed lookup still leaves the header written |
| `TriggerDump.TriggerDumper.Dump` | libraries/PhpPgAdmin/Database/Dump/TriggerDumper.php:10-45 | appends exactly `TriggerWrites` |
| `RuleDump.RuleTable` | libraries/PhpPgAdmin/Database/Dump/RuleDumper.php:13 | the table parameter when present, otherwise the view parameter (`??` chain) |
| `RuleDump.RuleWrites` | libraries/PhpPgAdmin/Database/Dump/RuleDumper.php:10-45 | nothing without a rule name and a table or view; otherwise header, DROP under `clean`, and the definition with `;` only when found |
| `RuleDump.RuleDumper.Dump` | libraries/PhpPgAdmin/Database/Dump/RuleDumper.php:10-45 | appends exactly `RuleWrites` |
| `AggregateDump.SortOp` | libraries/PhpPgAdmin/Database/Dump/AggregateDumper.php:45-52 | a sort operator is named exactly when `aggsortop` is neither NULL nor `0` and the operator lookup finds it |
| `AggregateDump.CreateWrites` | libraries/PhpPgAdmin/Database/Dump/AggregateDumper.php:34-54 | the first write is exactly `CREATE AGGREGATE "schema"."name" (` plus a newline; then one write per clause: BASETYPE (ANY for NULL argument types), SFUNC, STYPE, then FINALFUNC (unless NULL or `-`); when `agginitval` is set, the write after them is exactly `,` newline `    INITCOND = '<agginitval>'`; SORTOP when present, and the closing `);` last; the count of writes follows the optional clauses |
| `AggregateDump.CommentWrites` | libraries/PhpPgAdmin/Database/Dump/AggregateDumper.php:56-59 | one COMMENT exactly when comments are requested and the row has one, and it is exactly `COMMENT ON AGGREGATE "schema"."name" (<types or *>) IS '<cleaned comment>';` |
| `AggregateDump.DropWrites` | libraries/PhpPgAdmin/Database/Dump/AggregateDumper.php:29-32 | one write exactly under `clean`, and it is exactly `DROP AGGREGATE IF EXISTS "schema"."name" (<types>) CASCADE;`, with `*` for NULL argument types |
| `AggregateDump.AggregateWrites` | libraries/PhpPgAdmin/Database/Dump/AggregateDumper.php:12-61 | nothing without a name or when the lookup finds no row; otherwise the header first, the DROP only under `clean`, the CREATE writes in place right after it, and the comment only when requested and present |
| `AggregateDump.AggregateDumper.Dump` | libraries/PhpPgAdmin/Database/Dump/AggregateDumper.php:12-61 | appends exactly `AggregateWrites` |
| `AggregateDump.AggregateDumper.DumpFound` | libraries/PhpPgAdmin/Database/Dump/AggregateDumper.php:25-60 | appends header, DROP, CREATE and comment for a found aggregate |
| `AggregateDump.AggregateDumper.WriteDrop` | libraries/PhpPgAdmin/Database/Dump/AggregateDumper.php:29-32 | appends exactly `DropWrites` |
| `AggregateDump.AggregateDumper.WriteComment` | libraries/PhpPgAdmin/Database/Dump/AggregateDumper.php:56-59 | appends exactly `CommentWrites` |
| `AggregateDump.AggregateDumper.WriteCreate` | libraries/PhpPgAdmin/Database/Dump/AggregateDumper.php:34-54 | appends exactly `CreateWrites` |
| `AggregateDump.AggregateDumper.WriteOptionalClauses` | libraries/PhpPgAdmin/Database/Dump/AggregateDumper.php:39-52 | appends the FINALFUNC, INITCOND and SORTOP clauses that apply, in that order |
| `SequenceDump.CreateWrites` | libraries/PhpPgAdmin/Database/Dump/SequenceDumper.php:29-39 | the first write is exactly `CREATE SEQUENCE <IF NOT EXISTS >"schema"."sequence"` and a newline; then START WITH, INCREMENT BY, MINVALUE, MAXVALUE and CACHE from the row, CYCLE only when the sequence cycles, `;` last |
| `SequenceDump.SetvalWrites` | libraries/PhpPgAdmin/Database/Dump/SequenceDumper.php:41-48 | no setval when `last_value` is empty in PHP's sense (NULL, empty or `0`); otherwise exactly one write, `SELECT pg_catalog.setval('"<schema>"."<sequence>"', <last_value>, true);` or `, false);` by `is_called`, the names cleaned and then escaped by addslashes |
| `SequenceDump.CommentStatement` | libraries/PhpPgAdmin/Database/Dump/SequenceDumper.php:61 | the COMMENT ends in a backslash and the letter n, not a newline, as the single-quoted PHP literal writes it |
| `SequenceDump.CommentWrites` | libraries/PhpPgAdmin/Database/Dump/SequenceDumper.php:50-63 | at most one COMMENT, written exactly when comments are requested and the comment lookup finds a non-empty comment |
| `SequenceDump.SequenceWrites` | libraries/PhpPgAdmin/Database/Dump/SequenceDumper.php:12-67 | nothing without a name or a found row; otherwise the header first and the privilege writes last |
| `SequenceDump.SequenceDumper.Dump` | libraries/PhpPgAdmin/Database/Dump/SequenceDumper.php:12-67 | appends exactly `SequenceWrites` |
| `SequenceDump.SequenceDumper.WriteCreate` | libraries/PhpPgAdmin/Database/Dump/SequenceDumper.php:29-39 | appends exactly `CreateWrites` |
| `SequenceDump.SequenceDumper.WriteSetval` | libraries/PhpPgAdmin/Database/Dump/SequenceDumper.php:41-48 | appends exactly `SetvalWrites` |
| `SequenceDump.SequenceDumper.WriteComment` | libraries/PhpPgAdmin/Database/Dump/SequenceDumper.php:50-63 | appends exactly `CommentWrites` |
| `DomainDump.ConstraintWrites` | libraries/PhpPgAdmin/Database/Dump/DomainDumper.php:73-89 | one CONSTRAINT clause per constraint row, in row order; none when the query failed |
| `DomainDump.DefinitionWrites` | libraries/PhpPgAdmin/Database/Dump/DomainDumper.php:46-59 | CREATE DOMAIN with the base type first; the `DEFAULT` clause with the stored default right after it when the default is not NULL; `NOT NULL` next when the domain has it; the constraint clauses just before the closing `;` |
| `DomainDump.DefinitionHead` | libraries/PhpPgAdmin/Database/Dump/DomainDumper.php:46-54 | the CREATE DOMAIN line is followed by exactly the applicable `ClauseWrites` |
| `DomainDump.ClauseWrites` | libraries/PhpPgAdmin/Database/Dump/DomainDumper.php:48-54 | one write per clause that applies: `DEFAULT <default>` first when a default is stored, `NOT NULL` last when the domain is not null |
| `DomainDump.CommentWrites` | libraries/PhpPgAdmin/Database/Dump/DomainDumper.php:61-68 | one COMMENT exactly when comments are requested and the domain has one |
| `DomainDump.DomainWrites` | libraries/PhpPgAdmin/Database/Dump/DomainDumper.php:10-71 | nothing without a name, when the query fails or finds no row; otherwise the header first and the privileges (kind `type`) last |
| `DomainDump.DomainDumper.Dump` | libraries/PhpPgAdmin/Database/Dump/DomainDumper.php:10-71 | appends exactly `DomainWrites` |
| `DomainDump.DomainDumper.DumpFound` | libraries/PhpPgAdmin/Database/Dump/DomainDumper.php:43-70 | appends header, DROP, definition, comment and privileges for a found domain |
| `DomainDump.DomainDumper.WriteComment` | libraries/PhpPgAdmin/Database/Dump/DomainDumper.php:61-68 | appends exactly `CommentWrites` |
| `DomainDump.DomainDumper.WriteDefinition` | libraries/PhpPgAdmin/Database/Dump/DomainDumper.php:46-59 | appends exactly `DefinitionWrites` |
| `DomainDump.DomainDumper.DumpConstraints` | libraries/PhpPgAdmin/Database/Dump/DomainDumper.php:73-89 | the loop over the constraint rows appends exactly `ConstraintWrites` |
| `RoleDump.FlagAttributes` | libraries/PhpPgAdmin/Database/Dump/RoleDumper.php:35-54 | the five flags in fixed order, each `X` or `NOX` by its column |
| `RoleDump.Attributes` | libraries/PhpPgAdmin/Database/Dump/RoleDumper.php:34-62 | the five flags first, then REPLICATION and BYPASSRLS when present and true, then CONNECTION LIMIT unless the limit is -1 |
| `RoleDump.GrantWrites` | libraries/PhpPgAdmin/Database/Dump/RoleDumper.php:70-74 | the first write is exactly `GRANT "<role>" TO "<member>"`, both names escaped by addslashes; the second is ` WITH ADMIN OPTION` for an admin member, and `;` comes last |
| `RoleDump.RoleEntry` | libraries/PhpPgAdmin/Database/Dump/RoleDumper.php:20-77 | the `-- Role:` line always; a system role skipped without `all_roles` gets nothing else; otherwise the DROP, then CREATE ROLE and its ` WITH` attribute list |
| `RoleDump.RoleWrites` | libraries/PhpPgAdmin/Database/Dump/RoleDumper.php:12-81 | the `-- Roles` heading first, then each role's entry |
| `RoleDump.EveryRoleIsAnnounced` | libraries/PhpPgAdmin/Database/Dump/RoleDumper.php:19-28 | every role, skipped or not, gets its `-- Role:` line |
| `RoleDump.SkippedRoleWritesOnlyItsHeader` | libraries/PhpPgAdmin/Database/Dump/RoleDumper.php:24-28 | a skipped role adds its header line and nothing else |
| `RoleDump.RoleDumper.Dump` | libraries/PhpPgAdmin/Database/Dump/RoleDumper.php:12-81 | the loop over the roles appends exactly `RoleWrites` |
| `RoleDump.RoleDumper.WriteRole` | libraries/PhpPgAdmin/Database/Dump/RoleDumper.php:20-78 | appends exactly `RoleEntry` for one role |
| `RoleDump.RoleDumper.BuildAttributes` | libraries/PhpPgAdmin/Database/Dump/RoleDumper.php:34-62 | the list the `$attrs[]` appends build equals `Attributes` |
| `RoleDump.RoleDumper.WriteMembers` | libraries/PhpPgAdmin/Database/Dump/RoleDumper.php:66-77 | the loop over the members appends their GRANTs in order |
| `TypeDump.AlignmentName` | libraries/PhpPgAdmin/Database/Dump/TypeDumper.php:132-146 | c is `char`, s is `int2`, i is `int4`, d is `double`; any other alignment code is returned as it is |
| `TypeDump.StorageName` | libraries/PhpPgAdmin/Database/Dump/TypeDumper.php:148-162 | p is `plain`, e is `external`, m is `main`, x is `extended`; any other storage code is returned as it is |
| `TypeDump.AlignmentNamesDistinct` | libraries/PhpPgAdmin/Database/Dump/TypeDumper.php:132-146 | the four alignment codes get four different names, none of them a code |
| `TypeDump.StorageNamesDistinct` | libraries/PhpPgAdmin/Database/Dump/TypeDumper.php:148-162 | the four storage codes get four different names, none of them a code |
| `TypeDump.EnumLabels` | libraries/PhpPgAdmin/Database/Dump/TypeDumper.php:54-60 | one cleaned, single-quoted label per enum value, in order |
| `TypeDump.CompositeFields` | libraries/PhpPgAdmin/Database/Dump/TypeDumper.php:91-95 | one `"name" type` per attribute, in order |
| `TypeDump.CommentWrites` | libraries/PhpPgAdmin/Database/Dump/TypeDumper.php:99-109 | at most one COMMENT, exactly when the second type lookup finds a row with a comment |
| `TypeDump.EnumWrites` | libraries/PhpPgAdmin/Database/Dump/TypeDumper.php:50-77 | CREATE TYPE ... AS ENUM with the labels joined by `, `; after it the type's COMMENT when comments are requested, and nothing when they are not |
| `TypeDump.CompositeWrites` | libraries/PhpPgAdmin/Database/Dump/TypeDumper.php:79-110 | CREATE TYPE ... AS with the fields joined by `, `, then the comment writes (regardless of the comments option) |
| `TypeDump.BaseWrites` | libraries/PhpPgAdmin/Database/Dump/TypeDumper.php:112-130 | `CREATE TYPE "schema"."name" (` with both names passed through addslashes, then INPUT and OUTPUT, then exactly `BaseOptions`, then `);` last; STORAGE is the last option when it applies |
| `TypeDump.BaseOptions` | libraries/PhpPgAdmin/Database/Dump/TypeDumper.php:119-127 | `INTERNALLENGTH = <length>` first unless the length is -1, `ALIGNMENT = <AlignmentName>` next unless the code is empty, `STORAGE = <StorageName>` last when `typstorage` is present and true in PHP's sense |
| `TypeDump.BodyWrites` | libraries/PhpPgAdmin/Database/Dump/TypeDumper.php:30-43 | kind `e` gives `EnumWrites`, `c` gives `CompositeWrites`, `b` gives `BaseWrites`; any other kind gets no CREATE |
| `TypeDump.TypeWrites` | libraries/PhpPgAdmin/Database/Dump/TypeDumper.php:12-48 | nothing without a name or a found row; otherwise the header, the DROP, the CREATE `BodyWrites` chooses for the row's kind, and the privileges, in that order; for another kind only header, DROP and privileges |
| `TypeDump.TypeDumper.Dump` | libraries/PhpPgAdmin/Database/Dump/TypeDumper.php:12-48 | appends exactly `TypeWrites` |
| `TypeDump.TypeDumper.DumpFound` | libraries/PhpPgAdmin/Database/Dump/TypeDumper.php:24-47 | appends header, DROP, the kind's CREATE and the privileges |
| `TypeDump.TypeDumper.DumpEnum` | libraries/PhpPgAdmin/Database/Dump/TypeDumper.php:50-77 | the label loop and writes append exactly `EnumWrites` |
| `TypeDump.TypeDumper.DumpComposite` | libraries/PhpPgAdmin/Database/Dump/TypeDumper.php:79-110 | the field loop and writes append exactly `CompositeWrites` |
| `TypeDump.TypeDumper.WriteComment` | libraries/PhpPgAdmin/Database/Dump/TypeDumper.php:99-109 | appends exactly `CommentWrites` |
| `TypeDump.TypeDumper.DumpBase` | libraries/PhpPgAdmin/Database/Dump/TypeDumper.php:112-130 | appends exactly `BaseWrites` |
| `TypeDump.TypeDumper.WriteBaseOptions` | libraries/PhpPgAdmin/Database/Dump/TypeDumper.php:119-127 | appends the INTERNALLENGTH, ALIGNMENT and STORAGE clauses that apply, in that order |
| `DumpFactory.SwitchKind` | libraries/PhpPgAdmin/Database/Dump/DumpFactory.php:29-62 | a dumper is picked only for a string that is its subject name |
| `DumpFactory.ClassNameFor` | libraries/PhpPgAdmin/Database/Dump/DumpFactory.php:22 | the class name tried first is the subject, case-mapped, followed by `Dumper` (six more characters) |
| `DumpFactory.FindClass` | libraries/PhpPgAdmin/Database/Dump/DumpFactory.php:24-26 | a found dumper is one of those searched and has the class name asked for; none is found only when no searched dumper has that class name |
| `DumpFactory.Create` | libraries/PhpPgAdmin/Database/Dump/DumpFactory.php:20-63 | the error message is `Unsupported dump subject: ` followed by the subject as given |
| `DumpFactory.SubjectNameIsLower` | libraries/PhpPgAdmin/Database/Dump/DumpFactory.php:30-58 | every subject the switch lists is a non-empty lower-case name |
| `DumpFactory.ClassNameOfSubject` | libraries/PhpPgAdmin/Database/Dump/DumpFactory.php:22 | the class name built from a listed subject is the class the switch instantiates for it |
| `DumpFactory.SwitchKindOfSubject` | libraries/PhpPgAdmin/Database/Dump/DumpFactory.php:29-62 | the switch maps each listed subject back to its own dumper |
| `DumpFactory.KindOfClassInverse` | libraries/PhpPgAdmin/Database/Dump/DumpFactory.php:22-26 | a class name stands for a listed dumper if and only if it is that dumper's class name |
| `DumpFactory.ClassNameInjective` | libraries/PhpPgAdmin/Database/Dump/DumpFactory.php:22 | `ucfirst(...) . 'Dumper'` over lower-case names loses nothing: equal class names come from equal subjects |
| `DumpFactory.SubjectNamesDistinct` | libraries/PhpPgAdmin/Database/Dump/DumpFactory.php:29-62 | the fifteen cases name fifteen different subjects |
| `DumpFactory.SwitchKindExact` | libraries/PhpPgAdmin/Database/Dump/DumpFactory.php:29-62 | the switch recognises a string if and only if it is one of the fifteen subject names |
| `DumpFactory.ClassOfKindIsSubject` | libraries/PhpPgAdmin/Database/Dump/DumpFactory.php:22-26 | only a listed subject, in some letter case, builds a listed dumper's class name |
| `DumpFactory.CreateListed` | libraries/PhpPgAdmin/Database/Dump/DumpFactory.php:20-58 | a listed subject in any letter case yields its own dumper, whichever classes exist: the class route and the switch agree |
| `DumpFactory.CreateUnknown` | libraries/PhpPgAdmin/Database/Dump/DumpFactory.php:59-61 | a subject that is neither listed nor an existing class is rejected with the message |
| `DumpFactory.CreateTotal` | libraries/PhpPgAdmin/Database/Dump/DumpFactory.php:20-62 | with no other dumper classes, creation succeeds if and only if the lower-cased subject is listed |
| `DumpFactory.CreateCaseInsensitive` | libraries/PhpPgAdmin/Database/Dump/DumpFactory.php:22-29 | the outcome does not depend on the subject's letter case, except in the error message |
| `ObjectNodes.WithDependencyKeepsOrder` | libraries/PhpPgAdmin/Database/Dump/DependencyGraph/ObjectNode.php:71-76 | adding a dependency keeps the list duplicate-free, keeps the existing entries first and in order, and its members are the old ones plus the new one |
| `ObjectNodes.WithDependencyIdempotent` | libraries/PhpPgAdmin/Database/Dump/DependencyGraph/ObjectNode.php:71-76 | adding the same dependency twice is the same as adding it once |
| `ObjectNodes.ObjectNode.constructor` | libraries/PhpPgAdmin/Database/Dump/DependencyGraph/ObjectNode.php:36-64 | the node keeps the given oid, type, name, schema and metadata, with position -1 and no dependencies |
| `ObjectNodes.ObjectNode.AddDependency` | libraries/PhpPgAdmin/Database/Dump/DependencyGraph/ObjectNode.php:71-76 | the dependency list becomes `WithDependency` of the old one; the position is unchanged |
| `ObjectNodes.ObjectNode.QualifiedName` | libraries/PhpPgAdmin/Database/Dump/DependencyGraph/ObjectNode.php:83-86 | the schema, a dot, then the name |
| `ObjectNodes.ObjectNode.ToString` | libraries/PhpPgAdmin/Database/Dump/DependencyGraph/ObjectNode.php:93-102 | exactly `Type schema.name (OID: oid, Position: n)` with the type's first letter upper-cased and the position in decimal |
| `ObjectNodes.QualifiedNameSplits` | libraries/PhpPgAdmin/Database/Dump/DependencyGraph/ObjectNode.php:83-86 | when neither part holds a dot, splitting the qualified name on `.` gives back schema and name |
| `ObjectNodes.ToStringDeterminesPosition` | libraries/PhpPgAdmin/Database/Dump/DependencyGraph/ObjectNode.php:93-102 | two nodes with the same identity and the same string have the same position |
| `TableDump.ColumnType` | libraries/PhpPgAdmin/Database/Dump/TableDumper.php:136-153 | a serial integer column is ` SERIAL` and a serial bigint ` BIGSERIAL`, alone; any other column is its formatted type, then ` NOT NULL` when the column is not null, then ` DEFAULT <adsrc>` last when a default is stored |
| `TableDump.ColumnWrites` | libraries/PhpPgAdmin/Database/Dump/TableDumper.php:126-161 | no columns, no writes; otherwise the first write is the first column's quoted name, with `,` separators only between columns |
| `TableDump.ColumnWritesStep` | libraries/PhpPgAdmin/Database/Dump/TableDumper.php:128-161 | one more attribute appends exactly its own column entry |
| `TableDump.ColumnCommentsStep` | libraries/PhpPgAdmin/Database/Dump/TableDumper.php:155-158 | one more attribute appends exactly its COMMENT ON COLUMN (or nothing) to the collected comments |
| `TableDump.ColumnCommentsEmpty` | libraries/PhpPgAdmin/Database/Dump/TableDumper.php:155-158 | the collected column comments are empty if and only if no column has a comment |
| `TableDump.ConstraintBody` | libraries/PhpPgAdmin/Database/Dump/TableDumper.php:173-188 | the stored source when there is one; otherwise `PRIMARY KEY (...)` for p and `UNIQUE (...)` for u over the attribute names of the index keys joined by `,`; no body (the dump stops) exactly for any other kind without source |
| `TableDump.ConstraintEntry` | libraries/PhpPgAdmin/Database/Dump/TableDumper.php:164-191 | one constraint's writes are complete if and only if it can be written (NOT NULL skipped, source text or p/u key) |
| `TableDump.ConstraintsComplete` | libraries/PhpPgAdmin/Database/Dump/TableDumper.php:164-192 | the constraint loop runs to the end if and only if every constraint can be written |
| `TableDump.NotNullConstraintsWriteNothing` | libraries/PhpPgAdmin/Database/Dump/TableDumper.php:165-169 | NOT NULL constraints write nothing and stop nothing |
| `TableDump.StorageKeyword` | libraries/PhpPgAdmin/Database/Dump/TableDumper.php:219-236 | p is `PLAIN`, e `EXTERNAL`, m `MAIN`, x `EXTENDED`; no keyword for any other code |
| `TableDump.AlterEntry` | libraries/PhpPgAdmin/Database/Dump/TableDumper.php:207-242 | `ALTER TABLE ONLY ... SET STATISTICS <n>;` exactly when the target is set and not negative, preceded by a blank line for the first such column; `... SET STORAGE <StorageKeyword>;` when the storage differs from the type's; complete if and only if that storage code is known |
| `TableDump.AltersComplete` | libraries/PhpPgAdmin/Database/Dump/TableDumper.php:205-242 | the ALTER loop runs to the end if and only if every column is alterable |
| `TableDump.CommentWrites` | libraries/PhpPgAdmin/Database/Dump/TableDumper.php:245-249 | two writes when the table has a comment, none otherwise |
| `TableDump.ArrayDiff` | libraries/PhpPgAdmin/Database/Dump/TableDumper.php:374 | `array_diff`: the elements of the first list not in the second, in order, and no more of them |
| `TableDump.Grantee` | libraries/PhpPgAdmin/Database/Dump/TableDumper.php:414-429 | a grantee exists exactly for the kinds public, user and group |
| `TableDump.GranteeLine` | libraries/PhpPgAdmin/Database/Dump/TableDumper.php:383-398 | a grantee line exists exactly for the kinds public, user and group |
| `TableDump.PlainGrant` | libraries/PhpPgAdmin/Database/Dump/TableDumper.php:377-402 | the plain GRANT completes if and only if the grantee kind is known |
| `TableDump.EntryWrites` | libraries/PhpPgAdmin/Database/Dump/TableDumper.php:373-435 | an entry with no privileges or for the owner writes nothing; otherwise the plain GRANT, followed by the `GrantOption` writes when that GRANT completed and there are grantable privileges; complete if and only if the grantee kind is known |
| `TableDump.GrantOption` | libraries/PhpPgAdmin/Database/Dump/TableDumper.php:404-434 | SET SESSION AUTHORIZATION for another grantor, `GRANT <grantable joined by , > ON "<table>" TO `, the grantee (its name cleaned a second time), ` WITH GRANT OPTION;`, then RESET SESSION AUTHORIZATION for another grantor |
| `TableDump.EntryAuthorizationBalanced` | libraries/PhpPgAdmin/Database/Dump/TableDumper.php:377-434 | for a grantor other than the owner the writes start with SET SESSION AUTHORIZATION and end with RESET; for the owner they start with the GRANT itself |
| `TableDump.PrivilegesComplete` | libraries/PhpPgAdmin/Database/Dump/TableDumper.php:371-436 | the privilege loop runs to the end if and only if every entry is skipped or has a known grantee kind |
| `TableDump.PrivilegeBlock` | libraries/PhpPgAdmin/Database/Dump/TableDumper.php:263-269 | for a non-empty list, the `-- Privileges` heading, `REVOKE ALL ON TABLE <table> FROM PUBLIC;`, the entries' writes and the blank line; for no entries only the blank line |
| `TableDump.PrivilegeBlockGrants` | libraries/PhpPgAdmin/Database/Dump/TableDumper.php:263-269 | for a non-empty list, everything between the REVOKE and the closing blank line is exactly the entries' GRANT writes |
| `TableDump.CreateHead` | libraries/PhpPgAdmin/Database/Dump/TableDumper.php:121-123 | the definition opens with `-- Definition` |
| `TableDump.TailUnfold` | libraries/PhpPgAdmin/Database/Dump/TableDumper.php:244-271 | after completed ALTERs, the rest is the comments then the privilege part, and completes with it |
| `TableDump.TailComplete` | libraries/PhpPgAdmin/Database/Dump/TableDumper.php:204-271 | the ALTERs, comments and privileges run to their end exactly when every ALTER can be written and the privileges can be read |
| `TableDump.TailEnds` | libraries/PhpPgAdmin/Database/Dump/TableDumper.php:263-271 | a tail that runs to its end finishes with the privilege block's blank line |
| `TableDump.PrivilegePartEnds` | libraries/PhpPgAdmin/Database/Dump/TableDumper.php:256-271 | the privilege part completes exactly when the privileges can be read, and then ends with a blank line |
| `TableDump.AfterColumnsEnds` | libraries/PhpPgAdmin/Database/Dump/TableDumper.php:163-271 | after the columns, the dump completes exactly when the constraint loop and the tail do, and then ends with a blank line |
| `TableDump.StructureFoundEnds` | libraries/PhpPgAdmin/Database/Dump/TableDumper.php:112-271 | once the lookups succeed, the structure completes exactly when what follows the columns does, and keeps its closing blank line |
| `TableDump.AfterColumnsUnfold` | libraries/PhpPgAdmin/Database/Dump/TableDumper.php:194-271 | after completed constraints come the closing, the ALTERs and the rest, and completion follows the rest |
| `TableDump.Structure` | libraries/PhpPgAdmin/Database/Dump/TableDumper.php:99-272 | a failed table, attribute or constraint lookup writes nothing and fails; otherwise the writes open with `-- Definition` |
| `TableDump.StructureComplete` | libraries/PhpPgAdmin/Database/Dump/TableDumper.php:99-272 | the structure reports success if and only if the lookups succeed, every constraint and column can be written and the privileges can be read; a success ends with a blank line |
| `TableDump.AutovacuumOptionsAreFields` | libraries/PhpPgAdmin/Database/Dump/TableDumper.php:455-467 | every option is `key=value` of a named, non-null, non-empty field of the row (not nspname or relname), never more options than fields |
| `TableDump.AutovacuumWritesStep` | libraries/PhpPgAdmin/Database/Dump/TableDumper.php:454-475 | one more row appends exactly its own ALTER TABLE ... SET and blank line, or nothing |
| `TableDump.AutovacuumWritesBound` | libraries/PhpPgAdmin/Database/Dump/TableDumper.php:454-475 | at most two writes per row, and none when no row has an option |
| `TableDump.DataWrites` | libraries/PhpPgAdmin/Database/Dump/TableDumper.php:56-93 | the data heading first; a failed read gives exactly the heading and the `-- Error dumping data:` line |
| `TableDump.DataDefaultsToCopy` | libraries/PhpPgAdmin/Database/Dump/TableDumper.php:79-84 | with no `insert_format` the data is a COPY block: the COPY line naming the columns, one line per row, and `\.` last |
| `TableDump.IndexDefinition` | libraries/PhpPgAdmin/Database/Dump/TableDumper.php:290-305 | without `if_not_exists` or before 9.5 the definition is unchanged |
| `TableDump.TriggerDefinition` | libraries/PhpPgAdmin/Database/Dump/TableDumper.php:326-340 | without `if_not_exists` or before 14 the definition is unchanged |
| `TableDump.PlainIndexGainsIfNotExists` | libraries/PhpPgAdmin/Database/Dump/TableDumper.php:290-305 | from 9.5 on, a `CREATE INDEX` definition becomes `CREATE INDEX IF NOT EXISTS` with the rest kept, when the rest holds neither pattern |
| `TableDump.UniqueIndexGainsIfNotExists` | libraries/PhpPgAdmin/Database/Dump/TableDumper.php:290-305 | from 9.5 on, a `CREATE UNIQUE INDEX` definition becomes `CREATE UNIQUE INDEX IF NOT EXISTS` with the rest kept; the second replacement does not touch the first one's output |
| `TableDump.PlainTriggerGainsOrReplace` | libraries/PhpPgAdmin/Database/Dump/TableDumper.php:326-340 | from 14 on, a `CREATE TRIGGER` definition becomes `CREATE OR REPLACE TRIGGER` with the rest kept |
| `TableDump.RuleGainsOrReplace` | libraries/PhpPgAdmin/Database/Dump/TableDumper.php:360-365 | a `CREATE RULE` definition becomes `CREATE OR REPLACE RULE` with the rest kept |
| `TableDump.ConstraintTriggerGainsOrReplace` | libraries/PhpPgAdmin/Database/Dump/TableDumper.php:326-340 | from 14 on, a `CREATE CONSTRAINT TRIGGER` definition becomes `CREATE OR REPLACE CONSTRAINT TRIGGER` with the rest kept |
| `TableDump.Terminated` | libraries/PhpPgAdmin/Database/Dump/TableDumper.php:306 | one statement per definition |
| `TableDump.DefinitionWrites` | libraries/PhpPgAdmin/Database/Dump/TableDumper.php:281-308 | no definitions, no section at all; otherwise the section title first, then one write per definition |
| `TableDump.TableWrites` | libraries/PhpPgAdmin/Database/Dump/TableDumper.php:23-54 | nothing without a table name; otherwise the `-- Table:` heading first |
| `TableDump.Assemble` | libraries/PhpPgAdmin/Database/Dump/TableDumper.php:35-53 | with `data_only` and `structure_only` only the heading; `data_only` alone gives heading and data; `structure_only` alone gives heading, structure and the indexes, triggers and rules |
| `TableDump.TableWritesSections` | libraries/PhpPgAdmin/Database/Dump/TableDumper.php:23-54 | a dump with a table name is the heading followed by the sections |
| `TableDump.ConstraintsStayStopped` | libraries/PhpPgAdmin/Database/Dump/TableDumper.php:185-188 | once the constraint loop has returned, later constraints change nothing |
| `TableDump.AltersStayStopped` | libraries/PhpPgAdmin/Database/Dump/TableDumper.php:233-235 | once the ALTER loop has returned, later columns change nothing |
| `TableDump.PrivilegesStayStopped` | libraries/PhpPgAdmin/Database/Dump/TableDumper.php:395-397 | once the privilege loop has returned, later entries change nothing |
| `TableDump.TableDumper.Dump` | libraries/PhpPgAdmin/Database/Dump/TableDumper.php:23-54 | appends exactly `TableWrites` and leaves the connection's schema as it was |
| `TableDump.TableDumper.DumpSections` | libraries/PhpPgAdmin/Database/Dump/TableDumper.php:37-53 | appends exactly the sections the options keep |
| `TableDump.TableDumper.DumpObjects` | libraries/PhpPgAdmin/Database/Dump/TableDumper.php:50-52 | appends the index, trigger and rule sections |
| `TableDump.TableDumper.DumpDefinition` | libraries/PhpPgAdmin/Database/Dump/TableDumper.php:40-42 | appends the structure and the autovacuum settings, and restores the schema |
| `TableDump.TableDumper.DumpTableStructure` | libraries/PhpPgAdmin/Database/Dump/TableDumper.php:99-272 | returns true exactly when `Structure` completes and appends exactly its writes, including the partial writes of an early return |
| `TableDump.TableDumper.WriteStructure` | libraries/PhpPgAdmin/Database/Dump/TableDumper.php:121-271 | appends exactly the writes after the lookups and reports their completion |
| `TableDump.TableDumper.WriteColumns` | libraries/PhpPgAdmin/Database/Dump/TableDumper.php:126-161 | the column loop appends exactly `ColumnWrites` and returns the collected column comments |
| `TableDump.TableDumper.WriteColumn` | libraries/PhpPgAdmin/Database/Dump/TableDumper.php:129-153 | appends one column's separator, name and type |
| `TableDump.TableDumper.WriteColumnType` | libraries/PhpPgAdmin/Database/Dump/TableDumper.php:136-153 | appends exactly `ColumnType` |
| `TableDump.TableDumper.WriteAfterColumns` | libraries/PhpPgAdmin/Database/Dump/TableDumper.php:163-271 | appends constraints, closing, ALTERs, comments and privileges up to the first early return, and reports completion |
| `TableDump.TableDumper.WriteClosing` | libraries/PhpPgAdmin/Database/Dump/TableDumper.php:194-202 | appends the closing parenthesis, WITH or WITHOUT OIDS, and `;` |
| `TableDump.TableDumper.WriteTail` | libraries/PhpPgAdmin/Database/Dump/TableDumper.php:204-271 | appends the ALTERs, comments and privileges and reports completion |
| `TableDump.TableDumper.WritePrivilegePart` | libraries/PhpPgAdmin/Database/Dump/TableDumper.php:256-271 | fails without writing when privileges cannot be read; otherwise appends the privilege block |
| `TableDump.TableDumper.WriteComments` | libraries/PhpPgAdmin/Database/Dump/TableDumper.php:244-254 | appends the table comment, then the column comments when not empty |
| `TableDump.TableDumper.WriteConstraints` | libraries/PhpPgAdmin/Database/Dump/TableDumper.php:163-192 | the constraint loop appends exactly `Constraints` and returns false exactly where the source returns false |
| `TableDump.TableDumper.WriteConstraint` | libraries/PhpPgAdmin/Database/Dump/TableDumper.php:164-188 | one pass of the constraint loop appends exactly `ConstraintEntry` and returns false exactly for a kind the source cannot write |
| `TableDump.TableDumper.WriteAlters` | libraries/PhpPgAdmin/Database/Dump/TableDumper.php:204-242 | the ALTER loop appends exactly `Alters` and reports completion |
| `TableDump.TableDumper.WriteAlter` | libraries/PhpPgAdmin/Database/Dump/TableDumper.php:208-239 | appends one column's SET STATISTICS and SET STORAGE, or stops at an unknown storage code |
| `TableDump.TableDumper.WritePrivilegeSection` | libraries/PhpPgAdmin/Database/Dump/TableDumper.php:263-269 | appends exactly `PrivilegeBlock` |
| `TableDump.TableDumper.WritePrivilegesFromArray` | libraries/PhpPgAdmin/Database/Dump/TableDumper.php:371-436 | the entry loop appends exactly `Privileges`, stopping at the first unknown grantee kind |
| `TableDump.TableDumper.WritePrivilegeEntry` | libraries/PhpPgAdmin/Database/Dump/TableDumper.php:373-435 | appends exactly `EntryWrites` for one entry and reports completion |
| `TableDump.TableDumper.WritePlainGrant` | libraries/PhpPgAdmin/Database/Dump/TableDumper.php:377-402 | appends exactly `PlainGrant` and, for a user or group, returns the field-cleaned name the second GRANT reuses |
| `TableDump.TableDumper.WriteSetAuthorization` | libraries/PhpPgAdmin/Database/Dump/TableDumper.php:377-381 | appends SET SESSION AUTHORIZATION only for a grantor other than the owner |
| `TableDump.TableDumper.WriteGrantOption` | libraries/PhpPgAdmin/Database/Dump/TableDumper.php:407-434 | appends exactly `GrantOption`: the `... WITH GRANT OPTION;` grant of the grantable privileges, wrapped in SET and RESET SESSION AUTHORIZATION for another grantor |
| `TableDump.TableDumper.WriteGrantOptionLine` | libraries/PhpPgAdmin/Database/Dump/TableDumper.php:413-429 | appends exactly the `GRANT ... TO <grantee> WITH GRANT OPTION;` writes of `GrantOptionLine` for a known grantee kind |
| `TableDump.TableDumper.DumpAutovacuumSettings` | libraries/PhpPgAdmin/Database/Dump/TableDumper.php:439-476 | appends exactly `AutovacuumWrites` for the rows read under the given schema, and restores the connection's schema |
| `TableDump.TableDumper.WriteAutovacuumRow` | libraries/PhpPgAdmin/Database/Dump/TableDumper.php:455-472 | appends one row's ALTER TABLE ... SET and blank line, or nothing when it has no options |
| `TableDump.TableDumper.WriteAutovacuumRows` | libraries/PhpPgAdmin/Database/Dump/TableDumper.php:454-475 | the row loop appends exactly `AutovacuumWrites` |
| `TableDump.TableDumper.CollectOptions` | libraries/PhpPgAdmin/Database/Dump/TableDumper.php:455-467 | the field loop collects exactly `AutovacuumOptions` |
| `TableDump.StructureFound` | libraries/PhpPgAdmin/Database/Dump/TableDumper.php:121-125 | the definition part of a table that was found opens with the `-- Definition` header |
| `TableDump.TableDumper.DumpData` | libraries/PhpPgAdmin/Database/Dump/TableDumper.php:56-93 | writes the data header, then either the formatter's output for the table's rows (metadata defaults: COPY format, batches of 1000) or the `-- Error dumping data:` line when reading fails |
| `TableDump.TableDumper.ProcessRows` | libraries/PhpPgAdmin/Database/Dump/TableDumper.php:77-84 | a fresh formatter given the header, every row and the footer writes exactly the streamed export text |
| `TableDump.TableDumper.StreamRows` | libraries/PhpPgAdmin/Database/Dump/TableDumper.php:84 | the row loop writes each row through the formatter and leaves it in the state the rows lead to |
| `TableDump.TableDumper.WriteIndexes` | libraries/PhpPgAdmin/Database/Dump/TableDumper.php:277-309 | writes nothing when the table has no index, otherwise the `-- Indexes` header and one definition per index |
| `TableDump.TableDumper.WriteIndexList` | libraries/PhpPgAdmin/Database/Dump/TableDumper.php:289-308 | the loop writes each definition, rewritten for `if_not_exists` from 9.5, followed by `;` and a newline |
| `TableDump.TableDumper.WriteTriggers` | libraries/PhpPgAdmin/Database/Dump/TableDumper.php:314-344 | writes nothing when the table has no trigger, otherwise the `-- Triggers` header and one definition per trigger |
| `TableDump.TableDumper.WriteTriggerList` | libraries/PhpPgAdmin/Database/Dump/TableDumper.php:325-343 | the loop writes each definition, rewritten for `if_not_exists` from 14, followed by `;` and a newline |
| `TableDump.TableDumper.WriteRules` | libraries/PhpPgAdmin/Database/Dump/TableDumper.php:349-366 | writes nothing when the table has no rule, otherwise the `-- Rules` header and one definition per rule |
| `TableDump.TableDumper.WriteRuleList` | libraries/PhpPgAdmin/Database/Dump/TableDumper.php:360-365 | appends one `<definition>;` write per rule, in order, where the definition has every `CREATE RULE` replaced by `CREATE OR REPLACE RULE` (so a leading `CREATE RULE` becomes `CREATE OR REPLACE RULE`, `RuleGainsOrReplace`) |
| `CopyText.DecodeEscape` | libraries/PhpPgAdmin/Database/Export/SqlFormatter.php:336-339 | the COPY text decoding of a server reads back exactly the value that `addcslashes` with NUL, backslash, newline, carriage return and tab escaped |
| `CopyText.EscapeHasNoSeparators` | libraries/PhpPgAdmin/Database/Export/SqlFormatter.php:336-339 | an escaped value holds no raw tab and no raw newline, so it cannot split a data line |
| `CopyText.EscapeIsNotNullMarker` | libraries/PhpPgAdmin/Database/Export/SqlFormatter.php:328-340 | an escaped value is never the NULL marker `\N` |
| `CopyText.DecodeFieldEscape` | libraries/PhpPgAdmin/Database/Export/SqlFormatter.php:328-340 | a non-NULL field written by the formatter is read back as that same non-NULL value |
| `CopyText.DecodeEscapeChar` | libraries/PhpPgAdmin/Database/Export/SqlFormatter.php:338 | decoding undoes the escape of each single character |
| `CopyText.OctalRun` | libraries/PhpPgAdmin/Database/Export/SqlFormatter.php:331-339 | an octal escape is at most three digits long and never runs past the text |
| `SqlFormat.EscapeModeIgnoresCase` | libraries/PhpPgAdmin/Database/Export/SqlFormatter.php:270-311 | the escape mode depends only on the lower-cased type name, and only `bytea` in any letter case selects bytea escaping |
| `SqlFormat.CopyLineRoundTrip` | libraries/PhpPgAdmin/Database/Export/SqlFormatter.php:319-345 | a COPY data line written for a row without bytea columns is split and decoded by the server into exactly that row: same field count, NULL where it was NULL, the original text elsewhere |
| `SqlFormat.HexEncode` | libraries/PhpPgAdmin/Database/Export/SqlFormatter.php:371 | `bin2hex` gives two hex digits per byte |
| `SqlFormat.HexDigitRoundTrip` | libraries/PhpPgAdmin/Database/Export/SqlFormatter.php:371 | each hex digit written reads back as its value |
| `SqlFormat.HexByteRoundTrip` | libraries/PhpPgAdmin/Database/Export/SqlFormatter.php:371 | the two digits of a byte read back as that byte |
| `SqlFormat.HexRoundTrip` | libraries/PhpPgAdmin/Database/Export/SqlFormatter.php:369-371 | the `'\x...'` bytea literal loses nothing: every byte is recovered from its hex text |
| `SqlFormat.JoinPrefixStep` | libraries/PhpPgAdmin/Database/Export/SqlFormatter.php:355-378 | building the VALUES tuple value by value with a comma before every value but the first is joining the values with commas |
| `SqlFormat.StatementRestFits` | libraries/PhpPgAdmin/Database/Export/SqlFormatter.php:229-261 | when the remaining tuples fit in the open statement, they are joined by `,` and newline and the statement is closed with `;` |
| `SqlFormat.StatementRestOverflows` | libraries/PhpPgAdmin/Database/Export/SqlFormatter.php:229-261 | when they do not fit, the open statement is filled, closed, and the remaining tuples start new statements of `batch_size` tuples |
| `SqlFormat.BatchedOpen` | libraries/PhpPgAdmin/Database/Export/SqlFormatter.php:222-243 | the batched reference text opens with the INSERT prefix and the first tuple, then continues the open statement |
| `SqlFormat.MultiWritesStep` | libraries/PhpPgAdmin/Database/Export/SqlFormatter.php:234-243 | one more row in an open statement adds its separator and tuple as the reference text does |
| `SqlFormat.MultiWritesRest` | libraries/PhpPgAdmin/Database/Export/SqlFormatter.php:229-261 | the writes made from a statement holding `r` tuples concatenate to the reference rest of that statement |
| `SqlFormat.OpenStatementStep` | libraries/PhpPgAdmin/Database/Export/SqlFormatter.php:239-243 | a row joining a statement that still has room writes `,` and newline, then its tuple |
| `SqlFormat.FullStatementStep` | libraries/PhpPgAdmin/Database/Export/SqlFormatter.php:236-238 | a row after a full statement closes it and opens a new one with the prefix |
| `SqlFormat.FullStatementCloses` | libraries/PhpPgAdmin/Database/Export/SqlFormatter.php:236-238 | closing a full statement and opening the next one is where one batch of the reference text ends and the next begins |
| `SqlFormat.MultiWritesAreBatched` | libraries/PhpPgAdmin/Database/Export/SqlFormatter.php:229-261 | the writes of multi-row output concatenate to the batched reference text: consecutive batches of `batch_size` tuples, one INSERT each, separated by a blank line |
| `SqlFormat.RowsStepSnoc` | libraries/PhpPgAdmin/Database/Export/SqlFormatter.php:229-250 | streaming one more row continues from the state the earlier rows left |
| `SqlFormat.RowStepKeepsBatchBound` | libraries/PhpPgAdmin/Database/Export/SqlFormatter.php:234-243 | in multi mode the count of tuples in the open statement stays between 1 and `batch_size` after a row |
| `SqlFormat.StreamedMultiTail` | libraries/PhpPgAdmin/Database/Export/SqlFormatter.php:229-261 | from an open statement, the streamed rows and the footer concatenate to the reference rest of that statement |
| `SqlFormat.StreamedMultiHeader` | libraries/PhpPgAdmin/Database/Export/SqlFormatter.php:192-227 | multi mode resets the batch count, sets the batch size (default 1000) and writes the INSERT prefix |
| `SqlFormat.StreamedMultiOpen` | libraries/PhpPgAdmin/Database/Export/SqlFormatter.php:229-243 | the first streamed row after the header starts the open statement with its tuple alone |
| `SqlFormat.StreamedMultiIsBatched` | libraries/PhpPgAdmin/Database/Export/SqlFormatter.php:192-261 | header, rows and footer in multi mode with at least one row concatenate to the batched reference text |
| `SqlFormat.StreamedMultiWithoutRows` | libraries/PhpPgAdmin/Database/Export/SqlFormatter.php:222-227 | multi mode with no rows leaves the INSERT prefix open, without a tuple and without a semicolon |
| `SqlFormat.StreamedCopyRows` | libraries/PhpPgAdmin/Database/Export/SqlFormatter.php:229-233 | in COPY mode each row is one data line and the state does not change |
| `SqlFormat.StreamedCopyOutput` | libraries/PhpPgAdmin/Database/Export/SqlFormatter.php:192-261 | COPY output (the default, and for any unknown format) is the COPY command, one data line per row and `\.`; each line of a row without bytea columns reads back as that row |
| `SqlFormat.StreamedSingleRows` | libraries/PhpPgAdmin/Database/Export/SqlFormatter.php:244-249 | single mode writes one complete INSERT statement per row and keeps the state |
| `SqlFormat.StreamedSingleOutput` | libraries/PhpPgAdmin/Database/Export/SqlFormatter.php:192-261 | single-mode output is one statement per row and no footer |
| `SqlFormat.OneShotMultiIsBatched` | libraries/PhpPgAdmin/Database/Export/SqlFormatter.php:37-174 | the one-shot `format()` in its default multi mode writes the batched reference text (batch size default 100); an empty record set writes nothing |
| `SqlFormat.SqlFormatter.constructor` | libraries/PhpPgAdmin/Database/Export/SqlFormatter.php:27-30 | a new formatter starts with no format chosen and an empty batch |
| `SqlFormat.SqlFormatter.DetermineEscapeModes` | libraries/PhpPgAdmin/Database/Export/SqlFormatter.php:270-311 | the loop gives one mode per field, each the mode of that field's lower-cased type |
| `SqlFormat.SqlFormatter.WriteHeader` | libraries/PhpPgAdmin/Database/Export/SqlFormatter.php:192-227 | the fields change as `HeaderStep` says and the writes are its writes |
| `SqlFormat.SqlFormatter.WriteRow` | libraries/PhpPgAdmin/Database/Export/SqlFormatter.php:229-250 | the fields change as `RowStep` says and the writes are its writes |
| `SqlFormat.SqlFormatter.WriteFooter` | libraries/PhpPgAdmin/Database/Export/SqlFormatter.php:252-262 | appends `\.` in COPY mode, `;` in multi mode with an open statement, nothing otherwise |
| `SqlFormat.SqlFormatter.WriteCopyRow` | libraries/PhpPgAdmin/Database/Export/SqlFormatter.php:319-345 | appends one COPY data line |
| `SqlFormat.SqlFormatter.CopyLineOf` | libraries/PhpPgAdmin/Database/Export/SqlFormatter.php:321-344 | the field loop builds exactly the tab-joined data line |
| `SqlFormat.SqlFormatter.WriteInsertValues` | libraries/PhpPgAdmin/Database/Export/SqlFormatter.php:353-380 | appends one VALUES tuple |
| `SqlFormat.SqlFormatter.InsertTupleOf` | libraries/PhpPgAdmin/Database/Export/SqlFormatter.php:355-378 | the value loop builds exactly the parenthesised, comma-separated tuple |
| `SqlFormat.SqlFormatter.Format` | libraries/PhpPgAdmin/Database/Export/SqlFormatter.php:37-174 | appends exactly what `format()` writes for the record set: nothing for an empty one, otherwise the COPY block or the INSERT statements |
| `SqlFormat.SqlFormatter.WriteCopyLines` | libraries/PhpPgAdmin/Database/Export/SqlFormatter.php:99-123 | the row loop appends one data line per row |
| `SqlFormat.SqlFormatter.LiteralTupleOf` | libraries/PhpPgAdmin/Database/Export/SqlFormatter.php:134-149 | the value loop builds the tuple with `escapeLiteral`, the bytea escape or the raw value |
| `SqlFormat.SqlFormatter.WriteInsertStatements` | libraries/PhpPgAdmin/Database/Export/SqlFormatter.php:126-172 | appends the batched statements in multi mode, one statement per row otherwise |
| `SqlFormat.SqlFormatter.WriteMultiStatements` | libraries/PhpPgAdmin/Database/Export/SqlFormatter.php:132-172 | the multi-mode loop appends exactly `MultiWrites` from an unopened statement |
| `SqlFormat.SqlFormatter.WriteSingleStatements` | libraries/PhpPgAdmin/Database/Export/SqlFormatter.php:132-167 | the single-mode loop appends one `INSERT ... VALUES tuple;` per row |
| `StatementAdjust.Enabled` | libraries/PhpPgAdmin/Database/Import/StatementExecutor.php:174-207 | the list of kinds a server version strips is no longer than the list of all kinds |
| `StatementAdjust.EnabledExact` | libraries/PhpPgAdmin/Database/Import/StatementExecutor.php:176-207 | a kind is in the stripped list exactly when it is listed and the server is older than the version that accepts the clause |
| `StatementAdjust.IfNotExistsKindsExact` | libraries/PhpPgAdmin/Database/Import/StatementExecutor.php:176-199 | `IF NOT EXISTS` is stripped for a CREATE kind exactly when the server predates it (EXTENSION 9.1, SCHEMA 9.3, MATERIALIZED VIEW 9.4, SEQUENCE, TABLE and [UNIQUE] INDEX 9.5, OPERATOR 9.6) |
| `StatementAdjust.OrReplaceKindsExact` | libraries/PhpPgAdmin/Database/Import/StatementExecutor.php:200-207 | `OR REPLACE` is stripped exactly when the server predates it (AGGREGATE 12, [CONSTRAINT] TRIGGER 14) |
| `StatementAdjust.AlternationMember` | libraries/PhpPgAdmin/Database/Import/StatementExecutor.php:210 | every alternative of the joined pattern belongs to one of the enabled kinds |
| `StatementAdjust.AlternationHas` | libraries/PhpPgAdmin/Database/Import/StatementExecutor.php:210 | every alternative of every enabled kind is in the joined pattern |
| `StatementAdjust.ReplaceCreateMatch` | libraries/PhpPgAdmin/Database/Import/StatementExecutor.php:209-216 | when the pattern matches at the start, the statement becomes `CREATE `, the matched kind words, and the text after the clause |
| `StatementAdjust.IfNotExistsByVersion` | libraries/PhpPgAdmin/Database/Import/StatementExecutor.php:209-212 | `CREATE <kind> IF NOT EXISTS ...` loses the clause on a server older than the kind's version and is kept whole otherwise |
| `StatementAdjust.StripsIfNotExists` | libraries/PhpPgAdmin/Database/Import/StatementExecutor.php:209-212 | on an older server the clause is removed and the kind words and the rest are kept |
| `StatementAdjust.KeepsIfNotExists` | libraries/PhpPgAdmin/Database/Import/StatementExecutor.php:209-212 | on a server that accepts the clause the statement is unchanged |
| `StatementAdjust.OrReplaceByVersion` | libraries/PhpPgAdmin/Database/Import/StatementExecutor.php:213-216 | `CREATE OR REPLACE <kind> ...` loses `OR REPLACE` on a server older than the kind's version and is kept whole otherwise |
| `StatementAdjust.StripsOrReplace` | libraries/PhpPgAdmin/Database/Import/StatementExecutor.php:213-216 | on an older server `OR REPLACE` is removed and the kind words and the rest are kept |
| `StatementAdjust.KeepsOrReplace` | libraries/PhpPgAdmin/Database/Import/StatementExecutor.php:213-216 | on a server that accepts it the statement is unchanged |
| `StatementAdjust.NotCreateKeepsClauses` | libraries/PhpPgAdmin/Database/Import/StatementExecutor.php:209-216 | a statement that does not open with CREATE passes both clause rewrites unchanged |
| `StatementAdjust.CurrentServerKeepsClauses` | libraries/PhpPgAdmin/Database/Import/StatementExecutor.php:174-227 | from version 14 nothing is stripped and the only rewrite left is `EXECUTE PROCEDURE` to `EXECUTE FUNCTION` |
| `StatementAdjust.ReplaceAllCIAbsent` | libraries/PhpPgAdmin/Database/Import/StatementExecutor.php:221-224 | `str_ireplace` leaves a text without the searched words unchanged |
| `StatementAdjust.NothingToAdjust` | libraries/PhpPgAdmin/Database/Import/StatementExecutor.php:174-227 | from version 14 a statement without `EXECUTE PROCEDURE` (in any letter case) passes through unchanged |
| `StatementAdjust.NoneLeft` | libraries/PhpPgAdmin/Database/Import/StatementExecutor.php:221-224 | when the replacement cannot start the searched words and no overlap can recreate them, no occurrence is left after `str_ireplace` |
| `StatementAdjust.ProcedureSpellingGone` | libraries/PhpPgAdmin/Database/Import/StatementExecutor.php:218-225 | from version 11 the adjusted statement never contains `EXECUTE PROCEDURE`, in any letter case |
| `StatementAdjust.FunctionSpellingCanSurvive` | libraries/PhpPgAdmin/Database/Import/StatementExecutor.php:219-221 | below version 11 an `EXECUTE FUNCTION` can survive, because `str_ireplace` does not rescan what it has written: `EXECUTE FUNCTIONXECUTE FUNCTION` keeps one at offset 16 |
| `StatementAdjust.CallRespelled` | libraries/PhpPgAdmin/Database/Import/StatementExecutor.php:221-224 | a single call spelling, preceded by text that cannot start one, is replaced in place and nothing else changes |
| `StatementAdjust.TriggerCallRespelled` | libraries/PhpPgAdmin/Database/Import/StatementExecutor.php:204-225 | in a CREATE TRIGGER statement from 9.6 on, `EXECUTE FUNCTION` becomes `EXECUTE PROCEDURE` below 11 and `EXECUTE PROCEDURE` becomes `EXECUTE FUNCTION` from 11, with the rest of the statement kept |
| `StatementAdjust.TriggerCallExample` | libraries/PhpPgAdmin/Database/Import/StatementExecutor.php:169-228 | an `AFTER INSERT ... FOR EACH ROW` trigger is rewritten to `EXECUTE PROCEDURE` for 10 and to `EXECUTE FUNCTION` for 11 |
| `StatementAdjust.CreateTriggerKeepsClauses` | libraries/PhpPgAdmin/Database/Import/StatementExecutor.php:209-216 | from 9.6 a plain `CREATE TRIGGER` statement passes both clause rewrites unchanged |
| `StatementAdjust.NoIfNotExistsFrom96` | libraries/PhpPgAdmin/Database/Import/StatementExecutor.php:176-199 | from 9.6 no `IF NOT EXISTS` clause is stripped |
| `StatementAdjust.Spelling` | libraries/PhpPgAdmin/Database/Import/StatementExecutor.php:178-198 | each CREATE kind's canonical words start with a letter and end with a word character |
| `StatementAdjust.SpelledAlternativeRun` | libraries/PhpPgAdmin/Database/Import/StatementExecutor.php:210 | the canonical words of a kind match its pattern alternative |
| `StatementAdjust.OtherAlternativeFails` | libraries/PhpPgAdmin/Database/Import/StatementExecutor.php:210 | no alternative of another kind matches where a kind's words are written |
| `StatementAdjust.AlternationPicksSpelled` | libraries/PhpPgAdmin/Database/Import/StatementExecutor.php:210 | the joined pattern matches a written kind with its own alternative and the clause after it |
| `StatementAdjust.DisabledKindFails` | libraries/PhpPgAdmin/Database/Import/StatementExecutor.php:210 | a kind the server accepts is matched by no alternative of the joined pattern |
| `StatementAdjust.OnlySpelledReplaceRuns` | libraries/PhpPgAdmin/Database/Import/StatementExecutor.php:214 | only the written kind's own alternative matches in the OR REPLACE pattern |
| `StatementAdjust.DisabledReplaceFails` | libraries/PhpPgAdmin/Database/Import/StatementExecutor.php:214 | a kind the server accepts with OR REPLACE is matched by no alternative |
| `StatementExec.Preview` | libraries/PhpPgAdmin/Database/Import/StatementExecutor.php:236 | a verbose preview is the statement itself up to 200 characters, otherwise its first 200 characters followed by `...` |
| `StatementExec.RunStatementOutcome` | libraries/PhpPgAdmin/Database/Import/StatementExecutor.php:230-256 | running a statement sends exactly its adjusted text and touches no queue; it returns true exactly when the server answers 0, returns false on a non-zero code unless the error mode is `abort` (the default), raises the statement's failure with that code under `abort`, and passes on what the driver throws |
| `StatementExec.BlankIgnored` | libraries/PhpPgAdmin/Database/Import/StatementExecutor.php:56-59 | a statement that trims to nothing returns false and changes nothing |
| `StatementExec.Dispatched` | libraries/PhpPgAdmin/Database/Import/StatementExecutor.php:54-77 | a non-blank statement is handled by its category's handler, given the trimmed text |
| `StatementExec.SelfAffectingDeferred` | libraries/PhpPgAdmin/Database/Import/StatementExecutor.php:79-94 | a self-affecting statement is appended to the deferred list, not sent and answered false when `defer_self` is on (the default) or the user is neither superuser nor at server scope; otherwise it runs |
| `StatementExec.DataDisabledSkips` | libraries/PhpPgAdmin/Database/Import/StatementExecutor.php:98-101 | with data import disabled, a data statement is only logged as skipped with reason `data_disabled` |
| `StatementExec.QueuedNeverSent` | libraries/PhpPgAdmin/Database/Import/StatementExecutor.php:120-142 | an ownership or rights statement is never sent and returns false; it is appended to its own queue exactly when that option is on, and the other queue is untouched |
| `StatementExec.DropGate` | libraries/PhpPgAdmin/Database/Import/StatementExecutor.php:110-118 | a DROP runs when drops are allowed, and is otherwise only logged as blocked with reason `drops_not_allowed` |
| `StatementExec.PolicyGates` | libraries/PhpPgAdmin/Database/Import/StatementExecutor.php:144-167 | any other statement is sent exactly when no schema, role or tablespace gate blocks it and its category is allowed; when held back, only the log changes |
| `StatementExec.RunStatementExtends` | libraries/PhpPgAdmin/Database/Import/StatementExecutor.php:230-256 | running a statement only appends to the lists it touches |
| `StatementExec.DataTrueMeansExecuted` | libraries/PhpPgAdmin/Database/Import/StatementExecutor.php:96-108 | a data statement answered true was the last statement sent, adjusted, and the server answered 0 |
| `StatementExec.TrueMeansExecuted` | libraries/PhpPgAdmin/Database/Import/StatementExecutor.php:48-77 | `execute` returns true only for a non-blank statement that is not queued, whose adjusted text was the last one sent and was answered 0 |
| `StatementExec.DispatchTrue` | libraries/PhpPgAdmin/Database/Import/StatementExecutor.php:63-76 | the same for each handler of the dispatch |
| `StatementExec.TruncateOnceRecords` | libraries/PhpPgAdmin/Database/Import/StatementExecutor.php:285-311 | a table already truncated is left alone; otherwise one TRUNCATE is sent, and the table is recorded, once, only when the server answered 0 |
| `StatementExec.DataFacts` | libraries/PhpPgAdmin/Database/Import/StatementExecutor.php:96-108 | a data statement sends nothing, the statement, a TRUNCATE of its target table, or that TRUNCATE and then the statement; the truncated list stays free of repeats |
| `StatementExec.LoggedOnly` | libraries/PhpPgAdmin/Database/Import/StatementExecutor.php:99-162 | a call that only logs returns false and sends nothing |
| `StatementExec.SelfAffectingRunsOrHolds` | libraries/PhpPgAdmin/Database/Import/StatementExecutor.php:79-94 | the self-affecting handler either runs the statement or holds it back without sending |
| `StatementExec.DropRunsOrHolds` | libraries/PhpPgAdmin/Database/Import/StatementExecutor.php:110-118 | the DROP handler either runs the statement or holds it back |
| `StatementExec.OwnershipHolds` | libraries/PhpPgAdmin/Database/Import/StatementExecutor.php:120-130 | the ownership handler never sends |
| `StatementExec.RightsHold` | libraries/PhpPgAdmin/Database/Import/StatementExecutor.php:132-142 | the rights handler never sends |
| `StatementExec.PoliciesRunOrHold` | libraries/PhpPgAdmin/Database/Import/StatementExecutor.php:144-167 | the policy handler either runs the statement or holds it back |
| `StatementExec.RunsOrHoldsBack` | libraries/PhpPgAdmin/Database/Import/StatementExecutor.php:63-76 | every handler but the data handler either runs the statement or holds it back; ownership and rights always hold it back |
| `StatementExec.TruncatedStaysDistinct` | libraries/PhpPgAdmin/Database/Import/StatementExecutor.php:286-288 | no table is recorded as truncated twice |
| `StatementExec.AlreadyTruncatedNotAgain` | libraries/PhpPgAdmin/Database/Import/StatementExecutor.php:285-288 | a data statement whose table is already truncated runs without another TRUNCATE |
| `StatementExec.ExecuteExtends` | libraries/PhpPgAdmin/Database/Import/StatementExecutor.php:54-77 | a call only appends to the deferred list, the queues, the truncated list, the statements sent and the log |
| `StatementExec.AtMostTwoSent` | libraries/PhpPgAdmin/Database/Import/StatementExecutor.php:54-312 | one call sends at most two statements, and a second one only after a TRUNCATE of the statement's own target table |
| `StatementExec.StatementExecutor.constructor` | libraries/PhpPgAdmin/Database/Import/StatementExecutor.php:28-46 | the executor keeps its collaborators and options; without a category filter every category is allowed |
| `StatementExec.StatementExecutor.Execute` | libraries/PhpPgAdmin/Database/Import/StatementExecutor.php:54-77 | the new import state, statements sent and log, and the outcome, are those of the specification `ExecuteSpec` |
| `StatementExec.StatementExecutor.HandleSelfAffectingStep` | libraries/PhpPgAdmin/Database/Import/StatementExecutor.php:79-94 | the effect and outcome of `handleSelfAffecting` are the specification's |
| `StatementExec.StatementExecutor.HandleDataStep` | libraries/PhpPgAdmin/Database/Import/StatementExecutor.php:96-108 | the same for `handleData` |
| `StatementExec.StatementExecutor.HandleDropStep` | libraries/PhpPgAdmin/Database/Import/StatementExecutor.php:110-118 | the same for `handleDrop` |
| `StatementExec.StatementExecutor.HandleOwnershipStep` | libraries/PhpPgAdmin/Database/Import/StatementExecutor.php:120-130 | the same for `handleOwnershipChange` |
| `StatementExec.StatementExecutor.HandleRightsStep` | libraries/PhpPgAdmin/Database/Import/StatementExecutor.php:132-142 | the same for `handleRights` |
| `StatementExec.StatementExecutor.HandlePoliciesStep` | libraries/PhpPgAdmin/Database/Import/StatementExecutor.php:144-167 | the same for `handlePoliciesAndExecute` |
| `StatementExec.StatementExecutor.ExecuteStatement` | libraries/PhpPgAdmin/Database/Import/StatementExecutor.php:230-256 | the same for `executeStatement` |
| `StatementExec.StatementExecutor.ReportReply` | libraries/PhpPgAdmin/Database/Import/StatementExecutor.php:240-255 | the log entry and outcome for the server's reply are the specification's |
| `StatementExec.StatementExecutor.TruncateTargetTable` | libraries/PhpPgAdmin/Database/Import/StatementExecutor.php:258-312 | the same for `truncateTargetTable` |
| `StatementExec.StatementExecutor.TruncateTable` | libraries/PhpPgAdmin/Database/Import/StatementExecutor.php:285-311 | the TRUNCATE of one resolved table, as the specification says |
| `TruncateTarget.NameEnd` | libraries/PhpPgAdmin/Database/Import/StatementExecutor.php:261 | the `[^\s(]+` run ends at the first whitespace, `(` or end of text |
| `TruncateTarget.CaptureAfter` | libraries/PhpPgAdmin/Database/Import/StatementExecutor.php:261-263 | a captured table name is non-empty and holds neither whitespace nor `(` |
| `TruncateTarget.RawTable` | libraries/PhpPgAdmin/Database/Import/StatementExecutor.php:261-263 | the raw name taken from `INSERT INTO` or else `COPY` is non-empty and holds neither whitespace nor `(` |
| `TruncateTarget.StripQuotes` | libraries/PhpPgAdmin/Database/Import/StatementExecutor.php:270 | `preg_replace('/^"(.*)"$/', ...)` either keeps the text or removes one quote at each end of a text that has both |
| `TruncateTarget.CleanParts` | libraries/PhpPgAdmin/Database/Import/StatementExecutor.php:272-275 | every part is trimmed and loses its surrounding quotes, and the number of parts is kept |
| `TruncateTarget.FromParts` | libraries/PhpPgAdmin/Database/Import/StatementExecutor.php:277-283 | the table is the last part; the schema is the part before it, or for a one-part name the scope's schema under schema scope and none otherwise |
| `TruncateTarget.FullName` | libraries/PhpPgAdmin/Database/Import/StatementExecutor.php:285 | the recorded name is `schema.table` when the schema is truthy, else the table |
| `TruncateTarget.QuoteIdent` | libraries/PhpPgAdmin/Database/Import/StatementExecutor.php:290-292 | a quoted identifier starts and ends with a double quote |
| `TruncateTarget.UnquoteQuoted` | libraries/PhpPgAdmin/Database/Import/StatementExecutor.php:291 | doubling the inner quotes is undone by reading each doubled quote as one |
| `TruncateTarget.QuoteIdentReadBack` | libraries/PhpPgAdmin/Database/Import/StatementExecutor.php:290-298 | the server reads a quoted identifier back as exactly the name that was quoted |
| `TruncateTarget.InsertTarget` | libraries/PhpPgAdmin/Database/Import/StatementExecutor.php:261-262 | `INSERT INTO name ...` yields `name` |
| `TruncateTarget.CopyTarget` | libraries/PhpPgAdmin/Database/Import/StatementExecutor.php:261-262 | `COPY name ...` yields `name` |
| `TruncateTarget.ResolveTwoParts` | libraries/PhpPgAdmin/Database/Import/StatementExecutor.php:271-283 | a name of two parts resolves to the cleaned schema and table |
| `TruncateTarget.ResolveDotted` | libraries/PhpPgAdmin/Database/Import/StatementExecutor.php:271-283 | `schema.table` resolves to that schema and table |
| `TruncateTarget.ResolveOnePart` | libraries/PhpPgAdmin/Database/Import/StatementExecutor.php:277-279 | a name without a dot takes the scope's schema under schema scope and none otherwise |
| `TruncateTarget.ResolveBare` | libraries/PhpPgAdmin/Database/Import/StatementExecutor.php:277-279 | a bare table name resolves likewise, its text kept |
| `TruncateTarget.ResolveQuotedBare` | libraries/PhpPgAdmin/Database/Import/StatementExecutor.php:270-279 | a quoted table name without a dot loses its quotes |
| `TruncateTarget.ResolveQuotedDotted` | libraries/PhpPgAdmin/Database/Import/StatementExecutor.php:271-283 | corrected resolution: `"s"."t"` resolves to schema `s` and table `t` |
| `TruncateTarget.QuotedDottedMisread` | libraries/PhpPgAdmin/Database/Import/StatementExecutor.php:269-283 | as written: `"s"."t"` resolves to schema `s"` and table `"t`, which differs from the corrected resolution |
| `TruncateTarget.AsWrittenUnquoted` | libraries/PhpPgAdmin/Database/Import/StatementExecutor.php:269-283 | when the name does not start with a quote, the code as written agrees with the corrected resolution |
| `TruncateTarget.AsWrittenDotted` | libraries/PhpPgAdmin/Database/Import/StatementExecutor.php:269-283 | as written, `schema.table` resolves to that schema and table |
| `TruncateTarget.AsWrittenQuotedBare` | libraries/PhpPgAdmin/Database/Import/StatementExecutor.php:269-279 | as written, a quoted table name without a dot loses its quotes |
| `TruncateTarget.TargetOfRaw` | libraries/PhpPgAdmin/Database/Import/StatementExecutor.php:258-283 | the executor's target is the as-written resolution of the captured name |
| `TruncateTarget.InsertDottedTarget` | libraries/PhpPgAdmin/Database/Import/StatementExecutor.php:258-283 | `INSERT INTO schema.table ...` targets that schema and table |
| `SessionSettings.DropSpaces` | libraries/PhpPgAdmin/Database/Import/SessionSettingsApplier.php:214 | `ltrim` leaves a suffix of the text that does not start with whitespace |
| `SessionSettings.QuoteEnd` | libraries/PhpPgAdmin/Database/Import/SessionSettingsApplier.php:133 | the `[^']*` run of the set_config value ends at the next quote or the end of the text |
| `SessionSettings.EncodingEnd` | libraries/PhpPgAdmin/Database/Import/SessionSettingsApplier.php:138 | the `[A-Za-z0-9_-]+` run of the encoding ends at the first other character |
| `SessionSettings.Decisions` | libraries/PhpPgAdmin/Database/Import/SessionSettingsApplier.php:47-52 | one decision per statement |
| `SessionSettings.SetTest` | libraries/PhpPgAdmin/Database/Import/SessionSettingsApplier.php:212-216 | a statement is handled as a SET exactly when, trimmed, it is longer than four characters, starts with `SET` in any letter case and has whitespace in its fourth position; anything else passes through |
| `SessionSettings.PassThroughUnlessSet` | libraries/PhpPgAdmin/Database/Import/SessionSettingsApplier.php:96-107 | a statement passes through exactly when its trimmed text is not a SET command |
| `SessionSettings.TrimmedSetTest` | libraries/PhpPgAdmin/Database/Import/SessionSettingsApplier.php:212-216 | on text without leading blanks the SET test is exactly the length, `SET` and whitespace test |
| `SessionSettings.PassThroughChangesNothing` | libraries/PhpPgAdmin/Database/Import/SessionSettingsApplier.php:96-107 | a pass-through statement returns true and changes neither the cache, the state nor the log |
| `SessionSettings.SelectPassesThrough` | libraries/PhpPgAdmin/Database/Import/SessionSettingsApplier.php:101-107 | a SELECT statement passes through |
| `SessionSettings.SetConfigPatternDead` | libraries/PhpPgAdmin/Database/Import/SessionSettingsApplier.php:34 | the thirteenth allow pattern (`SELECT pg_catalog.set_config(...)`) matches no statement that reaches it, because only SET commands are tested |
| `SessionSettings.AllowedWithoutSetConfig` | libraries/PhpPgAdmin/Database/Import/SessionSettingsApplier.php:197-205 | for a SET command, being allowed is matching one of the twelve SET patterns |
| `SessionSettings.UnknownSetSkipped` | libraries/PhpPgAdmin/Database/Import/SessionSettingsApplier.php:109-115 | a SET outside the allow-list is refused with the warning `Skipping unknown SET command:` and its first 80 characters |
| `SessionSettings.GateNameAt` | libraries/PhpPgAdmin/Database/Import/SessionSettingsApplier.php:64-79 | a version gate matches only when its setting's name follows `set` and whitespace |
| `SessionSettings.GatesExclusive` | libraries/PhpPgAdmin/Database/Import/SessionSettingsApplier.php:64-79 | two gates whose names start with different letters never both match |
| `SessionSettings.GateDecides` | libraries/PhpPgAdmin/Database/Import/SessionSettingsApplier.php:59-86 | a statement naming a gated setting is supported exactly when the server has it (lock_timeout 9.3, idle_in_transaction_session_timeout 9.6, transaction_timeout 14, row_security 9.5) |
| `SessionSettings.NoGateSupported` | libraries/PhpPgAdmin/Database/Import/SessionSettingsApplier.php:84-85 | every other allowed SET is supported |
| `SessionSettings.UnsupportedSkipped` | libraries/PhpPgAdmin/Database/Import/SessionSettingsApplier.php:117-122 | an allowed SET the server lacks is refused with the note naming the version and its first 80 characters |
| `SessionSettings.AcceptedText` | libraries/PhpPgAdmin/Database/Import/SessionSettingsApplier.php:117-126 | an accepted statement is the trimmed SET command, with `;` appended when it lacked one, and it is allowed and supported |
| `SessionSettings.TerminatedFixed` | libraries/PhpPgAdmin/Database/Import/SessionSettingsApplier.php:124-126 | the terminated statement ends with `;`, differs from the trimmed one by at most that `;`, and is already trimmed |
| `SessionSettings.TerminatedTrimmed` | libraries/PhpPgAdmin/Database/Import/SessionSettingsApplier.php:124-126 | appending `;` to trimmed text keeps it trimmed |
| `SessionSettings.TerminatedShape` | libraries/PhpPgAdmin/Database/Import/SessionSettingsApplier.php:124-126 | the terminated text ends with `;` and is the text or the text plus `;` |
| `SessionSettings.AcceptedCached` | libraries/PhpPgAdmin/Database/Import/SessionSettingsApplier.php:143-147 | an accepted statement is appended to the cache and its normalised key marked seen, unless that key was seen already; nothing is logged |
| `SessionSettings.CollectTwice` | libraries/PhpPgAdmin/Database/Import/SessionSettingsApplier.php:143-147 | collecting the same statement twice caches it once |
| `SessionSettings.KeysAppend` | libraries/PhpPgAdmin/Database/Import/SessionSettingsApplier.php:191-194 | the seen keys of a list with one more setting gain exactly that setting's key |
| `SessionSettings.KeysHasEntry` | libraries/PhpPgAdmin/Database/Import/SessionSettingsApplier.php:191-194 | every setting's key is among the seen keys |
| `SessionSettings.KeysOnlyEntries` | libraries/PhpPgAdmin/Database/Import/SessionSettingsApplier.php:191-194 | every seen key belongs to some setting |
| `SessionSettings.CollectKeepsConsistent` | libraries/PhpPgAdmin/Database/Import/SessionSettingsApplier.php:143-147 | collecting keeps the seen keys equal to the keys of the cached settings |
| `SessionSettings.RememberConsistent` | libraries/PhpPgAdmin/Database/Import/SessionSettingsApplier.php:143-147 | remembering a trimmed text keeps that agreement |
| `SessionSettings.CacheAfterSeen` | libraries/PhpPgAdmin/Database/Import/SessionSettingsApplier.php:143-147 | seen keys only grow, and an accepted statement's key is seen afterwards |
| `SessionSettings.CollectKeepsDistinct` | libraries/PhpPgAdmin/Database/Import/SessionSettingsApplier.php:143-147 | no two cached settings share a normalised key |
| `SessionSettings.RestoredNotRepeated` | libraries/PhpPgAdmin/Database/Import/SessionSettingsApplier.php:187-195 | after `setCachedSettings`, collecting a statement already in the list changes nothing |
| `SessionSettings.CacheAllStep` | libraries/PhpPgAdmin/Database/Import/SessionSettingsApplier.php:47-52 | collecting a list and then one more statement is collecting the longer list |
| `SessionSettings.DecisionsAppend` | libraries/PhpPgAdmin/Database/Import/SessionSettingsApplier.php:47-52 | the decisions of two lists in a row are the decisions of each |
| `SessionSettings.CacheOverAppend` | libraries/PhpPgAdmin/Database/Import/SessionSettingsApplier.php:47-52 | caching two runs of decisions is caching one after the other |
| `SessionSettings.SeenGrows` | libraries/PhpPgAdmin/Database/Import/SessionSettingsApplier.php:144-147 | seen keys only grow over a run |
| `SessionSettings.AcceptedSeen` | libraries/PhpPgAdmin/Database/Import/SessionSettingsApplier.php:144-147 | every accepted statement's key is seen at the end of the run |
| `SessionSettings.AllSeenNoChange` | libraries/PhpPgAdmin/Database/Import/SessionSettingsApplier.php:144-147 | a run whose accepted keys were all seen leaves the cache as it was |
| `SessionSettings.ReplayAddsNothing` | libraries/PhpPgAdmin/Database/Import/SessionSettingsApplier.php:143-147 | collecting the same statements a second time adds nothing to the cache |
| `SessionSettings.ApplyAllStep` | libraries/PhpPgAdmin/Database/Import/SessionSettingsApplier.php:160-178 | replaying one more setting continues from the earlier replay |
| `SessionSettings.ApplyAllMeaning` | libraries/PhpPgAdmin/Database/Import/SessionSettingsApplier.php:157-180 | the replay sends exactly the non-blank settings, trimmed and in order, logs one entry per statement sent, and counts one error per non-zero reply or exception |
| `SessionSettings.SharedAllStep` | libraries/PhpPgAdmin/Database/Import/SessionSettingsApplier.php:128-152 | the state after one more statement is the earlier state with that statement's effects |
| `SessionSettings.LogAllStep` | libraries/PhpPgAdmin/Database/Import/SessionSettingsApplier.php:47-52 | the log after one more statement is the earlier log and that statement's entries |
| `SessionSettings.CollectCacheStep` | libraries/PhpPgAdmin/Database/Import/SessionSettingsApplier.php:47-52 | the cache after one more statement is the earlier cache after that statement |
| `SessionSettings.CollectSharedStep` | libraries/PhpPgAdmin/Database/Import/SessionSettingsApplier.php:47-52 | the same for the state |
| `SessionSettings.CollectLogStep` | libraries/PhpPgAdmin/Database/Import/SessionSettingsApplier.php:47-52 | the same for the log |
| `SessionSettings.CollectStep` | libraries/PhpPgAdmin/Database/Import/SessionSettingsApplier.php:47-52 | collecting one more statement updates the cache, the state and the log by that statement's decision |
| `SessionSettings.SessionSettingsApplier.constructor` | libraries/PhpPgAdmin/Database/Import/SessionSettingsApplier.php:41-45 | a new applier has an empty, consistent cache |
| `SessionSettings.SessionSettingsApplier.CollectFromStatement` | libraries/PhpPgAdmin/Database/Import/SessionSettingsApplier.php:94-155 | returns false exactly for a refused SET; the cache, the log and (when given) the state change as the decision says, and nothing else of the state changes; an accepted statement, terminated with `;`, gives the state its `Effects` (the schema from the first list element trimmed of white space and ` "'{}`, the `;` kept in a one-element list, the captured encoding), as the effect lemmas below state |
| `SessionSettings.SessionSettingsApplier.Record` | libraries/PhpPgAdmin/Database/Import/SessionSettingsApplier.php:109-154 | carries out a decision on the trimmed statement |
| `SessionSettings.SessionSettingsApplier.KeepEffects` | libraries/PhpPgAdmin/Database/Import/SessionSettingsApplier.php:128-141 | the state gets the side effects of the statement as `Effects` defines them; what those are is stated by `SessionSettings.EffectsFields`, `SessionSettings.SearchPathCaptured`, `SessionSettings.SearchPathEffect` and `SessionSettings.ClientEncodingCaptured` |
| `SessionSettings.SearchPathCaptured` | libraries/PhpPgAdmin/Database/Import/SessionSettingsApplier.php:130 | `SET search_path TO <list>` (words in any letter case, each followed by white space) captures the whole rest of the line as the list |
| `SessionSettings.FirstOfListFirst` | libraries/PhpPgAdmin/Database/Import/SessionSettingsApplier.php:131-132 | for a list `a,b` the schema is `a`, trimmed of white space and then of ` "'{}` |
| `SessionSettings.FirstOfListSingle` | libraries/PhpPgAdmin/Database/Import/SessionSettingsApplier.php:131-132 | a list with no comma is its own first element, trimmed likewise |
| `SessionSettings.FirstOfListKeepsSemicolon` | libraries/PhpPgAdmin/Database/Import/SessionSettingsApplier.php:124-132 | a one-element list ending in the `;` the applier appended names a schema that still ends in `;` |
| `SessionSettings.ClientEncodingCaptured` | libraries/PhpPgAdmin/Database/Import/SessionSettingsApplier.php:138-139 | `SET client_encoding = 'x'` (quote optional, white space around `=` optional, words in any letter case) sets the encoding to exactly the name x |
| `SessionSettings.EffectsFields` | libraries/PhpPgAdmin/Database/Import/SessionSettingsApplier.php:128-141 | the cached list never changes; the encoding changes exactly when the encoding pattern captures a name; a search_path list sets the schema to its first element; with neither schema pattern the schema is kept |
| `SessionSettings.SearchPathEffect` | libraries/PhpPgAdmin/Database/Import/SessionSettingsApplier.php:124-132 | applied to the state, `SET search_path TO a, b` makes the trimmed `a` current, and a one-element list makes a schema ending in `;` current |
| `SessionSettings.SearchPathListEffect` | libraries/PhpPgAdmin/Database/Import/SessionSettingsApplier.php:130-132 | the same two effects for any text whose captured list is given |
| `SessionSettings.SemicolonKeptInSchema` | libraries/PhpPgAdmin/Database/Import/SessionSettingsApplier.php:124-132 | as written, `SET search_path TO myschema` makes `myschema;` current |
| `SessionSettings.SchemaListIntended` | libraries/PhpPgAdmin/Database/Import/SessionSettingsApplier.php:130 | the capture `(.+?);?$` would give: a list ending in `;` loses exactly that `;`, any other list is kept whole |
| `SessionSettings.SchemaWithoutSemicolon` | libraries/PhpPgAdmin/Database/Import/SessionSettingsApplier.php:130-132 | with the `;` left out of the capture, `SET search_path TO myschema` makes `myschema` current |
| `SessionSettings.ListFirstUnchanged` | libraries/PhpPgAdmin/Database/Import/SessionSettingsApplier.php:130-132 | leaving out the `;` does not change the schema a list of several names makes current |
| `SessionSettings.SessionSettingsApplier.KeepCache` | libraries/PhpPgAdmin/Database/Import/SessionSettingsApplier.php:143-147 | remembers the statement under its normalised key |
| `SessionSettings.SessionSettingsApplier.CollectFromStatements` | libraries/PhpPgAdmin/Database/Import/SessionSettingsApplier.php:47-52 | the cache, state and log after the loop are those of collecting the statements in order |
| `SessionSettings.SessionSettingsApplier.CollectNext` | libraries/PhpPgAdmin/Database/Import/SessionSettingsApplier.php:49-51 | one iteration of that loop |
| `SessionSettings.SessionSettingsApplier.ApplySettings` | libraries/PhpPgAdmin/Database/Import/SessionSettingsApplier.php:157-180 | the statements sent, the log entries and the error count are those of the replay specification |
| `SessionSettings.SessionSettingsApplier.ReplayOne` | libraries/PhpPgAdmin/Database/Import/SessionSettingsApplier.php:161-177 | one iteration of the replay |
| `SessionSettings.SessionSettingsApplier.SetCachedSettings` | libraries/PhpPgAdmin/Database/Import/SessionSettingsApplier.php:187-195 | the cache becomes the given list with the keys of its entries, and is consistent |
| `JsonRows.Put` | libraries/PhpPgAdmin/Database/Import/Data/JsonRowParser.php:224 | assigning a member sets that key's value, leaves every other key's value alone, and adds the key at the end only when it was new (PHP array order) |
| `JsonRows.QuoteAt` | libraries/PhpPgAdmin/Database/Import/Data/JsonRowParser.php:75-101 | the closing quote found is a quote at or after the start |
| `JsonRows.LiteralEnd` | libraries/PhpPgAdmin/Database/Import/Data/JsonRowParser.php:110-112 | the literal runs over `[0-9eE+\-a-zA-Z.]` characters and stops at the first other one |
| `JsonRows.DigitsEnd` | libraries/PhpPgAdmin/Database/Import/Data/JsonRowParser.php:115 | a run of digits in a number ends at the first non-digit |
| `JsonRows.Scan` | libraries/PhpPgAdmin/Database/Import/Data/JsonRowParser.php:47-133 | the tokenizer stops somewhere between its start and the end of the buffer |
| `JsonRows.Pass` | libraries/PhpPgAdmin/Database/Import/Data/JsonRowParser.php:52-129 | a token found at one position extends the tokens found so far |
| `JsonRows.Halt` | libraries/PhpPgAdmin/Database/Import/Data/JsonRowParser.php:104-132 | where the scan stops, the tokens found so far are all the tokens, and the remainder starts there |
| `JsonRows.ScanOpenString` | libraries/PhpPgAdmin/Database/Import/Data/JsonRowParser.php:103-104 | a string without its closing quote yields no token and leaves the scan at the end of the buffer |
| `JsonRows.ScanString` | libraries/PhpPgAdmin/Database/Import/Data/JsonRowParser.php:69-97 | a closed string yields the decoding of its raw text and the scan continues after the quote |
| `JsonRows.ScanSkipsBlanks` | libraries/PhpPgAdmin/Database/Import/Data/JsonRowParser.php:55-59 | characters up to the space are skipped |
| `JsonRows.ScanPunctuation` | libraries/PhpPgAdmin/Database/Import/Data/JsonRowParser.php:61-66 | each of `{}[]:,` is its own token, in order |
| `JsonRows.StopsAtUnknown` | libraries/PhpPgAdmin/Database/Import/Data/JsonRowParser.php:127-128 | any other character stops the tokenizer there |
| `JsonRows.NoClosingQuote` | libraries/PhpPgAdmin/Database/Import/Data/JsonRowParser.php:75-101 | without a quote after the start no closing quote is found |
| `JsonRows.OpenStringLost` | libraries/PhpPgAdmin/Database/Import/Data/JsonRowParser.php:103-132 | an unterminated string at the end of a chunk is consumed without a token and without a remainder |
| `JsonRows.PlainStringEnds` | libraries/PhpPgAdmin/Database/Import/Data/JsonRowParser.php:91-99 | in a string without escapes the first quote closes it |
| `JsonRows.EscapedQuote` | libraries/PhpPgAdmin/Database/Import/Data/JsonRowParser.php:78-89 | a backslash-escaped quote does not close the string |
| `JsonRows.FailedLiteralDropped` | libraries/PhpPgAdmin/Database/Import/Data/JsonRowParser.php:113-122 | a literal that does not decode stops the tokenizer after it, so the literal is consumed without a token |
| `JsonRows.LiteralStart` | libraries/PhpPgAdmin/Database/Import/Data/JsonRowParser.php:108-110 | a literal's first character is none of the other token starts and belongs to the literal |
| `JsonRows.LiteralAtChunkEnd` | libraries/PhpPgAdmin/Database/Import/Data/JsonRowParser.php:107-124 | `[12` yields `[` and the number 12 with nothing left over; `[tru` yields only `[` and its partial literal is consumed |
| `JsonRows.NumberForms` | libraries/PhpPgAdmin/Database/Import/Data/JsonRowParser.php:115-117 | `json_decode` accepts `-12.5e+3` and `0` and rejects `01`, `1.`, `-` and `True` |
| `JsonRows.FillOnlyMissing` | libraries/PhpPgAdmin/Database/Import/Data/JsonRowParser.php:18-25 | `$state += defaults` fills only the missing keys and keeps every present one |
| `JsonRows.RunAppend` | libraries/PhpPgAdmin/Database/Import/Data/JsonRowParser.php:28-30 | consuming two token lists in a row is consuming their concatenation |
| `JsonRows.RowsOnlyAppended` | libraries/PhpPgAdmin/Database/Import/Data/JsonRowParser.php:135-188 | rows are only ever appended, and every row appended is an object, never null |
| `JsonRows.SectionModes` | libraries/PhpPgAdmin/Database/Import/Data/JsonRowParser.php:155-199 | `"columns": [` opens the header with an empty column list, `"data": [` opens the rows, and `]` returns to the root |
| `JsonRows.RunLast` | libraries/PhpPgAdmin/Database/Import/Data/JsonRowParser.php:28-30 | consuming one more token steps from the earlier state |
| `JsonRows.RunThree` | libraries/PhpPgAdmin/Database/Import/Data/JsonRowParser.php:28-30 | consuming three tokens is three steps |
| `JsonRows.LiteralNeedsKey` | libraries/PhpPgAdmin/Database/Import/Data/JsonRowParser.php:230-236 | a literal is stored only in a row under a pending key, and is otherwise ignored |
| `JsonRows.ColumnsInThrees` | libraries/PhpPgAdmin/Database/Import/Data/JsonRowParser.php:201-217 | in the header, strings are taken in threes: the first opens a column, the second is its name and the third its type |
| `JsonRows.PutFirst` | libraries/PhpPgAdmin/Database/Import/Data/JsonRowParser.php:224 | assigning the first key replaces its value in place |
| `JsonRows.PutSecond` | libraries/PhpPgAdmin/Database/Import/Data/JsonRowParser.php:224 | assigning the second key replaces its value in place |
| `JsonRows.Separator` | libraries/PhpPgAdmin/Database/Import/Data/JsonRowParser.php:184-186 | `:` and `,` change nothing |
| `JsonRows.HeaderObjectOpens` | libraries/PhpPgAdmin/Database/Import/Data/JsonRowParser.php:138-209 | `{"name": n,` in the header opens a column named `n` and waits for the type |
| `JsonRows.HeaderObjectMisread` | libraries/PhpPgAdmin/Database/Import/Data/JsonRowParser.php:201-217 | as written, the header object `{"name": n, "type": t}` is stored as a column named `n` whose type is the text `type`, and `t` opens a new column |
| `JsonRows.ColumnObjectOpens` | libraries/PhpPgAdmin/Database/Import/Data/JsonRowParser.php:6-11 | read as documented, `{"name": n,` in the header array opens a column holding the name n, with no key pending |
| `JsonRows.HeaderObjectRead` | libraries/PhpPgAdmin/Database/Import/Data/JsonRowParser.php:6-11 | read as documented, the column object `{"name": n, "type": t}` appends the column record `name` n, `type` t and leaves no record open |
| `JsonRows.HeaderObjectsRead` | libraries/PhpPgAdmin/Database/Import/Data/JsonRowParser.php:6-11 | read as documented, column objects separated by commas append exactly their records, in order |
| `JsonRows.HeaderRead` | libraries/PhpPgAdmin/Database/Import/Data/JsonRowParser.php:6-11 | read as documented, the header `"columns": [ {"name": ..., "type": ...}, ... ]` from the root yields exactly the documented columns and returns to the root with the stack as before |
| `JsonRows.MembersStored` | libraries/PhpPgAdmin/Database/Import/Data/JsonRowParser.php:220-235 | the members of a row object are stored in order, each by assignment |
| `JsonRows.CommaIgnored` | libraries/PhpPgAdmin/Database/Import/Data/JsonRowParser.php:184-186 | a comma between members changes nothing |
| `JsonRows.MemberStored` | libraries/PhpPgAdmin/Database/Import/Data/JsonRowParser.php:220-235 | `"k": v` inside a row stores `v` under `k` |
| `JsonRows.RowRead` | libraries/PhpPgAdmin/Database/Import/Data/JsonRowParser.php:138-235 | a row object read from the data array is appended as the row of its members, and the parser returns to the data array |
| `JsonRows.ParseState.constructor` | libraries/PhpPgAdmin/Database/Import/Data/JsonRowParser.php:18 | a new state has none of its keys |
| `JsonRows.ParseState.AddDefaults` | libraries/PhpPgAdmin/Database/Import/Data/JsonRowParser.php:18-25 | all keys become present, the missing ones with their defaults |
| `JsonRows.JsonRowParser.constructor` | libraries/PhpPgAdmin/Database/Import/Data/JsonRowParser.php:13 | the parser keeps the string decoder |
| `JsonRows.JsonRowParser.Parse` | libraries/PhpPgAdmin/Database/Import/Data/JsonRowParser.php:15-41 | returns the rows completed by this chunk, the unconsumed rest of the chunk and the header; the state is left as the tokens made it, with its rows emptied |
| `JsonRows.JsonRowParser.Tokenize` | libraries/PhpPgAdmin/Database/Import/Data/JsonRowParser.php:47-133 | the loop yields exactly the tokens of the scan and the remainder from where it stopped |
| `JsonRows.JsonRowParser.Advance` | libraries/PhpPgAdmin/Database/Import/Data/JsonRowParser.php:52-129 | one turn of the loop either moves on with the tokens found or stops where the scan stops |
| `JsonRows.JsonRowParser.AdvanceString` | libraries/PhpPgAdmin/Database/Import/Data/JsonRowParser.php:69-105 | the same for a string |
| `JsonRows.JsonRowParser.AdvanceLiteral` | libraries/PhpPgAdmin/Database/Import/Data/JsonRowParser.php:107-125 | the same for a literal |
| `JsonRows.JsonRowParser.ReadString` | libraries/PhpPgAdmin/Database/Import/Data/JsonRowParser.php:70-104 | finds the closing quote exactly when one exists, and returns the raw text before it |
| `JsonRows.JsonRowParser.ReadLiteral` | libraries/PhpPgAdmin/Database/Import/Data/JsonRowParser.php:109-112 | finds the end of the literal |
| `JsonRows.JsonRowParser.Consume` | libraries/PhpPgAdmin/Database/Import/Data/JsonRowParser.php:135-188 | the state changes as one step of the specification |
| `JsonRows.JsonRowParser.HandleString` | libraries/PhpPgAdmin/Database/Import/Data/JsonRowParser.php:190-228 | the same for a string |
| `JsonRows.JsonRowParser.HandleLiteral` | libraries/PhpPgAdmin/Database/Import/Data/JsonRowParser.php:230-236 | the same for a literal |
| `DependencyGraphs.FirstReady` | tests/Unit/DependencyGraph/DependencyGraphTest.php:33-39 | the index found is that of a node whose dependencies inside the graph are all placed, or the end when there is none |
| `DependencyGraphs.Place` | tests/Unit/DependencyGraph/DependencyGraphTest.php:33-39 | placing keeps every remaining node exactly once, either placed or circular |
| `DependencyGraphs.Sort` | tests/Unit/DependencyGraph/DependencyGraphTest.php:33-39 | the sort returns every node of the graph exactly once |
| `DependencyGraphs.FirstReadyIsFirst` | tests/Unit/DependencyGraph/DependencyGraphTest.php:33-39 | no node before the one found is ready |
| `DependencyGraphs.PlaceRespectsDependencies` | tests/Unit/DependencyGraph/DependencyGraphTest.php:35-39 | every node is placed after all its dependencies inside the graph |
| `DependencyGraphs.PlacedInOrderCons` | tests/Unit/DependencyGraph/DependencyGraphTest.php:35-39 | a ready node followed by nodes placed in order is placed in order |
| `DependencyGraphs.NoneReadyIsStuck` | tests/Unit/DependencyGraph/DependencyGraphTest.php:105-111 | when no remaining node is ready, every remaining node depends on another remaining node |
| `DependencyGraphs.PlaceCircularIsStuck` | tests/Unit/DependencyGraph/DependencyGraphTest.php:105-111 | the nodes reported circular form such a stuck set |
| `DependencyGraphs.ReadyNotStuck` | tests/Unit/DependencyGraph/DependencyGraphTest.php:105-111 | a ready node is in no stuck set that is not yet placed |
| `DependencyGraphs.PlaceLeavesStuckSet` | tests/Unit/DependencyGraph/DependencyGraphTest.php:105-111 | no member of a stuck set is ever placed |
| `DependencyGraphs.SortPlacesDependenciesFirst` | tests/Unit/DependencyGraph/DependencyGraphTest.php:35-39 | the sorted nodes each come after their dependencies inside the graph |
| `DependencyGraphs.SortCircularIsStuck` | tests/Unit/DependencyGraph/DependencyGraphTest.php:105-111 | the circular nodes all depend on circular nodes |
| `DependencyGraphs.SortReportsStuckSet` | tests/Unit/DependencyGraph/DependencyGraphTest.php:105-111 | every node of a stuck set is reported circular |
| `DependencyGraphs.SortCircularIffStuckSet` | tests/Unit/DependencyGraph/DependencyGraphTest.php:105-111 | the sort reports circular nodes exactly when the graph has a non-empty stuck set, that is, a dependency cycle or a node depending on one |
| `DependencyGraphs.MembersCount` | tests/Unit/DependencyGraph/DependencyGraphTest.php:36 | a list without repeats has as many members as elements |
| `DependencyGraphs.MembersAtMost` | tests/Unit/DependencyGraph/DependencyGraphTest.php:111 | a list has at most as many members as elements |
| `DependencyGraphs.LowestRanked` | tests/Unit/DependencyGraph/DependencyGraphTest.php:146-163 | a non-empty ranked set has a member of lowest rank |
| `DependencyGraphs.RankedHasNoStuckSet` | tests/Unit/DependencyGraph/DependencyGraphTest.php:146-163 | when every dependency has a lower rank than its dependant, no set is stuck |
| `DependencyGraphs.SortRankedHasNoCircular` | tests/Unit/DependencyGraph/DependencyGraphTest.php:146-163 | an acyclic (ranked) graph sorts without circular nodes |
| `DependencyGraphs.SortStartsWithFirstRoot` | tests/Unit/DependencyGraph/DependencyGraphTest.php:152-153 | a first-inserted node without dependencies inside the graph is placed first |
| `DependencyGraphs.SortMembers` | tests/Unit/DependencyGraph/DependencyGraphTest.php:33-36 | the sorted list has exactly the graph's nodes, without repeats |
| `DependencyGraphs.FindReady` | tests/Unit/DependencyGraph/DependencyGraphTest.php:33 | the search loop finds the first ready node |
| `DependencyGraphs.AppendNew` | tests/Unit/DependencyGraph/DependencyGraphTest.php:36 | appending a new node keeps the list free of repeats |
| `DependencyGraphs.ComputeOrder` | tests/Unit/DependencyGraph/DependencyGraphTest.php:33 | the sorting loop computes the specified order |
| `DependencyGraphs.DependencyGraph.constructor` | tests/Unit/DependencyGraph/DependencyGraphTest.php:19 | a new graph has no nodes, no order and no circular nodes |
| `DependencyGraphs.DependencyGraph.AddNode` | tests/Unit/DependencyGraph/DependencyGraphTest.php:25-27 | the node is stored under its OID and appended to the insertion order unless that OID was known, in which case it replaces the earlier node in place |
| `DependencyGraphs.DependencyGraph.AddEdge` | tests/Unit/DependencyGraph/DependencyGraphTest.php:29-31 | when both ends are in the graph, `to` is added once to the dependencies of `from`; no other node's dependencies and no position change |
| `DependencyGraphs.DependencyGraph.TopologicalSort` | tests/Unit/DependencyGraph/DependencyGraphTest.php:33-39 | returns the nodes in the sort's order, with each node's position set to its index, and records the circular nodes; the nodes and their dependencies are unchanged |
| `DependencyGraphs.DependencyGraph.TakeSnapshot` | tests/Unit/DependencyGraph/DependencyGraphTest.php:33 | takes the dependency lists as they are now |
| `DependencyGraphs.DependencyGraph.StoreOrder` | tests/Unit/DependencyGraph/DependencyGraphTest.php:33 | stores the sorted OIDs and the circular ones |
| `DependencyGraphs.DependencyGraph.Snapshot` | tests/Unit/DependencyGraph/DependencyGraphTest.php:33 | the snapshot holds each node's dependency list |
| `DependencyGraphs.DependencyGraph.WritePositions` | libraries/PhpPgAdmin/Database/Dump/DependencyGraph/ObjectNode.php:33-36 | each sorted node's position becomes its index in the sorted list |
| `DependencyGraphs.DependencyGraph.GetPosition` | tests/Unit/DependencyGraph/DependencyGraphTest.php:211-219 | an OID not in the graph has position -1 |
| `DependencyGraphs.DependencyGraph.GetCircularNodes` | tests/Unit/DependencyGraph/DependencyGraphTest.php:110-111 | the circular nodes, one per circular OID, in order |
| `DependencyGraphs.SortedPosition` | tests/Unit/DependencyGraph/DependencyGraphTest.php:211-216 | after a sort, a node's position is its index in the sorted list |
| `DependencyGraphs.SortedPositionsDistinct` | tests/Unit/DependencyGraph/DependencyGraphTest.php:214-216 | after a sort, two nodes have different non-negative positions |
| `DependencyGraphs.SortedDependencyFirst` | tests/Unit/DependencyGraph/DependencyGraphTest.php:186-190 | after a sort, a non-circular node's dependency has a smaller position, so the reference is not deferred |
| `DependencyGraphs.PlacedDependencyEarlier` | tests/Unit/DependencyGraph/DependencyGraphTest.php:35-39 | in a list placed in order, a node's dependency appears earlier |
| `DependencyGraphs.SortedCircularIffStuckSet` | tests/Unit/DependencyGraph/DependencyGraphTest.php:105-108 | `hasCircularDependencies` is true exactly when the graph has a stuck set |
| `DependencyGraphs.SortedRankedIsComplete` | tests/Unit/DependencyGraph/DependencyGraphTest.php:144-163 | an acyclic graph sorts every node and reports no circular dependencies |
| `DependencyGraphs.SortedFirstRoot` | tests/Unit/DependencyGraph/DependencyGraphTest.php:152-153 | the first-inserted node, when it depends on nothing in the graph, gets position 0 |
| `DependencyGraphs.SortedCircularCount` | tests/Unit/DependencyGraph/DependencyGraphTest.php:110-111 | there are never more circular nodes than nodes |
| `DependencyGraphs.SortedRankedEdge` | tests/Unit/DependencyGraph/DependencyGraphTest.php:155-163 | in an acyclic graph every dependency comes before its dependant |
| `DependencyGraphScenarios.ChainRanked` | tests/Unit/DependencyGraph/DependencyGraphTest.php:29-31 | the chain A depends on B depends on C is acyclic |
| `DependencyGraphScenarios.SortedChain` | tests/Unit/DependencyGraph/DependencyGraphTest.php:17-40 | the chain sorts as C, B, A |
| `DependencyGraphScenarios.InOrder3` | tests/Unit/DependencyGraph/DependencyGraphTest.php:36-39 | three distinct elements in increasing positions of a three-element list are the list |
| `DependencyGraphScenarios.SortedSingleEdge` | tests/Unit/DependencyGraph/DependencyGraphTest.php:45-86 | with one dependency, the dependency sorts first, whatever the insertion order |
| `DependencyGraphScenarios.InOrder2` | tests/Unit/DependencyGraph/DependencyGraphTest.php:61-62 | the same for two elements |
| `DependencyGraphScenarios.SortedTwoCycle` | tests/Unit/DependencyGraph/DependencyGraphTest.php:91-112 | two nodes depending on each other are reported circular, both of them |
| `DependencyGraphScenarios.TwoCycleCircular` | tests/Unit/DependencyGraph/DependencyGraphTest.php:101-111 | both nodes of a two-node cycle are circular |
| `DependencyGraphScenarios.TwoMembers` | tests/Unit/DependencyGraph/DependencyGraphTest.php:111 | two distinct members need at least two elements |
| `DependencyGraphScenarios.SortedComplex` | tests/Unit/DependencyGraph/DependencyGraphTest.php:117-164 | in the mixed graph, the base function is at position 0 and each object comes after what it depends on |
| `DependencyGraphScenarios.ComplexRanked` | tests/Unit/DependencyGraph/DependencyGraphTest.php:133-142 | the mixed graph is acyclic |
| `DependencyGraphScenarios.MembersOf5` | tests/Unit/DependencyGraph/DependencyGraphTest.php:127-131 | the members of a five-element list are its elements |
| `DependencyGraphScenarios.MembersOf3` | tests/Unit/DependencyGraph/DependencyGraphTest.php:25-27 | the members of a three-element list are its elements |
| `DependencyGraphScenarios.SortedShouldDefer` | tests/Unit/DependencyGraph/DependencyGraphTest.php:169-194 | with `table_b` depending on `func_c`, neither of its references is deferred, while `func_a`'s reference to `table_b` is |
| `DependencyGraphScenarios.SortedPositions` | tests/Unit/DependencyGraph/DependencyGraphTest.php:199-220 | two nodes get different non-negative positions and an unknown OID gets -1 |
| `ByteUtils.PadStart` | js/import/utils.js:41 | `padStart` gives the requested width, or the text's own length when it is longer |
| `ByteUtils.Zeros` | js/import/utils.js:41 | the padding has the number of zeros asked for |
| `ByteUtils.Fnv1a64` | js/import/utils.js:35-42 | the loop over the buffer returns the digest of the whole buffer: FNV-1a over 64 bits, in hexadecimal, padded to 16 digits |
| `ByteUtils.FnvResumes` | js/import/utils.js:36-40 | hashing a buffer in two parts, resuming from the first part's hash, gives the hash of the whole |
| `ByteUtils.WholeBuffer` | js/import/utils.js:36-40 | the hash is the loop started from the offset basis |
| `ByteUtils.DigitOf` | js/import/utils.js:41 | each hexadecimal digit written reads back as its value |
| `ByteUtils.HexIsDigits` | js/import/utils.js:41 | `toString(16)` writes only hexadecimal digits |
| `ByteUtils.HexRoundTrip` | js/import/utils.js:41 | `toString(16)` loses nothing: the digits read back as the number |
| `ByteUtils.HexLength` | js/import/utils.js:41 | a number below 16 to the k-th power has at most k digits |
| `ByteUtils.ZerosValue` | js/import/utils.js:41 | leading zeros do not change the value |
| `ByteUtils.ZerosAreDigits` | js/import/utils.js:41 | the padding is made of `0` characters |
| `ByteUtils.Padded` | js/import/utils.js:41 | padding digits to a width gives that width, only digits, and the same value |
| `ByteUtils.DigestShape` | js/import/utils.js:35-42 | the digest is always exactly 16 lower-case hexadecimal digits whose value is the 64-bit hash |
| `ByteUtils.SixteenDigits` | js/import/utils.js:32 | sixteen hexadecimal digits are exactly the 64-bit range kept by the mask |
| `ByteUtils.HexValueSnoc` | js/import/utils.js:41 | one more digit multiplies the value by 16 and adds the digit |
| `ByteUtils.DigitRoundTrip` | js/import/utils.js:41 | each digit is the digit of its value |
| `ByteUtils.LeadingDigitPositive` | js/import/utils.js:41 | digits starting with a non-zero digit have a positive value |
| `ByteUtils.HexOfValue` | js/import/utils.js:41 | `toString(16)` of the value of digits without a leading zero gives those digits back |
| `ByteUtils.OffsetHigh` | js/import/utils.js:30 | the high half of the offset basis, read as hexadecimal |
| `ByteUtils.OffsetValue` | js/import/utils.js:30 | the text `cbf29ce484222325` is the offset basis |
| `ByteUtils.EmptyDigest` | js/import/utils.js:35-42 | the digest of an empty buffer is `cbf29ce484222325` |
| `ByteUtils.ZipSignatures` | js/import/utils.js:52-61 | the ZIP test accepts exactly the buffers whose first four bytes, read little-endian, are the local file header, end of central directory or data descriptor signature of the ZIP format |
| `ByteUtils.LittleEndianDigits` | js/import/utils.js:55-59 | four bytes are determined by their little-endian value |
| `ByteUtils.SameDigit` | js/import/utils.js:55-59 | two base-256 digits that differ by a multiple of 256 are equal |
| `ByteUtils.MagicKinds` | js/import/utils.js:77-88 | gzip, bzip2 and zip are reported exactly for their own signatures, plain for any other non-empty start and unknown for an empty one |
| `ByteUtils.EightBytesSuffice` | js/import/utils.js:63-92 | for a readable non-empty file, looking at the first eight bytes decides as looking at the whole file would |
| `ByteUtils.NoDataset` | js/import/utils.js:94-101 | without a dataset every capability is off |
| `ByteUtils.FlagIsExactOne` | js/import/utils.js:97-99 | each capability is on exactly when its entry is the text `1`, and an entry affects only its own capability |
| `ByteUtils.OtherEntriesIgnored` | js/import/utils.js:94-101 | entries other than the three capability flags change nothing |
| `ImportCommon.Database.constructor` | libraries/PhpPgAdmin/Database/Import/StatementExecutor.php:18-19 | a connection starts with nothing sent |
| `ImportCommon.Database.Execute` | libraries/PhpPgAdmin/Database/Import/StatementExecutor.php:240 | `execute` records the statement as sent and returns the server's reply to what has been sent so far |
| `ImportCommon.LogCollector.constructor` | libraries/PhpPgAdmin/Database/Import/StatementExecutor.php:14-15 | a new log is empty |
| `ImportCommon.LogCollector.Add` | libraries/PhpPgAdmin/Database/Import/StatementExecutor.php:246 | a log call appends exactly one entry |
| `ImportCommon.ImportState.constructor` | libraries/PhpPgAdmin/Database/Import/StatementExecutor.php:16-17 | a new import state has empty lists and no schema, encoding or cached settings |
| `ImportCommon.ErrorText` | libraries/PhpPgAdmin/Database/Import/StatementExecutor.php:242-245 | the error text is `pg_last_error` when that is truthy and empty otherwise |
| `ImportCommon.WithDetail` | libraries/PhpPgAdmin/Database/Import/StatementExecutor.php:246 | the message starts with its prefix and is the prefix alone exactly when the error text is falsy |

## Left out

- StatementExec.StatementExecutor: the table `adjustStatementToServer` uses (StatementExecutor.php:171-173) is a function-static cache. It is filled once per PHP process from the first executor's server version, and later executors reuse it. The model computes the table from each executor's own version (`StatementAdjust.Adjust(s, version)`), so a second executor against a server of another version is not modelled.
- StatementExec.StatementExecutor: `StatementClassifier::classify`, the driver's `execute` replies and `pg_last_error` are not part of this model. They are inputs of the executor (`classify`, `Database.reply`, `Database.lastError`).
- StatementExec.StatementExecutor: the `LogCollector` class is not part of this model. Its `add*` calls are recorded as entries in order (`ImportCommon.LogCollector`).
- JsonRows.JsonRowParser: `json_decode('"' . $str . '"')` on a string's characters (JsonRowParser.php:93) can return null on an invalid escape. The model's `decode` is a total function supplied by the caller, so that null path is not modelled.
- JsonRows.DecodeLiteral: `json_decode($token, true)` (JsonRowParser.php:115) turns a number into a PHP int or float. The model accepts exactly the RFC 8259 number syntax and keeps the number's text, so float rounding and integer overflow to float are not modelled.
- JsonRows.JsonRowParser.Parse: the tokenizer and the consumer are PHP generators that interleave. The model tokenizes the whole chunk first and then consumes the tokens. The rows and state come out the same, because the consumer never changes the buffer.
- The header array as the parser reads it: the class comment (JsonRowParser.php:6-11) and the comment at JsonRowParser.php:202 document column objects `{"name": "...", "type": "..."}`, but handleString (JsonRowParser.php:201-217) takes the header's strings in threes, so such an object is misread. The parser model keeps the code as written; the documented reading is `JsonRows.HeaderStep`, listed under Findings, and the parser does not use it.
- Php: every char stands for one byte of a PHP string. Multibyte UTF-8 is not modelled. Case-insensitive matching (`str_ireplace`, `strtolower`, the `/i` patterns) folds ASCII letters only, as PHP does byte by byte.
- ObjectNodes.ObjectNode.AddDependency: `in_array` here is loose (ObjectNode.php:73), so "1" and "01" are the same dependency in PHP. The model compares oids as strings with strict equality.
- TableDump.SkippedEntry: the owner comparisons of the privilege writer (TableDumper.php:375-432) are loose `==`/`!=` in PHP. The model compares the names as strings with strict equality.
- RoleDump.RoleDumper.BuildAttributes: `rolconnlimit != -1` (RoleDumper.php:60) compares the catalog text loosely with -1. The model takes `rolconnlimit` as an integer. TypeDumper.php:119 does the same with `typlen`, and the model takes `typlen` as an integer too.
- DumpFactory.Create: `class_exists` is case-insensitive in PHP. The model's `className in classes` is exact. For the fifteen listed dumpers the two agree, because `ClassNameFor` builds `ucfirst(strtolower(subject)) . 'Dumper'`, the spelling those classes are declared with (`DumpFactory.CreateListed`). Another class of the namespace declared in a different letter case is not modelled.
- TableDump.TableDumper.DumpData: if `dumpData` throws after some rows were streamed (TableDumper.php:84-91), the source has already written those rows before the error comment. `DataOutcome` is either `DataFailed` or `DataRows`, so output with partial rows followed by the error line is not modelled. The `error_log` call at :90 is a side effect outside the output and is not modelled.
- TableDump.TableDumper.Dump: the `rollbackTransaction()` calls on failure paths (TableDumper.php:104-116, 186, 234, 259, 396, 427) are not modelled. The model stops writing at the same points and returns the same result.
- TableDump.TableDumper: the catalog queries of `TableActions`, `ConstraintActions` and the other `Actions` classes are not part of this model. Their results are inputs (`Fetch`), and the CursorReader that streams table rows is not part of this model either.
- The dumpers' base class `ExportDumper` (write, writeDrop, writePrivileges, getIfNotExists, the comment switch) is not part of this model. The dumpers' constructors only store these collaborators, so they carry no row.
- DependencyGraphs.DependencyGraph: DependencyGraph.php is not part of this model, so the following choices are the model's own.
  - Among the ready nodes, the earliest-inserted one is placed first.
  - Nodes left on a cycle are appended as circular in insertion order.
  - Adding a node under an oid that is already present replaces that node and keeps its place in the order.
  - An edge with an unknown endpoint is dropped.

  The properties the unit tests state (DependencyGraphTest.php) hold for this model: `DependencyGraphScenarios`.
- SqlFormat.SqlFormatter.Format: the `preg_replace` at SqlFormatter.php:110 replaces a pattern by itself, so it leaves the text unchanged. The model omits it.
- ByteUtils: `formatBytes`, the DOM helpers (`el`, `qs`, `qsa`, `on`, `val`, the class helpers, `show`, `hide`), `logImport` and `appendServerToUrl` are browser presentation code and are not modelled.
- ByteUtils.SniffMagicType: reading the first bytes of a `File` through a `FileReader` is asynchronous I/O. The model takes those bytes, and whether the read succeeded, as parameters.
- SessionSettings.SessionSettingsApplier: the server version is a PHP float. The model keeps it as a whole number of tenths, so its comparisons with 9.3, 9.5, 9.6 and 14 are exact. `VersionText` prints it as PHP prints such a float ("9.3", "14"); versions with more than one decimal digit are not modelled.

## Findings

| source | as written | input that shows it | evidently intended | confidence | as-written member | corrected member |
|---|---|---|---|---|---|---|
| libraries/PhpPgAdmin/Database/Import/StatementExecutor.php:270-271 | `truncateTargetTable` strips one pair of double quotes from the whole captured name, then splits the rest on `.`. A quoted schema-qualified name therefore keeps a stray quote in each part. The per-part strip at :272-275 then matches neither part. | `INSERT INTO "public"."users" VALUES (1)` gives schema `public"` and table `"users`, so the TRUNCATE names a table that does not exist. | Schema `public` and table `users`, the same as for the unquoted `INSERT INTO public.users`. | not executed | `TruncateTarget.QuotedDottedMisread` | `TruncateTarget.ResolveQuotedDotted` |
| libraries/PhpPgAdmin/Database/Import/Data/JsonRowParser.php:201-217 | In the header array, handleString takes every string in turn: the first opens a record, the second is stored as its name, the third as its type, and the record is appended. The keys `name` and `type` are counted as values. | The header `"columns": [{"name": "id", "type": "int4"}]` gives the column named `id` whose type is the text `type`, and `int4` opens a further record. | Each column object, as documented at JsonRowParser.php:6-11 and :202, gives one column whose name is `id` and whose type is `int4`. | not executed | `JsonRows.HeaderObjectMisread` | `JsonRows.HeaderRead` |
| libraries/PhpPgAdmin/Database/Import/SessionSettingsApplier.php:124-132 | The applier appends `;` to the statement, and the greedy `(.+);?$` captures it, so the `;?` never matches anything. The trims after it leave `;` in place. | `SET search_path TO myschema` makes `myschema;` the current schema. | The current schema is `myschema`: the optional `;` is left out of the capture. | not executed | `SessionSettings.SemicolonKeptInSchema` | `SessionSettings.SchemaWithoutSemicolon` |

The executor keeps the behaviour as written (`TruncateTarget.ResolveAsWritten`), because that is what the program does. `TruncateTarget.ResolveQuotedDotted` states the intended split for `TruncateTarget.Resolve`, the definition with per-part quote stripping only.

Likewise the JSON parser keeps the header reading as written (`JsonRows.Step`), and `JsonRows.HeaderStep` is the documented one, which `JsonRows.HeaderRead` states for a whole header. The applier keeps the search_path capture as written (`SessionSettings.FirstOfList`). `SessionSettings.FirstOfListIntended` leaves the final `;` out, and `SessionSettings.ListFirstUnchanged` shows that this changes nothing for a list of several schemas.

=== FILE: aggregate_dumper.dfy ===
/** AggregateDumper: DROP (optional), CREATE AGGREGATE with the clauses the catalog
    row calls for, and an optional comment, for one aggregate. */
module AggregateDump {
  import opened Php
  import opened Output
  import opened PgDriver
  import opened DumpCommon

  /** The row the aggregate lookup returns; `None` stands for SQL NULL. */
  datatype AggregateRow = AggregateRow(
    proargtypes: Option<string>, aggtransfn: string, aggstype: string,
    aggfinalfn: Option<string>, agginitval: Option<string>, aggsortop: Option<string>,
    aggrcomment: Option<string>)

  /** The catalog queries the dumper makes: the aggregate by name and base type, and
      an operator's name by its oid. */
  datatype AggregateCatalog = AggregateCatalog(
    aggregate: (string, Option<string>) -> Fetch<AggregateRow>,
    operatorName: string -> Fetch<string>)

  /** The argument list DROP and COMMENT use: `*` for an aggregate over any type. */
  function ArgTypes(row: AggregateRow): string {
    row.proargtypes.GetOr("*")
  }

  /** FINALFUNC is written unless the column is NULL or `-`. */
  predicate HasFinalFunc(row: AggregateRow) {
    row.aggfinalfn.Some? && row.aggfinalfn.value != "-"
  }

  /** The sort operator's name, when the aggregate has one (neither NULL nor `0`)
      and the operator lookup finds it. */
  function SortOp(row: AggregateRow, cat: AggregateCatalog): (op: Option<string>)
    ensures op.Some? <==> row.aggsortop.Some? && row.aggsortop.value != "0" && cat.operatorName(row.aggsortop.value).Found?
  {
    if row.aggsortop.Some? && row.aggsortop.value != "0" then
      match cat.operatorName(row.aggsortop.value)
      case Found(name) => Some(name)
      case _ => None
    else None
  }

  /** The CREATE AGGREGATE statement, one write per clause: BASETYPE (ANY when the
      argument types are NULL), SFUNC and STYPE always, then FINALFUNC, INITCOND
      (quoted) and SORTOP when present, then the closing parenthesis. */
  function CreateWrites(schema: string, name: string, row: AggregateRow, cat: AggregateCatalog): (w: seq<string>)
    ensures |w| == 5 + Count(HasFinalFunc(row)) + Count(row.agginitval.Some?) + Count(SortOp(row, cat).Some?)
    ensures w[0] == "CREATE AGGREGATE " + Quoted2(schema, name) + " (\n"
    ensures w[1] == "    BASETYPE = " + (if row.proargtypes.None? then "ANY" else row.proargtypes.value) + ",\n"
    ensures w[2] == "    SFUNC = " + row.aggtransfn + ",\n" && w[3] == "    STYPE = " + row.aggstype
    ensures HasFinalFunc(row) ==> w[4] == ",\n    FINALFUNC = " + row.aggfinalfn.value
    ensures row.agginitval.Some? ==> w[4 + Count(HasFinalFunc(row))] == ",\n    INITCOND = '" + row.agginitval.value + "'"
    ensures SortOp(row, cat).Some? ==> w[|w| - 2] == ",\n    SORTOP = " + SortOp(row, cat).value
    ensures w[|w| - 1] == "\n);\n"
  {
    ["CREATE AGGREGATE " + Quoted2(schema, name) + " (\n",
     "    BASETYPE = " + row.proargtypes.GetOr("ANY") + ",\n",
     "    SFUNC = " + row.aggtransfn + ",\n",
     "    STYPE = " + row.aggstype]
    + OptionalClauses(row, cat)
    + ["\n);\n"]
  }

  function OptionalClauses(row: AggregateRow, cat: AggregateCatalog): seq<string> {
    Optional(HasFinalFunc(row), ",\n    FINALFUNC = " + row.aggfinalfn.GetOr(""))
    + Optional(row.agginitval.Some?, ",\n    INITCOND = '" + row.agginitval.GetOr("") + "'")
    + Optional(SortOp(row, cat).Some?, ",\n    SORTOP = " + SortOp(row, cat).GetOr(""))
  }

  /** The comment, written only when comments are requested and the row has one. */
  function CommentWrites(withComments: bool, d: Driver, schema: string, name: string, row: AggregateRow): (w: seq<string>)
    ensures |w| == Count(withComments && row.aggrcomment.Some?)
    ensures w != [] ==> w[0] == "COMMENT ON AGGREGATE " + Quoted2(schema, name) + " ("
                                + (if row.proargtypes.None? then "*" else row.proargtypes.value)
                                + ") IS '" + d.clean(row.aggrcomment.value) + "';\n"
  {
    Optional(withComments && row.aggrcomment.Some?,
             "COMMENT ON AGGREGATE " + Quoted2(schema, name) + " (" + ArgTypes(row) + ") IS '" + d.clean(row.aggrcomment.GetOr("")) + "';\n")
  }

  /** The DROP, only under `clean`; its argument list is `*` when `proargtypes` is NULL. */
  function DropWrites(clean: bool, schema: string, name: string, row: AggregateRow): (w: seq<string>)
    ensures |w| == Count(clean)
    ensures clean ==> w == ["DROP AGGREGATE IF EXISTS " + Quoted2(schema, name) + " ("
                            + (if row.proargtypes.None? then "*" else row.proargtypes.value) + ") CASCADE;\n"]
  {
    Optional(clean, "DROP AGGREGATE IF EXISTS " + Quoted2(schema, name) + " (" + ArgTypes(row) + ") CASCADE;\n")
  }

  function FoundWrites(options: Options, d: Driver, e: Exporter, cat: AggregateCatalog, schema: string, name: string, row: AggregateRow): seq<string> {
    ["\n-- Aggregate: " + Quoted2(schema, name) + "\n"]
    + DropWrites(options.clean, schema, name, row)
    + CreateWrites(schema, name, row, cat)
    + CommentWrites(e.includeComments(options), d, schema, name, row)
  }

  /** The write() calls dump() makes: nothing without a name or when the lookup finds
      no row; otherwise the header, the DROP only under `clean`, the CREATE, and the
      comment only when requested and present. */
  function AggregateWrites(params: Params, options: Options, connSchema: string, d: Driver, e: Exporter, cat: AggregateCatalog): (w: seq<string>)
    ensures Missing(Param(params, "aggregate")) || !cat.aggregate(params["aggregate"], Param(params, "basetype")).Found? ==> w == []
    ensures !Missing(Param(params, "aggregate")) && cat.aggregate(params["aggregate"], Param(params, "basetype")).Found? ==>
              var row := cat.aggregate(params["aggregate"], Param(params, "basetype")).row;
              var schema := ParamOr(params, "schema", connSchema);
              var create := CreateWrites(schema, params["aggregate"], row, cat);
              && |w| == 1 + Count(options.clean) + |create| + Count(e.includeComments(options) && row.aggrcomment.Some?)
              && w[0] == "\n-- Aggregate: " + Quoted2(schema, params["aggregate"]) + "\n"
              && w[1 + Count(options.clean)..1 + Count(options.clean) + |create|] == create
  {
    if Missing(Param(params, "aggregate")) then []
    else
      var name := params["aggregate"];
      match cat.aggregate(name, Param(params, "basetype"))
      case Found(row) =>
        var schema := ParamOr(params, "schema", connSchema);
        var w := FoundWrites(options, d, e, cat, schema, name, row);
        var k := 1 + Count(options.clean);
        assert w[k..k + |CreateWrites(schema, name, row, cat)|] == CreateWrites(schema, name, row, cat);
        w
      case _ => []
  }

  class AggregateDumper {
    const conn: Connection
    const exporter: Exporter
    const out: Writer
    const catalog: AggregateCatalog

    constructor (conn: Connection, exporter: Exporter, out: Writer, catalog: AggregateCatalog)
      ensures this.conn == conn && this.exporter == exporter && this.out == out && this.catalog == catalog
    {
      this.conn := conn;
      this.exporter := exporter;
      this.out := out;
      this.catalog := catalog;
    }

    /** dump */
    method Dump(params: Params, options: Options)
      modifies out
      ensures out.writes == old(out.writes) + AggregateWrites(params, options, conn.schema, conn.driver, exporter, catalog)
    {
      var name := Param(params, "aggregate");
      var basetype := Param(params, "basetype");
      var schema := ParamOr(params, "schema", conn.schema);
      if Missing(name) {
        return;
      }
      var rs := catalog.aggregate(name.value, basetype);
      if rs.Found? {
        DumpFound(options, schema, name.value, rs.row);
      }
    }

    /** The body of dump() once the aggregate is found. */
    method DumpFound(options: Options, schema: string, name: string, row: AggregateRow)
      modifies out
      ensures out.writes == old(out.writes) + FoundWrites(options, conn.driver, exporter, catalog, schema, name, row)
    {
      ghost var start := out.writes;
      ghost var header := ["\n-- Aggregate: " + Quoted2(schema, name) + "\n"];
      ghost var drop := DropWrites(options.clean, schema, name, row);
      ghost var create := CreateWrites(schema, name, row, catalog);
      ghost var comment := CommentWrites(exporter.includeComments(options), conn.driver, schema, name, row);
      out.Write("\n-- Aggregate: " + Quoted2(schema, name) + "\n");
      WriteDrop(options.clean, schema, name, row);
      AppendAssoc(start, header, drop);
      WriteCreate(schema, name, row);
      AppendAssoc(start, header + drop, create);
      WriteComment(exporter.includeComments(options), schema, name, row);
      AppendAssoc(start, header + drop + create, comment);
    }

    method WriteDrop(clean: bool, schema: string, name: string, row: AggregateRow)
      modifies out
      ensures out.writes == old(out.writes) + DropWrites(clean, schema, name, row)
    {
      if clean {
        var typeStr := if row.proargtypes.None? then "*" else row.proargtypes.value;
        out.Write("DROP AGGREGATE IF EXISTS " + Quoted2(schema, name) + " (" + typeStr + ") CASCADE;\n");
      }
    }

    method WriteComment(withComments: bool, schema: string, name: string, row: AggregateRow)
      modifies out
      ensures out.writes == old(out.writes) + CommentWrites(withComments, conn.driver, schema, name, row)
    {
      if withComments && row.aggrcomment.Some? {
        var comment := conn.driver.clean(row.aggrcomment.value);
        out.Write("COMMENT ON AGGREGATE " + Quoted2(schema, name) + " (" + ArgTypes(row) + ") IS '" + comment + "';\n");
      }
    }

    method WriteCreate(schema: string, name: string, row: AggregateRow)
      modifies out
      ensures out.writes == old(out.writes) + CreateWrites(schema, name, row, catalog)
    {
      ghost var start := out.writes;
      ghost var fixed := ["CREATE AGGREGATE " + Quoted2(schema, name) + " (\n",
                          "    BASETYPE = " + row.proargtypes.GetOr("ANY") + ",\n",
                          "    SFUNC = " + row.aggtransfn + ",\n",
                          "    STYPE = " + row.aggstype];
      ghost var options := OptionalClauses(row, catalog);
      out.Write("CREATE AGGREGATE " + Quoted2(schema, name) + " (\n");
      out.Write("    BASETYPE = " + (if row.proargtypes.None? then "ANY" else row.proargtypes.value) + ",\n");
      out.Write("    SFUNC = " + row.aggtransfn + ",\n");
      out.Write("    STYPE = " + row.aggstype);
      assert out.writes == start + fixed;
      WriteOptionalClauses(row);
      AppendAssoc(start, fixed, options);
      out.Write("\n);\n");
      AppendAssoc(start, fixed + options, ["\n);\n"]);
    }

    /** FINALFUNC, INITCOND and SORTOP, each when the row calls for it. */
    method WriteOptionalClauses(row: AggregateRow)
      modifies out
      ensures out.writes == old(out.writes) + OptionalClauses(row, catalog)
    {
      ghost var start := out.writes;
      ghost var final := Optional(HasFinalFunc(row), ",\n    FINALFUNC = " + row.aggfinalfn.GetOr(""));
      if row.aggfinalfn.Some? && row.aggfinalfn.value != "-" {
        out.Write(",\n    FINALFUNC = " + row.aggfinalfn.value);
      }
      ghost var init := Optional(row.agginitval.Some?, ",\n    INITCOND = '" + row.agginitval.GetOr("") + "'");
      if row.agginitval.Some? {
        out.Write(",\n    INITCOND = '" + row.agginitval.value + "'");
      }
      AppendAssoc(start, final, init);
      ghost var sort := Optional(SortOp(row, catalog).Some?, ",\n    SORTOP = " + SortOp(row, catalog).GetOr(""));
      if row.aggsortop.Some? && row.aggsortop.value != "0" {
        var opRs := catalog.operatorName(row.aggsortop.value);
        if opRs.Found? {
          out.Write(",\n    SORTOP = " + opRs.row);
        }
      }
      AppendAssoc(start, final + init, sort);
    }
  }
}

=== FILE: byte_utils.dfy ===
/** The byte helpers of the import page: the FNV-1a 64-bit digest of a buffer, the
    ZIP signature test, the magic-number sniffing of an uploaded file and the server
    capability flags.  Bytes are integers 0..255, as in a Uint8Array. */
module ByteUtils {
  import opened Php

  type byte = x: int | 0 <= x < 256

  // ---------------------------------------------------------------- FNV-1a, 64-bit parameters

  const Modulus: int := 0x1_0000_0000_0000_0000
  type u64 = x: int | 0 <= x < 0x1_0000_0000_0000_0000

  const OffsetBasis: u64 := 0xcbf2_9ce4_8422_2325
  const Prime: u64 := 0x100_0000_01b3

  /** Bitwise exclusive or, one binary digit at a time from the lowest. */
  function Xor(a: nat, b: nat): nat
    decreases a + b
  {
    if a == 0 then b
    else if b == 0 then a
    else 2 * Xor(a / 2, b / 2) + (if a % 2 == b % 2 then 0 else 1)
  }

  /** One round: xor in the byte (the table of BigInt(i) is the identity), then
      multiply by the prime and keep the low 64 bits. */
  function Round(h: u64, b: byte): u64 {
    (Xor(h, b) * Prime) % Modulus
  }

  /** The hash of a buffer, round by round from the offset basis. */
  function Fnv(buf: seq<byte>): u64
    decreases |buf|
  {
    if buf == [] then OffsetBasis else Round(Fnv(buf[..|buf| - 1]), buf[|buf| - 1])
  }

  /** The hash of a buffer's continuation, from the hash reached so far. */
  function Resume(h: u64, more: seq<byte>): u64
    decreases |more|
  {
    if more == [] then h else Resume(Round(h, more[0]), more[1..])
  }

  const HexDigits: string := "0123456789abcdef"

  /** BigInt toString(16): lower-case digits, no leading zero except for 0 itself. */
  function Hex(n: nat): (s: string)
    decreases n
  {
    if n < 16 then [HexDigits[n]] else Hex(n / 16) + [HexDigits[n % 16]]
  }

  /** padStart(width, "0"). */
  function PadStart(s: string, width: nat): (r: string)
    ensures |r| == if |s| < width then width else |s|
  {
    if |s| < width then Zeros(width - |s|) + s else s
  }

  function Zeros(k: nat): (z: string)
    ensures |z| == k
  {
    if k == 0 then [] else Zeros(k - 1) + ['0']
  }

  /** The digest fnv1a64 returns. */
  function Digest(buf: seq<byte>): string {
    PadStart(Hex(Fnv(buf)), 16)
  }

  /** The value of a digit of HexDigits. */
  function DigitValue(c: char): nat {
    if '0' <= c <= '9' then (c - '0') as nat
    else if 'a' <= c <= 'f' then (c - 'a') as nat + 10
    else 0
  }

  /** The number a string of hexadecimal digits stands for. */
  function HexValue(s: string): nat
    decreases |s|
  {
    if s == [] then 0 else HexValue(s[..|s| - 1]) * 16 + DigitValue(s[|s| - 1])
  }

  function Pow16(k: nat): nat {
    if k == 0 then 1 else 16 * Pow16(k - 1)
  }

  /** fnv1a64 */
  method Fnv1a64(buf: seq<byte>) returns (hex: string)
    ensures hex == Digest(buf)
  {
    var hash: u64 := OffsetBasis;
    var i := 0;
    while i < |buf|
      invariant 0 <= i <= |buf| && hash == Fnv(buf[..i])
    {
      var mixed := Xor(hash, buf[i]);
      hash := (mixed * Prime) % Modulus;
      assert buf[..i + 1][..i] == buf[..i];
      i := i + 1;
    }
    assert buf[..|buf|] == buf;
    hex := PadStart(Hex(hash), 16);
  }

  /** Hashing a buffer in two parts: the second part continues from the first's hash. */
  lemma {:induction false} FnvResumes(xs: seq<byte>, more: seq<byte>)
    ensures Fnv(xs + more) == Resume(Fnv(xs), more)
    decreases |more|
  {
    if more == [] {
      assert xs + more == xs;
    } else {
      var ys := xs + [more[0]];
      assert ys[..|xs|] == xs;
      assert Fnv(ys) == Round(Fnv(xs), more[0]);
      FnvResumes(ys, more[1..]);
      assert ys + more[1..] == xs + more;
    }
  }

  /** So the hash of a whole buffer is the rounds applied in order from the basis. */
  lemma WholeBuffer(buf: seq<byte>)
    ensures Fnv(buf) == Resume(OffsetBasis, buf)
  {
    FnvResumes([], buf);
    assert [] + buf == buf;
  }

  /** A digit's character reads back as the digit. */
  lemma DigitOf(d: nat)
    requires d < 16
    ensures IsHexDigit(HexDigits[d]) && DigitValue(HexDigits[d]) == d
  {
  }

  /** Every character of a hexadecimal rendering is a lower-case digit. */
  lemma {:induction false} HexIsDigits(n: nat)
    ensures forall i :: 0 <= i < |Hex(n)| ==> IsHexDigit(Hex(n)[i])
    decreases n
  {
    DigitOf(n % 16);
    if n >= 16 {
      HexIsDigits(n / 16);
    }
  }

  /** Reading a rendering back gives the number. */
  lemma {:induction false} HexRoundTrip(n: nat)
    ensures HexValue(Hex(n)) == n
    decreases n
  {
    DigitOf(n % 16);
    if n >= 16 {
      HexRoundTrip(n / 16);
      HexValueSnoc(Hex(n / 16), HexDigits[n % 16]);
    }
  }

  /** A number below 16^k takes at most k digits. */
  lemma {:induction false} HexLength(n: nat, k: nat)
    requires 1 <= k && n < Pow16(k)
    ensures |Hex(n)| <= k
    decreases n
  {
    if n >= 16 {
      assert k >= 2;
      HexLength(n / 16, k - 1);
    }
  }

  /** Leading zeros do not change the value. */
  lemma {:induction false} ZerosValue(k: nat, s: string)
    ensures HexValue(Zeros(k) + s) == HexValue(s)
    decreases |s|, k
  {
    if s == [] {
      assert Zeros(k) + s == Zeros(k);
      if k > 0 {
        ZerosValue(k - 1, []);
        assert Zeros(k - 1) + [] == Zeros(k - 1);
      }
    } else {
      var init := s[..|s| - 1];
      ZerosValue(k, init);
      assert (Zeros(k) + s)[..|Zeros(k) + s| - 1] == Zeros(k) + init;
    }
  }

  lemma {:induction false} ZerosAreDigits(k: nat)
    ensures forall i :: 0 <= i < k ==> Zeros(k)[i] == '0'
  {
    if k > 0 {
      ZerosAreDigits(k - 1);
    }
  }

  /** Padding with zeros keeps the digits and the value. */
  lemma Padded(s: string, width: nat)
    requires |s| <= width && forall i :: 0 <= i < |s| ==> IsHexDigit(s[i])
    ensures |PadStart(s, width)| == width
    ensures forall i :: 0 <= i < width ==> IsHexDigit(PadStart(s, width)[i])
    ensures HexValue(PadStart(s, width)) == HexValue(s)
  {
    if |s| < width {
      var k := width - |s|;
      ZerosValue(k, s);
      ZerosAreDigits(k);
      var p := Zeros(k) + s;
      assert forall i :: 0 <= i < k ==> p[i] == Zeros(k)[i];
      assert forall i :: k <= i < width ==> p[i] == s[i - k];
    }
  }

  /** The digest is always sixteen lower-case hexadecimal digits, and they spell the
      64-bit hash. */
  lemma DigestShape(buf: seq<byte>)
    ensures |Digest(buf)| == 16
    ensures forall i :: 0 <= i < 16 ==> IsHexDigit(Digest(buf)[i])
    ensures HexValue(Digest(buf)) == Fnv(buf)
  {
    var h := Fnv(buf);
    SixteenDigits();
    HexLength(h, 16);
    HexIsDigits(h);
    HexRoundTrip(h);
    Padded(Hex(h), 16);
  }

  lemma SixteenDigits()
    ensures Pow16(16) == Modulus
  {
    assert Pow16(1) == 0x10;
    assert Pow16(2) == 0x100;
    assert Pow16(3) == 0x1000;
    assert Pow16(4) == 0x1_0000;
    assert Pow16(5) == 0x10_0000;
    assert Pow16(6) == 0x100_0000;
    assert Pow16(7) == 0x1000_0000;
    assert Pow16(8) == 0x1_0000_0000;
    assert Pow16(9) == 0x10_0000_0000;
    assert Pow16(10) == 0x100_0000_0000;
    assert Pow16(11) == 0x1000_0000_0000;
    assert Pow16(12) == 0x1_0000_0000_0000;
    assert Pow16(13) == 0x10_0000_0000_0000;
    assert Pow16(14) == 0x100_0000_0000_0000;
    assert Pow16(15) == 0x1000_0000_0000_0000;
  }

  predicate IsHexDigit(c: char) {
    '0' <= c <= '9' || 'a' <= c <= 'f'
  }

  lemma HexValueSnoc(s: string, c: char)
    ensures HexValue(s + [c]) == HexValue(s) * 16 + DigitValue(c)
  {
    assert (s + [c])[..|s|] == s;
  }

  lemma DigitRoundTrip(c: char)
    requires IsHexDigit(c)
    ensures DigitValue(c) < 16 && HexDigits[DigitValue(c)] == c
  {
  }

  lemma {:induction false} LeadingDigitPositive(s: string)
    requires s != [] && IsHexDigit(s[0]) && s[0] != '0'
    ensures HexValue(s) > 0
    decreases |s|
  {
    if |s| > 1 {
      LeadingDigitPositive(s[..|s| - 1]);
    }
  }

  /** The other way round: a string of lower-case digits with no leading zero is the
      rendering of its value. */
  lemma {:induction false} HexOfValue(s: string)
    requires s != [] && s[0] != '0'
    requires forall i :: 0 <= i < |s| ==> IsHexDigit(s[i])
    ensures Hex(HexValue(s)) == s
    decreases |s|
  {
    var init, c := s[..|s| - 1], s[|s| - 1];
    DigitRoundTrip(c);
    assert s == init + [c];
    if init != [] {
      HexOfValue(init);
      LeadingDigitPositive(init);
      var v := HexValue(s);
      assert v == HexValue(init) * 16 + DigitValue(c);
      assert v / 16 == HexValue(init) && v % 16 == DigitValue(c);
    }
  }

  lemma OffsetHigh()
    ensures HexValue("cbf29ce4") == 0xcbf29ce4
  {
    var s0: string := [];
    var s1 := s0 + ['c'];
    HexValueSnoc(s0, 'c');
    var s2 := s1 + ['b'];
    HexValueSnoc(s1, 'b');
    var s3 := s2 + ['f'];
    HexValueSnoc(s2, 'f');
    var s4 := s3 + ['2'];
    HexValueSnoc(s3, '2');
    var s5 := s4 + ['9'];
    HexValueSnoc(s4, '9');
    var s6 := s5 + ['c'];
    HexValueSnoc(s5, 'c');
    var s7 := s6 + ['e'];
    HexValueSnoc(s6, 'e');
    var s8 := s7 + ['4'];
    HexValueSnoc(s7, '4');
    assert s8 == "cbf29ce4";
  }

  lemma OffsetValue()
    ensures HexValue("cbf29ce484222325") == 0xcbf2_9ce4_8422_2325
  {
    var s8: string := "cbf29ce4";
    OffsetHigh();
    var s9 := s8 + ['8'];
    HexValueSnoc(s8, '8');
    var s10 := s9 + ['4'];
    HexValueSnoc(s9, '4');
    var s11 := s10 + ['2'];
    HexValueSnoc(s10, '2');
    var s12 := s11 + ['2'];
    HexValueSnoc(s11, '2');
    var s13 := s12 + ['2'];
    HexValueSnoc(s12, '2');
    var s14 := s13 + ['3'];
    HexValueSnoc(s13, '3');
    var s15 := s14 + ['2'];
    HexValueSnoc(s14, '2');
    var s16 := s15 + ['5'];
    HexValueSnoc(s15, '5');
    assert s16 == "cbf29ce484222325";
  }

  /** An empty buffer hashes to the offset basis, printed with all sixteen digits. */
  lemma EmptyDigest()
    ensures Digest([]) == "cbf29ce484222325"
  {
    var s := "cbf29ce484222325";
    assert forall i :: 0 <= i < |s| ==> IsHexDigit(s[i]);
    HexOfValue(s);
    OffsetValue();
  }

  // ---------------------------------------------------------------- magic numbers

  /** `bytes` starts with `prefix`. */
  predicate StartsWith(bytes: seq<byte>, prefix: seq<byte>) {
    |prefix| <= |bytes| && bytes[..|prefix|] == prefix
  }

  /** detectZipSignature: "PK" followed by 03 04, 05 06 or 07 08. */
  predicate IsZipSignature(bytes: seq<byte>) {
    && |bytes| >= 4
    && bytes[0] == 0x50
    && bytes[1] == 0x4b
    && ((bytes[2] == 0x03 && bytes[3] == 0x04)
        || (bytes[2] == 0x05 && bytes[3] == 0x06)
        || (bytes[2] == 0x07 && bytes[3] == 0x08))
  }

  /** A 32-bit field as the ZIP format stores it, least significant byte first. */
  function LittleEndian32(b: seq<byte>): nat
    requires |b| == 4
  {
    b[0] as int + 0x100 * (b[1] as int) + 0x1_0000 * (b[2] as int) + 0x100_0000 * (b[3] as int)
  }

  /** The local file header, data descriptor and end of central directory signatures
      (sections 4.3.7, 4.3.9 and 4.3.16 of the PKWARE APPNOTE). */
  const LocalFileHeader: nat := 0x04034b50
  const DataDescriptor: nat := 0x08074b50
  const EndOfCentralDirectory: nat := 0x06054b50

  /** The test accepts exactly the buffers whose first four bytes read as one of the
      three signatures. */
  lemma ZipSignatures(bytes: seq<byte>)
    ensures IsZipSignature(bytes)
            <==> |bytes| >= 4 && LittleEndian32(bytes[..4]) in {LocalFileHeader, DataDescriptor, EndOfCentralDirectory}
  {
    if |bytes| >= 4 {
      var b := bytes[..4];
      var v := LittleEndian32(b);
      if v == LocalFileHeader {
        LittleEndianDigits(b[0], b[1], b[2], b[3], 0x50, 0x4b, 0x03, 0x04);
      } else if v == EndOfCentralDirectory {
        LittleEndianDigits(b[0], b[1], b[2], b[3], 0x50, 0x4b, 0x05, 0x06);
      } else if v == DataDescriptor {
        LittleEndianDigits(b[0], b[1], b[2], b[3], 0x50, 0x4b, 0x07, 0x08);
      }
    }
  }

  /** Four bytes are determined by their little-endian value. */
  lemma LittleEndianDigits(b0: byte, b1: byte, b2: byte, b3: byte, c0: byte, c1: byte, c2: byte, c3: byte)
    requires b0 + 0x100 * b1 + 0x1_0000 * b2 + 0x100_0000 * b3 == c0 + 0x100 * c1 + 0x1_0000 * c2 + 0x100_0000 * c3
    ensures b0 == c0 && b1 == c1 && b2 == c2 && b3 == c3
  {
    var r1 := (c1 - b1) + 0x100 * (c2 - b2) + 0x1_0000 * (c3 - b3);
    SameDigit(b0 - c0, r1);
    var r2 := (c2 - b2) + 0x100 * (c3 - b3);
    SameDigit(b1 - c1, r2);
    SameDigit(b2 - c2, c3 - b3);
  }

  /** Two digits of base 256 that differ by a multiple of 256 are equal. */
  lemma SameDigit(x: int, r: int)
    requires -0x100 < x < 0x100 && x == 0x100 * r
    ensures x == 0 && r == 0
  {
  }

  /** What sniffMagicType reports. */
  datatype Kind = Gzip | Bzip2 | Zip | Plain | Unknown

  const GzipMagic: seq<byte> := [0x1f, 0x8b]
  const Bzip2Magic: seq<byte> := [0x42, 0x5a, 0x68]

  /** The byte checks of sniffMagicType, in their order. */
  function MagicKind(bytes: seq<byte>): Kind {
    if |bytes| >= 2 && bytes[0] == 0x1f && bytes[1] == 0x8b then Gzip
    else if |bytes| >= 3 && bytes[0] == 0x42 && bytes[1] == 0x5a && bytes[2] == 0x68 then Bzip2
    else if IsZipSignature(bytes) then Zip
    else if |bytes| > 0 then Plain
    else Unknown
  }

  /** sniffMagicType: the first eight bytes of the file are read; a read that fails
      reports unknown. */
  function SniffMagicType(file: seq<byte>, readSucceeds: bool): Kind {
    if readSucceeds then MagicKind(file[..if |file| < 8 then |file| else 8]) else Unknown
  }

  /** Each kind is recognised by its own signature, and the signatures exclude one
      another, so the order of the checks decides nothing. */
  lemma MagicKinds(bytes: seq<byte>)
    ensures MagicKind(bytes) == Gzip <==> StartsWith(bytes, GzipMagic)
    ensures MagicKind(bytes) == Bzip2 <==> StartsWith(bytes, Bzip2Magic)
    ensures MagicKind(bytes) == Zip <==> IsZipSignature(bytes)
    ensures MagicKind(bytes) == Plain
            <==> bytes != [] && !StartsWith(bytes, GzipMagic) && !StartsWith(bytes, Bzip2Magic) && !IsZipSignature(bytes)
    ensures MagicKind(bytes) == Unknown <==> bytes == []
  {
    if |bytes| >= 2 {
      assert StartsWith(bytes, GzipMagic) <==> bytes[0] == 0x1f && bytes[1] == 0x8b by {
        assert bytes[..2] == GzipMagic <==> bytes[..2][0] == 0x1f && bytes[..2][1] == 0x8b;
      }
    }
    if |bytes| >= 3 {
      assert StartsWith(bytes, Bzip2Magic) <==> bytes[0] == 0x42 && bytes[1] == 0x5a && bytes[2] == 0x68 by {
        assert bytes[..3] == Bzip2Magic <==> bytes[..3][0] == 0x42 && bytes[..3][1] == 0x5a && bytes[..3][2] == 0x68;
      }
    }
  }

  /** Eight bytes are enough: the verdict on a readable, non-empty file is the verdict
      on the whole file. */
  lemma EightBytesSuffice(file: seq<byte>)
    requires file != []
    ensures SniffMagicType(file, true) == MagicKind(file)
  {
    var head := file[..if |file| < 8 then |file| else 8];
    assert forall i :: 0 <= i < |head| ==> head[i] == file[i];
  }

  // ---------------------------------------------------------------- server capabilities

  /** The flags getServerCaps reports. */
  datatype Caps = Caps(gzip: bool, zip: bool, bzip2: bool)

  /** A flag is on when the dataset holds exactly "1" for it. */
  predicate Flag(ds: map<string, string>, key: string) {
    key in ds && ds[key] == "1"
  }

  /** getServerCaps: a missing input or dataset reads as an empty dataset. */
  function ServerCaps(dataset: Option<map<string, string>>): Caps {
    var ds := if dataset.Some? then dataset.value else map[];
    Caps(Flag(ds, "capGzip"), Flag(ds, "capZip"), Flag(ds, "capBzip2"))
  }

  /** With no dataset every flag is off, as with an empty one. */
  lemma NoDataset()
    ensures ServerCaps(None) == ServerCaps(Some(map[])) == Caps(false, false, false)
  {
  }

  /** Only the exact string "1" turns a flag on ("true", "01" or "1 " leave it off),
      and each flag reads its own entry alone. */
  lemma FlagIsExactOne(ds: map<string, string>, v: string)
    ensures ServerCaps(Some(ds["capGzip" := v])).gzip <==> v == "1"
    ensures ServerCaps(Some(ds["capZip" := v])).zip <==> v == "1"
    ensures ServerCaps(Some(ds["capBzip2" := v])).bzip2 <==> v == "1"
    ensures ServerCaps(Some(ds["capGzip" := v])).zip == ServerCaps(Some(ds)).zip
    ensures ServerCaps(Some(ds["capZip" := v])).bzip2 == ServerCaps(Some(ds)).bzip2
    ensures ServerCaps(Some(ds["capBzip2" := v])).gzip == ServerCaps(Some(ds)).gzip
  {
  }

  /** Entries other than the three flags change nothing. */
  lemma OtherEntriesIgnored(ds: map<string, string>, k: string, v: string)
    requires k != "capGzip" && k != "capZip" && k != "capBzip2"
    ensures ServerCaps(Some(ds[k := v])) == ServerCaps(Some(ds))
  {
  }
}

=== FILE: copy_text.dfy ===
/** PostgreSQL COPY text format, as far as the export side needs it: the escaping the
    formatter applies to a non-bytea field (PHP's addcslashes with the five characters
    NUL, backslash, newline, carriage return and tab) and, as an independent reference,
    the decoding a server applies to a field of a `COPY ... FROM stdin` data line
    (PostgreSQL documentation, COPY, "Text Format"). */
module CopyText {
  import opened Php

  // ---------------------------------------------------------------- encoding

  /** addcslashes applied to one character with the list "\0\\\n\r\t". */
  function EscapeChar(c: char): string {
    if c == NUL then "\\000"
    else if c == '\\' then "\\\\"
    else if c == '\n' then "\\n"
    else if c == '\r' then "\\r"
    else if c == '\t' then "\\t"
    else [c]
  }

  /** addcslashes($v, "\0\\\n\r\t") */
  function Escape(s: string): string {
    if s == [] then [] else EscapeChar(s[0]) + Escape(s[1..])
  }

  // ---------------------------------------------------------------- decoding (reference)

  predicate IsOctal(c: char) { '0' <= c <= '7' }

  predicate IsHex(c: char) { ('0' <= c <= '9') || ('a' <= c <= 'f') || ('A' <= c <= 'F') }

  function HexDigitValue(c: char): nat
    requires IsHex(c)
  {
    if '0' <= c <= '9' then c as nat - '0' as nat
    else if 'a' <= c <= 'f' then c as nat - 'a' as nat + 10
    else c as nat - 'A' as nat + 10
  }

  /** The number of leading octal digits of `s`, at most `max`. */
  function OctalRun(s: string, max: nat): (n: nat)
    ensures n <= max && n <= |s|
  {
    if max == 0 || s == [] || !IsOctal(s[0]) then 0 else 1 + OctalRun(s[1..], max - 1)
  }

  /** The value of a run of octal digits. */
  function OctalValue(s: string): int {
    if s == [] then 0 else OctalValue(s[..|s| - 1]) * 8 + (s[|s| - 1] as int - '0' as int)
  }

  /** The character a backslash followed by `c` stands for, when `c` is not a digit or `x`. */
  function SimpleEscape(c: char): char {
    if c == 'b' then '\U{0008}'
    else if c == 'f' then FF
    else if c == 'n' then '\n'
    else if c == 'r' then '\r'
    else if c == 't' then '\t'
    else if c == 'v' then VT
    else c
  }

  /** How the server reads the text of one field: backslash escapes for b f n r t v,
      one to three octal digits, `x` with one or two hex digits, and any other
      backslashed character standing for itself. */
  function Decode(s: string): string
    decreases |s|
  {
    if s == [] then []
    else if s[0] != '\\' || |s| == 1 then [s[0]] + Decode(s[1..])
    else if IsOctal(s[1]) then
      var n := OctalRun(s[1..], 3);
      [(OctalValue(s[1..1 + n]) % 256) as char] + Decode(s[1 + n..])
    else if s[1] == 'x' && |s| >= 3 && IsHex(s[2]) then
      var n := if |s| >= 4 && IsHex(s[3]) then 2 else 1;
      var v := if n == 2 then HexDigitValue(s[2]) * 16 + HexDigitValue(s[3]) else HexDigitValue(s[2]);
      [v as char] + Decode(s[2 + n..])
    else [SimpleEscape(s[1])] + Decode(s[2..])
  }

  /** One field of a data line: `\N` is NULL, anything else is decoded text. */
  function DecodeField(f: string): Option<string> {
    if f == "\\N" then None else Some(Decode(f))
  }

  /** How the server splits one data line (terminated by a newline) into fields. */
  function ParseLine(line: string): seq<Option<string>> {
    var body := if |line| > 0 && line[|line| - 1] == '\n' then line[..|line| - 1] else line;
    var fields := Split(body, '\t');
    seq(|fields|, k requires 0 <= k < |fields| => DecodeField(fields[k]))
  }

  // ---------------------------------------------------------------- properties

  lemma OctalRunOfZeros(t: string)
    ensures OctalRun("000" + t, 3) == 3
  {
    var u := "000" + t;
    assert u[0] == '0' && u[1..] == "00" + t;
    assert u[1..][0] == '0' && u[1..][1..] == "0" + t;
    assert u[1..][1..][0] == '0';
    assert OctalRun(u[1..][1..], 1) == 1 + OctalRun(u[1..][1..][1..], 0);
  }

  lemma DecodeOctalNul(t: string)
    ensures Decode("\\000" + t) == [NUL] + Decode(t)
  {
    var s := "\\000" + t;
    assert s[1..] == "000" + t;
    OctalRunOfZeros(t);
    assert s[1..4] == "000";
    assert OctalValue("000") == 0 by {
      assert "000"[..2] == "00";
      assert "00"[..1] == "0";
      assert "0"[..0] == "";
    }
    assert s[4..] == t;
  }

  lemma DecodeSimpleEscape(e: char, t: string)
    requires e == '\\' || e == 'n' || e == 'r' || e == 't'
    ensures Decode(['\\', e] + t) == [SimpleEscape(e)] + Decode(t)
  {
    var s := ['\\', e] + t;
    assert s[0] == '\\' && s[1] == e;
    assert s[2..] == t;
  }

  lemma DecodePlain(c: char, t: string)
    requires c != '\\'
    ensures Decode([c] + t) == [c] + Decode(t)
  {
    assert ([c] + t)[1..] == t;
  }

  lemma DecodeEscapeChar(c: char, t: string)
    ensures Decode(EscapeChar(c) + t) == [c] + Decode(t)
  {
    if c == NUL {
      DecodeOctalNul(t);
    } else if c == '\\' {
      DecodeSimpleEscape('\\', t);
    } else if c == '\n' {
      DecodeSimpleEscape('n', t);
    } else if c == '\r' {
      DecodeSimpleEscape('r', t);
    } else if c == '\t' {
      DecodeSimpleEscape('t', t);
    } else {
      DecodePlain(c, t);
    }
  }

  /** Decoding undoes the escaping: the server reads back exactly the value exported. */
  lemma {:induction false} DecodeEscape(s: string)
    ensures Decode(Escape(s)) == s
  {
    if s != [] {
      DecodeEscapeChar(s[0], Escape(s[1..]));
      DecodeEscape(s[1..]);
    }
  }

  /** An escaped value holds no raw tab and no raw newline. */
  lemma {:induction false} EscapeHasNoSeparators(s: string)
    ensures '\t' !in Escape(s) && '\n' !in Escape(s)
  {
    if s != [] {
      EscapeHasNoSeparators(s[1..]);
      assert Escape(s) == EscapeChar(s[0]) + Escape(s[1..]);
    }
  }

  /** An escaped value is never the NULL marker `\N`: a backslash it contains is
      always followed by 0, a backslash, n, r or t. */
  lemma EscapeIsNotNullMarker(s: string)
    ensures Escape(s) != "\\N"
  {
    if s != [] {
      var e := Escape(s);
      var h := EscapeChar(s[0]);
      assert e == h + Escape(s[1..]);
      assert e[0] == h[0];
      if |h| == 1 {
        assert h[0] == s[0] && s[0] != '\\';
      } else {
        assert e[1] == h[1];
      }
    }
  }

  lemma DecodeFieldEscape(s: string)
    ensures DecodeField(Escape(s)) == Some(s)
  {
    EscapeIsNotNullMarker(s);
    DecodeEscape(s);
  }
}

=== FILE: dependency_graph.dfy ===
/** The dependency graph that orders database objects so that every object is created
    after the objects it depends on.  The graph's own implementation is not part of this
    model; its behaviour is specified from the unit tests that exercise it: a topological
    order that keeps every dependency ahead of its dependents, a report of the objects
    that cannot be ordered because of a cycle, and the position queries used to decide
    whether a reference has to be deferred. */
module DependencyGraphs {
  import opened Php
  import opened ObjectNodes

  /** The dependency lists of the nodes, by oid. */
  type DepMap = map<string, seq<string>>

  function DepsOf(deps: DepMap, o: string): seq<string> {
    if o in deps then deps[o] else []
  }

  function Members(s: seq<string>): set<string> {
    set x | x in s
  }

  /** `o` may be placed once every known object it depends on is placed; dependencies on
      objects outside the graph do not hold anything back. */
  predicate Ready(o: string, placed: set<string>, known: set<string>, deps: DepMap) {
    forall d :: d in DepsOf(deps, o) && d in known ==> d in placed
  }

  /** The index of the first ready node of `rem`, or |rem| when none is ready. */
  function FirstReady(rem: seq<string>, placed: set<string>, known: set<string>, deps: DepMap): (i: nat)
    ensures i <= |rem|
    ensures i < |rem| ==> Ready(rem[i], placed, known, deps)
  {
    if rem == [] then 0
    else if Ready(rem[0], placed, known, deps) then 0
    else 1 + FirstReady(rem[1..], placed, known, deps)
  }

  function Remove(s: seq<string>, i: nat): seq<string>
    requires i < |s|
  {
    s[..i] + s[i + 1..]
  }

  /** A topological order: the nodes that could be ordered, then the nodes held back
      by a circular dependency, in insertion order. */
  datatype Ordering = Ordering(placed: seq<string>, circular: seq<string>) {
    function All(): seq<string> { placed + circular }
  }

  /** Repeatedly take the earliest-inserted node whose dependencies are all placed; what
      is left when no node is ready is circular.  Every node comes out as often as it
      went in. */
  function Place(rem: seq<string>, placed: set<string>, known: set<string>, deps: DepMap): (r: Ordering)
    ensures multiset(r.All()) == multiset(rem)
    decreases |rem|
  {
    var i := FirstReady(rem, placed, known, deps);
    if i == |rem| then Ordering([], rem)
    else
      var x := rem[i];
      var rest := Place(Remove(rem, i), placed + {x}, known, deps);
      RemoveMultiset(rem, i);
      assert multiset([x] + rest.All()) == multiset{x} + multiset(rest.All());
      Ordering([x] + rest.placed, rest.circular)
  }

  /** The order topologicalSort produces for nodes inserted in `order`: a permutation
      of them, without duplicates when they were added without duplicates. */
  function Sort(order: seq<string>, deps: DepMap): (r: Ordering)
    ensures multiset(r.All()) == multiset(order)
  {
    Place(order, {}, Members(order), deps)
  }

  /** Each placed node is ready once the nodes before it are placed. */
  predicate PlacedInOrder(p: seq<string>, placed: set<string>, known: set<string>, deps: DepMap) {
    forall k :: 0 <= k < |p| ==> Ready(p[k], placed + Members(p[..k]), known, deps)
  }

  /** Every member of `s` depends on a member of `s`: no member can ever be placed. */
  predicate Stuck(s: set<string>, deps: DepMap) {
    forall x {:trigger DepsOf(deps, x)} :: x in s ==> exists d :: d in DepsOf(deps, x) && d in s
  }

  /** A non-empty stuck set of nodes of the graph: what a circular dependency leaves. */
  predicate HasStuckSet(s: set<string>, order: seq<string>, deps: DepMap) {
    s != {} && s <= Members(order) && Stuck(s, deps)
  }

  // ---------------------------------------------------------------- properties of Place

  lemma RemoveMultiset(s: seq<string>, i: nat)
    requires i < |s|
    ensures multiset(s) == multiset(Remove(s, i)) + multiset{s[i]}
  {
    assert s == s[..i] + [s[i]] + s[i + 1..];
  }

  lemma RemoveMembers(s: seq<string>, i: nat)
    requires i < |s|
    ensures Members(s) == Members(Remove(s, i)) + {s[i]}
  {
    assert s == s[..i] + [s[i]] + s[i + 1..];
    forall y
      ensures y in Members(s) <==> y in Members(Remove(s, i)) + {s[i]}
    {
      assert y in s <==> y in s[..i] || y == s[i] || y in s[i + 1..];
    }
  }

  lemma MembersCons(x: string, t: seq<string>, k: nat)
    requires 0 < k <= |t| + 1
    ensures Members(([x] + t)[..k]) == {x} + Members(t[..k - 1])
  {
    assert ([x] + t)[..k] == [x] + t[..k - 1];
  }

  lemma DisjointCons(x: string, t: seq<string>, s: set<string>)
    requires x !in s && s !! Members(t)
    ensures s !! Members([x] + t)
  {
    assert Members([x] + t) == {x} + Members(t);
  }

  /** No node before the one FirstReady finds is ready. */
  lemma {:induction false} FirstReadyIsFirst(rem: seq<string>, placed: set<string>, known: set<string>, deps: DepMap)
    ensures forall j :: 0 <= j < FirstReady(rem, placed, known, deps) ==> !Ready(rem[j], placed, known, deps)
  {
    if rem != [] && !Ready(rem[0], placed, known, deps) {
      FirstReadyIsFirst(rem[1..], placed, known, deps);
      forall j | 1 <= j < FirstReady(rem, placed, known, deps)
        ensures !Ready(rem[j], placed, known, deps)
      {
        assert rem[j] == rem[1..][j - 1];
      }
    }
  }

  /** Every placed node comes after the known nodes it depends on. */
  lemma {:induction false} PlaceRespectsDependencies(rem: seq<string>, placed: set<string>, known: set<string>, deps: DepMap)
    ensures PlacedInOrder(Place(rem, placed, known, deps).placed, placed, known, deps)
    decreases |rem|
  {
    var i := FirstReady(rem, placed, known, deps);
    if i < |rem| {
      var x := rem[i];
      PlaceRespectsDependencies(Remove(rem, i), placed + {x}, known, deps);
      PlaceUnfold(rem, placed, known, deps);
      PlacedInOrderCons(x, Place(Remove(rem, i), placed + {x}, known, deps).placed, placed, known, deps);
    } else {
      assert Place(rem, placed, known, deps).placed == [];
    }
  }

  /** A ready node followed by nodes placed in order after it is placed in order. */
  lemma PlacedInOrderCons(x: string, t: seq<string>, placed: set<string>, known: set<string>, deps: DepMap)
    requires Ready(x, placed, known, deps) && PlacedInOrder(t, placed + {x}, known, deps)
    ensures PlacedInOrder([x] + t, placed, known, deps)
  {
    var p := [x] + t;
    forall k | 0 <= k < |p|
      ensures Ready(p[k], placed + Members(p[..k]), known, deps)
    {
      if k == 0 {
        assert Members(p[..0]) == {};
        assert placed + Members(p[..0]) == placed;
      } else {
        MembersCons(x, t, k);
        assert p[k] == t[k - 1];
        assert placed + Members(p[..k]) == placed + {x} + Members(t[..k - 1]);
      }
    }
  }

  /** When no node is ready, the remaining nodes form a stuck set. */
  lemma NoneReadyIsStuck(rem: seq<string>, placed: set<string>, known: set<string>, deps: DepMap)
    requires known == placed + Members(rem)
    requires FirstReady(rem, placed, known, deps) == |rem|
    ensures Stuck(Members(rem), deps)
  {
    FirstReadyIsFirst(rem, placed, known, deps);
    forall y | y in Members(rem)
      ensures exists d :: d in DepsOf(deps, y) && d in Members(rem)
    {
      var j :| 0 <= j < |rem| && rem[j] == y;
      assert !Ready(rem[j], placed, known, deps);
    }
  }

  /** The nodes held back as circular form a stuck set. */
  lemma {:induction false} PlaceCircularIsStuck(rem: seq<string>, placed: set<string>, known: set<string>, deps: DepMap)
    requires known == placed + Members(rem)
    ensures Stuck(Members(Place(rem, placed, known, deps).circular), deps)
    decreases |rem|
  {
    var i := FirstReady(rem, placed, known, deps);
    if i < |rem| {
      RemoveMembers(rem, i);
      PlaceCircularIsStuck(Remove(rem, i), placed + {rem[i]}, known, deps);
    } else {
      NoneReadyIsStuck(rem, placed, known, deps);
    }
  }

  /** One step of Place: the first ready node goes out ahead of the rest. */
  lemma PlaceUnfold(rem: seq<string>, placed: set<string>, known: set<string>, deps: DepMap)
    requires FirstReady(rem, placed, known, deps) < |rem|
    ensures var i := FirstReady(rem, placed, known, deps);
      var rest := Place(Remove(rem, i), placed + {rem[i]}, known, deps);
      Place(rem, placed, known, deps) == Ordering([rem[i]] + rest.placed, rest.circular)
  {
  }

  /** A ready node is not in a stuck set of known nodes none of which is placed. */
  lemma ReadyNotStuck(x: string, placed: set<string>, known: set<string>, deps: DepMap, stuck: set<string>)
    requires Ready(x, placed, known, deps)
    requires stuck !! placed && stuck <= known && Stuck(stuck, deps)
    ensures x !in stuck
  {
  }

  /** A stuck set of known nodes none of which is placed yet is never placed. */
  lemma {:induction false} PlaceLeavesStuckSet(rem: seq<string>, placed: set<string>, known: set<string>, deps: DepMap, stuck: set<string>)
    requires stuck !! placed && stuck <= known && Stuck(stuck, deps)
    ensures stuck !! Members(Place(rem, placed, known, deps).placed)
    decreases |rem|
  {
    var i := FirstReady(rem, placed, known, deps);
    if i < |rem| {
      var x := rem[i];
      ReadyNotStuck(x, placed, known, deps, stuck);
      PlaceLeavesStuckSet(Remove(rem, i), placed + {x}, known, deps, stuck);
      PlaceUnfold(rem, placed, known, deps);
      DisjointCons(x, Place(Remove(rem, i), placed + {x}, known, deps).placed, stuck);
    } else {
      assert Members([]) == {};
    }
  }

  // ---------------------------------------------------------------- properties of Sort

  /** Outside a cycle, a node is sorted after every node of the graph it depends on. */
  lemma SortPlacesDependenciesFirst(order: seq<string>, deps: DepMap)
    ensures PlacedInOrder(Sort(order, deps).placed, {}, Members(order), deps)
  {
    PlaceRespectsDependencies(order, {}, Members(order), deps);
  }

  /** Every node reported as circular depends on another node reported as circular. */
  lemma SortCircularIsStuck(order: seq<string>, deps: DepMap)
    ensures Stuck(Members(Sort(order, deps).circular), deps)
  {
    PlaceCircularIsStuck(order, {}, Members(order), deps);
  }

  /** Every node of a stuck set -- in particular every node on a cycle -- is reported
      as circular. */
  lemma SortReportsStuckSet(order: seq<string>, deps: DepMap, stuck: set<string>)
    requires stuck <= Members(order) && Stuck(stuck, deps)
    ensures stuck <= Members(Sort(order, deps).circular)
  {
    var r := Sort(order, deps);
    PlaceLeavesStuckSet(order, {}, Members(order), deps, stuck);
    forall x | x in stuck
      ensures x in r.circular
    {
      assert x in multiset(order);
      assert x in multiset(r.All());
    }
  }

  /** There is a circular dependency exactly when the graph holds a non-empty stuck set. */
  lemma SortCircularIffStuckSet(order: seq<string>, deps: DepMap)
    ensures Sort(order, deps).circular != [] <==> exists stuck :: HasStuckSet(stuck, order, deps)
  {
    var r := Sort(order, deps);
    if r.circular != [] {
      var stuck := Members(r.circular);
      assert r.circular[0] in stuck;
      SortCircularIsStuck(order, deps);
      forall x | x in stuck
        ensures x in order
      {
        assert x in multiset(r.All());
      }
      assert HasStuckSet(stuck, order, deps);
    }
    if exists stuck :: HasStuckSet(stuck, order, deps) {
      var stuck :| HasStuckSet(stuck, order, deps);
      var y :| y in stuck;
      SortReportsStuckSet(order, deps, stuck);
      assert y in r.circular;
    }
  }

  /** `rank` numbers the known nodes so that every dependency between them goes to a
      lower number: the dependencies among the known nodes have no cycle. */
  predicate RankedBy(deps: DepMap, known: set<string>, rank: map<string, nat>) {
    known <= rank.Keys &&
    forall x, d :: x in known && d in known && d in DepsOf(deps, x) ==> rank[d] < rank[x]
  }

  /** A sequence without duplicates has as many members as elements. */
  lemma {:induction false} MembersCount(s: seq<string>)
    requires NoDuplicates(s)
    ensures |Members(s)| == |s|
  {
    if s != [] {
      var t := s[..|s| - 1];
      var x := s[|s| - 1];
      assert s == t + [x];
      assert multiset(s) == multiset(t) + multiset{x};
      assert NoDuplicates(t) by {
        forall y | y in t
          ensures multiset(t)[y] <= 1
        {
          assert y in s;
        }
      }
      assert multiset(s)[x] == multiset(t)[x] + 1;
      MembersCount(t);
      assert Members(s) == Members(t) + {x};
    }
  }

  /** A sequence has at least as many elements as members. */
  lemma {:induction false} MembersAtMost(s: seq<string>)
    ensures |Members(s)| <= |s|
  {
    if s != [] {
      MembersAtMost(s[1..]);
      assert Members(s) == {s[0]} + Members(s[1..]);
    }
  }

  /** A node of lowest rank in a non-empty set. */
  lemma {:induction false} LowestRanked(s: set<string>, rank: map<string, nat>) returns (m: string)
    requires s != {} && s <= rank.Keys
    ensures m in s && forall y :: y in s ==> rank[m] <= rank[y]
    decreases |s|
  {
    var y :| y in s;
    if s == {y} {
      m := y;
    } else {
      var m' := LowestRanked(s - {y}, rank);
      m := if rank[y] <= rank[m'] then y else m';
    }
  }

  /** Without a cycle there is no stuck set: its lowest-ranked member would depend on a
      member of lower rank. */
  lemma RankedHasNoStuckSet(s: set<string>, deps: DepMap, known: set<string>, rank: map<string, nat>)
    requires RankedBy(deps, known, rank) && s != {} && s <= known
    ensures !Stuck(s, deps)
  {
    var m := LowestRanked(s, rank);
    assert m in s;
  }

  /** Nodes whose dependencies have no cycle are all placed: nothing is circular. */
  lemma SortRankedHasNoCircular(order: seq<string>, deps: DepMap, rank: map<string, nat>)
    requires RankedBy(deps, Members(order), rank)
    ensures Sort(order, deps).circular == []
  {
    SortCircularIffStuckSet(order, deps);
    if exists stuck :: HasStuckSet(stuck, order, deps) {
      var stuck :| HasStuckSet(stuck, order, deps);
      RankedHasNoStuckSet(stuck, deps, Members(order), rank);
      assert false;
    }
  }

  /** When the first node inserted has no dependency inside the graph, it is sorted first. */
  lemma SortStartsWithFirstRoot(order: seq<string>, deps: DepMap)
    requires order != []
    requires forall d :: d in DepsOf(deps, order[0]) ==> d !in order
    ensures Sort(order, deps).placed != [] && Sort(order, deps).placed[0] == order[0]
  {
    assert Ready(order[0], {}, Members(order), deps);
  }

  /** The sorted list and the circular list hold only inserted nodes. */
  lemma SortMembers(order: seq<string>, deps: DepMap)
    ensures Members(Sort(order, deps).All()) == Members(order)
    ensures Members(Sort(order, deps).circular) <= Members(order)
    ensures NoDuplicates(order) ==> NoDuplicates(Sort(order, deps).All())
  {
    var r := Sort(order, deps);
    forall x
      ensures x in Members(r.All()) <==> x in Members(order)
    {
      assert x in r.All() <==> x in multiset(r.All());
      assert x in order <==> x in multiset(order);
    }
    assert Members(r.circular) <= Members(r.All());
  }

  // ---------------------------------------------------------------- the graph

  /** The index of the first ready node, found by a scan: the loop the sort repeats. */
  method FindReady(rem: seq<string>, placed: set<string>, known: set<string>, deps: DepMap) returns (i: nat)
    ensures i == FirstReady(rem, placed, known, deps)
  {
    i := 0;
    while i < |rem| && !Ready(rem[i], placed, known, deps)
      invariant i <= |rem|
      invariant FirstReady(rem, placed, known, deps) == i + FirstReady(rem[i..], placed, known, deps)
    {
      assert rem[i..][1..] == rem[i + 1..];
      i := i + 1;
    }
  }

  /** The dependency lists held by the nodes of `ns`. */
  lemma AppendNew(s: seq<string>, x: string)
    requires NoDuplicates(s) && x !in Members(s)
    ensures NoDuplicates(s + [x]) && Members(s + [x]) == Members(s) + {x}
  {
    assert multiset(s + [x]) == multiset(s) + multiset{x};
  }

  /** The sort loop: place ready nodes one at a time until none is ready. */
  method ComputeOrder(order: seq<string>, deps: DepMap) returns (r: Ordering)
    ensures r == Sort(order, deps)
  {
    var known := Members(order);
    var remaining := order;
    var placed: set<string> := {};
    var result: seq<string> := [];
    while true
      invariant Sort(order, deps).placed == result + Place(remaining, placed, known, deps).placed
      invariant Sort(order, deps).circular == Place(remaining, placed, known, deps).circular
      decreases |remaining|
    {
      var i := FindReady(remaining, placed, known, deps);
      if i == |remaining| {
        break;
      }
      var x := remaining[i];
      ghost var rest := Place(Remove(remaining, i), placed + {x}, known, deps);
      PlaceUnfold(remaining, placed, known, deps);
      AppendAssoc(result, [x], rest.placed);
      result := result + [x];
      placed := placed + {x};
      remaining := Remove(remaining, i);
    }
    r := Ordering(result, remaining);
  }

  class DependencyGraph {
    /** Oids in insertion order. */
    var order: seq<string>
    var nodes: map<string, ObjectNode>
    /** The oids in the order the last topologicalSort produced. */
    var sortedOids: seq<string>
    /** The oids the last topologicalSort could not order. */
    var circular: seq<string>
    /** The node objects of the graph. */
    ghost var Repr: set<object>
    /** The dependency lists the last topologicalSort ordered the nodes by. */
    ghost var deps: DepMap

    ghost predicate Valid()
      reads this`Repr, this`nodes, this`order
    {
      this !in Repr &&
      (forall o :: o in nodes ==> nodes[o] in Repr && nodes[o].oid == o) &&
      NoDuplicates(order) && Members(order) == nodes.Keys
    }

    /** `deps` still holds the dependency list of every node. */
    ghost predicate Current()
      reads this`Repr, this`nodes, this`order, this`deps, Repr
    {
      Valid() && deps.Keys == nodes.Keys &&
      forall o :: o in nodes ==> nodes[o].dependencies == DepsOf(deps, o)
    }

    /** The graph as the last sort left it: positions written, nothing added since. */
    ghost predicate Sorted()
      reads this, Repr
    {
      Current() &&
      sortedOids == Sort(order, deps).All() && circular == Sort(order, deps).circular &&
      Members(sortedOids) <= nodes.Keys && Members(circular) <= nodes.Keys &&
      forall k :: 0 <= k < |sortedOids| ==> nodes[sortedOids[k]].position == k
    }

    constructor ()
      ensures Valid() && order == [] && nodes == map[] && sortedOids == [] && circular == []
      ensures Repr == {}
    {
      Repr := {};
      deps := map[];
      order := [];
      nodes := map[];
      sortedOids := [];
      circular := [];
    }

    /** addNode: the node is stored under its oid; a node added again under an oid
        already present replaces the earlier one and keeps its place in the order. */
    method AddNode(node: ObjectNode)
      requires Valid()
      modifies this
      ensures Valid()
      ensures nodes == old(nodes)[node.oid := node]
      ensures order == if node.oid in old(nodes) then old(order) else old(order) + [node.oid]
      ensures sortedOids == old(sortedOids) && circular == old(circular) && Repr == old(Repr) + {node}
    {
      if node.oid !in nodes {
        AppendNew(order, node.oid);
        order := order + [node.oid];
      }
      nodes := nodes[node.oid := node];
      Repr := Repr + {node};
    }

    /** addEdge: `from` depends on `to`; recorded on the dependent node when both
        endpoints are in the graph. */
    method AddEdge(from: string, to: string)
      requires Valid()
      modifies if from in nodes then {nodes[from]} else {}
      ensures from in nodes && to in nodes ==>
                nodes[from].dependencies == WithDependency(old(nodes[from].dependencies), to)
      ensures forall o :: o in nodes && (o != from || to !in nodes) ==>
                nodes[o].dependencies == old(nodes[o].dependencies)
      ensures forall o :: o in nodes ==> nodes[o].position == old(nodes[o].position)
    {
      if from in nodes && to in nodes {
        nodes[from].AddDependency(to);
      }
    }

    /** topologicalSort: the nodes in Sort order, each with its index written as its
        position. */
    method TopologicalSort() returns (sorted: seq<ObjectNode>)
      requires Valid()
      modifies this, Repr
      ensures Sorted()
      ensures nodes == old(nodes) && order == old(order) && Repr == old(Repr)
      ensures forall o :: o in nodes ==> nodes[o].dependencies == old(nodes[o].dependencies)
      ensures |sorted| == |sortedOids| && forall k :: 0 <= k < |sorted| ==> sorted[k] == nodes[sortedOids[k]]
    {
      var snapshot := TakeSnapshot();
      StoreOrder(snapshot);
      SortMembers(order, deps);
      sorted := WritePositions();
    }

    /** Reads the dependency list of every node and records it as the one the sort
        goes by. */
    method TakeSnapshot() returns (snapshot: DepMap)
      requires Valid()
      modifies this
      ensures Current() && snapshot == deps
      ensures nodes == old(nodes) && order == old(order) && Repr == old(Repr)
    {
      snapshot := Snapshot();
      deps := snapshot;
    }

    /** Runs the sort loop over the recorded dependency lists and keeps its outcome. */
    method StoreOrder(snapshot: DepMap)
      requires snapshot == deps
      modifies this`sortedOids, this`circular
      ensures sortedOids == Sort(order, deps).All() && circular == Sort(order, deps).circular
    {
      var r := ComputeOrder(order, snapshot);
      sortedOids, circular := r.All(), r.circular;
    }

    /** The dependency list of every node, read off the nodes. */
    method Snapshot() returns (d: DepMap)
      requires Valid()
      ensures d.Keys == nodes.Keys && forall o :: o in nodes ==> nodes[o].dependencies == DepsOf(d, o)
    {
      d := map o | o in nodes :: nodes[o].dependencies;
    }

    /** Writes each sorted node's index into its position. */
    method WritePositions() returns (sorted: seq<ObjectNode>)
      requires Current() && NoDuplicates(sortedOids) && Members(sortedOids) <= nodes.Keys
      modifies Repr
      ensures unchanged(this) && Current()
      ensures |sorted| == |sortedOids|
      ensures forall k :: 0 <= k < |sorted| ==> sorted[k] == nodes[sortedOids[k]] && sorted[k].position == k
    {
      var so := sortedOids;
      sorted := [];
      var k := 0;
      while k < |so|
        invariant k <= |so|
        invariant Current()
        invariant |sorted| == k
        invariant forall j :: 0 <= j < k ==> sorted[j] == nodes[so[j]] && sorted[j].position == j
      {
        var n := nodes[so[k]];
        forall j | 0 <= j < k
          ensures sorted[j] != n
        {
          NoDuplicatesIndices(so, j, k);
        }
        n.position := k;
        sorted := sorted + [n];
        k := k + 1;
      }
    }

    /** getPosition: the node's position, -1 for an oid not in the graph. */
    function GetPosition(oid: string): (p: int)
      requires Valid()
      reads this, Repr
      ensures oid !in nodes ==> p == -1
    {
      if oid in nodes then nodes[oid].position else -1
    }

    /** shouldDefer: a reference from `from` to `to` has to be deferred when `to` is
        created after `from`. */
    predicate ShouldDefer(from: string, to: string)
      requires Valid()
      reads this, Repr
    {
      GetPosition(to) > GetPosition(from)
    }

    predicate HasCircularDependencies()
      reads this
    {
      circular != []
    }

    function GetCircularNodes(): (r: seq<ObjectNode>)
      requires Valid() && Members(circular) <= nodes.Keys
      reads this
      ensures |r| == |circular| && forall k :: 0 <= k < |r| ==> r[k].oid == circular[k]
    {
      var c := circular;
      var ns := nodes;
      seq(|c|, k requires 0 <= k < |c| && c[k] in ns => ns[c[k]])
    }
  }

  // ---------------------------------------------------------------- properties of a sorted graph

  /** After a sort, each node's position is its index in the sorted list. */
  lemma SortedPosition(g: DependencyGraph, a: string)
    requires g.Sorted() && a in g.nodes
    ensures 0 <= g.GetPosition(a) < |g.sortedOids| && g.sortedOids[g.GetPosition(a)] == a
  {
    assert a in multiset(g.order);
    assert a in multiset(g.sortedOids);
    var k :| 0 <= k < |g.sortedOids| && g.sortedOids[k] == a;
  }

  /** After a sort, positions are non-negative and distinct. */
  lemma SortedPositionsDistinct(g: DependencyGraph, a: string, b: string)
    requires g.Sorted() && a in g.nodes && b in g.nodes && a != b
    ensures g.GetPosition(a) >= 0 && g.GetPosition(b) >= 0 && g.GetPosition(a) != g.GetPosition(b)
  {
    SortedPosition(g, a);
    SortedPosition(g, b);
  }

  /** After a sort, a node outside any cycle is positioned after each node of the graph it
      depends on, so a reference to a dependency never has to be deferred. */
  lemma SortedDependencyFirst(g: DependencyGraph, a: string, d: string)
    requires g.Sorted() && a in g.nodes && a !in g.circular
    requires d in DepsOf(g.deps, a) && d in g.nodes
    ensures g.GetPosition(d) < g.GetPosition(a) && !g.ShouldDefer(a, d)
  {
    var r := Sort(g.order, g.deps);
    SortedPosition(g, a);
    var k := g.GetPosition(a);
    assert k < |r.placed| && r.placed[k] == a;
    SortPlacesDependenciesFirst(g.order, g.deps);
    var j := PlacedDependencyEarlier(r.placed, Members(g.order), g.deps, k, d);
    assert g.sortedOids[j] == d;
  }

  /** In a list placed in order, a known dependency of a node comes before it. */
  lemma PlacedDependencyEarlier(p: seq<string>, known: set<string>, deps: DepMap, k: nat, d: string) returns (j: nat)
    requires PlacedInOrder(p, {}, known, deps) && k < |p|
    requires d in DepsOf(deps, p[k]) && d in known
    ensures j < k && p[j] == d
  {
    assert Ready(p[k], {} + Members(p[..k]), known, deps);
    assert d in Members(p[..k]);
    j :| 0 <= j < k && p[..k][j] == d;
  }

  /** After a sort, a circular dependency is reported exactly when the graph holds a
      non-empty set of nodes each depending on another member, such as a cycle. */
  lemma SortedCircularIffStuckSet(g: DependencyGraph)
    requires g.Sorted()
    ensures g.HasCircularDependencies() <==> exists stuck :: HasStuckSet(stuck, g.order, g.deps)
  {
    SortCircularIffStuckSet(g.order, g.deps);
  }

  /** After a sort of a graph without cycles nothing is circular and every node has a
      position. */
  lemma SortedRankedIsComplete(g: DependencyGraph, rank: map<string, nat>)
    requires g.Sorted() && RankedBy(g.deps, g.nodes.Keys, rank)
    ensures !g.HasCircularDependencies() && |g.sortedOids| == |g.nodes|
  {
    SortRankedHasNoCircular(g.order, g.deps, rank);
    assert |multiset(g.sortedOids)| == |multiset(g.order)|;
    MembersCount(g.order);
  }

  /** After a sort, the first node added is at position 0 when it depends on no node of
      the graph. */
  lemma SortedFirstRoot(g: DependencyGraph)
    requires g.Sorted() && g.order != []
    requires forall d :: d in DepsOf(g.deps, g.order[0]) ==> d !in g.nodes
    ensures g.GetPosition(g.order[0]) == 0
  {
    var a := g.order[0];
    assert a in g.nodes;
    SortStartsWithFirstRoot(g.order, g.deps);
    SortedPosition(g, a);
    var k := g.GetPosition(a);
    if k != 0 {
      NoDuplicatesIndices(g.sortedOids, 0, k);
    }
  }

  /** After a sort, the circular list holds distinct nodes of the graph. */
  lemma SortedCircularCount(g: DependencyGraph)
    requires g.Sorted()
    ensures |g.circular| <= |g.nodes|
  {
    SortMembers(g.order, g.deps);
    assert |multiset(g.sortedOids)| == |multiset(g.order)|;
    MembersCount(g.order);
  }

  /** After a sort of a graph without cycles, every node comes after each node it
      depends on. */
  lemma SortedRankedEdge(g: DependencyGraph, rank: map<string, nat>, a: string, d: string)
    requires g.Sorted() && RankedBy(g.deps, g.nodes.Keys, rank)
    requires a in g.nodes && d in g.nodes && d in DepsOf(g.deps, a)
    ensures g.GetPosition(d) < g.GetPosition(a)
  {
    SortedRankedIsComplete(g, rank);
    SortedDependencyFirst(g, a, d);
  }
}

=== FILE: dependency_graph_scenarios.dfy ===
/** The unit-test scenarios of the dependency graph, stated on the model: each lemma
    takes a sorted graph holding the nodes and edges the test adds and ensures what the
    test asserts. */
module DependencyGraphScenarios {
  import opened ObjectNodes
  import opened DependencyGraphs

  lemma ChainRanked(deps: DepMap, a: string, b: string, c: string)
    requires a != b && b != c && a != c
    requires DepsOf(deps, a) == [b] && DepsOf(deps, b) == [c] && DepsOf(deps, c) == []
    ensures RankedBy(deps, {a, b, c}, map[a := 2, b := 1, c := 0])
  {
  }

  /** A chain a -> b -> c (a depends on b, b on c) sorts as c, b, a. */
  lemma SortedChain(g: DependencyGraph, a: string, b: string, c: string)
    requires g.Sorted() && a != b && b != c && a != c && g.nodes.Keys == {a, b, c}
    requires DepsOf(g.deps, a) == [b] && DepsOf(g.deps, b) == [c] && DepsOf(g.deps, c) == []
    ensures g.sortedOids == [c, b, a]
  {
    ChainRanked(g.deps, a, b, c);
    SortedRankedIsComplete(g, map[a := 2, b := 1, c := 0]);
    SortedDependencyFirst(g, a, b);
    SortedDependencyFirst(g, b, c);
    SortedPosition(g, a);
    SortedPosition(g, b);
    SortedPosition(g, c);
    InOrder3(g.sortedOids, c, b, a, g.GetPosition(c), g.GetPosition(b), g.GetPosition(a));
  }

  lemma InOrder3(s: seq<string>, x: string, y: string, z: string, i: int, j: int, k: int)
    requires |s| == 3 && 0 <= i < j < k < 3 && s[i] == x && s[j] == y && s[k] == z
    ensures s == [x, y, z]
  {
  }

  /** A single edge, a depending on b: b is sorted first whichever was added first. */
  lemma SortedSingleEdge(g: DependencyGraph, a: string, b: string)
    requires g.Sorted() && a != b && g.nodes.Keys == {a, b}
    requires DepsOf(g.deps, a) == [b] && DepsOf(g.deps, b) == []
    ensures g.sortedOids == [b, a]
  {
    assert RankedBy(g.deps, {a, b}, map[a := 1, b := 0]);
    SortedRankedIsComplete(g, map[a := 1, b := 0]);
    SortedDependencyFirst(g, a, b);
    SortedPosition(g, a);
    SortedPosition(g, b);
    InOrder2(g.sortedOids, b, a, g.GetPosition(b), g.GetPosition(a));
  }

  lemma InOrder2(s: seq<string>, x: string, y: string, i: int, j: int)
    requires |s| == 2 && 0 <= i < j < 2 && s[i] == x && s[j] == y
    ensures s == [x, y]
  {
  }

  /** Two nodes depending on each other: a circular dependency is reported and both
      nodes are circular. */
  lemma SortedTwoCycle(g: DependencyGraph, a: string, b: string)
    requires g.Sorted() && a != b && g.nodes.Keys == {a, b}
    requires b in DepsOf(g.deps, a) && a in DepsOf(g.deps, b)
    ensures g.HasCircularDependencies() && |g.GetCircularNodes()| == 2
  {
    assert {a, b} <= Members(g.order);
    TwoCycleCircular(g.order, g.deps, a, b);
    SortedCircularCount(g);
    TwoMembers(g.circular, a, b);
  }

  lemma TwoCycleCircular(order: seq<string>, deps: DepMap, a: string, b: string)
    requires {a, b} <= Members(order) && b in DepsOf(deps, a) && a in DepsOf(deps, b)
    ensures {a, b} <= Members(Sort(order, deps).circular)
  {
    assert Stuck({a, b}, deps);
    SortReportsStuckSet(order, deps, {a, b});
  }

  lemma TwoMembers(s: seq<string>, a: string, b: string)
    requires a != b && {a, b} <= Members(s)
    ensures |s| >= 2
  {
    MembersAtMost(s);
    assert |{a, b}| == 2;
    assert Members(s) == {a, b} + (Members(s) - {a, b});
  }

  /** Five nodes added in the order 1..5 where 2 depends on 1, 3 on 2, 4 on 3 and 5 on 1:
      the root is at position 0 and every node comes after the node it depends on. */
  lemma SortedComplex(g: DependencyGraph, n1: string, n2: string, n3: string, n4: string, n5: string)
    requires g.Sorted() && g.order == [n1, n2, n3, n4, n5]
    requires n1 != n2 && n1 != n3 && n1 != n4 && n1 != n5 && n2 != n3 && n2 != n4 && n2 != n5
    requires n3 != n4 && n3 != n5 && n4 != n5
    requires DepsOf(g.deps, n1) == [] && DepsOf(g.deps, n2) == [n1] && DepsOf(g.deps, n3) == [n2]
    requires DepsOf(g.deps, n4) == [n3] && DepsOf(g.deps, n5) == [n1]
    ensures g.GetPosition(n1) == 0
    ensures g.GetPosition(n2) > g.GetPosition(n1) && g.GetPosition(n5) > g.GetPosition(n1)
    ensures g.GetPosition(n3) > g.GetPosition(n2) && g.GetPosition(n4) > g.GetPosition(n3)
  {
    var rank := map[n1 := 0, n2 := 1, n3 := 2, n4 := 3, n5 := 1];
    ComplexRanked(g.deps, n1, n2, n3, n4, n5);
    MembersOf5(g.order);
    SortedFirstRoot(g);
    SortedRankedEdge(g, rank, n2, n1);
    SortedRankedEdge(g, rank, n3, n2);
    SortedRankedEdge(g, rank, n4, n3);
    SortedRankedEdge(g, rank, n5, n1);
  }

  lemma ComplexRanked(deps: DepMap, n1: string, n2: string, n3: string, n4: string, n5: string)
    requires n1 != n2 && n1 != n3 && n1 != n4 && n1 != n5 && n2 != n3 && n2 != n4 && n2 != n5
    requires n3 != n4 && n3 != n5 && n4 != n5
    requires DepsOf(deps, n1) == [] && DepsOf(deps, n2) == [n1] && DepsOf(deps, n3) == [n2]
    requires DepsOf(deps, n4) == [n3] && DepsOf(deps, n5) == [n1]
    ensures RankedBy(deps, {n1, n2, n3, n4, n5}, map[n1 := 0, n2 := 1, n3 := 2, n4 := 3, n5 := 1])
  {
  }

  lemma MembersOf5(s: seq<string>)
    requires |s| == 5
    ensures Members(s) == {s[0], s[1], s[2], s[3], s[4]}
  {
  }

  lemma MembersOf3(s: seq<string>)
    requires |s| == 3
    ensures Members(s) == {s[0], s[1], s[2]}
  {
  }

  /** Nodes a, b, c added in that order with b depending on c: a reference from b to c
      or from b to a needs no deferral, one from a to b does. */
  lemma SortedShouldDefer(g: DependencyGraph, a: string, b: string, c: string)
    requires g.Sorted() && g.order == [a, b, c] && a != b && b != c && a != c
    requires DepsOf(g.deps, a) == [] && DepsOf(g.deps, b) == [c] && DepsOf(g.deps, c) == []
    ensures !g.ShouldDefer(b, c) && !g.ShouldDefer(b, a) && g.ShouldDefer(a, b)
  {
    MembersOf3(g.order);
    assert RankedBy(g.deps, g.nodes.Keys, map[a := 0, b := 1, c := 0]);
    SortedRankedIsComplete(g, map[a := 0, b := 1, c := 0]);
    SortedFirstRoot(g);
    SortedDependencyFirst(g, b, c);
    SortedPositionsDistinct(g, a, b);
  }

  /** Two unrelated nodes get distinct non-negative positions; an oid not in the graph
      has position -1. */
  lemma SortedPositions(g: DependencyGraph, a: string, b: string, other: string)
    requires g.Sorted() && a != b && a in g.nodes && b in g.nodes && other !in g.nodes
    ensures g.GetPosition(a) >= 0 && g.GetPosition(b) >= 0 && g.GetPosition(a) != g.GetPosition(b)
    ensures g.GetPosition(other) == -1
  {
    SortedPositionsDistinct(g, a, b);
  }
}

=== FILE: domain_dumper.dfy ===
/** DomainDumper: DROP (through the exporter), CREATE DOMAIN with its default, NOT
    NULL and constraints, an optional comment and the privileges of one domain. */
module DomainDump {
  import opened Php
  import opened Output
  import opened PgDriver
  import opened DumpCommon

  /** The row the domain lookup returns; `None` stands for SQL NULL. */
  datatype DomainRow = DomainRow(oid: string, basetype: string, typdefault: Option<string>,
                                 typnotnull: bool, comment: Option<string>)

  /** A row of the constraint query: the name and pg_get_constraintdef. */
  datatype ConstraintRow = ConstraintRow(conname: string, consrc: string)

  /** The catalog queries the dumper makes: the domain by its cleaned name and
      schema, and its constraints by the domain's oid. */
  datatype DomainCatalog = DomainCatalog(
    domain: (string, string) -> Fetch<DomainRow>,
    constraints: string -> Records<ConstraintRow>)

  /** `"schema"."domain"` from the cleaned names, each passed through addslashes. */
  function Target(d: Driver, schema: string, domain: string): string {
    Quoted2(AddSlashes(d.clean(schema)), AddSlashes(d.clean(domain)))
  }

  /** One constraint clause. */
  function ConstraintClause(d: Driver, c: ConstraintRow): string {
    "\n    CONSTRAINT \"" + AddSlashes(d.clean(c.conname)) + "\" " + c.consrc
  }

  /** The clauses dumpConstraints writes, one per row; none when the query failed. */
  function ConstraintWrites(d: Driver, rows: seq<ConstraintRow>): (w: seq<string>)
    ensures |w| == |rows| && forall k :: 0 <= k < |rows| ==> w[k] == ConstraintClause(d, rows[k])
  {
    seq(|rows|, k requires 0 <= k < |rows| => ConstraintClause(d, rows[k]))
  }

  /** The CREATE DOMAIN statement: the base type, then DEFAULT when the default is not
      NULL, NOT NULL when the domain has it, the constraints, and the closing `;`. */
  function DefinitionWrites(d: Driver, cat: DomainCatalog, schema: string, domain: string, row: DomainRow): (w: seq<string>)
    ensures var cs := ConstraintWrites(d, RowsOf(cat.constraints(row.oid)));
            && |w| == 2 + Count(row.typdefault.Some?) + Count(row.typnotnull) + |cs|
            && w[0] == "CREATE DOMAIN " + Target(d, schema, domain) + " AS " + row.basetype
            && (row.typdefault.Some? ==> w[1] == "\n    DEFAULT " + row.typdefault.value)
            && (row.typnotnull ==> w[1 + Count(row.typdefault.Some?)] == "\n    NOT NULL")
            && w[|w| - 1 - |cs|..|w| - 1] == cs
            && w[|w| - 1] == ";\n"
  {
    var cs := ConstraintWrites(d, RowsOf(cat.constraints(row.oid)));
    var head := DefinitionHead(d, schema, domain, row);
    var w := head + cs + [";\n"];
    assert w[|w| - 1 - |cs|..|w| - 1] == cs;
    w
  }

  /** CREATE DOMAIN with the base type, then the clauses that apply. */
  function DefinitionHead(d: Driver, schema: string, domain: string, row: DomainRow): (w: seq<string>)
    ensures |w| >= 1 && w[0] == "CREATE DOMAIN " + Target(d, schema, domain) + " AS " + row.basetype
    ensures w[1..] == ClauseWrites(row)
  {
    ["CREATE DOMAIN " + Target(d, schema, domain) + " AS " + row.basetype] + ClauseWrites(row)
  }

  /** The DEFAULT and NOT NULL clauses that apply, in that order. */
  function ClauseWrites(row: DomainRow): (w: seq<string>)
    ensures |w| == Count(row.typdefault.Some?) + Count(row.typnotnull)
    ensures row.typdefault.Some? ==> w[0] == "\n    DEFAULT " + row.typdefault.value
    ensures row.typnotnull ==> w[|w| - 1] == "\n    NOT NULL"
  {
    Optional(row.typdefault.Some?, "\n    DEFAULT " + row.typdefault.GetOr(""))
    + Optional(row.typnotnull, "\n    NOT NULL")
  }

  function CommentWrites(withComments: bool, d: Driver, schema: string, domain: string, row: DomainRow): (w: seq<string>)
    ensures |w| == Count(withComments && row.comment.Some?)
  {
    Optional(withComments && row.comment.Some?,
             "COMMENT ON DOMAIN " + Target(d, schema, domain) + " IS '" + d.clean(row.comment.GetOr("")) + "';\n")
  }

  function FoundWrites(options: Options, d: Driver, e: Exporter, cat: DomainCatalog, schema: string, domain: string, row: DomainRow): seq<string> {
    ["\n-- Domain: " + Target(d, schema, domain) + "\n"]
    + e.dropWrites("DOMAIN", "\"" + AddSlashes(d.clean(schema)) + "\".\"" + AddSlashes(d.clean(domain)), options)
    + DefinitionWrites(d, cat, schema, domain, row)
    + CommentWrites(e.includeComments(options), d, schema, domain, row)
    + e.privilegeWrites(domain, "type", schema)
  }

  /** The domain lookup dump() makes for a request naming a domain. */
  function Lookup(params: Params, connSchema: string, d: Driver, cat: DomainCatalog): Fetch<DomainRow>
    requires "domain" in params
  {
    cat.domain(d.clean(params["domain"]), d.clean(ParamOr(params, "schema", connSchema)))
  }

  /** The write() calls dump() makes: nothing without a name, when the query fails or
      when it finds no row; otherwise the header first and the privileges, written
      with the kind `type`, last. */
  function DomainWrites(params: Params, options: Options, connSchema: string, d: Driver, e: Exporter, cat: DomainCatalog): (w: seq<string>)
    ensures Missing(Param(params, "domain")) || !Lookup(params, connSchema, d, cat).Found? ==> w == []
    ensures !Missing(Param(params, "domain")) && Lookup(params, connSchema, d, cat).Found? ==>
              var schema := ParamOr(params, "schema", connSchema);
              var privileges := e.privilegeWrites(params["domain"], "type", schema);
              && |w| > |privileges|
              && w[0] == "\n-- Domain: " + Target(d, schema, params["domain"]) + "\n"
              && w[|w| - |privileges|..] == privileges
  {
    if Missing(Param(params, "domain")) then []
    else
      match Lookup(params, connSchema, d, cat)
      case Found(row) => FoundWrites(options, d, e, cat, ParamOr(params, "schema", connSchema), params["domain"], row)
      case _ => []
  }

  class DomainDumper {
    const conn: Connection
    const exporter: Exporter
    const out: Writer
    const catalog: DomainCatalog

    constructor (conn: Connection, exporter: Exporter, out: Writer, catalog: DomainCatalog)
      ensures this.conn == conn && this.exporter == exporter && this.out == out && this.catalog == catalog
    {
      this.conn := conn;
      this.exporter := exporter;
      this.out := out;
      this.catalog := catalog;
    }

    /** dump */
    method Dump(params: Params, options: Options)
      modifies out
      ensures out.writes == old(out.writes) + DomainWrites(params, options, conn.schema, conn.driver, exporter, catalog)
    {
      var domainName := Param(params, "domain");
      var schema := ParamOr(params, "schema", conn.schema);
      if Missing(domainName) {
        return;
      }
      var rs := catalog.domain(conn.driver.clean(domainName.value), conn.driver.clean(schema));
      if rs.QueryFailed? {
        return;
      }
      if rs.NoRows? {
        return;
      }
      DumpFound(options, schema, domainName.value, rs.row);
    }

    /** The body of dump() once the domain is found. */
    method DumpFound(options: Options, schema: string, domain: string, row: DomainRow)
      modifies out
      ensures out.writes == old(out.writes) + FoundWrites(options, conn.driver, exporter, catalog, schema, domain, row)
    {
      ghost var start := out.writes;
      var cDomain, cSchema := conn.driver.clean(domain), conn.driver.clean(schema);
      ghost var header := ["\n-- Domain: " + Target(conn.driver, schema, domain) + "\n"];
      var drop := exporter.dropWrites("DOMAIN", "\"" + AddSlashes(cSchema) + "\".\"" + AddSlashes(cDomain), options);
      ghost var definition := DefinitionWrites(conn.driver, catalog, schema, domain, row);
      ghost var comment := CommentWrites(exporter.includeComments(options), conn.driver, schema, domain, row);
      var privileges := exporter.privilegeWrites(domain, "type", schema);
      out.Write("\n-- Domain: " + Target(conn.driver, schema, domain) + "\n");
      out.WriteAll(drop);
      AppendAssoc(start, header, drop);
      WriteDefinition(schema, domain, row);
      AppendAssoc(start, header + drop, definition);
      WriteComment(exporter.includeComments(options), schema, domain, row);
      AppendAssoc(start, header + drop + definition, comment);
      out.WriteAll(privileges);
      AppendAssoc(start, header + drop + definition + comment, privileges);
    }

    method WriteComment(withComments: bool, schema: string, domain: string, row: DomainRow)
      modifies out
      ensures out.writes == old(out.writes) + CommentWrites(withComments, conn.driver, schema, domain, row)
    {
      if withComments && row.comment.Some? {
        var c := conn.driver.clean(row.comment.value);
        out.Write("COMMENT ON DOMAIN " + Target(conn.driver, schema, domain) + " IS '" + c + "';\n");
      }
    }

    method WriteDefinition(schema: string, domain: string, row: DomainRow)
      modifies out
      ensures out.writes == old(out.writes) + DefinitionWrites(conn.driver, catalog, schema, domain, row)
    {
      ghost var start := out.writes;
      ghost var head := DefinitionHead(conn.driver, schema, domain, row);
      ghost var cs := ConstraintWrites(conn.driver, RowsOf(catalog.constraints(row.oid)));
      out.Write("CREATE DOMAIN " + Target(conn.driver, schema, domain) + " AS " + row.basetype);
      if row.typdefault.Some? {
        out.Write("\n    DEFAULT " + row.typdefault.value);
      }
      if row.typnotnull {
        out.Write("\n    NOT NULL");
      }
      assert out.writes == start + head;
      DumpConstraints(row.oid);
      AppendAssoc(start, head, cs);
      out.Write(";\n");
      AppendAssoc(start, head + cs, [";\n"]);
    }

    /** dumpConstraints */
    method DumpConstraints(domainOid: string)
      modifies out
      ensures out.writes == old(out.writes) + ConstraintWrites(conn.driver, RowsOf(catalog.constraints(domainOid)))
    {
      var rs := catalog.constraints(domainOid);
      if rs.Failed? {
        return;
      }
      var k := 0;
      while k < |rs.rows|
        invariant 0 <= k <= |rs.rows|
        invariant out.writes == old(out.writes) + ConstraintWrites(conn.driver, rs.rows[..k])
      {
        var conname := conn.driver.clean(rs.rows[k].conname);
        assert ConstraintWrites(conn.driver, rs.rows[..k + 1]) == ConstraintWrites(conn.driver, rs.rows[..k]) + [ConstraintClause(conn.driver, rs.rows[k])];
        out.Write("\n    CONSTRAINT \"" + AddSlashes(conname) + "\" " + rs.rows[k].consrc);
        k := k + 1;
      }
      assert rs.rows[..k] == rs.rows;
    }
  }
}

=== FILE: dump_common.dfy ===
/** What every dumper shares: the parameters and options of a dump request, the
    connection it reads the catalog through, and the ExportDumper services
    (writeDrop, writePrivileges, getIfNotExists, shouldIncludeComments), whose
    code is not part of this model and which are therefore supplied as functions. */
module DumpCommon {
  import opened Php
  import opened PgDriver

  /** The outcome of a catalog query read for its first row only: selectSet failed
      (returned false), the record set was at EOF at once, or it holds a row. */
  datatype Fetch<T> = QueryFailed | NoRows | Found(row: T)

  /** The outcome of a catalog query read to the end. */
  datatype Records<T> = Failed | Records(rows: seq<T>)

  /** The rows a `while ($rs && !$rs->EOF)` loop visits: none when the query failed. */
  function RowsOf<T>(r: Records<T>): (rows: seq<T>)
    ensures r.Failed? ==> rows == []
  {
    if r.Records? then r.rows else []
  }

  /** The `$params` array of a dump request. */
  type Params = map<string, string>

  /** `$params[key] ?? null` */
  function Param(p: Params, key: string): (v: Option<string>)
    ensures v.Some? <==> key in p
  {
    if key in p then Some(p[key]) else None
  }

  /** `$params[key] ?? $fallback` */
  function ParamOr(p: Params, key: string, fallback: string): (v: string)
    ensures key !in p ==> v == fallback
  {
    Param(p, key).GetOr(fallback)
  }

  /** PHP's `!$x` on a request parameter: missing, "" and "0" all count as absent. */
  predicate Missing(v: Option<string>) {
    IsEmptyValue(v)
  }

  /** The entries of `$options` the dumpers read; each flag is `!empty($options[key])`. */
  datatype Options = Options(
    clean: bool,
    ifNotExists: bool,
    dataOnly: bool,
    structureOnly: bool,
    allRoles: bool,
    batchSize: Option<int>,
    insertFormat: Option<string>)

  /** The ExportDumper base-class services a dumper calls, given by what each writes
      or returns. */
  datatype Exporter = Exporter(
    /** writeDrop($kind, $name, $options): the write() calls it makes. */
    dropWrites: (string, string, Options) -> seq<string>,
    /** writePrivileges($name, $kind, $schema): the write() calls it makes. */
    privilegeWrites: (string, string, string) -> seq<string>,
    /** getIfNotExists($options): the `IF NOT EXISTS ` prefix or nothing. */
    ifNotExists: Options -> string,
    /** shouldIncludeComments($options) */
    includeComments: Options -> bool)

  /** The Postgres connection object: its current schema (`_schema`, which the table
      dumper swaps for one query), its escaping routines and the server's major version
      in tenths (9.5 is 95). */
  class Connection {
    var schema: string
    const driver: Driver
    const majorVersion: int

    constructor (schema: string, driver: Driver, majorVersion: int)
      ensures this.schema == schema && this.driver == driver && this.majorVersion == majorVersion
    {
      this.schema := schema;
      this.driver := driver;
      this.majorVersion := majorVersion;
    }
  }

  /** `"\"" . $a . "\".\"" . $b . "\""`: a schema-qualified name in double quotes. */
  function Quoted2(a: string, b: string): (r: string)
    ensures |r| == |a| + |b| + 5 && r[0] == '"' && r[|r| - 1] == '"'
  {
    "\"" + a + "\".\"" + b + "\""
  }

  /** A write made only when `b` holds. */
  function Optional(b: bool, s: string): (w: seq<string>)
    ensures |w| == Count(b) && (b ==> w[0] == s)
  {
    if b then [s] else []
  }

  /** `b2i`, for counting the optional writes of a dumper. */
  function Count(b: bool): nat {
    if b then 1 else 0
  }
}

=== FILE: dump_factory.dfy ===
/** DumpFactory: the dumper for a subject name.  The class name is built from the
    subject (`ucfirst(strtolower($subject)) . 'Dumper'` in the dumpers' namespace) and
    used when such a class exists; otherwise a switch over the fifteen known subjects
    picks the dumper, and any other subject is an error. */
module DumpFactory {
  import opened Php

  /** The fifteen dumpers the switch names. */
  datatype DumperKind =
    | Server | Database | Schema | Table | View | Function | Sequence | Role
    | Tablespace | Type | Domain | Aggregate | Operator | Rule | Trigger

  /** The lower-case subject the switch matches for each dumper. */
  function SubjectName(k: DumperKind): string {
    match k
    case Server => "server"
    case Database => "database"
    case Schema => "schema"
    case Table => "table"
    case View => "view"
    case Function => "function"
    case Sequence => "sequence"
    case Role => "role"
    case Tablespace => "tablespace"
    case Type => "type"
    case Domain => "domain"
    case Aggregate => "aggregate"
    case Operator => "operator"
    case Rule => "rule"
    case Trigger => "trigger"
  }

  /** The switch of `create`: the dumper for a lower-cased subject, if it is one of the
      fifteen. */
  function SwitchKind(lowered: string): (k: Option<DumperKind>)
    ensures k.Some? ==> SubjectName(k.value) == lowered
  {
    match lowered
    case "server" => Some(Server)
    case "database" => Some(Database)
    case "schema" => Some(Schema)
    case "table" => Some(Table)
    case "view" => Some(View)
    case "function" => Some(Function)
    case "sequence" => Some(Sequence)
    case "role" => Some(Role)
    case "tablespace" => Some(Tablespace)
    case "type" => Some(Type)
    case "domain" => Some(Domain)
    case "aggregate" => Some(Aggregate)
    case "operator" => Some(Operator)
    case "rule" => Some(Rule)
    case "trigger" => Some(Trigger)
    case _ => None
  }

  /** The short class name of each dumper: ServerDumper, DatabaseDumper, ...,
      TablespaceDumper, ..., TriggerDumper, each named after its subject. */
  function DumperClassName(k: DumperKind): string {
    UcFirst(SubjectName(k)) + "Dumper"
  }

  /** The class name `create` tries first (without the namespace prefix). */
  function ClassNameFor(subject: string): (c: string)
    ensures |c| == |subject| + 6
  {
    UcFirst(Lower(subject)) + "Dumper"
  }

  const AllKinds: seq<DumperKind> :=
    [Server, Database, Schema, Table, View, Function, Sequence, Role,
     Tablespace, Type, Domain, Aggregate, Operator, Rule, Trigger]

  /** The first of `ks` whose class is named `className`. */
  function FindClass(ks: seq<DumperKind>, className: string): (r: Option<DumperKind>)
    ensures r.Some? ==> r.value in ks && DumperClassName(r.value) == className
    ensures r.None? ==> forall k :: k in ks ==> DumperClassName(k) != className
  {
    if ks == [] then None
    else if DumperClassName(ks[0]) == className then Some(ks[0])
    else FindClass(ks[1..], className)
  }

  /** The dumper a class name stands for, when it is one of the fifteen. */
  function KindOfClass(className: string): Option<DumperKind> {
    FindClass(AllKinds, className)
  }

  /** The dumper `create` instantiates: one of the fifteen, or another class of the
      namespace that the class-name route found. */
  datatype Dumper = Listed(kind: DumperKind) | OtherClass(className: string)

  datatype Created = Created(dumper: Dumper) | Unsupported(message: string)

  function DumperOfClass(className: string): Dumper {
    match KindOfClass(className)
    case Some(k) => Listed(k)
    case None => OtherClass(className)
  }

  /** create($subject): `classes` is the set of class names (without the namespace)
      that `class_exists` finds in the dumpers' namespace. */
  function Create(subject: string, classes: set<string>): (r: Created)
    ensures r.Unsupported? ==> r.message == "Unsupported dump subject: " + subject
  {
    var className := ClassNameFor(subject);
    if className in classes then Created(DumperOfClass(className))
    else
      match SwitchKind(Lower(subject))
      case Some(k) => Created(Listed(k))
      case None => Unsupported("Unsupported dump subject: " + subject)
  }

  // ---------------------------------------------------------------- properties

  /** A string without upper-case ASCII letters. */
  predicate NoUpper(s: string) {
    forall i :: 0 <= i < |s| ==> !('A' <= s[i] <= 'Z')
  }

  lemma LowerOfNoUpper(s: string)
    requires NoUpper(s)
    ensures Lower(s) == s
  {
  }

  lemma LowerHasNoUpper(s: string)
    ensures NoUpper(Lower(s))
  {
  }

  lemma SubjectNameIsLower(k: DumperKind)
    ensures SubjectName(k) != [] && NoUpper(SubjectName(k))
  {
  }

  /** The class name built from a dumper's subject is that dumper's class. */
  lemma ClassNameOfSubject(k: DumperKind)
    ensures ClassNameFor(SubjectName(k)) == DumperClassName(k)
  {
    SubjectNameIsLower(k);
    LowerOfNoUpper(SubjectName(k));
  }

  /** The switch reads each subject name back. */
  lemma SwitchKindOfSubject(k: DumperKind)
    ensures SwitchKind(SubjectName(k)) == Some(k)
  {
  }

  lemma AllKindsComplete(k: DumperKind)
    ensures k in AllKinds
  {
  }

  /** KindOfClass reads a dumper back from its class name, and nothing else. */
  lemma KindOfClassInverse(c: string, k: DumperKind)
    ensures KindOfClass(c) == Some(k) <==> c == DumperClassName(k)
  {
    if c == DumperClassName(k) {
      AllKindsComplete(k);
      var k' := KindOfClass(c).value;
      SubjectNameIsLower(k);
      SubjectNameIsLower(k');
      ClassNameInjective(SubjectName(k), SubjectName(k'));
      SubjectNamesDistinct(k, k');
    }
  }

  /** ucfirst(strtolower(...)) . 'Dumper' loses nothing but the letter case. */
  lemma ClassNameInjective(a: string, b: string)
    requires NoUpper(a) && NoUpper(b)
    requires UcFirst(a) + "Dumper" == UcFirst(b) + "Dumper"
    ensures a == b
  {
    assert UcFirst(a) == (UcFirst(a) + "Dumper")[..|a|];
    assert UcFirst(b) == (UcFirst(b) + "Dumper")[..|b|];
    if a != [] {
      assert a[1..] == UcFirst(a)[1..] == UcFirst(b)[1..] == b[1..];
      assert UpperChar(a[0]) == UpperChar(b[0]);
      assert a == [a[0]] + a[1..] && b == [b[0]] + b[1..];
    }
  }

  /** The fifteen subjects name fifteen different dumpers. */
  lemma SubjectNamesDistinct(k1: DumperKind, k2: DumperKind)
    ensures SubjectName(k1) == SubjectName(k2) ==> k1 == k2
  {
    SwitchKindOfSubject(k1);
    SwitchKindOfSubject(k2);
  }

  /** The switch recognises exactly the fifteen subject names. */
  lemma SwitchKindExact(lowered: string)
    ensures SwitchKind(lowered).Some? <==> exists k :: SubjectName(k) == lowered
  {
    if exists k :: SubjectName(k) == lowered {
      var k :| SubjectName(k) == lowered;
      match k
      case Server =>
      case Database =>
      case Schema =>
      case Table =>
      case View =>
      case Function =>
      case Sequence =>
      case Role =>
      case Tablespace =>
      case Type =>
      case Domain =>
      case Aggregate =>
      case Operator =>
      case Rule =>
      case Trigger =>
    }
  }

  /** The only subjects whose class name is a listed dumper's are that dumper's subject
      in some letter case. */
  lemma ClassOfKindIsSubject(subject: string, k: DumperKind)
    requires KindOfClass(ClassNameFor(subject)) == Some(k)
    ensures Lower(subject) == SubjectName(k)
  {
    KindOfClassInverse(ClassNameFor(subject), k);
    SubjectNameIsLower(k);
    LowerHasNoUpper(subject);
    ClassNameInjective(Lower(subject), SubjectName(k));
  }

  /** A listed subject, in any letter case, always yields its own dumper, whichever
      classes exist: the class-name route and the switch agree. */
  lemma CreateListed(subject: string, k: DumperKind, classes: set<string>)
    requires Lower(subject) == SubjectName(k)
    ensures Create(subject, classes) == Created(Listed(k))
  {
    assert ClassNameFor(subject) == DumperClassName(k);
    KindOfClassInverse(DumperClassName(k), k);
    SwitchKindOfSubject(k);
  }

  /** A subject that is neither one of the fifteen nor the name of an existing class
      is rejected. */
  lemma CreateUnknown(subject: string, classes: set<string>)
    requires forall k :: SubjectName(k) != Lower(subject)
    requires ClassNameFor(subject) !in classes
    ensures Create(subject, classes) == Unsupported("Unsupported dump subject: " + subject)
  {
    SwitchKindExact(Lower(subject));
  }

  /** Without other dumper classes in the namespace, `create` succeeds exactly for the
      fifteen subjects, in any letter case. */
  lemma CreateTotal(subject: string, classes: set<string>)
    requires forall c :: c in classes ==> KindOfClass(c).Some?
    ensures Create(subject, classes).Created? <==> exists k :: SubjectName(k) == Lower(subject)
  {
    if exists k :: SubjectName(k) == Lower(subject) {
      var k :| SubjectName(k) == Lower(subject);
      CreateListed(subject, k, classes);
    } else {
      if ClassNameFor(subject) in classes {
        ClassOfKindIsSubject(subject, KindOfClass(ClassNameFor(subject)).value);
      }
      CreateUnknown(subject, classes);
    }
  }

  /** `create` ignores the letter case of the subject, except in the error message. */
  lemma CreateCaseInsensitive(subject: string, classes: set<string>)
    ensures Create(subject, classes).Created? == Create(Lower(subject), classes).Created?
    ensures Create(subject, classes).Created? ==> Create(subject, classes) == Create(Lower(subject), classes)
  {
    LowerIdempotent(subject);
  }
}

=== FILE: function_dumper.dfy ===
/** FunctionDumper: the CREATE FUNCTION text of one function, as
    pg_get_functiondef renders it, after a header and an optional DROP. */
module FunctionDump {
  import opened Php
  import opened Output
  import opened PgDriver
  import opened DumpCommon

  /** The row the function lookup returns. */
  datatype FunctionRow = FunctionRow(
    funcdef: string,   // pg_get_functiondef
    funcid: string,    // pg_get_function_identity_arguments
    proname: string,
    nspname: string)

  /** The function lookup, keyed by the cleaned oid it interpolates. */
  type FunctionDefs = string -> Fetch<FunctionRow>

  /** The header names the function by the row's schema and name as they are: the
      clean() calls in the source run on the variables before they are assigned. */
  function Header(row: FunctionRow): string {
    "\n-- Function: " + row.nspname + "." + row.proname + "\n"
  }

  function Drop(row: FunctionRow): string {
    "DROP FUNCTION IF EXISTS " + Quoted2(AddSlashes(row.nspname), AddSlashes(row.proname))
      + "(" + row.funcid + ") CASCADE;\n"
  }

  /** The write() calls dump() makes: nothing without an oid or when the lookup finds
      no row; otherwise the header, the DROP under `clean`, then the definition
      followed by `;`. */
  function FunctionWrites(params: Params, options: Options, d: Driver, defs: FunctionDefs): (w: seq<string>)
    ensures Missing(Param(params, "function_oid")) ==> w == []
    ensures !Missing(Param(params, "function_oid")) ==>
              var found := defs(d.clean(params["function_oid"]));
              && (!found.Found? ==> w == [])
              && (found.Found? ==>
                    && |w| == 2 + Count(options.clean)
                    && w[0] == "\n-- Function: " + found.row.nspname + "." + found.row.proname + "\n"
                    && (options.clean ==> w[1] == Drop(found.row))
                    && w[|w| - 1] == found.row.funcdef + ";\n")
  {
    if Missing(Param(params, "function_oid")) then []
    else
      match defs(d.clean(params["function_oid"]))
      case Found(row) =>
        [Header(row)] + (if options.clean then [Drop(row)] else []) + [row.funcdef + ";\n"]
      case _ => []
  }

  class FunctionDumper {
    const conn: Connection
    const out: Writer
    const defs: FunctionDefs

    constructor (conn: Connection, out: Writer, defs: FunctionDefs)
      ensures this.conn == conn && this.out == out && this.defs == defs
    {
      this.conn := conn;
      this.out := out;
      this.defs := defs;
    }

    /** dump */
    method Dump(params: Params, options: Options)
      modifies out
      ensures out.writes == old(out.writes) + FunctionWrites(params, options, conn.driver, defs)
    {
      var functionOid := Param(params, "function_oid");
      if Missing(functionOid) {
        return;
      }
      var cOid := conn.driver.clean(functionOid.value);
      var rs := defs(cOid);
      if !rs.Found? {
        return;
      }
      var def := rs.row.funcdef;
      var proname := rs.row.proname;
      var nspname := rs.row.nspname;
      out.Write("\n-- Function: " + nspname + "." + proname + "\n");
      if options.clean {
        out.Write(Drop(rs.row));
      }
      out.Write(def + ";\n");
    }
  }
}

=== FILE: import_common.dfy ===
/** What the import side shares: the database connection the statements go to, the
    import log, and the import state (the `$state` array that the executor and the
    session-settings applier update by reference). */
module ImportCommon {
  import opened Php

  /** What the driver's `execute($sql)` gives back: a status code (0 on success) or an
      exception it throws. */
  datatype Reply = Status(code: int) | Threw(message: string)

  /** The Postgres connection of an import.  The server's replies are not part of this
      model, so they are given as functions of the statements sent so far. */
  class Database {
    /** Every statement sent with `execute`, oldest first. */
    var executed: seq<string>
    /** The reply to the last statement of a history of sent statements. */
    const reply: seq<string> -> Reply
    /** What `pg_last_error` returns after a history ("" when there is no connection id). */
    const lastError: seq<string> -> string
    /** The server's major version in tenths (9.5 is 95, 14 is 140). */
    const majorVersion: int

    constructor (reply: seq<string> -> Reply, lastError: seq<string> -> string, majorVersion: int)
      ensures executed == [] && this.reply == reply && this.lastError == lastError
      ensures this.majorVersion == majorVersion
    {
      executed := [];
      this.reply := reply;
      this.lastError := lastError;
      this.majorVersion := majorVersion;
    }

    /** execute($sql) */
    method Execute(sql: string) returns (r: Reply)
      modifies this
      ensures executed == old(executed) + [sql]
      ensures r == reply(executed)
    {
      executed := executed + [sql];
      r := reply(executed);
    }
  }

  /** One call of a LogCollector add* method, with its arguments. */
  datatype LogEntry =
    | Deferred(message: string, stmt: string)
    | Skipped(message: string, stmt: string, reason: Option<string>, category: Option<string>)
    | Blocked(message: string, stmt: string, rule: string)
    | QueuedOwnership(message: string, stmt: string)
    | QueuedRights(message: string, stmt: string)
    | Info(message: string)
    | Warning(message: string)
    | Error(message: string, statement: Option<string>, code: Option<int>)
    | Success(message: string, stmt: string)
    | Truncated(message: string, table: string)

  /** The import log: the entries in the order they were added. */
  class LogCollector {
    var entries: seq<LogEntry>

    constructor ()
      ensures entries == []
    {
      entries := [];
    }

    method Add(e: LogEntry)
      modifies this
      ensures entries == old(entries) + [e]
    {
      entries := entries + [e];
    }
  }

  /** The keys of the import `$state` array that the executor and the applier read or
      write.  A missing `scope` or `scope_ident` reads as "" (`?? ''`). */
  class ImportState {
    var scope: string
    var scopeIdent: string
    var deferred: seq<string>
    var ownershipQueue: seq<string>
    var rightsQueue: seq<string>
    var truncatedTables: seq<string>
    var currentSchema: Option<string>
    var encoding: Option<string>
    var cachedSettings: seq<string>

    constructor (scope: string, scopeIdent: string)
      ensures this.scope == scope && this.scopeIdent == scopeIdent
      ensures deferred == [] && ownershipQueue == [] && rightsQueue == [] && truncatedTables == []
      ensures currentSchema == None && encoding == None && cachedSettings == []
    {
      this.scope := scope;
      this.scopeIdent := scopeIdent;
      deferred := [];
      ownershipQueue := [];
      rightsQueue := [];
      truncatedTables := [];
      currentSchema := None;
      encoding := None;
      cachedSettings := [];
    }
  }

  /** The error text a failed statement reports: `pg_last_error(...) ?: ''`, so a falsy
      message ("" or "0") becomes "". */
  function ErrorText(raw: string): (e: string)
    ensures e == "" || e == raw
    ensures Truthy(raw) <==> e == raw && e != ""
  {
    if Truthy(raw) then raw else ""
  }

  /** `$prefix . ($errorMsg ? ': ' . $errorMsg : '')` */
  function WithDetail(prefix: string, errorMsg: string): (m: string)
    ensures |m| >= |prefix| && m[..|prefix|] == prefix
    ensures !Truthy(errorMsg) <==> m == prefix
  {
    if Truthy(errorMsg) then prefix + ": " + errorMsg else prefix
  }
}

=== FILE: json_row_parser.dfy ===
/** JsonRowParser: reads an import file of the shape
    `{"columns": [{"name": ..., "type": ...}, ...], "data": [{"col": value, ...}, ...]}`
    one chunk at a time.  A small tokenizer turns a chunk into tokens; a state machine
    driven by a mode and a bracket stack collects the header and the rows; whatever
    the tokenizer could not use is handed back as the remainder. */
module JsonRows {
  import opened Php

  // ---------------------------------------------------------------- values and tokens

  /** A decoded JSON scalar: a string, or a literal (true, false, null, or a number kept
      as its text). */
  datatype Value = Text(s: string) | Null | Bool(b: bool) | Number(text: string)

  /** A PHP array with string keys, in insertion order. */
  type Row = seq<(string, Value)>

  /** What `$row[$k]` holds. */
  function Lookup(row: Row, k: string): Option<Value> {
    if row == [] then None
    else if row[0].0 == k then Some(row[0].1)
    else Lookup(row[1..], k)
  }

  /** The keys of a row, in order. */
  function KeysOf(row: Row): seq<string> {
    if row == [] then [] else [row[0].0] + KeysOf(row[1..])
  }

  /** `$row[$k] = $v`: an existing key keeps its place, a new one goes last. */
  function Put(row: Row, k: string, v: Value): (r: Row)
    ensures Lookup(r, k) == Some(v)
    ensures forall k' :: k' != k ==> Lookup(r, k') == Lookup(row, k')
    ensures KeysOf(r) == if k in KeysOf(row) then KeysOf(row) else KeysOf(row) + [k]
  {
    if row == [] then [(k, v)]
    else if row[0].0 == k then [(k, v)] + row[1..]
    else [row[0]] + Put(row[1..], k, v)
  }

  /** One token: a structural character, a decoded string or a decoded literal. */
  datatype Token = Punct(c: char) | Str(text: string) | Literal(value: Value)

  // ---------------------------------------------------------------- the tokenizer

  /** `strpos("{}[]:,", $c) !== false` */
  predicate IsStructural(c: char) {
    c == '{' || c == '}' || c == '[' || c == ']' || c == ':' || c == ','
  }

  /** `[0-9tfn\-]`: the characters a literal may start with. */
  predicate StartsLiteral(c: char) {
    ('0' <= c <= '9') || c == 't' || c == 'f' || c == 'n' || c == '-'
  }

  /** `[0-9eE\+\-a-zA-Z\.]`: the characters a literal is scanned over. */
  predicate InLiteral(c: char) {
    ('0' <= c <= '9') || ('a' <= c <= 'z') || ('A' <= c <= 'Z') || c == '+' || c == '-' || c == '.'
  }

  /** Where the characters of a string that start at j end: at the first double quote
      that no backslash escapes (escaped says whether the character at j is escaped). */
  function QuoteAt(b: string, j: nat, escaped: bool): (r: Option<nat>)
    requires j <= |b|
    ensures r.Some? ==> j <= r.value < |b| && b[r.value] == '"'
    decreases |b| - j
  {
    if j == |b| then None
    else if escaped then QuoteAt(b, j + 1, false)
    else if b[j] == '\\' then QuoteAt(b, j + 1, true)
    else if b[j] == '"' then Some(j)
    else QuoteAt(b, j + 1, false)
  }

  /** Where the run of literal characters starting at j ends. */
  function LiteralEnd(b: string, j: nat): (k: nat)
    requires j <= |b|
    ensures j <= k <= |b|
    ensures forall m :: j <= m < k ==> InLiteral(b[m])
    ensures k < |b| ==> !InLiteral(b[k])
    decreases |b| - j
  {
    if j < |b| && InLiteral(b[j]) then LiteralEnd(b, j + 1) else j
  }

  predicate IsDigit(c: char) {
    '0' <= c <= '9'
  }

  /** Where the run of digits starting at i ends. */
  function DigitsEnd(t: string, i: nat): (j: nat)
    requires i <= |t|
    ensures i <= j <= |t|
    ensures forall k :: i <= k < j ==> IsDigit(t[k])
    ensures j < |t| ==> !IsDigit(t[j])
    decreases |t| - i
  {
    if i < |t| && IsDigit(t[i]) then DigitsEnd(t, i + 1) else i
  }

  /** An optional `.` and one or more digits, from i: where it ends. */
  function AfterFraction(t: string, i: nat): Option<nat>
    requires i <= |t|
  {
    if i < |t| && t[i] == '.' then
      var j := DigitsEnd(t, i + 1);
      if j > i + 1 then Some(j) else None
    else Some(i)
  }

  /** An optional `e` or `E`, an optional sign and one or more digits, from i: where
      it ends. */
  function AfterExponent(t: string, i: nat): Option<nat>
    requires i <= |t|
  {
    if i < |t| && (t[i] == 'e' || t[i] == 'E') then
      var s := if i + 1 < |t| && (t[i + 1] == '+' || t[i + 1] == '-') then i + 2 else i + 1;
      var k := DigitsEnd(t, s);
      if k > s then Some(k) else None
    else Some(i)
  }

  /** A number as section 6 of RFC 8259 writes it: an optional minus, an integer part
      without leading zeros, an optional fraction and an optional exponent. */
  predicate IsNumber(t: string) {
    var a := if t != [] && t[0] == '-' then 1 else 0;
    var i := DigitsEnd(t, a);
    && i > a && (t[a] != '0' || i == a + 1)
    && match AfterFraction(t, i)
       case None => false
       case Some(j) =>
         match AfterExponent(t, j)
         case None => false
         case Some(k) => k == |t|
  }

  /** `json_decode($token, true)` of a scanned literal, None when it reports an error. */
  function DecodeLiteral(t: string): Option<Value> {
    if t == "true" then Some(Bool(true))
    else if t == "false" then Some(Bool(false))
    else if t == "null" then Some(Null)
    else if IsNumber(t) then Some(Number(t))
    else None
  }

  /** The tokens of a buffer from position i, and where the tokenizer stopped. */
  datatype Scanned = Scanned(tokens: seq<Token>, stop: nat)

  function Emit(t: Token, rest: Scanned): Scanned {
    Scanned([t] + rest.tokens, rest.stop)
  }

  /** tokenize, from position i.  A string is decoded from the characters between its
      quotes, escapes kept; a string left open stops the scan at the end of the buffer;
      a literal that does not decode stops it after the literal's characters; any other
      character stops it where it is. */
  function Scan(decode: string -> string, b: string, i: nat): (r: Scanned)
    requires i <= |b|
    ensures i <= r.stop <= |b|
    decreases |b| - i
  {
    if i == |b| then Scanned([], i)
    else if b[i] <= ' ' then Scan(decode, b, i + 1)
    else if IsStructural(b[i]) then Emit(Punct(b[i]), Scan(decode, b, i + 1))
    else if b[i] == '"' then
      match QuoteAt(b, i + 1, false)
      case None => Scanned([], |b|)
      case Some(q) => Emit(Str(decode(b[i + 1..q])), Scan(decode, b, q + 1))
    else if StartsLiteral(b[i]) then
      var k := LiteralEnd(b, i);
      match DecodeLiteral(b[i..k])
      case None => Scanned([], k)
      case Some(v) => Emit(Literal(v), Scan(decode, b, k))
    else Scanned([], i)
  }

  /** The tokens found before position i, with the scan from i, make up the scan of
      the whole buffer. */
  predicate Pending(decode: string -> string, b: string, i: nat, done: seq<Token>)
    requires i <= |b|
  {
    Scan(decode, b, 0) == Scanned(done + Scan(decode, b, i).tokens, Scan(decode, b, i).stop)
  }

  /** One token more found, the scan goes on from j. */
  lemma Pass(decode: string -> string, b: string, i: nat, j: nat, done: seq<Token>, t: Token)
    requires i <= j <= |b| && Pending(decode, b, i, done)
    requires Scan(decode, b, i) == Emit(t, Scan(decode, b, j))
    ensures Pending(decode, b, j, done + [t])
  {
    AppendAssoc(done, [t], Scan(decode, b, j).tokens);
  }

  /** The scan stops at k with no token more. */
  lemma Halt(decode: string -> string, b: string, i: nat, k: nat, done: seq<Token>)
    requires i <= |b| && Pending(decode, b, i, done) && Scan(decode, b, i) == Scanned([], k)
    ensures Scan(decode, b, 0) == Scanned(done, k)
  {
    assert done + [] == done;
  }

  /** A string left open stops the scan at the end of the buffer. */
  lemma ScanOpenString(decode: string -> string, b: string, i: nat)
    requires i < |b| && b[i] == '"' && QuoteAt(b, i + 1, false).None?
    ensures Scan(decode, b, i) == Scanned([], |b|)
  {
  }

  /** A string closed in the buffer is one token, and the scan goes on after it. */
  lemma ScanString(decode: string -> string, b: string, i: nat)
    requires i < |b| && b[i] == '"' && QuoteAt(b, i + 1, false).Some?
    ensures var q := QuoteAt(b, i + 1, false).value;
            Scan(decode, b, i) == Emit(Str(decode(b[i + 1..q])), Scan(decode, b, q + 1))
  {
  }

  // ---------------------------------------------------------------- the state machine

  /** The keys of the `$state` array the parser uses. */
  datatype Key = ModeKey | ColumnsKey | RowsKey | CurrentRowKey | CurrentKeyKey | StackKey

  const AllKeys: set<Key> := {ModeKey, ColumnsKey, RowsKey, CurrentRowKey, CurrentKeyKey, StackKey}

  /** The values under those keys.  A row that `}` closes while no row is open is
      appended as null, hence the Option. */
  datatype Fields = Fields(mode: string, columns: Option<seq<Row>>, rows: seq<Option<Row>>,
                           currentRow: Option<Row>, currentKey: Option<string>, stack: seq<char>)

  /** The value under one key. */
  datatype Entry =
    | ModeEntry(mode: string)
    | ColumnsEntry(columns: Option<seq<Row>>)
    | RowsEntry(rows: seq<Option<Row>>)
    | CurrentRowEntry(currentRow: Option<Row>)
    | CurrentKeyEntry(currentKey: Option<string>)
    | StackEntry(stack: seq<char>)

  function Get(f: Fields, k: Key): Entry {
    match k
    case ModeKey => ModeEntry(f.mode)
    case ColumnsKey => ColumnsEntry(f.columns)
    case RowsKey => RowsEntry(f.rows)
    case CurrentRowKey => CurrentRowEntry(f.currentRow)
    case CurrentKeyKey => CurrentKeyEntry(f.currentKey)
    case StackKey => StackEntry(f.stack)
  }

  /** The initial state parse adds. */
  const Defaults: Fields := Fields("root", None, [], None, None, [])

  /** `$state += [...]`: the keys already present keep their values. */
  function Filled(present: set<Key>, f: Fields): Fields {
    Fields(if ModeKey in present then f.mode else Defaults.mode,
           if ColumnsKey in present then f.columns else Defaults.columns,
           if RowsKey in present then f.rows else Defaults.rows,
           if CurrentRowKey in present then f.currentRow else Defaults.currentRow,
           if CurrentKeyKey in present then f.currentKey else Defaults.currentKey,
           if StackKey in present then f.stack else Defaults.stack)
  }

  /** array_pop: the last element goes; an empty stack stays empty. */
  function Pop(stack: seq<char>): seq<char> {
    if stack == [] then [] else stack[..|stack| - 1]
  }

  /** The record a column entry starts as. */
  const EmptyColumn: Row := [("name", Null), ("type", Null)]

  /** handleString */
  function OnString(f: Fields, v: string): Fields {
    if f.mode == "root" then
      if v == "columns" then f.(mode := "columns")
      else if v == "data" then f.(mode := "data")
      else f
    else if f.mode == "columns-array" then
      if f.currentRow.None? then f.(currentRow := Some(EmptyColumn), currentKey := Some("name"))
      else if f.currentKey == Some("name") then
        f.(currentRow := Some(Put(f.currentRow.value, "name", Text(v))), currentKey := Some("type"))
      else
        f.(columns := Some(f.columns.GetOr([]) + [Put(f.currentRow.value, "type", Text(v))]),
           currentRow := None, currentKey := None)
    else if f.mode == "row" then
      if f.currentKey.None? then f.(currentKey := Some(v))
      else f.(currentRow := Some(Put(f.currentRow.GetOr([]), f.currentKey.value, Text(v))), currentKey := None)
    else f
  }

  /** handleLiteral */
  function OnLiteral(f: Fields, v: Value): Fields {
    if f.mode == "row" && f.currentKey.Some? then
      f.(currentRow := Some(Put(f.currentRow.GetOr([]), f.currentKey.value, v)), currentKey := None)
    else f
  }

  /** consume */
  function Step(f: Fields, t: Token): Fields {
    match t
    case Str(v) => OnString(f, v)
    case Literal(v) => OnLiteral(f, v)
    case Punct(c) =>
      if c == '{' then
        if f.mode == "data-array" then f.(stack := f.stack + ['{'], currentRow := Some([]), mode := "row")
        else f.(stack := f.stack + ['{'])
      else if c == '}' then
        if f.mode == "row" then
          f.(stack := Pop(f.stack), rows := f.rows + [f.currentRow], currentRow := None, mode := "data-array")
        else f.(stack := Pop(f.stack))
      else if c == '[' then
        if f.mode == "columns" then f.(stack := f.stack + ['['], columns := Some([]), mode := "columns-array")
        else if f.mode == "data" then f.(stack := f.stack + ['['], mode := "data-array")
        else f.(stack := f.stack + ['['])
      else if c == ']' then
        if f.mode == "columns-array" || f.mode == "data-array" then f.(stack := Pop(f.stack), mode := "root")
        else f.(stack := Pop(f.stack))
      else f
  }

  /** The tokens consumed in order. */
  function Run(f: Fields, ts: seq<Token>): Fields
    decreases |ts|
  {
    if ts == [] then f else Step(Run(f, ts[..|ts| - 1]), ts[|ts| - 1])
  }

  /** What parse returns. */
  datatype ParseResult = ParseResult(rows: seq<Option<Row>>, remainder: string, header: Option<seq<Row>>)

  // ---------------------------------------------------------------- the parser

  /** The `$state` array, updated in place by parse.  `present` holds the keys the
      array has; the value of a missing key plays no part. */
  class ParseState {
    var present: set<Key>
    var mode: string
    var columns: Option<seq<Row>>
    var rows: seq<Option<Row>>
    var currentRow: Option<Row>
    var currentKey: Option<string>
    var stack: seq<char>

    /** An empty array. */
    constructor ()
      ensures present == {}
    {
      present := {};
      mode, columns, rows, currentRow, currentKey, stack := "", None, [], None, None, [];
    }

    function Values(): Fields
      reads this
    {
      Fields(mode, columns, rows, currentRow, currentKey, stack)
    }

    /** `$state += [...]` */
    method AddDefaults()
      modifies this
      ensures present == AllKeys
      ensures Values() == Filled(old(present), old(Values()))
    {
      if ModeKey !in present { mode := "root"; }
      if ColumnsKey !in present { columns := None; }
      if RowsKey !in present { rows := []; }
      if CurrentRowKey !in present { currentRow := None; }
      if CurrentKeyKey !in present { currentKey := None; }
      if StackKey !in present { stack := []; }
      present := AllKeys;
    }
  }

  class JsonRowParser {
    /** `json_decode('"' . $str . '"')` for the characters between a string's quotes. */
    const decode: string -> string

    constructor (decode: string -> string)
      ensures this.decode == decode
    {
      this.decode := decode;
    }

    /** parse: the rows completed while consuming the chunk's tokens, the part of the
        chunk the tokenizer did not use, and the header read so far. */
    method Parse(chunk: string, state: ParseState) returns (result: ParseResult)
      modifies state
      ensures var s := Scan(decode, chunk, 0);
              var f := Run(Filled(old(state.present), old(state.Values())), s.tokens);
              && result == ParseResult(f.rows, chunk[s.stop..], f.columns)
              && state.Values() == f.(rows := [])
              && state.present == AllKeys
    {
      state.AddDefaults();
      ghost var start := state.Values();
      var tokens, remainder := Tokenize(chunk);
      for i := 0 to |tokens|
        invariant state.Values() == Run(start, tokens[..i])
        invariant state.present == AllKeys
      {
        Consume(tokens[i], state);
        assert tokens[..i + 1][..i] == tokens[..i];
      }
      assert tokens[..|tokens|] == tokens;
      var rows := state.rows;
      state.rows := [];
      result := ParseResult(rows, remainder, state.columns);
    }

    /** tokenize: the tokens of a buffer and the part of it left over. */
    method Tokenize(buffer: string) returns (tokens: seq<Token>, remainder: string)
      ensures var s := Scan(decode, buffer, 0);
              tokens == s.tokens && remainder == buffer[s.stop..]
    {
      var len := |buffer|;
      var i := 0;
      tokens := [];
      while i < len
        invariant i <= len && Pending(decode, buffer, i, tokens)
        decreases len - i
      {
        var next, found, stop := Advance(buffer, i, tokens);
        tokens := found;
        i := next;
        if stop {
          break;
        }
      }
      remainder := buffer[i..];
    }

    /** One turn of tokenize's loop, from position i: where the next turn starts and
        the tokens found so far, or, when the loop stops here, where it stopped. */
    method Advance(buffer: string, i: nat, tokens: seq<Token>) returns (next: nat, found: seq<Token>, stop: bool)
      requires i < |buffer| && Pending(decode, buffer, i, tokens)
      ensures next <= |buffer|
      ensures !stop ==> i < next && Pending(decode, buffer, next, found)
      ensures stop ==> Scan(decode, buffer, 0) == Scanned(found, next)
    {
      var c := buffer[i];
      if c <= ' ' {
        next, found, stop := i + 1, tokens, false;
      } else if IsStructural(c) {
        Pass(decode, buffer, i, i + 1, tokens, Punct(c));
        next, found, stop := i + 1, tokens + [Punct(c)], false;
      } else if c == '"' {
        next, found, stop := AdvanceString(buffer, i, tokens);
      } else if StartsLiteral(c) {
        next, found, stop := AdvanceLiteral(buffer, i, tokens);
      } else {
        next, found, stop := i, tokens, true;
      }
    }

    /** Advance over a string. */
    method AdvanceString(buffer: string, i: nat, tokens: seq<Token>) returns (next: nat, found: seq<Token>, stop: bool)
      requires i < |buffer| && buffer[i] == '"' && Pending(decode, buffer, i, tokens)
      ensures next <= |buffer|
      ensures !stop ==> i < next && Pending(decode, buffer, next, found)
      ensures stop ==> Scan(decode, buffer, 0) == Scanned(found, next)
    {
      var closed, str, end := ReadString(buffer, i + 1);
      if closed {
        ScanString(decode, buffer, i);
        Pass(decode, buffer, i, end + 1, tokens, Str(decode(str)));
        next, found, stop := end + 1, tokens + [Str(decode(str))], false;
      } else {
        ScanOpenString(decode, buffer, i);
        Halt(decode, buffer, i, end, tokens);
        next, found, stop := end, tokens, true;
      }
    }

    /** Advance over a literal. */
    method AdvanceLiteral(buffer: string, i: nat, tokens: seq<Token>) returns (next: nat, found: seq<Token>, stop: bool)
      requires i < |buffer| && StartsLiteral(buffer[i]) && Pending(decode, buffer, i, tokens)
      requires buffer[i] != '"' && !IsStructural(buffer[i]) && !(buffer[i] <= ' ')
      ensures next <= |buffer|
      ensures !stop ==> i < next && Pending(decode, buffer, next, found)
      ensures stop ==> Scan(decode, buffer, 0) == Scanned(found, next)
    {
      var end := ReadLiteral(buffer, i);
      var decoded := DecodeLiteral(buffer[i..end]);
      if decoded.Some? {
        Pass(decode, buffer, i, end, tokens, Literal(decoded.value));
        next, found, stop := end, tokens + [Literal(decoded.value)], false;
      } else {
        next, found, stop := end, tokens, true;
      }
    }

    /** The string loop of tokenize, from the character after the opening quote:
        whether a closing quote was found, the characters before it (escapes kept) and
        where the loop stopped. */
    method ReadString(b: string, start: nat) returns (closed: bool, str: string, end: nat)
      requires start <= |b|
      ensures closed <==> QuoteAt(b, start, false).Some?
      ensures closed ==> end == QuoteAt(b, start, false).value && str == b[start..end]
      ensures !closed ==> end == |b|
    {
      var i := start;
      var escaped := false;
      str := "";
      while i < |b|
        invariant start <= i <= |b|
        invariant str + (if escaped then "\\" else "") == b[start..i]
        invariant QuoteAt(b, start, false) == QuoteAt(b, i, escaped)
      {
        var ch := b[i];
        assert b[start..i + 1] == b[start..i] + [ch];
        if escaped {
          str := str + ['\\', ch];
          escaped := false;
        } else if ch == '\\' {
          escaped := true;
        } else if ch == '"' {
          return true, str, i;
        } else {
          str := str + [ch];
        }
        i := i + 1;
      }
      return false, str, i;
    }

    /** The literal loop of tokenize. */
    method ReadLiteral(b: string, start: nat) returns (end: nat)
      requires start <= |b|
      ensures end == LiteralEnd(b, start)
    {
      end := start;
      while end < |b| && InLiteral(b[end])
        invariant start <= end <= |b|
        invariant LiteralEnd(b, start) == LiteralEnd(b, end)
      {
        end := end + 1;
      }
    }

    /** consume */
    method Consume(t: Token, state: ParseState)
      modifies state
      ensures state.Values() == Step(old(state.Values()), t)
      ensures state.present == old(state.present)
    {
      match t {
        case Punct(c) =>
          if c == '{' {
            state.stack := state.stack + ['{'];
            if state.mode == "data-array" {
              state.currentRow := Some([]);
              state.mode := "row";
            }
          } else if c == '}' {
            state.stack := Pop(state.stack);
            if state.mode == "row" {
              state.rows := state.rows + [state.currentRow];
              state.currentRow := None;
              state.mode := "data-array";
            }
          } else if c == '[' {
            state.stack := state.stack + ['['];
            if state.mode == "columns" {
              state.columns := Some([]);
              state.mode := "columns-array";
            } else if state.mode == "data" {
              state.mode := "data-array";
            }
          } else if c == ']' {
            state.stack := Pop(state.stack);
            if state.mode == "columns-array" || state.mode == "data-array" {
              state.mode := "root";
            }
          }
        case Str(v) => HandleString(v, state);
        case Literal(v) => HandleLiteral(v, state);
      }
    }

    /** handleString */
    method HandleString(v: string, state: ParseState)
      modifies state
      ensures state.Values() == OnString(old(state.Values()), v)
      ensures state.present == old(state.present)
    {
      if state.mode == "root" {
        if v == "columns" {
          state.mode := "columns";
        } else if v == "data" {
          state.mode := "data";
        }
        return;
      }
      if state.mode == "columns-array" {
        if state.currentRow.None? {
          state.currentRow := Some(EmptyColumn);
          state.currentKey := Some("name");
        } else if state.currentKey == Some("name") {
          state.currentRow := Some(Put(state.currentRow.value, "name", Text(v)));
          state.currentKey := Some("type");
        } else {
          var record := Put(state.currentRow.value, "type", Text(v));
          state.columns := Some(state.columns.GetOr([]) + [record]);
          state.currentRow := None;
          state.currentKey := None;
        }
        return;
      }
      if state.mode == "row" {
        if state.currentKey.None? {
          state.currentKey := Some(v);
        } else {
          state.currentRow := Some(Put(state.currentRow.GetOr([]), state.currentKey.value, Text(v)));
          state.currentKey := None;
        }
      }
    }

    /** handleLiteral */
    method HandleLiteral(v: Value, state: ParseState)
      modifies state
      ensures state.Values() == OnLiteral(old(state.Values()), v)
      ensures state.present == old(state.present)
    {
      if state.mode == "row" && state.currentKey.Some? {
        state.currentRow := Some(Put(state.currentRow.GetOr([]), state.currentKey.value, v));
        state.currentKey := None;
      }
    }
  }

  // ---------------------------------------------------------------- properties of the tokenizer

  /** Bytes up to the space are skipped. */
  lemma {:induction false} ScanSkipsBlanks(decode: string -> string, b: string, i: nat, j: nat)
    requires i <= j <= |b|
    requires forall k :: i <= k < j ==> b[k] <= ' '
    ensures Scan(decode, b, i) == Scan(decode, b, j)
    decreases j - i
  {
    if i < j {
      ScanSkipsBlanks(decode, b, i + 1, j);
    }
  }

  /** The structural tokens of a stretch of structural characters and blanks. */
  function Puncts(s: string): seq<Token> {
    if s == [] then []
    else if s[0] <= ' ' then Puncts(s[1..])
    else [Punct(s[0])] + Puncts(s[1..])
  }

  /** Each of `{}[]:,` yields its token, and blanks yield none. */
  lemma {:induction false} ScanPunctuation(decode: string -> string, b: string, i: nat, j: nat)
    requires i <= j <= |b|
    requires forall k :: i <= k < j ==> b[k] <= ' ' || IsStructural(b[k])
    ensures Scan(decode, b, i) == Scanned(Puncts(b[i..j]) + Scan(decode, b, j).tokens, Scan(decode, b, j).stop)
    decreases j - i
  {
    if i < j {
      ScanPunctuation(decode, b, i + 1, j);
      assert b[i..j][0] == b[i] && b[i..j][1..] == b[i + 1..j];
      if b[i] <= ' ' {
        assert Scan(decode, b, i) == Scan(decode, b, i + 1);
      } else {
        assert Scan(decode, b, i) == Emit(Punct(b[i]), Scan(decode, b, i + 1));
        AppendAssoc([Punct(b[i])], Puncts(b[i + 1..j]), Scan(decode, b, j).tokens);
      }
    }
  }

  /** A character that starts no token stops the scan where it is, so the remainder
      is the buffer from that character on. */
  lemma StopsAtUnknown(decode: string -> string, b: string, j: nat)
    requires j < |b| && !(b[j] <= ' ') && !IsStructural(b[j]) && b[j] != '"' && !StartsLiteral(b[j])
    ensures Scan(decode, b, j) == Scanned([], j)
  {
  }

  /** With no double quote after it, an opening quote runs to the end of the buffer. */
  lemma {:induction false} NoClosingQuote(b: string, j: nat, escaped: bool)
    requires j <= |b|
    requires forall k :: j <= k < |b| ==> b[k] != '"'
    ensures QuoteAt(b, j, escaped) == None
    decreases |b| - j
  {
    if j < |b| {
      NoClosingQuote(b, j + 1, false);
      NoClosingQuote(b, j + 1, true);
    }
  }

  /** A string still open at the end of the buffer stops the scan at the end: the
      remainder is empty and the characters after the quote are lost. */
  lemma OpenStringLost(decode: string -> string, b: string, i: nat)
    requires i < |b| && b[i] == '"'
    requires forall k :: i < k < |b| ==> b[k] != '"'
    ensures Scan(decode, b, i) == Scanned([], |b|)
  {
    NoClosingQuote(b, i + 1, false);
  }

  /** A string made of characters other than a quote or a backslash ends at the next
      quote, and its characters are decoded as they stand. */
  lemma {:induction false} PlainStringEnds(b: string, j: nat, q: nat)
    requires j <= q < |b| && b[q] == '"'
    requires forall k :: j <= k < q ==> b[k] != '"' && b[k] != '\\'
    ensures QuoteAt(b, j, false) == Some(q)
    decreases q - j
  {
    if j < q {
      PlainStringEnds(b, j + 1, q);
    }
  }

  /** A backslash escapes the quote after it. */
  lemma EscapedQuote(b: string, j: nat)
    requires j + 1 < |b| && b[j] == '\\' && b[j + 1] == '"'
    ensures QuoteAt(b, j, false) == QuoteAt(b, j + 2, false)
  {
  }

  /** A literal that does not decode stops the scan after its characters: they are
      neither returned as a token nor kept in the remainder. */
  lemma FailedLiteralDropped(decode: string -> string, b: string, i: nat)
    requires i < |b| && StartsLiteral(b[i]) && DecodeLiteral(b[i..LiteralEnd(b, i)]).None?
    ensures var k := LiteralEnd(b, i);
            i < k && Scan(decode, b, i) == Scanned([], k)
  {
    LiteralStart(b[i]);
  }

  /** A character a literal starts with is no blank, structural character or quote. */
  lemma LiteralStart(c: char)
    requires StartsLiteral(c)
    ensures !(c <= ' ') && !IsStructural(c) && c != '"' && InLiteral(c)
  {
  }

  /** A literal that reaches the end of the buffer is decoded as it stands: a number
      cut by the chunk's end is read as a complete number, and `tru` is dropped. */
  lemma LiteralAtChunkEnd(decode: string -> string)
    ensures Scan(decode, "[12", 0) == Scanned([Punct('['), Literal(Number("12"))], 3)
    ensures Scan(decode, "[tru", 0) == Scanned([Punct('[')], 4)
  {
    var b := "[12";
    assert LiteralEnd(b, 1) == 3 by {
      assert InLiteral(b[1]) && InLiteral(b[2]);
    }
    assert b[1..3] == "12";
    assert DigitsEnd("12", 0) == 2 by {
      assert IsDigit("12"[0]) && IsDigit("12"[1]);
    }
    assert DecodeLiteral("12") == Some(Number("12"));
    assert Scan(decode, b, 1) == Emit(Literal(Number("12")), Scan(decode, b, 3));
    assert Scan(decode, b, 0) == Emit(Punct('['), Scan(decode, b, 1));
    var c := "[tru";
    assert LiteralEnd(c, 1) == 4 by {
      assert InLiteral(c[1]) && InLiteral(c[2]) && InLiteral(c[3]);
    }
    assert c[1..4] == "tru";
    assert DigitsEnd("tru", 0) == 0;
    assert DecodeLiteral("tru") == None;
    assert Scan(decode, c, 1) == Scanned([], 4);
    assert Scan(decode, c, 0) == Emit(Punct('['), Scan(decode, c, 1));
  }

  /** The literals json_decode accepts: the three words, and numbers as RFC 8259
      writes them. */
  lemma NumberForms()
    ensures DecodeLiteral("-12.5e+3") == Some(Number("-12.5e+3"))
    ensures DecodeLiteral("0") == Some(Number("0"))
    ensures DecodeLiteral("01").None? && DecodeLiteral("1.").None? && DecodeLiteral("-").None?
    ensures DecodeLiteral("True").None?
  {
    assert DigitsEnd("-12.5e+3", 1) == 3;
    assert DigitsEnd("-12.5e+3", 4) == 5;
    assert DigitsEnd("-12.5e+3", 7) == 8;
    assert DigitsEnd("01", 0) == 2;
    assert DigitsEnd("1.", 2) == 2;
    assert DigitsEnd("-", 1) == 1;
    assert DigitsEnd("True", 0) == 0;
  }

  // ---------------------------------------------------------------- properties of the state machine

  /** Every key parse adds keeps its value when present and takes its default when
      missing; a state that already has every key is left as it is. */
  lemma FillOnlyMissing(present: set<Key>, f: Fields)
    ensures forall k :: Get(Filled(present, f), k) == if k in present then Get(f, k) else Get(Defaults, k)
    ensures Filled(AllKeys, f) == f
  {
    forall k
      ensures Get(Filled(present, f), k) == if k in present then Get(f, k) else Get(Defaults, k)
    {
      match k
      case ModeKey =>
      case ColumnsKey =>
      case RowsKey =>
      case CurrentRowKey =>
      case CurrentKeyKey =>
      case StackKey =>
    }
  }

  /** Consuming two batches of tokens is consuming them all at once. */
  lemma {:induction false} RunAppend(f: Fields, xs: seq<Token>, ys: seq<Token>)
    ensures Run(f, xs + ys) == Run(Run(f, xs), ys)
    decreases |ys|
  {
    if ys == [] {
      assert xs + ys == xs;
    } else {
      var init := ys[..|ys| - 1];
      RunAppend(f, xs, init);
      assert (xs + ys)[..|xs + ys| - 1] == xs + init;
    }
  }

  /** Whenever the mode is `row`, a row is open. */
  predicate Wellformed(f: Fields) {
    f.mode == "row" ==> f.currentRow.Some?
  }

  /** Rows are only ever appended, and from a well-formed state every row appended is
      an open row that `}` closed, never null. */
  lemma {:induction false} RowsOnlyAppended(f: Fields, ts: seq<Token>)
    requires Wellformed(f)
    ensures var g := Run(f, ts);
            && Wellformed(g)
            && |f.rows| <= |g.rows| && g.rows[..|f.rows|] == f.rows
            && forall k :: |f.rows| <= k < |g.rows| ==> g.rows[k].Some?
    decreases |ts|
  {
    if ts != [] {
      RowsOnlyAppended(f, ts[..|ts| - 1]);
    }
  }

  /** In `root`, the key `columns` and its `[` open the header array, whose `]` goes
      back to `root`; the same holds for `data`. */
  lemma SectionModes(f: Fields, g: Fields)
    requires f.mode == "root" && g.mode == "columns-array"
    ensures var h := Run(f, [Str("columns"), Punct(':'), Punct('[')]);
            h == f.(mode := "columns-array", columns := Some([]), stack := f.stack + ['['])
    ensures var h := Run(f, [Str("data"), Punct(':'), Punct('[')]);
            h == f.(mode := "data-array", stack := f.stack + ['['])
    ensures Step(g, Punct(']')) == g.(mode := "root", stack := Pop(g.stack))
  {
    RunThree(f, Str("columns"), Punct(':'), Punct('['));
    RunThree(f, Str("data"), Punct(':'), Punct('['));
  }

  /** One token more. */
  lemma RunLast(f: Fields, ts: seq<Token>, t: Token)
    ensures Run(f, ts + [t]) == Step(Run(f, ts), t)
  {
    assert (ts + [t])[..|ts|] == ts;
  }

  lemma RunThree(f: Fields, a: Token, b: Token, c: Token)
    ensures Run(f, [a, b, c]) == Step(Step(Step(f, a), b), c)
  {
    RunLast(f, [], a);
    RunLast(f, [a], b);
    RunLast(f, [a, b], c);
    assert [] + [a] == [a] && [a] + [b] == [a, b] && [a, b] + [c] == [a, b, c];
  }

  /** A literal is stored only when a key is pending in a row; otherwise it is ignored. */
  lemma LiteralNeedsKey(f: Fields, v: Value)
    ensures f.mode == "row" && f.currentKey.Some? ==>
            Step(f, Literal(v)) == f.(currentRow := Some(Put(f.currentRow.GetOr([]), f.currentKey.value, v)), currentKey := None)
    ensures !(f.mode == "row" && f.currentKey.Some?) ==> Step(f, Literal(v)) == f
  {
  }

  /** In the header array, strings go in threes whatever their role: the first opens a
      record, the second is its name and the third its type, and the record is then
      appended. */
  lemma ColumnsInThrees(f: Fields, a: string, b: string, c: string)
    requires f.mode == "columns-array" && f.currentRow.None?
    ensures Run(f, [Str(a), Str(b), Str(c)])
            == f.(columns := Some(f.columns.GetOr([]) + [[("name", Text(b)), ("type", Text(c))]]), currentKey := None)
  {
    RunThree(f, Str(a), Str(b), Str(c));
    var named: Row := [("name", Text(b)), ("type", Null)];
    var f1 := f.(currentRow := Some(EmptyColumn), currentKey := Some("name"));
    var f2 := f1.(currentRow := Some(named), currentKey := Some("type"));
    assert Step(f, Str(a)) == f1;
    PutFirst(EmptyColumn, "name", Text(b));
    assert [("name", Text(b))] + EmptyColumn[1..] == named;
    assert f1.currentKey == Some("name") && f1.mode != "root";
    assert Step(f1, Str(b)) == f2;
    PutSecond(named, "type", Text(c));
  }

  lemma PutFirst(row: Row, k: string, v: Value)
    requires row != [] && row[0].0 == k
    ensures Put(row, k, v) == [(k, v)] + row[1..]
  {
  }

  lemma PutSecond(row: Row, k: string, v: Value)
    requires |row| == 2 && row[0].0 != k && row[1].0 == k
    ensures Put(row, k, v) == [row[0], (k, v)]
  {
    PutFirst(row[1..], k, v);
  }

  /** `:` and `,` change nothing. */
  lemma Separator(g: Fields, c: char)
    requires c == ':' || c == ','
    ensures Step(g, Punct(c)) == g
  {
  }

  /** The first half of a header object: the key `name` opens a record and the name
      fills its `name` member. */
  lemma HeaderObjectOpens(f: Fields, n: string)
    requires f.mode == "columns-array" && f.currentRow.None?
    ensures Run(f, [Punct('{'), Str("name"), Punct(':'), Str(n), Punct(',')])
            == f.(stack := f.stack + ['{'], currentRow := Some([("name", Text(n)), ("type", Null)]), currentKey := Some("type"))
  {
    var f1 := f.(stack := f.stack + ['{']);
    var f2 := Step(f1, Str("name"));
    var f4 := Step(f2, Str(n));
    assert f2 == f1.(currentRow := Some(EmptyColumn), currentKey := Some("name"));
    assert f4 == f1.(currentRow := Some([("name", Text(n)), ("type", Null)]), currentKey := Some("type")) by {
      PutFirst(EmptyColumn, "name", Text(n));
      assert [("name", Text(n))] + EmptyColumn[1..] == [("name", Text(n)), ("type", Null)];
    }
    var s1: seq<Token> := [Punct('{')];
    var s2 := s1 + [Str("name")];
    var s3 := s2 + [Punct(':')];
    var s4 := s3 + [Str(n)];
    var s5 := s4 + [Punct(',')];
    RunLast(f, [], Punct('{'));
    assert [] + [Punct('{')] == s1;
    RunLast(f, s1, Str("name"));
    RunLast(f, s2, Punct(':'));
    Separator(f2, ':');
    RunLast(f, s3, Str(n));
    RunLast(f, s4, Punct(','));
    Separator(f4, ',');
    assert s5 == [Punct('{'), Str("name"), Punct(':'), Str(n), Punct(',')];
  }

  /** So a header object `{"name": n, "type": t}` read from a fresh header array gives
      the record name n, type "type", and leaves a new record open with `name` pending,
      which the next strings fill in. */
  lemma HeaderObjectMisread(f: Fields, n: string, t: string)
    requires f.mode == "columns-array" && f.currentRow.None?
    ensures var ts := [Punct('{'), Str("name"), Punct(':'), Str(n), Punct(','), Str("type"), Punct(':'), Str(t), Punct('}')];
            Run(f, ts) == f.(columns := Some(f.columns.GetOr([]) + [[("name", Text(n)), ("type", Text("type"))]]),
                             currentRow := Some(EmptyColumn), currentKey := Some("name"))
  {
    var head := [Punct('{'), Str("name"), Punct(':'), Str(n), Punct(',')];
    var named: Row := [("name", Text(n)), ("type", Null)];
    var f4 := f.(stack := f.stack + ['{'], currentRow := Some(named), currentKey := Some("type"));
    HeaderObjectOpens(f, n);
    var f6 := Step(f4, Str("type"));
    var f8 := Step(f6, Str(t));
    assert f6 == f4.(columns := Some(f.columns.GetOr([]) + [[("name", Text(n)), ("type", Text("type"))]]),
                     currentRow := None, currentKey := None) by {
      PutSecond(named, "type", Text("type"));
    }
    var s6 := head + [Str("type")];
    var s7 := s6 + [Punct(':')];
    var s8 := s7 + [Str(t)];
    var s9 := s8 + [Punct('}')];
    RunLast(f, head, Str("type"));
    RunLast(f, s6, Punct(':'));
    Separator(f6, ':');
    RunLast(f, s7, Str(t));
    RunLast(f, s8, Punct('}'));
    assert Pop(f.stack + ['{']) == f.stack;
    assert s9 == [Punct('{'), Str("name"), Punct(':'), Str(n), Punct(','), Str("type"), Punct(':'), Str(t), Punct('}')];
  }

  // ---------------------------------------------------------------- the header as documented

  /** The header reading the class comment and the comment in handleString describe: in
      the header array each `{...}` is one column object, its keys are read as keys, its
      values are stored under them, and its `}` appends the column.  Outside the header
      array the tokens are consumed as by Step. */
  function HeaderStep(f: Fields, t: Token): Fields {
    if f.mode != "columns-array" then Step(f, t)
    else
      match t
      case Str(v) =>
        if f.currentRow.None? then f
        else if f.currentKey.None? then f.(currentKey := Some(v))
        else f.(currentRow := Some(Put(f.currentRow.value, f.currentKey.value, Text(v))), currentKey := None)
      case Literal(v) =>
        if f.currentRow.Some? && f.currentKey.Some? then
          f.(currentRow := Some(Put(f.currentRow.value, f.currentKey.value, v)), currentKey := None)
        else f
      case Punct(c) =>
        if c == '{' then f.(stack := f.stack + ['{'], currentRow := Some(EmptyColumn), currentKey := None)
        else if c == '}' && f.currentRow.Some? then
          f.(stack := Pop(f.stack), columns := Some(f.columns.GetOr([]) + [f.currentRow.value]),
             currentRow := None, currentKey := None)
        else Step(f, t)
  }

  /** The tokens consumed in order by HeaderStep. */
  function HeaderRun(f: Fields, ts: seq<Token>): Fields
    decreases |ts|
  {
    if ts == [] then f else HeaderStep(HeaderRun(f, ts[..|ts| - 1]), ts[|ts| - 1])
  }

  lemma {:induction false} HeaderRunAppend(f: Fields, xs: seq<Token>, ys: seq<Token>)
    ensures HeaderRun(f, xs + ys) == HeaderRun(HeaderRun(f, xs), ys)
    decreases |ys|
  {
    if ys == [] {
      assert xs + ys == xs;
    } else {
      var init := ys[..|ys| - 1];
      HeaderRunAppend(f, xs, init);
      assert (xs + ys)[..|xs + ys| - 1] == xs + init;
    }
  }

  /** The documented column object `{"name": n, "type": t}`. */
  function ColumnObject(n: string, t: string): seq<Token> {
    [Punct('{'), Str("name"), Punct(':'), Str(n), Punct(','), Str("type"), Punct(':'), Str(t), Punct('}')]
  }

  /** The column record it stands for. */
  function ColumnRecord(n: string, t: string): Row {
    [("name", Text(n)), ("type", Text(t))]
  }

  /** Column objects separated by commas. */
  function ColumnObjects(cols: seq<(string, string)>): seq<Token>
    decreases |cols|
  {
    if cols == [] then []
    else
      var comma := if |cols| > 1 then [Punct(',')] else [];
      ColumnObjects(cols[..|cols| - 1]) + comma + ColumnObject(cols[|cols| - 1].0, cols[|cols| - 1].1)
  }

  function ColumnRecords(cols: seq<(string, string)>): seq<Row>
    decreases |cols|
  {
    if cols == [] then [] else ColumnRecords(cols[..|cols| - 1]) + [ColumnRecord(cols[|cols| - 1].0, cols[|cols| - 1].1)]
  }

  /** One token more. */
  lemma HeaderRunLast(f: Fields, ts: seq<Token>, t: Token)
    ensures HeaderRun(f, ts + [t]) == HeaderStep(HeaderRun(f, ts), t)
  {
    assert (ts + [t])[..|ts|] == ts;
  }

  /** The first half of a documented column object: `{"name": n,` opens a record holding
      the name, with no key pending. */
  lemma ColumnObjectOpens(f: Fields, n: string)
    requires f.mode == "columns-array"
    ensures HeaderRun(f, [Punct('{'), Str("name"), Punct(':'), Str(n), Punct(',')])
            == f.(stack := f.stack + ['{'], currentRow := Some([("name", Text(n)), ("type", Null)]), currentKey := None)
  {
    var f1 := f.(stack := f.stack + ['{'], currentRow := Some(EmptyColumn), currentKey := None);
    var f2 := f1.(currentKey := Some("name"));
    var f4 := f1.(currentRow := Some([("name", Text(n)), ("type", Null)]));
    assert HeaderStep(f2, Str(n)) == f4 by {
      PutFirst(EmptyColumn, "name", Text(n));
      assert [("name", Text(n))] + EmptyColumn[1..] == [("name", Text(n)), ("type", Null)];
    }
    var s1: seq<Token> := [Punct('{')];
    var s2 := s1 + [Str("name")];
    var s3 := s2 + [Punct(':')];
    var s4 := s3 + [Str(n)];
    HeaderRunLast(f, [], Punct('{'));
    assert [] + [Punct('{')] == s1;
    HeaderRunLast(f, s1, Str("name"));
    HeaderRunLast(f, s2, Punct(':'));
    HeaderRunLast(f, s3, Str(n));
    HeaderRunLast(f, s4, Punct(','));
    assert s4 + [Punct(',')] == [Punct('{'), Str("name"), Punct(':'), Str(n), Punct(',')];
  }

  /** One documented column object, read in the header array, appends its record and
      leaves no record open. */
  lemma HeaderObjectRead(f: Fields, n: string, t: string)
    requires f.mode == "columns-array"
    ensures HeaderRun(f, ColumnObject(n, t))
            == f.(columns := Some(f.columns.GetOr([]) + [ColumnRecord(n, t)]), currentRow := None, currentKey := None)
  {
    var head := [Punct('{'), Str("name"), Punct(':'), Str(n), Punct(',')];
    var named: Row := [("name", Text(n)), ("type", Null)];
    var f5 := f.(stack := f.stack + ['{'], currentRow := Some(named), currentKey := None);
    ColumnObjectOpens(f, n);
    var f6 := f5.(currentKey := Some("type"));
    var f8 := f5.(currentRow := Some(ColumnRecord(n, t)));
    assert HeaderStep(f6, Str(t)) == f8 by {
      PutSecond(named, "type", Text(t));
    }
    var s6 := head + [Str("type")];
    var s7 := s6 + [Punct(':')];
    var s8 := s7 + [Str(t)];
    HeaderRunLast(f, head, Str("type"));
    HeaderRunLast(f, s6, Punct(':'));
    HeaderRunLast(f, s7, Str(t));
    HeaderRunLast(f, s8, Punct('}'));
    assert Pop(f.stack + ['{']) == f.stack;
    assert s8 + [Punct('}')] == ColumnObject(n, t);
  }

  /** Documented column objects, read in the header array from a state with no record
      open, append exactly their records, in order. */
  lemma {:induction false} HeaderObjectsRead(f: Fields, cols: seq<(string, string)>)
    requires f.mode == "columns-array" && f.currentRow.None? && f.currentKey.None? && f.columns.Some?
    ensures HeaderRun(f, ColumnObjects(cols)) == f.(columns := Some(f.columns.value + ColumnRecords(cols)))
    decreases |cols|
  {
    if cols == [] {
      assert f.columns.value + [] == f.columns.value;
    } else {
      var init := cols[..|cols| - 1];
      var (n, t) := cols[|cols| - 1];
      var comma: seq<Token> := if |cols| > 1 then [Punct(',')] else [];
      HeaderObjectsRead(f, init);
      var g := HeaderRun(f, ColumnObjects(init));
      HeaderRunAppend(f, ColumnObjects(init) + comma, ColumnObject(n, t));
      HeaderRunAppend(f, ColumnObjects(init), comma);
      assert HeaderRun(g, comma) == g by {
        if comma != [] {
          assert comma[..0] == [];
        }
      }
      HeaderObjectRead(g, n, t);
      assert f.columns.value + ColumnRecords(init) + [ColumnRecord(n, t)] == f.columns.value + ColumnRecords(cols);
    }
  }

  /** The documented header `"columns": [ {"name": ..., "type": ...}, ... ]`, read from
      the root, yields exactly the documented columns and returns to the root. */
  lemma HeaderRead(f: Fields, cols: seq<(string, string)>)
    requires f.mode == "root" && f.currentRow.None? && f.currentKey.None?
    ensures HeaderRun(f, [Str("columns"), Punct(':'), Punct('[')] + ColumnObjects(cols) + [Punct(']')])
            == f.(columns := Some(ColumnRecords(cols)))
  {
    var opening := [Str("columns"), Punct(':'), Punct('[')];
    var g := f.(mode := "columns-array", columns := Some([]), stack := f.stack + ['[']);
    assert HeaderRun(f, opening) == g by {
      HeaderRunLast(f, [], Str("columns"));
      HeaderRunLast(f, [Str("columns")], Punct(':'));
      HeaderRunLast(f, [Str("columns"), Punct(':')], Punct('['));
      assert [] + [Str("columns")] == [Str("columns")];
      assert [Str("columns")] + [Punct(':')] == [Str("columns"), Punct(':')];
      assert [Str("columns"), Punct(':')] + [Punct('[')] == opening;
    }
    HeaderRunAppend(f, opening, ColumnObjects(cols));
    HeaderObjectsRead(g, cols);
    HeaderRunLast(f, opening + ColumnObjects(cols), Punct(']'));
    assert Pop(f.stack + ['[']) == f.stack;
    assert [] + ColumnRecords(cols) == ColumnRecords(cols);
  }

  /** A value as the tokenizer hands it over. */
  function ValueToken(v: Value): Token {
    if v.Text? then Str(v.s) else Literal(v)
  }

  /** The tokens of the members of a flat object: `"k": v`, separated by commas. */
  function Members(ps: seq<(string, Value)>): seq<Token>
    decreases |ps|
  {
    if ps == [] then []
    else
      var comma := if |ps| > 1 then [Punct(',')] else [];
      Members(ps[..|ps| - 1]) + comma + [Str(ps[|ps| - 1].0), Punct(':'), ValueToken(ps[|ps| - 1].1)]
  }

  /** The members stored one after the other. */
  function PutAll(row: Row, ps: seq<(string, Value)>): Row
    decreases |ps|
  {
    if ps == [] then row else Put(PutAll(row, ps[..|ps| - 1]), ps[|ps| - 1].0, ps[|ps| - 1].1)
  }

  /** In a row, strings alternate key then value: each member is stored under its key. */
  lemma {:induction false} MembersStored(g: Fields, ps: seq<(string, Value)>)
    requires g.mode == "row" && g.currentKey.None? && g.currentRow.Some?
    ensures Run(g, Members(ps)) == g.(currentRow := Some(PutAll(g.currentRow.value, ps)))
    decreases |ps|
  {
    if ps != [] {
      var init := ps[..|ps| - 1];
      var (k, v) := ps[|ps| - 1];
      var comma: seq<Token> := if |ps| > 1 then [Punct(',')] else [];
      var member := [Str(k), Punct(':'), ValueToken(v)];
      assert Members(ps) == Members(init) + comma + member;
      MembersStored(g, init);
      var h := Run(g, Members(init));
      RunAppend(g, Members(init) + comma, member);
      RunAppend(g, Members(init), comma);
      CommaIgnored(h, comma);
      MemberStored(h, k, v);
    }
  }

  lemma CommaIgnored(h: Fields, comma: seq<Token>)
    requires comma == [] || comma == [Punct(',')]
    ensures Run(h, comma) == h
  {
    if comma != [] {
      RunLast(h, [], Punct(','));
      assert [] + [Punct(',')] == comma;
    }
  }

  /** One member `"k": v` in a row with no key pending. */
  lemma MemberStored(h: Fields, k: string, v: Value)
    requires h.mode == "row" && h.currentKey.None? && h.currentRow.Some?
    ensures Run(h, [Str(k), Punct(':'), ValueToken(v)]) == h.(currentRow := Some(Put(h.currentRow.value, k, v)))
  {
    RunThree(h, Str(k), Punct(':'), ValueToken(v));
    var h1 := h.(currentKey := Some(k));
    assert Step(h, Str(k)) == h1;
    assert Step(h1, Punct(':')) == h1;
    if v.Text? {
      assert Step(h1, ValueToken(v)) == OnString(h1, v.s);
    } else {
      assert Step(h1, ValueToken(v)) == OnLiteral(h1, v);
    }
  }

  /** A flat object in the data array is read back as the row holding exactly its
      members, and the parser is ready for the next one. */
  lemma RowRead(f: Fields, ps: seq<(string, Value)>)
    requires f.mode == "data-array" && f.currentKey.None?
    ensures Run(f, [Punct('{')] + Members(ps) + [Punct('}')])
            == f.(rows := f.rows + [Some(PutAll([], ps))], currentRow := None)
  {
    var g := Step(f, Punct('{'));
    assert Run(f, [Punct('{')]) == g by {
      assert [Punct('{')][..0] == [];
    }
    RunAppend(f, [Punct('{')], Members(ps));
    MembersStored(g, ps);
    RunAppend(f, [Punct('{')] + Members(ps), [Punct('}')]);
    assert Run(Run(g, Members(ps)), [Punct('}')]) == Step(Run(g, Members(ps)), Punct('}')) by {
      assert [Punct('}')][..0] == [];
    }
    assert Pop(f.stack + ['{']) == f.stack;
  }
}

=== FILE: object_node.dfy ===
/** A vertex of the dependency graph used to order database objects in a dump. */
module ObjectNodes {
  import opened Php

  /** No element of `s` occurs twice. */
  predicate NoDuplicates(s: seq<string>) {
    forall x :: x in s ==> multiset(s)[x] <= 1
  }

  /** Distinct positions of a list without duplicates hold distinct elements. */
  lemma NoDuplicatesIndices(s: seq<string>, i: nat, j: nat)
    requires NoDuplicates(s) && i < j < |s|
    ensures s[i] != s[j]
  {
    assert s == s[..j] + [s[j]] + s[j + 1..];
    assert s[..j][i] == s[i];
    assert multiset(s)[s[j]] == multiset(s[..j])[s[j]] + 1 + multiset(s[j + 1..])[s[j]];
  }

  /** The dependency list after recording `oid`: appended unless already present. */
  function WithDependency(deps: seq<string>, oid: string): seq<string> {
    if oid in deps then deps else deps + [oid]
  }

  /** Recording a dependency never duplicates an entry, keeps the earlier entries in
      their first-insertion order, and adds exactly the recorded oid. */
  lemma WithDependencyKeepsOrder(deps: seq<string>, oid: string)
    requires NoDuplicates(deps)
    ensures NoDuplicates(WithDependency(deps, oid))
    ensures WithDependency(deps, oid)[..|deps|] == deps
    ensures forall x :: x in WithDependency(deps, oid) <==> x in deps || x == oid
  {
    if oid !in deps {
      assert multiset(deps + [oid]) == multiset(deps) + multiset{oid};
    }
  }

  /** Recording the same dependency twice is the same as recording it once. */
  lemma WithDependencyIdempotent(deps: seq<string>, oid: string)
    ensures WithDependency(WithDependency(deps, oid), oid) == WithDependency(deps, oid)
  {
    if oid !in deps {
      assert (deps + [oid])[|deps|] == oid;
    }
  }

  class ObjectNode {
    const oid: string
    /** The object kind: 'function', 'table', 'domain', 'type', ... */
    const objectType: string
    const name: string
    const schema: string
    const metadata: map<string, string>
    /** Place in the last topological order computed, -1 before any sort. */
    var position: int
    /** Oids of the objects this one depends on, in first-insertion order. */
    var dependencies: seq<string>

    constructor (oid: string, objectType: string, name: string, schema: string, metadata: map<string, string>)
      ensures this.oid == oid && this.objectType == objectType && this.name == name
      ensures this.schema == schema && this.metadata == metadata
      ensures position == -1 && dependencies == []
    {
      this.oid := oid;
      this.objectType := objectType;
      this.name := name;
      this.schema := schema;
      this.metadata := metadata;
      position := -1;
      dependencies := [];
    }

    /** addDependency */
    method AddDependency(dependsOn: string)
      modifies this
      ensures dependencies == WithDependency(old(dependencies), dependsOn)
      ensures position == old(position)
    {
      if dependsOn !in dependencies {
        dependencies := dependencies + [dependsOn];
      }
    }

    /** getQualifiedName: the schema, a dot and the name. */
    function QualifiedName(): (r: string)
      ensures |r| == |schema| + 1 + |name|
      ensures r[..|schema|] == schema && r[|schema|] == '.' && r[|schema| + 1..] == name
    {
      schema + "." + name
    }

    /** __toString: `Type schema.name (OID: oid, Position: n)` with the type's first letter
        in upper case. */
    function ToString(): (r: string)
      reads this
      ensures UcFirst(objectType) + " " + QualifiedName() + " (OID: " + oid + ", Position: " <= r
      ensures EndsWith(r, IntToString(position) + ")")
      ensures r == UcFirst(objectType) + " " + QualifiedName() + " (OID: " + oid + ", Position: "
                   + IntToString(position) + ")"
    {
      var head := UcFirst(objectType) + " " + QualifiedName() + " (OID: " + oid + ", Position: ";
      var tail := IntToString(position) + ")";
      assert (head + tail)[|head|..] == tail;
      head + tail
    }
  }

  /** The qualified name splits back into schema and name when neither holds a dot. */
  lemma QualifiedNameSplits(n: ObjectNode)
    requires '.' !in n.schema && '.' !in n.name
    ensures Split(n.QualifiedName(), '.') == [n.schema, n.name]
  {
    var parts := [n.schema, n.name];
    assert Join(".", parts) == n.schema + "." + n.name by {
      assert parts[1..] == [n.name];
    }
    SplitOfJoin(parts, '.');
  }

  /** Two nodes for the same object that print alike sit at the same position. */
  lemma ToStringDeterminesPosition(a: ObjectNode, b: ObjectNode)
    requires a.oid == b.oid && a.objectType == b.objectType && a.schema == b.schema && a.name == b.name
    requires a.ToString() == b.ToString()
    ensures a.position == b.position
  {
    var head := UcFirst(a.objectType) + " " + a.QualifiedName() + " (OID: " + a.oid + ", Position: ";
    var s := a.ToString();
    assert s == head + IntToString(a.position) + ")";
    assert s == head + IntToString(b.position) + ")";
    assert s[|head|..|s| - 1] == IntToString(a.position);
    assert s[|head|..|s| - 1] == IntToString(b.position);
    IntToStringInjective(a.position, b.position);
  }
}

=== FILE: output.dfy ===
/** The output stream the dumpers and the SQL formatter write to. */
module Output {
  import opened Php

  /** An output sink that records every write() call in order; the text produced
      so far is the concatenation of the recorded pieces. */
  class Writer {
    var writes: seq<string>

    constructor ()
      ensures writes == []
    {
      writes := [];
    }

    method Write(s: string)
      modifies this
      ensures writes == old(writes) + [s]
    {
      writes := writes + [s];
    }

    /** A run of write() calls made by code outside this model. */
    method WriteAll(pieces: seq<string>)
      modifies this
      ensures writes == old(writes) + pieces
    {
      var k := 0;
      while k < |pieces|
        invariant 0 <= k <= |pieces|
        invariant writes == old(writes) + pieces[..k]
      {
        assert pieces[..k + 1] == pieces[..k] + [pieces[k]];
        Write(pieces[k]);
        k := k + 1;
      }
      assert pieces[..k] == pieces;
    }

    function Text(): string
      reads this
    {
      Concat(writes)
    }
  }
}

=== FILE: pg_driver.dfy ===
/** The database driver as the dump and export code sees it.  Its quoting and
    escaping routines live in the Postgres driver class and in ADOdb, which are not
    part of this model, so each is a parameter: a function the caller supplies. */
module PgDriver {

  datatype Driver = Driver(
    /** Postgres::clean: escapes the contents of a string literal. */
    clean: string -> string,
    /** Postgres::fieldClean: escapes the contents of a double-quoted identifier. */
    fieldClean: string -> string,
    /** quoteIdentifier / escapeIdentifier with quotes added when needed. */
    quoteIdentifier: string -> string,
    /** format_type(type oid, typmod) as rendered by the server. */
    formatType: (string, string) -> string,
    /** Postgres::escapeString. */
    escapeString: string -> string,
    /** ADOdb's qstr: a quoted SQL string literal. */
    qstr: string -> string,
    /** pg_escape_identifier. */
    escapeIdentifier: string -> string,
    /** pg_escape_literal. */
    escapeLiteral: string -> string,
    /** pg_escape_bytea. */
    escapeBytea: string -> string,
    /** The global bytea_to_octal helper used for bytea values in COPY data. */
    byteaToOctal: string -> string)
}

=== FILE: php.dfy ===
/** String and value helpers that stand for the PHP built-ins the engine relies on
    (trim, strtolower, ucfirst, addslashes, implode, str_replace, str_ireplace,
    empty(), integer interpolation).  A `char` stands for one byte of a PHP string. */
module Php {

  datatype Option<+T> = None | Some(value: T) {
    function GetOr(default: T): T {
      if Some? then value else default
    }
  }

  // ---------------------------------------------------------------- characters

  const NUL: char := '\0'
  const VT: char := '\U{000B}'
  const FF: char := '\U{000C}'

  /** The characters PHP's trim/ltrim/rtrim strip by default. */
  const DefaultTrimSet: set<char> := {' ', '\t', '\n', '\r', NUL, VT}

  /** PCRE's `\s`: space, tab, newline, vertical tab, form feed, carriage return. */
  predicate IsPcreSpace(c: char) {
    c == ' ' || c == '\t' || c == '\n' || c == VT || c == FF || c == '\r'
  }

  /** ctype_space: the same six characters as PCRE's `\s`. */
  predicate IsCtypeSpace(c: char) {
    IsPcreSpace(c)
  }

  /** PCRE's `\w` in the default (non-UTF) mode. */
  predicate IsWordChar(c: char) {
    ('a' <= c <= 'z') || ('A' <= c <= 'Z') || ('0' <= c <= '9') || c == '_'
  }

  function LowerChar(c: char): (r: char)
    ensures 'A' <= c <= 'Z' ==> 'a' <= r <= 'z'
    ensures !('A' <= c <= 'Z') ==> r == c
  {
    if 'A' <= c <= 'Z' then (c as int + 32) as char else c
  }

  function UpperChar(c: char): (r: char)
    ensures 'a' <= c <= 'z' ==> 'A' <= r <= 'Z'
    ensures !('a' <= c <= 'z') ==> r == c
  {
    if 'a' <= c <= 'z' then (c as int - 32) as char else c
  }

  /** strtolower (ASCII only, as in PHP 8). */
  function Lower(s: string): (r: string)
    ensures |r| == |s|
    ensures forall i :: 0 <= i < |s| ==> r[i] == LowerChar(s[i])
  {
    if s == [] then [] else [LowerChar(s[0])] + Lower(s[1..])
  }

  lemma LowerIdempotent(s: string)
    ensures Lower(Lower(s)) == Lower(s)
  {
  }

  /** ucfirst */
  function UcFirst(s: string): (r: string)
    ensures |r| == |s|
    ensures s != [] ==> r[0] == UpperChar(s[0]) && r[1..] == s[1..]
  {
    if s == [] then [] else [UpperChar(s[0])] + s[1..]
  }

  // ---------------------------------------------------------------- trimming

  function TrimLeftBy(s: string, cs: set<char>): (r: string)
    ensures |r| <= |s| && r == s[|s| - |r|..]
    ensures r != [] ==> r[0] !in cs
  {
    if s != [] && s[0] in cs then TrimLeftBy(s[1..], cs) else s
  }

  function TrimRightBy(s: string, cs: set<char>): (r: string)
    ensures |r| <= |s| && r == s[..|r|]
    ensures r != [] ==> r[|r| - 1] !in cs
  {
    if s != [] && s[|s| - 1] in cs then TrimRightBy(s[..|s| - 1], cs) else s
  }

  /** trim($s, $chars) */
  function TrimBy(s: string, cs: set<char>): string {
    TrimRightBy(TrimLeftBy(s, cs), cs)
  }

  /** trim($s) */
  function Trim(s: string): string {
    TrimBy(s, DefaultTrimSet)
  }

  /** ltrim($s) */
  function LTrim(s: string): string {
    TrimLeftBy(s, DefaultTrimSet)
  }

  /** Trimming the right end keeps the first character of what is left. */
  lemma TrimRightKeepsFirst(s: string, cs: set<char>)
    ensures var r := TrimRightBy(s, cs); r != [] ==> r[0] == s[0]
  {
    var r := TrimRightBy(s, cs);
    if r != [] {
      assert r[0] == s[..|r|][0];
    }
  }

  /** Trimming the left end of a text whose last character is kept leaves that last
      character in place. */
  lemma {:induction false} TrimLeftKeepsLast(s: string, cs: set<char>)
    requires s != [] && s[|s| - 1] !in cs
    ensures var r := TrimLeftBy(s, cs); r != [] && r[|r| - 1] == s[|s| - 1]
    decreases |s|
  {
    if s[0] in cs {
      assert |s| > 1;
      assert s[1..][|s[1..]| - 1] == s[|s| - 1];
      TrimLeftKeepsLast(s[1..], cs);
    }
  }

  /** trim($s, $chars) of a text whose last character is not among the chars ends with
      that character. */
  lemma TrimByKeepsLast(s: string, cs: set<char>)
    requires s != [] && s[|s| - 1] !in cs
    ensures var r := TrimBy(s, cs); r != [] && r[|r| - 1] == s[|s| - 1]
  {
    TrimLeftKeepsLast(s, cs);
  }

  /** What trim leaves starts and ends with a character it does not strip. */
  lemma TrimEnds(s: string)
    ensures var t := Trim(s); t != [] ==> t[0] !in DefaultTrimSet && t[|t| - 1] !in DefaultTrimSet
  {
    var l := TrimLeftBy(s, DefaultTrimSet);
    TrimRightKeepsFirst(l, DefaultTrimSet);
  }

  /** A text that starts and ends with a character trim does not strip is left as it is. */
  lemma TrimFixed(t: string)
    requires t == [] || (t[0] !in DefaultTrimSet && t[|t| - 1] !in DefaultTrimSet)
    ensures Trim(t) == t && LTrim(t) == t
  {
  }

  /** The same for trim with a list of characters. */
  lemma TrimByFixed(t: string, cs: set<char>)
    requires t == [] || (t[0] !in cs && t[|t| - 1] !in cs)
    ensures TrimBy(t, cs) == t
  {
  }

  /** A text that starts with a character ltrim does not strip is left as it is. */
  lemma LTrimFixed(t: string)
    requires t == [] || t[0] !in DefaultTrimSet
    ensures LTrim(t) == t
  {
  }

  /** trim is idempotent. */
  lemma TrimTwice(s: string)
    ensures Trim(Trim(s)) == Trim(s)
  {
    TrimEnds(s);
    TrimFixed(Trim(s));
  }

  /** Appending a character trim does not strip to a trimmed text leaves it trimmed. */
  lemma TrimAppendFixed(t: string, c: char)
    requires t != [] && t[0] !in DefaultTrimSet && c !in DefaultTrimSet
    ensures Trim(t + [c]) == t + [c]
  {
    TrimFixed(t + [c]);
  }

  /** substr($s, 0, $n) */
  function Head(s: string, n: nat): string {
    if |s| <= n then s else s[..n]
  }

  // ---------------------------------------------------------------- PHP truthiness

  /** empty($x) for a value that is either null or a string. */
  predicate IsEmptyValue(v: Option<string>) {
    v == None || v == Some("") || v == Some("0")
  }

  /** The truth value PHP gives a string in `if ($s)` / `!$s`. */
  predicate Truthy(s: string) {
    s != "" && s != "0"
  }

  // ---------------------------------------------------------------- joining

  /** str_ends_with($s, $t) */
  predicate EndsWith(s: string, t: string) {
    |t| <= |s| && s[|s| - |t|..] == t
  }

  lemma EndsWithConcat(a: string, b: string)
    ensures EndsWith(a + b, b)
  {
    assert (a + b)[|a + b| - |b|..] == b;
  }

  /** Concatenation of a list of strings (what a sequence of write() calls produces). */
  function Concat(ss: seq<string>): string {
    if ss == [] then "" else ss[0] + Concat(ss[1..])
  }

  lemma {:induction false} ConcatAppend(a: seq<string>, b: seq<string>)
    ensures Concat(a + b) == Concat(a) + Concat(b)
  {
    if a == [] {
      assert a + b == b;
    } else {
      assert (a + b)[1..] == a[1..] + b;
      ConcatAppend(a[1..], b);
    }
  }

  lemma AppendAssoc<T>(a: seq<T>, b: seq<T>, c: seq<T>)
    ensures a + (b + c) == (a + b) + c
  {
  }

  /** A prefix one element longer. */
  lemma TakeOneMore<T>(s: seq<T>, i: nat)
    requires i < |s|
    ensures s[..i + 1] == s[..i] + [s[i]]
  {
  }

  /** implode($sep, $parts) */
  function Join(sep: string, parts: seq<string>): string {
    if parts == [] then ""
    else if |parts| == 1 then parts[0]
    else parts[0] + sep + Join(sep, parts[1..])
  }

  lemma JoinAppend(sep: string, parts: seq<string>, x: string)
    ensures Join(sep, parts + [x]) == if parts == [] then x else Join(sep, parts) + sep + x
    decreases |parts|
  {
    if |parts| >= 2 {
      assert (parts + [x])[1..] == parts[1..] + [x];
      JoinAppend(sep, parts[1..], x);
    }
  }

  // ---------------------------------------------------------------- numbers

  function DigitChar(d: nat): (c: char)
    requires d < 10
    ensures '0' <= c <= '9' && c as int == '0' as int + d
  {
    ['0', '1', '2', '3', '4', '5', '6', '7', '8', '9'][d]
  }

  function NatToString(n: nat): (r: string)
    ensures |r| >= 1
    ensures forall i :: 0 <= i < |r| ==> '0' <= r[i] <= '9'
    decreases n
  {
    if n < 10 then [DigitChar(n)] else NatToString(n / 10) + [DigitChar(n % 10)]
  }

  /** How PHP interpolates an integer into a string (sprintf %d as well). */
  function IntToString(n: int): string {
    if n < 0 then "-" + NatToString(-n) else NatToString(n)
  }

  /** Distinct numbers print differently. */
  lemma {:induction false} NatToStringInjective(m: nat, n: nat)
    requires NatToString(m) == NatToString(n)
    ensures m == n
    decreases m
  {
    var s := NatToString(m);
    if m >= 10 && n >= 10 {
      assert s[..|s| - 1] == NatToString(m / 10) == NatToString(n / 10);
      assert DigitChar(m % 10) == s[|s| - 1] == DigitChar(n % 10);
      NatToStringInjective(m / 10, n / 10);
    }
  }

  lemma IntToStringInjective(m: int, n: int)
    requires IntToString(m) == IntToString(n)
    ensures m == n
  {
    if m < 0 && n < 0 {
      var s := "-" + NatToString(-m);
      assert s == "-" + NatToString(-n);
      assert s[1..] == NatToString(-m);
      assert s[1..] == NatToString(-n);
      NatToStringInjective(-m, -n);
    } else if m >= 0 && n >= 0 {
      NatToStringInjective(m, n);
    } else {
      PrintedSign(m);
      PrintedSign(n);
      assert false;
    }
  }

  lemma PrintedSign(n: int)
    ensures |IntToString(n)| > 0 && (IntToString(n)[0] == '-' <==> n < 0)
  {
    if n >= 0 {
      assert '0' <= NatToString(n)[0] <= '9';
    }
  }

  // ---------------------------------------------------------------- escaping

  /** addslashes: a backslash before ', ", \ and NUL (NUL itself becomes the digit 0). */
  function AddSlashes(s: string): (r: string)
    ensures |r| >= |s|
  {
    if s == [] then []
    else
      var c := s[0];
      (if c == NUL then "\\0"
       else if c == '\'' || c == '"' || c == '\\' then ['\\', c]
       else [c]) + AddSlashes(s[1..])
  }

  /** Strip one backslash escape level, the inverse of AddSlashes. */
  function StripSlashes(s: string): string {
    if s == [] then []
    else if s[0] == '\\' && |s| >= 2 then
      (if s[1] == '0' then [NUL] else [s[1]]) + StripSlashes(s[2..])
    else [s[0]] + StripSlashes(s[1..])
  }

  lemma {:induction false} StripAddSlashes(s: string)
    ensures StripSlashes(AddSlashes(s)) == s
  {
    if s != [] {
      StripAddSlashes(s[1..]);
      var c := s[0];
      var head := if c == NUL then "\\0"
                  else if c == '\'' || c == '"' || c == '\\' then ['\\', c]
                  else [c];
      assert AddSlashes(s) == head + AddSlashes(s[1..]);
      if |head| == 2 {
        assert (head + AddSlashes(s[1..]))[2..] == AddSlashes(s[1..]);
      } else {
        assert (head + AddSlashes(s[1..]))[1..] == AddSlashes(s[1..]);
      }
    }
  }

  // ---------------------------------------------------------------- replacing

  /** str_replace($pat, $rep, $s): left-to-right, non-overlapping, replacements not rescanned. */
  function ReplaceAll(s: string, pat: string, rep: string): string
    requires |pat| > 0
    decreases |s|
  {
    if |s| < |pat| then s
    else if s[..|pat|] == pat then rep + ReplaceAll(s[|pat|..], pat, rep)
    else [s[0]] + ReplaceAll(s[1..], pat, rep)
  }

  /** str_ireplace($pat, $rep, $s): as str_replace, comparing ASCII letters without case. */
  function ReplaceAllCI(s: string, pat: string, rep: string): string
    requires |pat| > 0
    decreases |s|
  {
    if |s| < |pat| then s
    else if Lower(s[..|pat|]) == Lower(pat) then rep + ReplaceAllCI(s[|pat|..], pat, rep)
    else [s[0]] + ReplaceAllCI(s[1..], pat, rep)
  }

  // ---------------------------------------------------------------- where a pattern can begin

  /** `x` and `y` agree, ignoring ASCII case, on every position both have. */
  predicate Agree(x: string, y: string)
    decreases |x|
  {
    x == [] || y == [] || (LowerChar(x[0]) == LowerChar(y[0]) && Agree(x[1..], y[1..]))
  }

  lemma {:induction false} AgreeChars(x: string, y: string)
    ensures Agree(x, y) <==> forall j :: 0 <= j < |x| && j < |y| ==> LowerChar(x[j]) == LowerChar(y[j])
    decreases |x|
  {
    if x != [] && y != [] {
      AgreeChars(x[1..], y[1..]);
      if Agree(x, y) {
        forall j | 0 < j < |x| && j < |y|
          ensures LowerChar(x[j]) == LowerChar(y[j])
        {
          assert x[1..][j - 1] == x[j] && y[1..][j - 1] == y[j];
        }
      } else if LowerChar(x[0]) == LowerChar(y[0]) {
        var j :| 0 <= j < |x[1..]| && j < |y[1..]| && LowerChar(x[1..][j]) != LowerChar(y[1..][j]);
        assert x[1..][j] == x[j + 1] && y[1..][j] == y[j + 1];
      }
    }
  }

  /** `x` and `y` disagree at position j. */
  lemma Differs(x: string, y: string, j: nat)
    requires j < |x| && j < |y| && LowerChar(x[j]) != LowerChar(y[j])
    ensures !Agree(x, y)
  {
    AgreeChars(x, y);
  }

  /** No occurrence of `pat` can begin inside `w`, whatever follows it. */
  predicate StartsNowhereIn(pat: string, w: string) {
    forall k :: 0 <= k < |w| ==> !Agree(pat, w[k..])
  }

  /** Agreement with a longer text implies agreement with its beginning. */
  lemma AgreeLonger(pat: string, h: string, r: string, i: nat)
    requires i <= |h| && Agree(pat, (h + r)[i..])
    ensures Agree(pat, h[i..])
  {
    AgreeChars(pat, (h + r)[i..]);
    AgreeChars(pat, h[i..]);
    assert forall j :: 0 <= j < |h| - i ==> h[i..][j] == (h + r)[i..][j];
  }

  lemma StartsNowhereJoin(pat: string, a: string, b: string)
    requires StartsNowhereIn(pat, a) && StartsNowhereIn(pat, b)
    ensures StartsNowhereIn(pat, a + b)
  {
    forall k | 0 <= k < |a + b|
      ensures !Agree(pat, (a + b)[k..])
    {
      if k < |a| {
        if Agree(pat, (a + b)[k..]) {
          AgreeLonger(pat, a, b, k);
        }
      } else {
        assert (a + b)[k..] == b[k - |a|..];
      }
    }
  }

  /** `c` is not among the letters of `w`, ignoring case. */
  predicate WithoutLetter(w: string, c: char) {
    forall i :: 0 <= i < |w| ==> LowerChar(w[i]) != c
  }

  /** A pattern cannot begin in text that lacks its first letter. */
  lemma WithoutFirstLetter(pat: string, w: string)
    requires pat != [] && WithoutLetter(w, LowerChar(pat[0]))
    ensures StartsNowhereIn(pat, w)
  {
    forall k | 0 <= k < |w|
      ensures !Agree(pat, w[k..])
    {
      Differs(pat, w[k..], 0);
    }
  }

  /** `pat` occurs in `s` at i, letter case counting. */
  predicate OccursExactlyAt(s: string, i: nat, pat: string) {
    i + |pat| <= |s| && s[i..i + |pat|] == pat
  }

  /** `pat` does not occur in `s`, letter case counting. */
  ghost predicate Absent(s: string, pat: string) {
    forall i: nat :: !OccursExactlyAt(s, i, pat)
  }

  /** str_replace leaves a string without an occurrence of the pattern alone. */
  lemma {:induction false} ReplaceAllAbsent(s: string, pat: string, rep: string)
    requires |pat| > 0 && Absent(s, pat)
    ensures ReplaceAll(s, pat, rep) == s
    decreases |s|
  {
    if |s| >= |pat| {
      assert !OccursExactlyAt(s, 0, pat);
      assert s[0..|pat|] == s[..|pat|];
      forall i: nat
        ensures !OccursExactlyAt(s[1..], i, pat)
      {
        assert !OccursExactlyAt(s, i + 1, pat);
        if i + |pat| <= |s[1..]| {
          assert s[1..][i..i + |pat|] == s[i + 1..i + 1 + |pat|];
        }
      }
      ReplaceAllAbsent(s[1..], pat, rep);
      assert [s[0]] + s[1..] == s;
    }
  }

  /** str_replace at an occurrence: the replacement, then the rest replaced. */
  lemma ReplaceAllAtStart(pat: string, t: string, rep: string)
    requires |pat| > 0
    ensures ReplaceAll(pat + t, pat, rep) == rep + ReplaceAll(t, pat, rep)
  {
    assert (pat + t)[..|pat|] == pat && (pat + t)[|pat|..] == t;
  }

  /** A text whose first character cannot begin an occurrence does not start with one. */
  lemma NoOccurrenceAtHead(pat: string, h: string, r: string)
    requires |pat| > 0 && h != [] && |h + r| >= |pat| && !Agree(pat, h)
    ensures (h + r)[..|pat|] != pat
  {
    if (h + r)[..|pat|] == pat {
      AgreeChars(pat, h + r);
      assert (h + r)[0..] == h + r && h[0..] == h;
      AgreeLonger(pat, h, r, 0);
      assert false;
    }
  }

  /** Text in which no occurrence can begin is copied through by str_replace. */
  lemma {:induction false} ReplaceAllCopiedHead(h: string, r: string, pat: string, rep: string)
    requires |pat| > 0 && StartsNowhereIn(pat, h)
    ensures ReplaceAll(h + r, pat, rep) == h + ReplaceAll(r, pat, rep)
    decreases |h|
  {
    if h == [] {
      assert h + r == r;
    } else if |h + r| >= |pat| {
      assert h[0..] == h;
      NoOccurrenceAtHead(pat, h, r);
      assert (h + r)[1..] == h[1..] + r;
      forall k | 0 <= k < |h[1..]|
        ensures !Agree(pat, h[1..][k..])
      {
        assert h[1..][k..] == h[k + 1..];
      }
      ReplaceAllCopiedHead(h[1..], r, pat, rep);
      assert ReplaceAll(h + r, pat, rep) == [h[0]] + ReplaceAll(h[1..] + r, pat, rep);
      assert [h[0]] + (h[1..] + ReplaceAll(r, pat, rep)) == h + ReplaceAll(r, pat, rep);
    } else {
      assert ReplaceAll(h + r, pat, rep) == h + r;
      assert ReplaceAll(r, pat, rep) == r;
    }
  }

  // ---------------------------------------------------------------- splitting

  /** explode($sep, $s) for a one-character separator (also preg_split on a literal character). */
  function Split(s: string, sep: char): (parts: seq<string>)
    ensures |parts| >= 1
    ensures forall k :: 0 <= k < |parts| ==> sep !in parts[k]
  {
    if s == [] then [""]
    else
      var rest := Split(s[1..], sep);
      if s[0] == sep then [""] + rest
      else [[s[0]] + rest[0]] + rest[1..]
  }

  lemma {:induction false} SplitNoSeparator(s: string, sep: char)
    requires sep !in s
    ensures Split(s, sep) == [s]
  {
    if s != [] {
      assert s[0] in s;
      assert forall c :: c in s[1..] ==> c in s;
      SplitNoSeparator(s[1..], sep);
      assert [s[0]] + s[1..] == s;
    }
  }

  lemma {:induction false} SplitAtSeparator(a: string, sep: char, b: string)
    requires sep !in a
    ensures Split(a + [sep] + b, sep) == [a] + Split(b, sep)
  {
    if a == [] {
      assert a + [sep] + b == [sep] + b;
      assert ([sep] + b)[1..] == b;
    } else {
      assert (a + [sep] + b)[1..] == a[1..] + [sep] + b;
      SplitAtSeparator(a[1..], sep, b);
      assert [a[0]] + a[1..] == a;
    }
  }

  /** explode undoes implode when no part contains the separator. */
  lemma {:induction false} SplitOfJoin(parts: seq<string>, sep: char)
    requires |parts| >= 1
    requires forall k :: 0 <= k < |parts| ==> sep !in parts[k]
    ensures Split(Join([sep], parts), sep) == parts
  {
    if |parts| == 1 {
      SplitNoSeparator(parts[0], sep);
    } else {
      SplitOfJoin(parts[1..], sep);
      SplitAtSeparator(parts[0], sep, Join([sep], parts[1..]));
    }
  }

  lemma {:induction false} SplitJoin(s: string, sep: char)
    ensures Join([sep], Split(s, sep)) == s
  {
    if s != [] {
      SplitJoin(s[1..], sep);
      var rest := Split(s[1..], sep);
      if s[0] != sep {
        var parts := [[s[0]] + rest[0]] + rest[1..];
        if |rest| == 1 {
          assert Join([sep], parts) == [s[0]] + rest[0];
        } else {
          assert parts[1..] == rest[1..];
          assert Join([sep], rest) == rest[0] + [sep] + Join([sep], rest[1..]);
        }
      }
    }
  }
}

=== FILE: role_dumper.dfy ===
/** RoleDumper: CREATE ROLE with its attribute list and the role's memberships, for
    every role the server reports. */
module RoleDump {
  import opened Php
  import opened Output
  import opened PgDriver
  import opened DumpCommon

  /** A row of the role list, the flags after phpBool.  The replication and bypassrls
      columns are `None` when the row does not carry them (older servers). */
  datatype RoleRow = RoleRow(
    rolname: string, rolsuper: bool, rolinherit: bool, rolcreaterole: bool,
    rolcreatedb: bool, rolcanlogin: bool, rolreplication: Option<bool>,
    rolbypassrls: Option<bool>, rolconnlimit: int)

  /** A row of a role's member list. */
  datatype MemberRow = MemberRow(rolname: string, adminOption: bool)

  /** The catalog queries the dumper makes: the roles, and the members of a role. */
  datatype RoleCatalog = RoleCatalog(roles: Records<RoleRow>, members: string -> Records<MemberRow>)

  /** Roles left out unless `all_roles` is set: `postgres` and names starting `pg_`. */
  predicate IsSystemRole(name: string) {
    name == "postgres" || (|name| >= 3 && name[..3] == "pg_")
  }

  predicate Skipped(options: Options, row: RoleRow) {
    !options.allRoles && IsSystemRole(row.rolname)
  }

  /** `X` when the flag is set, `NOX` otherwise. */
  function Flag(name: string, on: bool): string {
    if on then name else "NO" + name
  }

  const FlagNames: seq<string> := ["SUPERUSER", "INHERIT", "CREATEROLE", "CREATEDB", "LOGIN"]

  function Flags(row: RoleRow): seq<bool> {
    [row.rolsuper, row.rolinherit, row.rolcreaterole, row.rolcreatedb, row.rolcanlogin]
  }

  /** The five flag attributes, in their fixed order. */
  function FlagAttributes(row: RoleRow): (a: seq<string>)
    ensures |a| == 5 && forall k :: 0 <= k < 5 ==> a[k] == Flag(FlagNames[k], Flags(row)[k])
  {
    [Flag("SUPERUSER", row.rolsuper), Flag("INHERIT", row.rolinherit), Flag("CREATEROLE", row.rolcreaterole),
     Flag("CREATEDB", row.rolcreatedb), Flag("LOGIN", row.rolcanlogin)]
  }

  /** The attribute list: the five flags in their fixed order, then REPLICATION and
      BYPASSRLS when present and set, then CONNECTION LIMIT unless it is -1. */
  function Attributes(row: RoleRow): (a: seq<string>)
    ensures |a| == 5 + Count(row.rolreplication == Some(true)) + Count(row.rolbypassrls == Some(true)) + Count(row.rolconnlimit != -1)
    ensures a[..5] == FlagAttributes(row)
    ensures row.rolconnlimit != -1 ==> a[|a| - 1] == "CONNECTION LIMIT " + IntToString(row.rolconnlimit)
  {
    FlagAttributes(row)
    + Optional(row.rolreplication == Some(true), "REPLICATION")
    + Optional(row.rolbypassrls == Some(true), "BYPASSRLS")
    + Optional(row.rolconnlimit != -1, "CONNECTION LIMIT " + IntToString(row.rolconnlimit))
  }

  /** One GRANT of the role to a member. */
  function GrantWrites(role: string, m: MemberRow): (w: seq<string>)
    ensures |w| == 2 + Count(m.adminOption) && w[|w| - 1] == ";\n"
    ensures w[0] == "GRANT \"" + AddSlashes(role) + "\" TO \"" + AddSlashes(m.rolname) + "\""
    ensures m.adminOption ==> w[1] == " WITH ADMIN OPTION"
  {
    ["GRANT \"" + AddSlashes(role) + "\" TO \"" + AddSlashes(m.rolname) + "\""]
    + Optional(m.adminOption, " WITH ADMIN OPTION")
    + [";\n"]
  }

  function MemberWrites(role: string, members: seq<MemberRow>): seq<string>
    decreases |members|
  {
    if members == [] then []
    else MemberWrites(role, members[..|members| - 1]) + GrantWrites(role, members[|members| - 1])
  }

  function RoleHeader(row: RoleRow): string {
    "-- Role: " + row.rolname + "\n"
  }

  /** What the loop writes for one role: the `-- Role:` line always, then, unless the
      role is skipped, the DROP, CREATE ROLE with its attributes and the memberships. */
  function RoleEntry(options: Options, e: Exporter, cat: RoleCatalog, row: RoleRow): (w: seq<string>)
    ensures |w| >= 1 && w[0] == RoleHeader(row)
    ensures Skipped(options, row) ==> |w| == 1
    ensures !Skipped(options, row) ==>
              var k := 1 + |e.dropWrites("ROLE", row.rolname, options)|;
              && |w| >= k + 2
              && w[k] == "CREATE ROLE \"" + AddSlashes(row.rolname) + "\""
              && w[k + 1] == " WITH " + Join(" ", Attributes(row)) + ";\n"
  {
    if Skipped(options, row) then [RoleHeader(row)]
    else
      [RoleHeader(row)]
      + e.dropWrites("ROLE", row.rolname, options)
      + ["CREATE ROLE \"" + AddSlashes(row.rolname) + "\"", " WITH " + Join(" ", Attributes(row)) + ";\n"]
      + MemberWrites(row.rolname, RowsOf(cat.members(row.rolname)))
  }

  function RolesWrites(options: Options, e: Exporter, cat: RoleCatalog, rows: seq<RoleRow>): seq<string>
    decreases |rows|
  {
    if rows == [] then []
    else RolesWrites(options, e, cat, rows[..|rows| - 1]) + RoleEntry(options, e, cat, rows[|rows| - 1])
  }

  /** The write() calls dump() makes: the `-- Roles` heading, then each role's entry. */
  function RoleWrites(options: Options, e: Exporter, cat: RoleCatalog): (w: seq<string>)
    ensures |w| >= 1 && w[0] == "\n-- Roles\n"
  {
    ["\n-- Roles\n"] + RolesWrites(options, e, cat, RowsOf(cat.roles))
  }

  /** Every role, skipped or not, gets its `-- Role:` line. */
  lemma {:induction false} EveryRoleIsAnnounced(options: Options, e: Exporter, cat: RoleCatalog, rows: seq<RoleRow>)
    ensures forall k :: 0 <= k < |rows| ==> RoleHeader(rows[k]) in RolesWrites(options, e, cat, rows)
    decreases |rows|
  {
    if rows != [] {
      var init := rows[..|rows| - 1];
      EveryRoleIsAnnounced(options, e, cat, init);
      var last := RoleEntry(options, e, cat, rows[|rows| - 1]);
      assert RolesWrites(options, e, cat, rows) == RolesWrites(options, e, cat, init) + last;
      forall k | 0 <= k < |rows|
        ensures RoleHeader(rows[k]) in RolesWrites(options, e, cat, rows)
      {
        if k < |rows| - 1 {
          assert rows[k] == init[k];
        } else {
          assert last[0] == RoleHeader(rows[k]);
        }
      }
    }
  }

  /** A skipped role contributes its `-- Role:` line and nothing else. */
  lemma SkippedRoleWritesOnlyItsHeader(options: Options, e: Exporter, cat: RoleCatalog, rows: seq<RoleRow>, row: RoleRow)
    requires Skipped(options, row)
    ensures RolesWrites(options, e, cat, rows + [row]) == RolesWrites(options, e, cat, rows) + [RoleHeader(row)]
  {
    assert (rows + [row])[..|rows + [row]| - 1] == rows;
  }

  class RoleDumper {
    const conn: Connection
    const exporter: Exporter
    const out: Writer
    const catalog: RoleCatalog

    constructor (conn: Connection, exporter: Exporter, out: Writer, catalog: RoleCatalog)
      ensures this.conn == conn && this.exporter == exporter && this.out == out && this.catalog == catalog
    {
      this.conn := conn;
      this.exporter := exporter;
      this.out := out;
      this.catalog := catalog;
    }

    /** dump */
    method Dump(options: Options)
      modifies out
      ensures out.writes == old(out.writes) + RoleWrites(options, exporter, catalog)
    {
      var roles := RowsOf(catalog.roles);
      out.Write("\n-- Roles\n");
      var k := 0;
      while k < |roles|
        invariant 0 <= k <= |roles|
        invariant out.writes == old(out.writes) + ["\n-- Roles\n"] + RolesWrites(options, exporter, catalog, roles[..k])
      {
        ghost var before := out.writes;
        WriteRole(options, roles[k]);
        assert roles[..k + 1][..k] == roles[..k];
        AppendAssoc(old(out.writes) + ["\n-- Roles\n"], RolesWrites(options, exporter, catalog, roles[..k]), RoleEntry(options, exporter, catalog, roles[k]));
        k := k + 1;
      }
      assert roles[..k] == roles;
      AppendAssoc(old(out.writes), ["\n-- Roles\n"], RolesWrites(options, exporter, catalog, roles));
    }

    /** The body of the loop over roles. */
    method WriteRole(options: Options, row: RoleRow)
      modifies out
      ensures out.writes == old(out.writes) + RoleEntry(options, exporter, catalog, row)
    {
      var rolename := row.rolname;
      out.Write("-- Role: " + rolename + "\n");
      if !options.allRoles && (rolename == "postgres" || (|rolename| >= 3 && rolename[..3] == "pg_")) {
        return;
      }
      ghost var start := old(out.writes) + [RoleHeader(row)];
      var drop := exporter.dropWrites("ROLE", rolename, options);
      out.WriteAll(drop);
      out.Write("CREATE ROLE \"" + AddSlashes(rolename) + "\"");
      var attrs := BuildAttributes(row);
      out.Write(" WITH " + Join(" ", attrs) + ";\n");
      ghost var create := ["CREATE ROLE \"" + AddSlashes(rolename) + "\"", " WITH " + Join(" ", attrs) + ";\n"];
      assert out.writes == start + drop + create;
      ghost var members := MemberWrites(rolename, RowsOf(catalog.members(rolename)));
      WriteMembers(rolename);
      AppendAssoc(old(out.writes), [RoleHeader(row)], drop);
      AppendAssoc(old(out.writes), [RoleHeader(row)] + drop, create);
      AppendAssoc(old(out.writes), [RoleHeader(row)] + drop + create, members);
    }

    /** The `$attrs` list, built one attribute at a time. */
    method BuildAttributes(row: RoleRow) returns (attrs: seq<string>)
      ensures attrs == Attributes(row)
    {
      attrs := [];
      attrs := AddFlag(attrs, "SUPERUSER", row.rolsuper);
      attrs := AddFlag(attrs, "INHERIT", row.rolinherit);
      attrs := AddFlag(attrs, "CREATEROLE", row.rolcreaterole);
      attrs := AddFlag(attrs, "CREATEDB", row.rolcreatedb);
      attrs := AddFlag(attrs, "LOGIN", row.rolcanlogin);
      assert attrs == FlagAttributes(row);
      if row.rolreplication.Some? && row.rolreplication.value { attrs := attrs + ["REPLICATION"]; }
      assert attrs == FlagAttributes(row) + Optional(row.rolreplication == Some(true), "REPLICATION");
      if row.rolbypassrls.Some? && row.rolbypassrls.value { attrs := attrs + ["BYPASSRLS"]; }
      assert attrs == FlagAttributes(row) + Optional(row.rolreplication == Some(true), "REPLICATION")
                      + Optional(row.rolbypassrls == Some(true), "BYPASSRLS");
      if row.rolconnlimit != -1 {
        attrs := attrs + ["CONNECTION LIMIT " + IntToString(row.rolconnlimit)];
      }
    }

    /** `$attrs[] = flag ? "X" : "NOX"` */
    static method AddFlag(attrs: seq<string>, name: string, on: bool) returns (r: seq<string>)
      ensures r == attrs + [Flag(name, on)]
    {
      if on {
        r := attrs + [name];
      } else {
        r := attrs + ["NO" + name];
      }
    }

    /** The memberships of one role; nothing when the member query fails. */
    method WriteMembers(rolename: string)
      modifies out
      ensures out.writes == old(out.writes) + MemberWrites(rolename, RowsOf(catalog.members(rolename)))
    {
      var members := catalog.members(rolename);
      if members.Failed? {
        return;
      }
      var ms := members.rows;
      var k := 0;
      while k < |ms|
        invariant 0 <= k <= |ms|
        invariant out.writes == old(out.writes) + MemberWrites(rolename, ms[..k])
      {
        ghost var before := out.writes;
        out.Write("GRANT \"" + AddSlashes(rolename) + "\" TO \"" + AddSlashes(ms[k].rolname) + "\"");
        if ms[k].adminOption {
          out.Write(" WITH ADMIN OPTION");
        }
        out.Write(";\n");
        assert out.writes == before + GrantWrites(rolename, ms[k]);
        assert ms[..k + 1][..k] == ms[..k];
        AppendAssoc(old(out.writes), MemberWrites(rolename, ms[..k]), GrantWrites(rolename, ms[k]));
        k := k + 1;
      }
      assert ms[..k] == ms;
    }
  }
}

=== FILE: rule_dumper.dfy ===
/** RuleDumper: the CREATE RULE text of one rule, as pg_get_ruledef renders it,
    after a header and an optional DROP. */
module RuleDump {
  import opened Php
  import opened Output
  import opened PgDriver
  import opened DumpCommon

  /** What the pg_get_ruledef query returns, looked up by the cleaned rule, table and
      schema names it interpolates. */
  type RuleDefs = (string, string, string) -> Fetch<string>

  /** `$params['table'] ?? $params['view'] ?? null` */
  function RuleTable(params: Params): (t: Option<string>)
    ensures "table" in params ==> t == Some(params["table"])
    ensures "table" !in params ==> t == Param(params, "view")
  {
    if "table" in params then Some(params["table"]) else Param(params, "view")
  }

  /** `"name" ON "schema"."table"`, each name cleaned and then passed through addslashes. */
  function Target(d: Driver, name: string, table: string, schema: string): string {
    "\"" + AddSlashes(d.clean(name)) + "\" ON " + Quoted2(AddSlashes(d.clean(schema)), AddSlashes(d.clean(table)))
  }

  function Header(d: Driver, name: string, table: string, schema: string): string {
    "\n-- Rule: " + Target(d, name, table, schema) + "\n"
  }

  function Drop(d: Driver, name: string, table: string, schema: string): string {
    "DROP RULE IF EXISTS " + Target(d, name, table, schema) + " CASCADE;\n"
  }

  /** The definition lookup dump() makes for a request naming a rule and a table or view. */
  function Lookup(params: Params, connSchema: string, d: Driver, defs: RuleDefs): Fetch<string>
    requires "rule" in params && RuleTable(params).Some?
  {
    defs(d.clean(params["rule"]), d.clean(RuleTable(params).value), d.clean(ParamOr(params, "schema", connSchema)))
  }

  /** The write() calls dump() makes.  Nothing without a rule name and a table (or
      view) name; otherwise the header always and the DROP only under `clean`, both
      before the lookup, so a failed lookup leaves them written; the definition
      followed by `;` only when the lookup found a row. */
  function RuleWrites(params: Params, options: Options, connSchema: string, d: Driver, defs: RuleDefs): (w: seq<string>)
    ensures Missing(Param(params, "rule")) || Missing(RuleTable(params)) ==> w == []
    ensures !Missing(Param(params, "rule")) && !Missing(RuleTable(params)) ==>
              var name, table := params["rule"], RuleTable(params).value;
              var schema := ParamOr(params, "schema", connSchema);
              var found := Lookup(params, connSchema, d, defs);
              && |w| == 1 + Count(options.clean) + Count(found.Found?)
              && w[0] == Header(d, name, table, schema)
              && (options.clean ==> w[1] == Drop(d, name, table, schema))
              && (found.Found? ==> w[|w| - 1] == found.row + ";\n")
  {
    if Missing(Param(params, "rule")) || Missing(RuleTable(params)) then []
    else
      var name, table := params["rule"], RuleTable(params).value;
      var schema := ParamOr(params, "schema", connSchema);
      [Header(d, name, table, schema)]
      + (if options.clean then [Drop(d, name, table, schema)] else [])
      + (match Lookup(params, connSchema, d, defs)
         case Found(def) => [def + ";\n"]
         case _ => [])
  }

  class RuleDumper {
    const conn: Connection
    const out: Writer
    const defs: RuleDefs

    constructor (conn: Connection, out: Writer, defs: RuleDefs)
      ensures this.conn == conn && this.out == out && this.defs == defs
    {
      this.conn := conn;
      this.out := out;
      this.defs := defs;
    }

    /** dump */
    method Dump(params: Params, options: Options)
      modifies out
      ensures out.writes == old(out.writes) + RuleWrites(params, options, conn.schema, conn.driver, defs)
    {
      var name := Param(params, "rule");
      var table := RuleTable(params);
      var schema := ParamOr(params, "schema", conn.schema);
      if Missing(name) || Missing(table) {
        return;
      }
      out.Write(Header(conn.driver, name.value, table.value, schema));
      if options.clean {
        out.Write(Drop(conn.driver, name.value, table.value, schema));
      }
      var cName, cTable, cSchema := conn.driver.clean(name.value), conn.driver.clean(table.value), conn.driver.clean(schema);
      var defRs := defs(cName, cTable, cSchema);
      if defRs.QueryFailed? {
        return;
      }
      if defRs.Found? {
        out.Write(defRs.row + ";\n");
      }
    }
  }
}

=== FILE: sequence_dumper.dfy ===
/** SequenceDumper: CREATE SEQUENCE, the current value through setval, an optional
    comment and the privileges of one sequence. */
module SequenceDump {
  import opened Php
  import opened Output
  import opened PgDriver
  import opened DumpCommon

  /** The row the sequence lookup returns; the numeric columns as the driver renders
      them, the two flags after phpBool. */
  datatype SequenceRow = SequenceRow(
    startValue: string, incrementBy: string, minValue: string, maxValue: string,
    cacheValue: string, isCycled: bool, lastValue: Option<string>, isCalled: bool)

  /** The catalog queries the dumper makes: the sequence by name, and its comment by
      the cleaned sequence and schema names. */
  datatype SequenceCatalog = SequenceCatalog(
    sequence: string -> Fetch<SequenceRow>,
    comment: (string, string) -> Fetch<Option<string>>)

  function Header(schema: string, sequence: string): string {
    "\n-- Sequence: " + Quoted2(schema, sequence) + "\n"
  }

  /** The CREATE SEQUENCE statement, one write per clause. */
  function CreateWrites(ifNotExists: string, schema: string, sequence: string, row: SequenceRow): (w: seq<string>)
    ensures |w| == 7 + Count(row.isCycled)
    ensures w[0] == "CREATE SEQUENCE " + ifNotExists + Quoted2(schema, sequence) + "\n"
    ensures w[1] == "    START WITH " + row.startValue + "\n" && w[2] == "    INCREMENT BY " + row.incrementBy + "\n"
    ensures w[3] == "    MINVALUE " + row.minValue + "\n" && w[4] == "    MAXVALUE " + row.maxValue + "\n"
    ensures w[5] == "    CACHE " + row.cacheValue && w[|w| - 1] == ";\n"
    ensures row.isCycled ==> w[6] == "\n    CYCLE"
  {
    ["CREATE SEQUENCE " + ifNotExists + Quoted2(schema, sequence) + "\n",
     "    START WITH " + row.startValue + "\n",
     "    INCREMENT BY " + row.incrementBy + "\n",
     "    MINVALUE " + row.minValue + "\n",
     "    MAXVALUE " + row.maxValue + "\n",
     "    CACHE " + row.cacheValue]
    + (if row.isCycled then ["\n    CYCLE"] else [])
    + [";\n"]
  }

  /** The setval call restoring the current value; none when last_value is empty. */
  function SetvalWrites(d: Driver, schema: string, sequence: string, row: SequenceRow): (w: seq<string>)
    ensures |w| == 1 - Count(IsEmptyValue(row.lastValue))
    ensures w != [] ==> EndsWith(w[0], if row.isCalled then ", true);\n" else ", false);\n")
    ensures w != [] ==>
              && row.lastValue.Some?
              && w[0] == "SELECT pg_catalog.setval('" + Quoted2(AddSlashes(d.clean(schema)), AddSlashes(d.clean(sequence)))
                      + "', " + row.lastValue.value + (if row.isCalled then ", true);\n" else ", false);\n")
  {
    if IsEmptyValue(row.lastValue) then []
    else
      var head := "SELECT pg_catalog.setval('" + Quoted2(AddSlashes(d.clean(schema)), AddSlashes(d.clean(sequence))) + "', " + row.lastValue.value;
      var tail := if row.isCalled then ", true);\n" else ", false);\n";
      EndsWithConcat(head, tail);
      [head + tail]
  }

  /** The COMMENT statement.  It ends in a backslash and the letter n, not in a
      newline. */
  function CommentStatement(d: Driver, schema: string, sequence: string, comment: string): (c: string)
    ensures EndsWith(c, "';\\n") && c[|c| - 1] != '\n'
  {
    var head := "COMMENT ON SEQUENCE " + Quoted2(AddSlashes(d.clean(schema)), AddSlashes(d.clean(sequence))) + " IS '" + d.clean(comment);
    EndsWithConcat(head, "';\\n");
    head + "';\\n"
  }

  /** The comment, written only when comments are requested and the lookup finds a
      comment that is not empty. */
  function CommentWrites(withComments: bool, d: Driver, cat: SequenceCatalog, schema: string, sequence: string): (w: seq<string>)
    ensures |w| <= 1
    ensures w != [] <==> withComments && cat.comment(d.clean(sequence), d.clean(schema)).Found?
                          && !IsEmptyValue(cat.comment(d.clean(sequence), d.clean(schema)).row)
  {
    if !withComments then []
    else
      match cat.comment(d.clean(sequence), d.clean(schema))
      case Found(comment) =>
        if IsEmptyValue(comment) then [] else [CommentStatement(d, schema, sequence, comment.value)]
      case _ => []
  }

  /** The write() calls dump() makes for a sequence that was found. */
  function FoundWrites(options: Options, d: Driver, e: Exporter, cat: SequenceCatalog, schema: string, sequence: string, row: SequenceRow): seq<string> {
    [Header(schema, sequence)]
    + e.dropWrites("SEQUENCE", schema + "\".\"" + sequence, options)
    + CreateWrites(e.ifNotExists(options), schema, sequence, row)
    + SetvalWrites(d, schema, sequence, row)
    + CommentWrites(e.includeComments(options), d, cat, schema, sequence)
    + e.privilegeWrites(sequence, "sequence", schema)
  }

  /** The write() calls dump() makes: nothing without a name or when the lookup finds
      no row; otherwise the header first and the privileges last. */
  function SequenceWrites(params: Params, options: Options, connSchema: string, d: Driver, e: Exporter, cat: SequenceCatalog): (w: seq<string>)
    ensures Missing(Param(params, "sequence")) || !cat.sequence(params["sequence"]).Found? ==> w == []
    ensures !Missing(Param(params, "sequence")) && cat.sequence(params["sequence"]).Found? ==>
              var schema := ParamOr(params, "schema", connSchema);
              var sequence := params["sequence"];
              var privileges := e.privilegeWrites(sequence, "sequence", schema);
              && |w| > |privileges|
              && w[0] == Header(schema, sequence)
              && w[|w| - |privileges|..] == privileges
  {
    if Missing(Param(params, "sequence")) then []
    else
      var sequence := params["sequence"];
      match cat.sequence(sequence)
      case Found(row) => FoundWrites(options, d, e, cat, ParamOr(params, "schema", connSchema), sequence, row)
      case _ => []
  }

  class SequenceDumper {
    const conn: Connection
    const exporter: Exporter
    const out: Writer
    const catalog: SequenceCatalog

    constructor (conn: Connection, exporter: Exporter, out: Writer, catalog: SequenceCatalog)
      ensures this.conn == conn && this.exporter == exporter && this.out == out && this.catalog == catalog
    {
      this.conn := conn;
      this.exporter := exporter;
      this.out := out;
      this.catalog := catalog;
    }

    /** dump */
    method Dump(params: Params, options: Options)
      modifies out
      ensures out.writes == old(out.writes) + SequenceWrites(params, options, conn.schema, conn.driver, exporter, catalog)
    {
      var sequence := Param(params, "sequence");
      var schema := ParamOr(params, "schema", conn.schema);
      if Missing(sequence) {
        return;
      }
      var rs := catalog.sequence(sequence.value);
      if rs.Found? {
        ghost var start := out.writes;
        var drop := exporter.dropWrites("SEQUENCE", schema + "\".\"" + sequence.value, options);
        ghost var create := CreateWrites(exporter.ifNotExists(options), schema, sequence.value, rs.row);
        ghost var setval := SetvalWrites(conn.driver, schema, sequence.value, rs.row);
        ghost var comment := CommentWrites(exporter.includeComments(options), conn.driver, catalog, schema, sequence.value);
        var privileges := exporter.privilegeWrites(sequence.value, "sequence", schema);
        ghost var header := [Header(schema, sequence.value)];
        out.Write(Header(schema, sequence.value));
        out.WriteAll(drop);
        AppendAssoc(start, header, drop);
        WriteCreate(exporter.ifNotExists(options), schema, sequence.value, rs.row);
        AppendAssoc(start, header + drop, create);
        WriteSetval(schema, sequence.value, rs.row);
        AppendAssoc(start, header + drop + create, setval);
        WriteComment(exporter.includeComments(options), schema, sequence.value);
        AppendAssoc(start, header + drop + create + setval, comment);
        out.WriteAll(privileges);
        AppendAssoc(start, header + drop + create + setval + comment, privileges);
        assert out.writes == start + FoundWrites(options, conn.driver, exporter, catalog, schema, sequence.value, rs.row);
      }
    }

    method WriteCreate(ifNotExists: string, schema: string, sequence: string, row: SequenceRow)
      modifies out
      ensures out.writes == old(out.writes) + CreateWrites(ifNotExists, schema, sequence, row)
    {
      out.Write("CREATE SEQUENCE " + ifNotExists + Quoted2(schema, sequence) + "\n");
      out.Write("    START WITH " + row.startValue + "\n");
      out.Write("    INCREMENT BY " + row.incrementBy + "\n");
      out.Write("    MINVALUE " + row.minValue + "\n");
      out.Write("    MAXVALUE " + row.maxValue + "\n");
      out.Write("    CACHE " + row.cacheValue);
      if row.isCycled {
        out.Write("\n    CYCLE");
      }
      out.Write(";\n");
    }

    method WriteSetval(schema: string, sequence: string, row: SequenceRow)
      modifies out
      ensures out.writes == old(out.writes) + SetvalWrites(conn.driver, schema, sequence, row)
    {
      if !IsEmptyValue(row.lastValue) {
        var cSchema, cSequence := conn.driver.clean(schema), conn.driver.clean(sequence);
        out.Write("SELECT pg_catalog.setval('" + Quoted2(AddSlashes(cSchema), AddSlashes(cSequence)) + "', "
                  + row.lastValue.value + (if row.isCalled then ", true);\n" else ", false);\n"));
      }
    }

    method WriteComment(withComments: bool, schema: string, sequence: string)
      modifies out
      ensures out.writes == old(out.writes) + CommentWrites(withComments, conn.driver, catalog, schema, sequence)
    {
      var cSchema, cSequence := conn.driver.clean(schema), conn.driver.clean(sequence);
      if withComments {
        var commentRs := catalog.comment(cSequence, cSchema);
        if commentRs.Found? && !IsEmptyValue(commentRs.row) {
          out.Write(CommentStatement(conn.driver, schema, sequence, commentRs.row.value));
        }
      }
    }
  }
}

=== FILE: session_settings.dfy ===
/** SessionSettingsApplier: keeps the session-level SET statements of an import so
    that they can be replayed after a reconnect.  A SET is kept only when it names a
    known setting and the server's version supports it; kept statements are cached
    once per normalised text, in first-seen order, and some of them also update the
    import state (the current schema, the client encoding, the cached list). */
module SessionSettings {
  import opened Php
  import opened SqlMatch
  import opened ImportCommon

  // ---------------------------------------------------------------- recognising statements

  /** isSetCommand: after ltrim, longer than four characters, starting with "SET" in
      any case, then a white-space character. */
  predicate IsSetCommand(stmt: string) {
    var s := LTrim(stmt);
    |s| > 4 && LitAt(s, 0, "SET") && IsCtypeSpace(s[3])
  }

  /** `^SET\s+NAME\s*=\s*` */
  function Assign(name: string): seq<Tok> {
    [Lit("SET"), Spaces1, Lit(name), Spaces, Lit("="), Spaces]
  }

  /** `^SELECT\s+pg_catalog\.set_config\(\s*'search_path'` */
  const SetConfigAllow: seq<Tok> :=
    [Lit("SELECT"), Spaces1, Lit("pg_catalog.set_config("), Spaces, Lit("'search_path'")]

  /** The allow-list of known session-level commands, in the order they are tried. */
  const AllowPatterns: seq<seq<Tok>> := [
    Assign("session_replication_role"),
    Assign("statement_timeout"),
    Assign("lock_timeout"),
    Assign("idle_in_transaction_session_timeout"),
    Assign("transaction_timeout"),
    Assign("client_encoding"),
    [Lit("SET"), Spaces1, Lit("standard_conforming_strings"), Spaces],
    [Lit("SET"), Spaces1, Lit("search_path"), Spaces1],
    Assign("check_function_bodies"),
    Assign("xmloption"),
    Assign("client_min_messages"),
    Assign("row_security"),
    SetConfigAllow
  ]

  /** isAllowedSet: some pattern of the allow-list matches. */
  predicate IsAllowedSet(stmt: string) {
    MatchesAny(stmt, AllowPatterns)
  }

  /** The settings that a 9.0 server does not have, each with the version (in tenths)
      that introduced it, in the order isCommandSupported tests them. */
  const Gates: seq<(string, nat)> := [
    ("lock_timeout", 93),
    ("idle_in_transaction_session_timeout", 96),
    ("transaction_timeout", 140),
    ("row_security", 95)
  ]

  /** `^set\s+NAME\s*=\s*` */
  function GatePattern(name: string): seq<Tok> {
    [Lit("set"), Spaces1, Lit(name), Spaces, Lit("="), Spaces]
  }

  /** The first gate whose pattern matches decides; without one, the command is
      supported. */
  predicate GateCheck(version: nat, s: string, gates: seq<(string, nat)>)
    decreases |gates|
  {
    if gates == [] then true
    else if Matches(s, GatePattern(gates[0].0)) then version >= gates[0].1
    else GateCheck(version, s, gates[1..])
  }

  /** isCommandSupported, on the lower-cased, trimmed statement. */
  predicate Supported(version: nat, stmt: string) {
    GateCheck(version, Lower(Trim(stmt)), Gates)
  }

  /** What collectFromStatement decides about a statement. */
  datatype Decision =
    | PassThrough        // blank or not a SET: run it, do not cache it
    | Unknown            // a SET outside the allow-list: skip it
    | Unsupported        // a known SET the server's version lacks: skip it
    | Accept(text: string)  // run and cache `text`, the trimmed statement ending in ';'

  function Decide(version: nat, stmt: string): Decision {
    var t := Trim(stmt);
    if t == "" || !IsSetCommand(t) then PassThrough
    else if !IsAllowedSet(t) then Unknown
    else if !Supported(version, t) then Unsupported
    else Accept(Terminated(t))
  }

  /** The statement as cached: with ';' appended when it does not end in one. */
  function Terminated(t: string): string {
    if t != [] && t[|t| - 1] == ';' then t else t + ";"
  }

  // ---------------------------------------------------------------- the cache

  /** The text of s after its leading white space. */
  function DropSpaces(s: string): (r: string)
    ensures |r| <= |s| && r == s[|s| - |r|..]
    ensures r == [] || !IsPcreSpace(r[0])
  {
    if s != [] && IsPcreSpace(s[0]) then DropSpaces(s[1..]) else s
  }

  /** preg_replace('/\s+/', ' ', $s): each run of white space becomes one space. */
  function CollapseSpaces(s: string): string
    decreases |s|
  {
    if s == [] then []
    else if IsPcreSpace(s[0]) then " " + CollapseSpaces(DropSpaces(s[1..]))
    else [s[0]] + CollapseSpaces(s[1..])
  }

  /** The normalised text under which a setting is remembered. */
  function Key(s: string): string {
    Lower(CollapseSpaces(s))
  }

  /** The applier's own fields: the cached statements and the normalised texts seen. */
  datatype Cache = Cache(settings: seq<string>, seen: set<string>)

  /** A statement is cached only when its normalised text is new. */
  function Remember(c: Cache, text: string): Cache {
    var key := Key(text);
    if key in c.seen then c else Cache(c.settings + [text], c.seen + {key})
  }

  /** The normalised texts setCachedSettings records for a list. */
  function Keys(settings: seq<string>): set<string>
    decreases |settings|
  {
    if settings == [] then {}
    else Keys(settings[..|settings| - 1]) + {Key(Trim(settings[|settings| - 1]))}
  }

  /** The seen-set is exactly the keys of the cached statements. */
  predicate Consistent(c: Cache) {
    c.seen == Keys(c.settings)
  }

  /** No two cached statements share a normalised text. */
  predicate DistinctKeys(settings: seq<string>) {
    forall i, j :: 0 <= i < j < |settings| ==> Key(Trim(settings[i])) != Key(Trim(settings[j]))
  }

  // ---------------------------------------------------------------- side effects on the state

  /** The keys of the import state that collectFromStatement writes. */
  datatype Shared = Shared(currentSchema: Option<string>, encoding: Option<string>, cachedSettings: seq<string>)

  /** `^SET\s+search_path\s+TO\s+` */
  const SearchPathTo: seq<Tok> := [Lit("SET"), Spaces1, Lit("search_path"), Spaces1, Lit("TO"), Spaces1]

  /** What `^SET\s+search_path\s+TO\s+(.+);?$` captures: the rest of the text, which
      `.` cannot carry past a line break; `$` also accepts one final line break. */
  function SearchPathList(text: string): Option<string> {
    match Run(text, 0, SearchPathTo)
    case None => None
    case Some(e) =>
      var r := text[e..];
      if r != [] && '\n' !in r then Some(r)
      else if |r| >= 2 && r[|r| - 1] == '\n' && '\n' !in r[..|r| - 1] then Some(r[..|r| - 1])
      else None
  }

  /** `set_config\(\s*'search_path'\s*,\s*'` */
  const SetConfigCall: seq<Tok> :=
    [Lit("set_config("), Spaces, Lit("'search_path'"), Spaces, Lit(","), Spaces, Lit("'")]

  /** Where a run of characters other than a single quote, starting at i, ends. */
  function QuoteEnd(s: string, i: nat): (j: nat)
    requires i <= |s|
    ensures i <= j <= |s|
    ensures forall k :: i <= k < j ==> s[k] != '\''
    ensures j < |s| ==> s[j] == '\''
    decreases |s| - i
  {
    if i < |s| && s[i] != '\'' then QuoteEnd(s, i + 1) else i
  }

  /** What `set_config\(\s*'search_path'\s*,\s*'([^']*)'` captures at the leftmost
      position from p on where it matches. */
  function SetConfigValue(text: string, p: nat): Option<string>
    requires p <= |text|
    decreases |text| - p
  {
    var m := Run(text, p, SetConfigCall);
    if m.Some? && QuoteEnd(text, m.value) < |text| then Some(text[m.value..QuoteEnd(text, m.value)])
    else if p < |text| then SetConfigValue(text, p + 1)
    else None
  }

  /** The characters trimmed off a schema name. */
  const SchemaTrimSet: set<char> := {' ', '"', '\'', '{', '}'}

  /** The schema a `SET search_path TO` list makes current: its first element,
      trimmed of white space and then of spaces, quotes and braces. */
  function FirstOfList(list: string): string {
    TrimBy(Trim(Split(list, ',')[0]), SchemaTrimSet)
  }

  /** The schema a set_config value makes current (not trimmed of white space first). */
  function FirstOfValue(value: string): string {
    TrimBy(Split(value, ',')[0], SchemaTrimSet)
  }

  /** The current schema after an accepted statement. */
  function SchemaAfter(text: string, current: Option<string>): Option<string> {
    match SearchPathList(text)
    case Some(list) => Some(FirstOfList(list))
    case None =>
      match SetConfigValue(text, 0)
      case Some(value) => Some(FirstOfValue(value))
      case None => current
  }

  /** `[A-Za-z0-9_-]` */
  predicate IsEncodingChar(c: char) {
    ('A' <= c <= 'Z') || ('a' <= c <= 'z') || ('0' <= c <= '9') || c == '_' || c == '-'
  }

  function EncodingEnd(s: string, i: nat): (j: nat)
    requires i <= |s|
    ensures i <= j <= |s|
    ensures forall k :: i <= k < j ==> IsEncodingChar(s[k])
    ensures j < |s| ==> !IsEncodingChar(s[j])
    decreases |s| - i
  {
    if i < |s| && IsEncodingChar(s[i]) then EncodingEnd(s, i + 1) else i
  }

  /** What `^SET\s+client_encoding\s*=\s*'?([A-Za-z0-9_-]+)'?` captures. */
  function ClientEncoding(text: string): Option<string> {
    match Run(text, 0, Assign("client_encoding"))
    case None => None
    case Some(e) =>
      var b := if e < |text| && text[e] == '\'' then e + 1 else e;
      var f := EncodingEnd(text, b);
      if f > b then Some(text[b..f]) else None
  }

  /** The state after the search_path and encoding side effects of an accepted text. */
  function Effects(sh: Shared, text: string): Shared {
    var encoding := ClientEncoding(text);
    sh.(currentSchema := SchemaAfter(text, sh.currentSchema),
        encoding := if encoding.Some? then encoding else sh.encoding)
  }

  // ---------------------------------------------------------------- what the side effects capture

  /** `SET search_path TO list`, the three words in any letter case and each followed by
      white space, captures the whole list when it holds no line break. */
  lemma SearchPathCaptured(text: string, k1: string, w1: string, k2: string, w2: string, k3: string, w3: string, list: string)
    requires text == k1 + w1 + k2 + w2 + k3 + w3 + list
    requires |k1| == 3 && LitAt(k1, 0, "SET") && |k2| == 11 && LitAt(k2, 0, "search_path")
    requires |k3| == 2 && LitAt(k3, 0, "TO")
    requires w1 != [] && w2 != [] && w3 != [] && Blank(w1) && Blank(w2) && Blank(w3)
    requires list != [] && !IsPcreSpace(list[0]) && '\n' !in list
    ensures SearchPathList(text) == Some(list)
  {
    var s3 := k3 + w3 + list;
    var s2 := k2 + w2 + s3;
    assert text == k1 + w1 + s2;
    assert SameLetter(k3[0], "TO"[0]) && SameLetter(k2[0], "search_path"[0]);
    ThreeWordsBlankRun(text, k1, w1, s2, k2, w2, s3, k3, w3, list, "SET", "search_path", "TO", Spaces1, Spaces1, Spaces1, |text| - |list|);
  }

  /** The current schema a search_path list names is its first element, trimmed of white
      space and then of spaces, quotes and braces. */
  lemma FirstOfListFirst(a: string, b: string)
    requires ',' !in a
    ensures FirstOfList(a + "," + b) == TrimBy(Trim(a), SchemaTrimSet)
  {
    SplitAtSeparator(a, ',', b);
    assert a + "," + b == a + [','] + b;
  }

  /** A list of one element names that element, trimmed likewise. */
  lemma FirstOfListSingle(list: string)
    requires ',' !in list
    ensures FirstOfList(list) == TrimBy(Trim(list), SchemaTrimSet)
  {
    SplitNoSeparator(list, ',');
  }

  /** The greedy `(.+)` also captures the `;` the applier has appended, so a list of one
      element names a schema that ends with `;`. */
  lemma FirstOfListKeepsSemicolon(list: string)
    requires ',' !in list && list != [] && list[|list| - 1] == ';'
    ensures var f := FirstOfList(list); f != [] && f[|f| - 1] == ';'
  {
    assert ';' !in DefaultTrimSet && ';' !in SchemaTrimSet;
    FirstOfListSingle(list);
    TrimByKeepsLast(list, DefaultTrimSet);
    var t := Trim(list);
    assert t != [] && t[|t| - 1] == ';';
    TrimByKeepsLast(t, SchemaTrimSet);
  }

  /** A schema name the trims leave alone: not empty, no comma, and neither end white
      space, a quote or a brace. */
  predicate PlainSchemaName(name: string) {
    && name != [] && ',' !in name
    && name[0] !in DefaultTrimSet && name[0] !in SchemaTrimSet
    && name[|name| - 1] !in DefaultTrimSet && name[|name| - 1] !in SchemaTrimSet
  }

  /** As written: `SET search_path TO myschema`, terminated by the applier, makes
      `myschema;` the current schema. */
  lemma SemicolonKeptInSchema(name: string)
    requires PlainSchemaName(name)
    ensures FirstOfList(name + ";") == name + ";"
  {
    var list := name + ";";
    assert ',' !in list by {
      assert list == name + [';'];
    }
    FirstOfListSingle(list);
    assert list[0] == name[0] && list[|list| - 1] == ';';
    SemicolonNotTrimmed();
    TrimFixed(list);
    TrimByFixed(list, SchemaTrimSet);
  }

  /** Neither trim strips `;`. */
  lemma SemicolonNotTrimmed()
    ensures ';' !in DefaultTrimSet && ';' !in SchemaTrimSet
  {
  }

  /** The list as `(.+?);?$` would capture it: without the one `;` at the end. */
  function SchemaListIntended(list: string): (r: string)
    ensures list != [] && list[|list| - 1] == ';' ==> r + ";" == list
    ensures !(list != [] && list[|list| - 1] == ';') ==> r == list
  {
    if list != [] && list[|list| - 1] == ';' then list[..|list| - 1] else list
  }

  /** The schema a search_path list makes current once its `;` is left out. */
  function FirstOfListIntended(list: string): string {
    FirstOfList(SchemaListIntended(list))
  }

  /** Corrected: `SET search_path TO myschema` makes `myschema` current. */
  lemma SchemaWithoutSemicolon(name: string)
    requires PlainSchemaName(name)
    ensures FirstOfListIntended(name + ";") == name
  {
    SemicolonDropped(name);
    assert FirstOfListIntended(name + ";") == FirstOfList(name);
    FirstOfListSingle(name);
    TrimFixed(name);
    TrimByFixed(name, SchemaTrimSet);
  }

  /** Corrected, a list of several schemas still makes its first one current, as before. */
  lemma ListFirstUnchanged(a: string, b: string)
    requires ',' !in a
    ensures FirstOfListIntended(a + "," + b) == FirstOfList(a + "," + b) == TrimBy(Trim(a), SchemaTrimSet)
  {
    FirstOfListFirst(a, b);
    if b != [] && b[|b| - 1] == ';' {
      SemicolonDroppedFromList(a, b);
      FirstOfListFirst(a, b[..|b| - 1]);
    }
  }

  lemma SemicolonDropped(name: string)
    ensures SchemaListIntended(name + ";") == name
  {
    assert (name + ";")[..|name|] == name;
  }

  lemma SemicolonDroppedFromList(a: string, b: string)
    requires b != [] && b[|b| - 1] == ';'
    ensures SchemaListIntended(a + "," + b) == a + "," + b[..|b| - 1]
  {
    var list := a + "," + b;
    assert list[|list| - 1] == ';';
    assert list[..|list| - 1] == a + "," + b[..|b| - 1];
  }

  /** A run of `[A-Za-z0-9_-]` from i that stops at j is what the encoding pattern takes. */
  lemma {:induction false} EncodingEndAt(s: string, i: nat, j: nat)
    requires i <= j <= |s|
    requires forall k :: i <= k < j ==> IsEncodingChar(s[k])
    requires j == |s| || !IsEncodingChar(s[j])
    ensures EncodingEnd(s, i) == j
    decreases j - i
  {
    if i < j {
      EncodingEndAt(s, i + 1, j);
    }
  }

  /** `SET\s+client_encoding\s*=\s*` over `k1 + w1 + k2 + w2 + "=" + w3`, followed by
      text that does not start with white space, ends where w3 ends. */
  lemma AssignRunsTo(text: string, p: string, k1: string, w1: string, k2: string, w2: string, w3: string, r: string)
    requires text == p + r && p == k1 + w1 + k2 + w2 + "=" + w3
    requires |k1| == 3 && LitAt(k1, 0, "SET") && |k2| == 15 && LitAt(k2, 0, "client_encoding")
    requires w1 != [] && Blank(w1) && Blank(w2) && Blank(w3)
    requires r == [] || !IsPcreSpace(r[0])
    ensures Run(text, 0, Assign("client_encoding")) == Some(|p|)
  {
    var s3 := "=" + w3 + r;
    var s2 := k2 + w2 + s3;
    assert text == k1 + w1 + s2;
    assert SameLetter(k2[0], "client_encoding"[0]);
    assert LitAt("=", 0, "=");
    ThreeWordsBlankRun(text, k1, w1, s2, k2, w2, s3, "=", w3, r, "SET", "client_encoding", "=", Spaces1, Spaces, Spaces, |p|);
  }

  /** The capture, from where the assignment ends (e), where the name starts (b) and
      where it ends (f). */
  lemma ClientEncodingAt(text: string, e: nat, b: nat, f: nat, x: string)
    requires Run(text, 0, Assign("client_encoding")) == Some(e)
    requires e < |text| && b == (if text[e] == '\'' then e + 1 else e)
    requires b < f && EncodingEnd(text, b) == f && text[b..f] == x
    ensures ClientEncoding(text) == Some(x)
  {
  }

  /** After the `=`, an optional quote and then a run of encoding characters x: the name
      starts at b, after the quote if there is one, and runs to f. */
  lemma NameAfterAssign(text: string, p: string, q: string, x: string, rest: string, e: nat, b: nat, f: nat)
    requires text == p + q + x + rest && e == |p| && b == e + |q| && f == b + |x|
    requires q == "" || q == "'"
    requires x != [] && forall k :: 0 <= k < |x| ==> IsEncodingChar(x[k])
    requires rest == [] || !IsEncodingChar(rest[0])
    ensures e < |text| && b == (if text[e] == '\'' then e + 1 else e)
    ensures b < f && EncodingEnd(text, b) == f && text[b..f] == x
  {
    assert IsEncodingChar(x[0]);
    assert text == p + (q + x + rest);
    assert text[e] == (q + x + rest)[0];
    forall k | b <= k < f
      ensures IsEncodingChar(text[k])
    {
      assert text[k] == x[k - b];
    }
    if f < |text| {
      assert text[f] == rest[0];
    }
    EncodingEndAt(text, b, f);
    assert text[b..f] == x;
  }

  /** `SET client_encoding = 'x'` (the quote optional, white space around `=` optional,
      the words in any letter case) captures the encoding name x. */
  lemma ClientEncodingCaptured(text: string, p: string, k1: string, w1: string, k2: string, w2: string, w3: string, q: string, x: string, rest: string)
    requires text == p + q + x + rest && p == k1 + w1 + k2 + w2 + "=" + w3
    requires |k1| == 3 && LitAt(k1, 0, "SET") && |k2| == 15 && LitAt(k2, 0, "client_encoding")
    requires w1 != [] && Blank(w1) && Blank(w2) && Blank(w3)
    requires q == "" || q == "'"
    requires x != [] && forall k :: 0 <= k < |x| ==> IsEncodingChar(x[k])
    requires rest == [] || !IsEncodingChar(rest[0])
    ensures ClientEncoding(text) == Some(x)
  {
    var r := q + x + rest;
    QuotedNameStart(q, x, rest);
    AppendAssoc(p + q, x, rest);
    AppendAssoc(p, q, x + rest);
    AssignRunsTo(text, p, k1, w1, k2, w2, w3, r);
    NameCaptured(text, p, q, x, rest);
  }

  /** Once the assignment has matched up to the end of p, the optional quote and the name
      x after it make x the capture. */
  lemma NameCaptured(text: string, p: string, q: string, x: string, rest: string)
    requires text == p + q + x + rest && Run(text, 0, Assign("client_encoding")) == Some(|p|)
    requires q == "" || q == "'"
    requires x != [] && forall k :: 0 <= k < |x| ==> IsEncodingChar(x[k])
    requires rest == [] || !IsEncodingChar(rest[0])
    ensures ClientEncoding(text) == Some(x)
  {
    NameAfterAssign(text, p, q, x, rest, |p|, |p| + |q|, |p| + |q| + |x|);
    ClientEncodingAt(text, |p|, |p| + |q|, |p| + |q| + |x|, x);
  }

  /** The text after the `=` starts with the quote, or with the first encoding character. */
  lemma QuotedNameStart(q: string, x: string, rest: string)
    requires q == "" || q == "'"
    requires x != [] && IsEncodingChar(x[0])
    ensures q + x + rest != [] && !IsPcreSpace((q + x + rest)[0])
  {
    assert (q + x + rest)[0] == (if q == "" then x[0] else '\'');
  }

  /** What the side effects change: the current schema only when the search_path or the
      set_config pattern matches, the encoding only when the client_encoding pattern
      matches, and never the cached list. */
  lemma EffectsFields(sh: Shared, text: string)
    ensures Effects(sh, text).cachedSettings == sh.cachedSettings
    ensures Effects(sh, text).encoding == if ClientEncoding(text).Some? then ClientEncoding(text) else sh.encoding
    ensures SearchPathList(text).Some? ==> Effects(sh, text).currentSchema == Some(FirstOfList(SearchPathList(text).value))
    ensures SearchPathList(text).None? && SetConfigValue(text, 0).None? ==> Effects(sh, text).currentSchema == sh.currentSchema
  {
  }

  /** `SET search_path TO a, b` makes `a`, trimmed, the current schema; a one-element
      list, as the applier has terminated it with `;`, makes a schema name ending in `;`. */
  lemma SearchPathEffect(sh: Shared, text: string, k1: string, w1: string, k2: string, w2: string, k3: string, w3: string, list: string)
    requires text == k1 + w1 + k2 + w2 + k3 + w3 + list
    requires |k1| == 3 && LitAt(k1, 0, "SET") && |k2| == 11 && LitAt(k2, 0, "search_path")
    requires |k3| == 2 && LitAt(k3, 0, "TO")
    requires w1 != [] && w2 != [] && w3 != [] && Blank(w1) && Blank(w2) && Blank(w3)
    requires list != [] && !IsPcreSpace(list[0]) && '\n' !in list
    ensures forall a, b :: list == a + "," + b && ',' !in a ==>
              Effects(sh, text).currentSchema == Some(TrimBy(Trim(a), SchemaTrimSet))
    ensures ',' !in list && list[|list| - 1] == ';' ==>
              var c := Effects(sh, text).currentSchema; c.Some? && c.value != [] && c.value[|c.value| - 1] == ';'
  {
    SearchPathCaptured(text, k1, w1, k2, w2, k3, w3, list);
    SearchPathListEffect(sh, text, list);
  }

  /** The effect of a captured search_path list: its first element, trimmed, becomes the
      current schema. */
  lemma SearchPathListEffect(sh: Shared, text: string, list: string)
    requires SearchPathList(text) == Some(list) && list != []
    ensures forall a, b :: list == a + "," + b && ',' !in a ==>
              Effects(sh, text).currentSchema == Some(TrimBy(Trim(a), SchemaTrimSet))
    ensures ',' !in list && list[|list| - 1] == ';' ==>
              var c := Effects(sh, text).currentSchema; c.Some? && c.value != [] && c.value[|c.value| - 1] == ';'
  {
    EffectsFields(sh, text);
    forall a, b | list == a + "," + b && ',' !in a
      ensures Effects(sh, text).currentSchema == Some(TrimBy(Trim(a), SchemaTrimSet))
    {
      FirstOfListFirst(a, b);
    }
    if ',' !in list && list[|list| - 1] == ';' {
      FirstOfListKeepsSemicolon(list);
    }
  }

  /** How PHP prints the version float: 9.3 as "9.3", 14 as "14". */
  function VersionText(version: nat): string {
    NatToString(version / 10) + (if version % 10 == 0 then "" else "." + [DigitChar(version % 10)])
  }

  // ---------------------------------------------------------------- collecting

  /** The cache after a decision: an accepted statement is remembered. */
  function CacheAfter(c: Cache, d: Decision): Cache {
    if d.Accept? then Remember(c, d.text) else c
  }

  /** The state after a decision, given the cache after it: an accepted statement has
      its side effects, and the cached list is copied into the state. */
  function SharedAfter(cache: Cache, sh: Shared, d: Decision): Shared {
    if d.Accept? then Effects(sh, d.text).(cachedSettings := cache.settings) else sh
  }

  /** What collectFromStatement logs: a warning for an unknown SET, a note for an
      unsupported one. */
  function LogOf(version: nat, stmt: string): seq<LogEntry> {
    LogFor(version, Trim(stmt), Decide(version, stmt))
  }

  /** The log entry for a decision on the trimmed statement t. */
  function LogFor(version: nat, t: string, d: Decision): seq<LogEntry> {
    match d
    case Unknown => [Warning("Skipping unknown SET command: " + Head(t, 80))]
    case Unsupported => [Info("Skipping unsupported SET command for PostgreSQL " + VersionText(version) + ": " + Head(t, 80))]
    case _ => []
  }

  /** What collectFromStatement returns: false exactly for a skipped SET. */
  predicate Admitted(d: Decision) {
    d.PassThrough? || d.Accept?
  }

  /** The decisions for a list of statements, one each. */
  function Decisions(version: nat, stmts: seq<string>): (ds: seq<Decision>)
    ensures |ds| == |stmts|
    decreases |stmts|
  {
    if stmts == [] then [] else Decisions(version, stmts[..|stmts| - 1]) + [Decide(version, stmts[|stmts| - 1])]
  }

  /** The cache after a list of decisions, taken in order. */
  function CacheOver(c: Cache, ds: seq<Decision>): Cache
    decreases |ds|
  {
    if ds == [] then c else CacheAfter(CacheOver(c, ds[..|ds| - 1]), ds[|ds| - 1])
  }

  /** The cache after collectFromStatements. */
  function CacheAll(version: nat, c: Cache, stmts: seq<string>): Cache {
    CacheOver(c, Decisions(version, stmts))
  }

  /** The state after collectFromStatements. */
  function SharedAll(version: nat, c: Cache, sh: Shared, stmts: seq<string>): Shared
    decreases |stmts|
  {
    if stmts == [] then sh
    else SharedAfter(CacheAll(version, c, stmts), SharedAll(version, c, sh, stmts[..|stmts| - 1]),
                     Decide(version, stmts[|stmts| - 1]))
  }

  /** The log of collectFromStatements. */
  function LogAll(version: nat, stmts: seq<string>): seq<LogEntry>
    decreases |stmts|
  {
    if stmts == [] then [] else LogAll(version, stmts[..|stmts| - 1]) + LogOf(version, stmts[|stmts| - 1])
  }

  /** What collecting leaves behind: the cache, the keys of the import state it writes,
      and the log. */
  datatype Outcome = Outcome(cache: Cache, shared: Shared, log: seq<LogEntry>)

  /** The outcome of collectFromStatements, from a given one. */
  function CollectOutcome(version: nat, start: Outcome, stmts: seq<string>): Outcome {
    Outcome(CacheAll(version, start.cache, stmts), SharedAll(version, start.cache, start.shared, stmts),
            start.log + LogAll(version, stmts))
  }

  // ---------------------------------------------------------------- replaying

  /** What applySettings has done so far: the statements sent, the log, the errors. */
  datatype Applied = Applied(sent: seq<string>, log: seq<LogEntry>, errors: nat)

  /** One cached statement: blank ones are skipped; the rest are sent, and a non-zero
      status or an exception counts as an error. */
  function ApplyOne(reply: seq<string> -> Reply, history: seq<string>, acc: Applied, sql: string): Applied {
    var t := Trim(sql);
    if t == "" then acc
    else
      var sent := acc.sent + [t];
      match reply(history + sent)
      case Threw(m) =>
        Applied(sent, acc.log + [Error("Session setting exception: " + t + " detail=" + m, None, None)], acc.errors + 1)
      case Status(code) =>
        if code != 0 then Applied(sent, acc.log + [Error("Session setting failed: " + t, None, None)], acc.errors + 1)
        else Applied(sent, acc.log + [Info("Session setting applied: " + Head(t, 120))], acc.errors)
  }

  /** applySettings over a list, on a connection that already ran `history`. */
  function ApplyAll(reply: seq<string> -> Reply, history: seq<string>, settings: seq<string>): Applied
    decreases |settings|
  {
    if settings == [] then Applied([], [], 0)
    else ApplyOne(reply, history, ApplyAll(reply, history, settings[..|settings| - 1]), settings[|settings| - 1])
  }

  /** The cached statements that are not blank, trimmed, in order. */
  function NonBlank(settings: seq<string>): seq<string>
    decreases |settings|
  {
    if settings == [] then []
    else
      var t := Trim(settings[|settings| - 1]);
      NonBlank(settings[..|settings| - 1]) + (if t == "" then [] else [t])
  }

  lemma ApplyAllStep(reply: seq<string> -> Reply, history: seq<string>, settings: seq<string>, i: nat)
    requires i < |settings|
    ensures ApplyAll(reply, history, settings[..i + 1]) == ApplyOne(reply, history, ApplyAll(reply, history, settings[..i]), settings[i])
  {
    assert settings[..i + 1][..i] == settings[..i];
  }

  /** How many of the statements sent were answered with anything but status 0. */
  function Failures(reply: seq<string> -> Reply, history: seq<string>, sent: seq<string>): nat
    decreases |sent|
  {
    if sent == [] then 0
    else Failures(reply, history, sent[..|sent| - 1]) + (if reply(history + sent) == Status(0) then 0 else 1)
  }

  // ---------------------------------------------------------------- properties of the test for SET

  /** Whether a statement is treated as a SET at all: its trimmed text is longer than
      four characters, starts with SET in any case, and has white space after it. */
  lemma SetTest(version: nat, stmt: string)
    ensures var t := Trim(stmt);
            Decide(version, stmt) != PassThrough <==> |t| > 4 && LitAt(t, 0, "SET") && IsCtypeSpace(t[3])
  {
    PassThroughUnlessSet(version, stmt);
    TrimEnds(stmt);
    TrimmedSetTest(Trim(stmt));
  }

  lemma PassThroughUnlessSet(version: nat, stmt: string)
    ensures Decide(version, stmt) != PassThrough <==> IsSetCommand(Trim(stmt))
  {
    var t := Trim(stmt);
    if IsSetCommand(t) {
      assert t != "";
      assert Decide(version, stmt).Unknown? || Decide(version, stmt).Unsupported? || Decide(version, stmt).Accept?;
    }
  }

  lemma TrimmedSetTest(t: string)
    requires t == [] || t[0] !in DefaultTrimSet
    ensures IsSetCommand(t) <==> |t| > 4 && LitAt(t, 0, "SET") && IsCtypeSpace(t[3])
  {
    LTrimFixed(t);
  }

  /** A blank statement or one that is not a SET is let through: true is returned and
      nothing is cached, logged or changed. */
  lemma PassThroughChangesNothing(version: nat, c: Cache, sh: Shared, stmt: string)
    requires Decide(version, stmt) == PassThrough
    ensures var d := Decide(version, stmt);
            Admitted(d) && CacheAfter(c, d) == c && SharedAfter(c, sh, d) == sh && LogOf(version, stmt) == []
  {
  }

  /** Any SELECT, `SELECT pg_catalog.set_config('search_path', ...)` included, is let
      through uncached, although the allow-list and the current-schema side effects
      have a branch for set_config. */
  lemma SelectPassesThrough(version: nat, stmt: string)
    requires LitAt(Trim(stmt), 0, "SELECT")
    ensures Decide(version, stmt) == PassThrough
  {
    var t := Trim(stmt);
    TrimEnds(stmt);
    SelectIsNotSet(t);
  }

  lemma SelectIsNotSet(t: string)
    requires LitAt(t, 0, "SELECT") && t[0] !in DefaultTrimSet
    ensures !IsSetCommand(t)
  {
    LTrimFixed(t);
    assert SameLetter(t[3], "SELECT"[3]);
  }

  /** The set_config entry of the allow-list never admits a statement: whatever it
      matches is not a SET command. */
  lemma SetConfigPatternDead(s: string)
    requires Matches(s, SetConfigAllow)
    ensures !IsSetCommand(s)
  {
    FirstLitMatches(s, 0, SetConfigAllow);
    assert SameLetter(s[0], "SELECT"[0]);
    SelectIsNotSet(s);
  }

  /** So for a SET command the allow-list is the first twelve patterns. */
  lemma AllowedWithoutSetConfig(t: string)
    requires IsSetCommand(t)
    ensures IsAllowedSet(t) <==> MatchesAny(t, AllowPatterns[..12])
  {
    MatchesAnyExists(t, AllowPatterns);
    MatchesAnyExists(t, AllowPatterns[..12]);
    if Matches(t, AllowPatterns[12]) {
      SetConfigPatternDead(t);
    }
    if exists i :: 0 <= i < 12 && Matches(t, AllowPatterns[..12][i]) {
      var i :| 0 <= i < 12 && Matches(t, AllowPatterns[..12][i]);
      assert AllowPatterns[..12][i] == AllowPatterns[i];
    }
    if exists i :: 0 <= i < 12 && Matches(t, AllowPatterns[i]) {
      var i :| 0 <= i < 12 && Matches(t, AllowPatterns[i]);
      assert AllowPatterns[..12][i] == AllowPatterns[i];
    }
  }

  /** A SET outside the allow-list is skipped with a warning: false is returned and
      nothing is cached or changed. */
  lemma UnknownSetSkipped(version: nat, stmt: string)
    requires Trim(stmt) != "" && IsSetCommand(Trim(stmt)) && !IsAllowedSet(Trim(stmt))
    ensures Decide(version, stmt) == Unknown && !Admitted(Decide(version, stmt))
    ensures LogOf(version, stmt) == [Warning("Skipping unknown SET command: " + Head(Trim(stmt), 80))]
  {
  }

  // ---------------------------------------------------------------- properties of the version gates

  /** A gate pattern that matches has its setting name after `set` and white space. */
  lemma GateNameAt(s: string, a: string)
    ensures Matches(s, GatePattern(a)) ==> |s| >= 3 && LitAt(s, SpaceEnd(s, 3), a)
  {
    if Matches(s, GatePattern(a)) {
      var ts := GatePattern(a);
      assert LitAt(s, 0, "set");
      assert ts[1..][1..] == [Lit(a), Spaces, Lit("="), Spaces];
      assert Run(s, 3, ts[1..]).Some?;
    }
  }

  /** Two gate patterns whose names start with different letters never both match. */
  lemma GatesExclusive(s: string, a: string, b: string)
    requires a != [] && b != [] && !SameLetter(a[0], b[0])
    requires Matches(s, GatePattern(a))
    ensures !Matches(s, GatePattern(b))
  {
    GateNameAt(s, a);
    GateNameAt(s, b);
    LitAtDiffer(s, SpaceEnd(s, 3), a, b, 0);
  }

  /** The gate of a setting decides alone: lock_timeout needs 9.3,
      idle_in_transaction_session_timeout 9.6, transaction_timeout 14 and
      row_security 9.5. */
  lemma GateDecides(version: nat, stmt: string, i: nat)
    requires i < |Gates| && Matches(Lower(Trim(stmt)), GatePattern(Gates[i].0))
    ensures Supported(version, stmt) <==> version >= Gates[i].1
  {
    var s := Lower(Trim(stmt));
    forall j | 0 <= j < i
      ensures !Matches(s, GatePattern(Gates[j].0))
    {
      GatesExclusive(s, Gates[i].0, Gates[j].0);
    }
    assert Gates[1..][1..][1..] == [Gates[3]];
  }

  /** Every other allowed SET is supported. */
  lemma NoGateSupported(version: nat, stmt: string)
    requires forall i :: 0 <= i < |Gates| ==> !Matches(Lower(Trim(stmt)), GatePattern(Gates[i].0))
    ensures Supported(version, stmt)
  {
    assert Gates[1..][1..][1..] == [Gates[3]];
    assert !Matches(Lower(Trim(stmt)), GatePattern(Gates[3].0));
  }

  /** A known SET the server's version lacks is skipped with a note: false is returned
      and nothing is cached or changed. */
  lemma UnsupportedSkipped(version: nat, stmt: string)
    requires Trim(stmt) != "" && IsSetCommand(Trim(stmt)) && IsAllowedSet(Trim(stmt))
    requires !Supported(version, Trim(stmt))
    ensures Decide(version, stmt) == Unsupported && !Admitted(Decide(version, stmt))
    ensures LogOf(version, stmt)
            == [Info("Skipping unsupported SET command for PostgreSQL " + VersionText(version) + ": " + Head(Trim(stmt), 80))]
  {
  }

  // ---------------------------------------------------------------- properties of the cache

  /** An accepted statement is the trimmed statement, with ';' appended when it did not
      end in one; it is its own trim. */
  lemma AcceptedText(version: nat, stmt: string)
    requires Decide(version, stmt).Accept?
    ensures var text := Decide(version, stmt).text;
            var t := Trim(stmt);
            && (text == t || text == t + ";")
            && text[|text| - 1] == ';'
            && Trim(text) == text
            && IsSetCommand(t) && IsAllowedSet(t) && Supported(version, t)
  {
    var t := Trim(stmt);
    assert IsSetCommand(t) && IsAllowedSet(t) && Supported(version, t);
    assert Decide(version, stmt).text == Terminated(t);
    TerminatedFixed(stmt);
  }

  /** The terminated form of a non-blank trimmed statement ends in ';' and is its own trim. */
  lemma TerminatedFixed(stmt: string)
    requires Trim(stmt) != ""
    ensures var t := Trim(stmt);
            var text := Terminated(t);
            && (text == t || text == t + ";")
            && text[|text| - 1] == ';'
            && Trim(text) == text
  {
    TrimEnds(stmt);
    TerminatedTrimmed(Trim(stmt));
    TerminatedShape(Trim(stmt));
  }

  lemma TerminatedTrimmed(t: string)
    requires t != [] && t[0] !in DefaultTrimSet && t[|t| - 1] !in DefaultTrimSet
    ensures Trim(Terminated(t)) == Terminated(t)
  {
    if t[|t| - 1] == ';' {
      TrimFixed(t);
    } else {
      TrimAppendFixed(t, ';');
    }
  }

  lemma TerminatedShape(t: string)
    ensures var text := Terminated(t); text[|text| - 1] == ';' && (text == t || text == t + ";")
  {
  }

  /** An accepted statement is cached exactly when its normalised text is new. */
  lemma AcceptedCached(version: nat, c: Cache, stmt: string)
    requires Decide(version, stmt).Accept?
    ensures var text := Decide(version, stmt).text;
            var c1 := CacheAfter(c, Decide(version, stmt));
            && Admitted(Decide(version, stmt)) && LogOf(version, stmt) == []
            && (Key(text) in c.seen ==> c1 == c)
            && (Key(text) !in c.seen ==> c1.settings == c.settings + [text] && c1.seen == c.seen + {Key(text)})
  {
  }

  /** Collecting the same statement again adds nothing to the cache. */
  lemma CollectTwice(version: nat, c: Cache, stmt: string)
    ensures var d := Decide(version, stmt);
            CacheAfter(CacheAfter(c, d), d) == CacheAfter(c, d)
  {
  }

  lemma KeysAppend(xs: seq<string>, x: string)
    ensures Keys(xs + [x]) == Keys(xs) + {Key(Trim(x))}
  {
    assert (xs + [x])[..|xs|] == xs;
  }

  /** Every entry of a list has its key among the list's keys. */
  lemma {:induction false} KeysHasEntry(xs: seq<string>, i: nat)
    requires i < |xs|
    ensures Key(Trim(xs[i])) in Keys(xs)
    decreases |xs|
  {
    if i < |xs| - 1 {
      KeysHasEntry(xs[..|xs| - 1], i);
    }
  }

  /** And every key of a list is the key of one of its entries. */
  lemma {:induction false} KeysOnlyEntries(xs: seq<string>, k: string)
    requires k in Keys(xs)
    ensures exists i :: 0 <= i < |xs| && Key(Trim(xs[i])) == k
    decreases |xs|
  {
    var init := xs[..|xs| - 1];
    if k != Key(Trim(xs[|xs| - 1])) {
      KeysOnlyEntries(init, k);
      var i :| 0 <= i < |init| && Key(Trim(init[i])) == k;
      assert xs[i] == init[i];
    }
  }

  /** Collecting keeps the seen-set equal to the keys of the cached statements. */
  lemma CollectKeepsConsistent(version: nat, c: Cache, stmt: string)
    requires Consistent(c)
    ensures Consistent(CacheAfter(c, Decide(version, stmt)))
  {
    var d := Decide(version, stmt);
    if d.Accept? {
      TerminatedFixed(stmt);
      RememberConsistent(c, d.text);
    }
  }

  lemma RememberConsistent(c: Cache, text: string)
    requires Consistent(c) && Trim(text) == text
    ensures Consistent(Remember(c, text))
  {
    var key := Key(text);
    if key !in c.seen {
      KeysAppend(c.settings, text);
      assert Remember(c, text) == Cache(c.settings + [text], c.seen + {key});
    }
  }

  /** The seen-set only grows, and takes in the key of an accepted statement. */
  lemma CacheAfterSeen(c: Cache, d: Decision)
    ensures c.seen <= CacheAfter(c, d).seen
    ensures d.Accept? ==> Key(d.text) in CacheAfter(c, d).seen
  {
  }

  /** So a cache built by collecting never holds two statements with the same
      normalised text. */
  lemma CollectKeepsDistinct(version: nat, c: Cache, stmt: string)
    requires Consistent(c) && DistinctKeys(c.settings)
    ensures DistinctKeys(CacheAfter(c, Decide(version, stmt)).settings)
  {
    var d := Decide(version, stmt);
    if d.Accept? && Key(d.text) !in c.seen {
      TerminatedFixed(stmt);
      var xs := c.settings + [d.text];
      forall i, j | 0 <= i < j < |xs|
        ensures Key(Trim(xs[i])) != Key(Trim(xs[j]))
      {
        if j == |c.settings| {
          assert xs[i] == c.settings[i];
          KeysHasEntry(c.settings, i);
        } else {
          assert xs[i] == c.settings[i] && xs[j] == c.settings[j];
        }
      }
    }
  }

  /** After the cache is restored from a list, collecting a statement of that list again
      leaves the cache as it is. */
  lemma RestoredNotRepeated(version: nat, settings: seq<string>, stmt: string)
    requires Decide(version, stmt).Accept? && Decide(version, stmt).text in settings
    ensures CacheAfter(Cache(settings, Keys(settings)), Decide(version, stmt)) == Cache(settings, Keys(settings))
  {
    var text := Decide(version, stmt).text;
    TerminatedFixed(stmt);
    var i :| 0 <= i < |settings| && settings[i] == text;
    KeysHasEntry(settings, i);
  }

  /** Collecting one more statement. */
  lemma CacheAllStep(version: nat, c: Cache, stmts: seq<string>, stmt: string)
    ensures CacheAll(version, c, stmts + [stmt]) == CacheAfter(CacheAll(version, c, stmts), Decide(version, stmt))
  {
    assert (stmts + [stmt])[..|stmts|] == stmts;
    var ds := Decisions(version, stmts + [stmt]);
    assert ds[..|ds| - 1] == Decisions(version, stmts);
  }

  lemma {:induction false} DecisionsAppend(version: nat, a: seq<string>, b: seq<string>)
    ensures Decisions(version, a + b) == Decisions(version, a) + Decisions(version, b)
    decreases |b|
  {
    if b == [] {
      assert a + b == a;
    } else {
      var init := b[..|b| - 1];
      DecisionsAppend(version, a, init);
      assert (a + b)[..|a + b| - 1] == a + init;
      assert (a + b)[|a + b| - 1] == b[|b| - 1];
    }
  }

  /** Taking decisions in two parts. */
  lemma {:induction false} CacheOverAppend(c: Cache, a: seq<Decision>, b: seq<Decision>)
    ensures CacheOver(c, a + b) == CacheOver(CacheOver(c, a), b)
    decreases |b|
  {
    if b == [] {
      assert a + b == a;
    } else {
      CacheOverAppend(c, a, b[..|b| - 1]);
      assert (a + b)[..|a + b| - 1] == a + b[..|b| - 1];
      assert (a + b)[|a + b| - 1] == b[|b| - 1];
    }
  }

  /** The seen-set only grows. */
  lemma {:induction false} SeenGrows(c: Cache, ds: seq<Decision>)
    ensures c.seen <= CacheOver(c, ds).seen
    decreases |ds|
  {
    if ds != [] {
      SeenGrows(c, ds[..|ds| - 1]);
      CacheAfterSeen(CacheOver(c, ds[..|ds| - 1]), ds[|ds| - 1]);
    }
  }

  /** After a list of decisions, the key of every accepted statement is seen. */
  lemma {:induction false} AcceptedSeen(c: Cache, ds: seq<Decision>, k: nat)
    requires k < |ds| && ds[k].Accept?
    ensures Key(ds[k].text) in CacheOver(c, ds).seen
    decreases |ds|
  {
    var init := ds[..|ds| - 1];
    CacheAfterSeen(CacheOver(c, init), ds[|ds| - 1]);
    if k < |init| {
      assert ds[k] == init[k];
      AcceptedSeen(c, init, k);
    }
  }

  /** Decisions whose accepted statements are all seen leave the cache as it is. */
  lemma {:induction false} AllSeenNoChange(c: Cache, ds: seq<Decision>)
    requires forall k :: 0 <= k < |ds| && ds[k].Accept? ==> Key(ds[k].text) in c.seen
    ensures CacheOver(c, ds) == c
    decreases |ds|
  {
    if ds != [] {
      var init := ds[..|ds| - 1];
      forall k | 0 <= k < |init| && init[k].Accept?
        ensures Key(init[k].text) in c.seen
      {
        assert init[k] == ds[k];
      }
      AllSeenNoChange(c, init);
    }
  }

  /** Collecting a list a second time adds nothing to the cache: each SET is kept once,
      where it was first seen. */
  lemma ReplayAddsNothing(version: nat, c: Cache, stmts: seq<string>)
    ensures CacheAll(version, c, stmts + stmts) == CacheAll(version, c, stmts)
  {
    var ds := Decisions(version, stmts);
    DecisionsAppend(version, stmts, stmts);
    CacheOverAppend(c, ds, ds);
    forall k | 0 <= k < |ds| && ds[k].Accept?
      ensures Key(ds[k].text) in CacheOver(c, ds).seen
    {
      AcceptedSeen(c, ds, k);
    }
    AllSeenNoChange(CacheOver(c, ds), ds);
  }

  // ---------------------------------------------------------------- properties of replaying

  /** applySettings sends the non-blank cached statements, trimmed and in order, logs
      one entry for each, and counts those answered with anything but status 0. */
  lemma {:induction false} ApplyAllMeaning(reply: seq<string> -> Reply, history: seq<string>, settings: seq<string>)
    ensures var r := ApplyAll(reply, history, settings);
            && r.sent == NonBlank(settings)
            && |r.log| == |r.sent|
            && r.errors == Failures(reply, history, r.sent)
    decreases |settings|
  {
    if settings != [] {
      var acc := ApplyAll(reply, history, settings[..|settings| - 1]);
      ApplyAllMeaning(reply, history, settings[..|settings| - 1]);
      var t := Trim(settings[|settings| - 1]);
      if t != "" {
        assert (acc.sent + [t])[..|acc.sent|] == acc.sent;
      }
    }
  }
  lemma SharedAllStep(version: nat, c: Cache, sh: Shared, stmts: seq<string>, stmt: string)
    ensures SharedAll(version, c, sh, stmts + [stmt])
            == SharedAfter(CacheAll(version, c, stmts + [stmt]), SharedAll(version, c, sh, stmts), Decide(version, stmt))
  {
    assert (stmts + [stmt])[..|stmts|] == stmts;
  }

  lemma LogAllStep(version: nat, stmts: seq<string>, stmt: string)
    ensures LogAll(version, stmts + [stmt]) == LogAll(version, stmts) + LogOf(version, stmt)
  {
    assert (stmts + [stmt])[..|stmts|] == stmts;
  }

  lemma CollectCacheStep(version: nat, start: Outcome, done: seq<string>, stmt: string)
    ensures CollectOutcome(version, start, done + [stmt]).cache
            == CacheAfter(CollectOutcome(version, start, done).cache, Decide(version, stmt))
  {
    CacheAllStep(version, start.cache, done, stmt);
  }

  lemma CollectSharedStep(version: nat, start: Outcome, done: seq<string>, stmt: string)
    ensures var after := CollectOutcome(version, start, done + [stmt]);
            after.shared == SharedAfter(after.cache, CollectOutcome(version, start, done).shared, Decide(version, stmt))
  {
    SharedAllStep(version, start.cache, start.shared, done, stmt);
  }

  lemma CollectLogStep(version: nat, start: Outcome, done: seq<string>, stmt: string)
    ensures CollectOutcome(version, start, done + [stmt]).log
            == CollectOutcome(version, start, done).log + LogOf(version, stmt)
  {
    LogAllStep(version, done, stmt);
    AppendAssoc(start.log, LogAll(version, done), LogOf(version, stmt));
  }

  /** One more statement collected, for collectFromStatements' loop. */
  lemma CollectStep(version: nat, start: Outcome, done: seq<string>, stmt: string)
    ensures var d := Decide(version, stmt);
            var before := CollectOutcome(version, start, done);
            var cache := CacheAfter(before.cache, d);
            CollectOutcome(version, start, done + [stmt])
            == Outcome(cache, SharedAfter(cache, before.shared, d), before.log + LogOf(version, stmt))
  {
    CollectCacheStep(version, start, done, stmt);
    CollectSharedStep(version, start, done, stmt);
    CollectLogStep(version, start, done, stmt);
  }

  // ---------------------------------------------------------------- the applier

  /** The part of the import state that collecting reads and writes. */
  function SharedOf(s: ImportState): Shared
    reads s
  {
    Shared(s.currentSchema, s.encoding, s.cachedSettings)
  }

  /** The import state's other fields, which collecting leaves alone. */
  function Rest(s: ImportState): (string, string, seq<string>, seq<string>, seq<string>, seq<string>)
    reads s
  {
    (s.scope, s.scopeIdent, s.deferred, s.ownershipQueue, s.rightsQueue, s.truncatedTables)
  }

  class SessionSettingsApplier {
    const logs: LogCollector
    /** The server's version, in tenths. */
    const pgVersion: nat
    var cachedSettings: seq<string>
    var seenSettings: set<string>

    /** The cache as a value; its settings are what getCachedSettings returns. */
    function View(): Cache
      reads this
    {
      Cache(cachedSettings, seenSettings)
    }

    constructor (logs: LogCollector, pgVersion: nat)
      ensures this.logs == logs && this.pgVersion == pgVersion
      ensures View() == Cache([], {}) && Consistent(View())
    {
      this.logs := logs;
      this.pgVersion := pgVersion;
      cachedSettings := [];
      seenSettings := {};
    }

    /** collectFromStatement: decides on one statement, logs a skipped SET, caches an
        accepted one once, and updates the import state when one is given. */
    method CollectFromStatement(stmt: string, state: ImportState?) returns (ok: bool)
      modifies this, logs, state
      ensures ok == Admitted(Decide(pgVersion, stmt))
      ensures View() == CacheAfter(old(View()), Decide(pgVersion, stmt))
      ensures Consistent(old(View())) ==> Consistent(View())
      ensures logs.entries == old(logs.entries) + LogOf(pgVersion, stmt)
      ensures state != null ==> SharedOf(state) == SharedAfter(View(), old(SharedOf(state)), Decide(pgVersion, stmt))
      ensures state != null ==> Rest(state) == old(Rest(state))
    {
      if Consistent(View()) {
        CollectKeepsConsistent(pgVersion, View(), stmt);
      }
      ok := Record(Decide(pgVersion, stmt), Trim(stmt), state);
    }

    /** The steps of collectFromStatement once the statement is decided on. */
    method Record(d: Decision, t: string, state: ImportState?) returns (ok: bool)
      modifies this, logs, state
      ensures ok == Admitted(d)
      ensures View() == CacheAfter(old(View()), d)
      ensures logs.entries == old(logs.entries) + LogFor(pgVersion, t, d)
      ensures state != null ==> SharedOf(state) == SharedAfter(View(), old(SharedOf(state)), d)
      ensures state != null ==> Rest(state) == old(Rest(state))
    {
      match d
      case PassThrough =>
        return true;
      case Unknown =>
        logs.Add(Warning("Skipping unknown SET command: " + Head(t, 80)));
        return false;
      case Unsupported =>
        logs.Add(Info("Skipping unsupported SET command for PostgreSQL " + VersionText(pgVersion) + ": " + Head(t, 80)));
        return false;
      case Accept(text) =>
        if state != null {
          KeepEffects(text, state);
        }
        KeepCache(text);
        if state != null {
          state.cachedSettings := cachedSettings;
        }
        return true;
    }

    /** The search_path and client_encoding side effects of an accepted statement. */
    method KeepEffects(text: string, state: ImportState)
      modifies state
      ensures SharedOf(state) == Effects(old(SharedOf(state)), text)
      ensures Rest(state) == old(Rest(state))
    {
      var after := Effects(SharedOf(state), text);
      state.currentSchema, state.encoding := after.currentSchema, after.encoding;
    }

    /** An accepted statement is cached unless its normalised text was seen. */
    method KeepCache(text: string)
      modifies this
      ensures View() == Remember(old(View()), text)
    {
      var norm := Key(text);
      if norm !in seenSettings {
        cachedSettings := cachedSettings + [text];
        seenSettings := seenSettings + {norm};
      }
    }

    /** The cache, the keys of the import state that collecting writes, and the log. */
    function Now(state: ImportState): Outcome
      reads this, logs, state
    {
      Outcome(View(), SharedOf(state), logs.entries)
    }

    /** collectFromStatements: each statement in order. */
    method CollectFromStatements(statements: seq<string>, state: ImportState)
      modifies this, logs, state
      ensures Now(state) == CollectOutcome(pgVersion, old(Now(state)), statements)
      ensures Rest(state) == old(Rest(state))
    {
      ghost var start := Now(state);
      for i := 0 to |statements|
        invariant Now(state) == CollectOutcome(pgVersion, start, statements[..i])
        invariant Rest(state) == old(Rest(state))
      {
        CollectNext(statements, i, start, state);
      }
      assert statements[..|statements|] == statements;
    }

    /** One statement of collectFromStatements' loop. */
    method CollectNext(statements: seq<string>, i: nat, ghost start: Outcome, state: ImportState)
      requires i < |statements| && Now(state) == CollectOutcome(pgVersion, start, statements[..i])
      modifies this, logs, state
      ensures Now(state) == CollectOutcome(pgVersion, start, statements[..i + 1])
      ensures Rest(state) == old(Rest(state))
    {
      var _ := CollectFromStatement(statements[i], state);
      CollectStep(pgVersion, start, statements[..i], statements[i]);
      TakeOneMore(statements, i);
    }

    /** applySettings: replays the cached statements on a connection and counts the
        failures. */
    method ApplySettings(pg: Database) returns (errorCount: nat)
      modifies pg, logs
      ensures var r := ApplyAll(pg.reply, old(pg.executed), cachedSettings);
              && pg.executed == old(pg.executed) + r.sent
              && logs.entries == old(logs.entries) + r.log
              && errorCount == r.errors
    {
      ghost var h0 := pg.executed;
      ghost var log0 := logs.entries;
      errorCount := 0;
      for i := 0 to |cachedSettings|
        invariant Replayed(pg, h0, log0, ApplyAll(pg.reply, h0, cachedSettings[..i]), errorCount)
      {
        ApplyAllStep(pg.reply, h0, cachedSettings, i);
        errorCount := ReplayOne(pg, cachedSettings[i], errorCount, h0, log0, ApplyAll(pg.reply, h0, cachedSettings[..i]));
      }
      assert cachedSettings[..|cachedSettings|] == cachedSettings;
    }

    /** What applySettings has sent, logged and counted, against what it should have. */
    predicate Replayed(pg: Database, h0: seq<string>, log0: seq<LogEntry>, r: Applied, errorCount: nat)
      reads pg, logs
    {
      pg.executed == h0 + r.sent && logs.entries == log0 + r.log && errorCount == r.errors
    }

    /** One statement of applySettings' loop. */
    method ReplayOne(pg: Database, sql: string, errorCount: nat, ghost h0: seq<string>, ghost log0: seq<LogEntry>,
                     ghost acc: Applied) returns (count: nat)
      requires Replayed(pg, h0, log0, acc, errorCount)
      modifies pg, logs
      ensures Replayed(pg, h0, log0, ApplyOne(pg.reply, h0, acc, sql), count)
    {
      count := errorCount;
      var sqlTrim := Trim(sql);
      if sqlTrim == "" {
        return;
      }
      var res := pg.Execute(sqlTrim);
      AppendAssoc(h0, acc.sent, [sqlTrim]);
      var e: LogEntry;
      match res {
        case Threw(m) =>
          e := Error("Session setting exception: " + sqlTrim + " detail=" + m, None, None);
          count := count + 1;
        case Status(code) =>
          if code != 0 {
            e := Error("Session setting failed: " + sqlTrim, None, None);
            count := count + 1;
          } else {
            e := Info("Session setting applied: " + Head(sqlTrim, 120));
          }
      }
      assert ApplyOne(pg.reply, h0, acc, sql) == Applied(acc.sent + [sqlTrim], acc.log + [e], count);
      logs.Add(e);
      AppendAssoc(log0, acc.log, [e]);
    }

    /** setCachedSettings: replaces the cache with a given list and rebuilds the
        seen-set from it, so that the result is consistent. */
    method SetCachedSettings(settings: seq<string>)
      modifies this
      ensures View() == Cache(settings, Keys(settings)) && Consistent(View())
    {
      cachedSettings := settings;
      seenSettings := {};
      var i := 0;
      while i < |settings|
        invariant 0 <= i <= |settings|
        invariant cachedSettings == settings
        invariant seenSettings == Keys(settings[..i])
      {
        assert settings[..i + 1][..i] == settings[..i];
        seenSettings := seenSettings + {Key(Trim(settings[i]))};
        i := i + 1;
      }
      assert settings[..i] == settings;
    }
  }
}

=== FILE: sql_formatter.dfy ===
/** The SQL export formatter.  It renders the rows of one table either as a COPY
    block or as INSERT statements (one statement per row, or several rows per
    statement in batches).  It works in two ways: in one call over a whole record
    set (`Format`), or streamed, with `WriteHeader`, then `WriteRow` for each row,
    then `WriteFooter`. */
module SqlFormat {
  import opened Php
  import opened CopyText
  import opened PgDriver
  import opened Output

  /** How a column's values are written: verbatim, as a string, or as bytea. */
  datatype EscapeMode = NoEscape | StringEscape | ByteaEscape

  /** The statement style chosen by the header; `Unset` before any header. */
  datatype InsertFormat = Unset | Copy | Multi | Single

  /** A column value: SQL NULL, or the text the driver returned. */
  type Value = Option<string>
  type Row = seq<Value>

  /** A column description: its name and type name, either of which may be missing. */
  datatype Field = Field(name: Option<string>, typ: Option<string>)

  /** The metadata keys the formatter reads (`table`, `insert_format`, `batch_size`). */
  datatype Metadata = Metadata(table: Option<string>, insertFormat: Option<string>, batchSize: Option<int>)

  /** A record set as the one-shot formatter reads it: column descriptions and rows. */
  datatype RecordSet = RecordSet(fields: seq<Field>, rows: seq<Row>)

  const NumericTypes: set<string> :=
    {"int2", "int4", "int8", "integer", "bigint", "smallint", "float4", "float8",
     "real", "double precision", "numeric", "decimal"}
  const BooleanTypes: set<string> := {"bool", "boolean"}

  // ---------------------------------------------------------------- escape modes

  /** The escape mode of a column, from its lowercased type name (missing: ""). */
  function EscapeModeFor(typ: Option<string>): EscapeMode {
    var t := Lower(typ.GetOr(""));
    if t in NumericTypes || t in BooleanTypes then NoEscape
    else if t == "bytea" then ByteaEscape
    else StringEscape
  }

  function EscapeModes(fields: seq<Field>): seq<EscapeMode> {
    seq(|fields|, i requires 0 <= i < |fields| => EscapeModeFor(fields[i].typ))
  }

  /** The mode stored for column `i`; a column beyond the known ones has none. */
  function ModeAt(modes: seq<EscapeMode>, i: int): Option<EscapeMode> {
    if 0 <= i < |modes| then Some(modes[i]) else None
  }

  /** The classification does not depend on the case of the type name, and only
      `bytea` (in any case) selects bytea escaping. */
  lemma EscapeModeIgnoresCase(t: string)
    ensures EscapeModeFor(Some(t)) == EscapeModeFor(Some(Lower(t)))
    ensures EscapeModeFor(Some(t)) == ByteaEscape <==> Lower(t) == "bytea"
  {
    LowerIdempotent(t);
  }

  // ---------------------------------------------------------------- COPY rows

  /** One field of a COPY data line. */
  function CopyField(v: Value, m: Option<EscapeMode>, d: Driver): string {
    if v.None? then "\\N"
    else if m == Some(ByteaEscape) then d.byteaToOctal(v.value)
    else Escape(v.value)
  }

  function CopyFields(row: Row, modes: seq<EscapeMode>, d: Driver): seq<string> {
    seq(|row|, i requires 0 <= i < |row| => CopyField(row[i], ModeAt(modes, i), d))
  }

  /** A COPY data line: the fields separated by tabs, ended by a newline. */
  function CopyLine(row: Row, modes: seq<EscapeMode>, d: Driver): string {
    Join("\t", CopyFields(row, modes, d)) + "\n"
  }

  /** A data line written for a row without bytea columns is read back by the
      server as exactly that row: the same number of fields, NULL where the row
      had NULL, and the original text everywhere else. */
  lemma CopyLineRoundTrip(row: Row, modes: seq<EscapeMode>, d: Driver)
    requires |row| >= 1
    requires forall i :: 0 <= i < |row| ==> ModeAt(modes, i) != Some(ByteaEscape)
    ensures ParseLine(CopyLine(row, modes, d)) == row
  {
    var fields := CopyFields(row, modes, d);
    forall k | 0 <= k < |fields|
      ensures '\t' !in fields[k]
      ensures DecodeField(fields[k]) == row[k]
    {
      if row[k].Some? {
        EscapeHasNoSeparators(row[k].value);
        DecodeFieldEscape(row[k].value);
      }
    }
    var line := CopyLine(row, modes, d);
    assert line[..|line| - 1] == Join("\t", fields);
    SplitOfJoin(fields, '\t');
  }

  // ---------------------------------------------------------------- INSERT rows

  function HexDigit(k: int): char
    requires 0 <= k < 16
  {
    if k < 10 then ('0' as int + k) as char else ('a' as int + k - 10) as char
  }

  /** bin2hex of one byte. */
  function HexByte(c: char): string {
    var b := (c as int) % 256;
    [HexDigit(b / 16), HexDigit(b % 16)]
  }

  /** bin2hex: two lowercase hex digits per byte. */
  function HexEncode(s: string): (r: string)
    ensures |r| == 2 * |s|
  {
    if s == [] then "" else HexByte(s[0]) + HexEncode(s[1..])
  }

  /** The bytes a string of hex digit pairs stands for (as `\x` bytea input reads it). */
  function HexDecode(h: string): string {
    if |h| < 2 || !IsHex(h[0]) || !IsHex(h[1]) then ""
    else [(HexDigitValue(h[0]) * 16 + HexDigitValue(h[1])) as char] + HexDecode(h[2..])
  }

  lemma HexDigitRoundTrip(k: int)
    requires 0 <= k < 16
    ensures IsHex(HexDigit(k)) && HexDigitValue(HexDigit(k)) == k
  {
  }

  lemma HexByteRoundTrip(c: char, rest: string)
    requires c as int < 256
    ensures HexDecode(HexByte(c) + rest) == [c] + HexDecode(rest)
  {
    var b := c as int;
    var hi, lo := b / 16, b % 16;
    assert b == hi * 16 + lo && b % 256 == b;
    var h := HexByte(c) + rest;
    HexDigitRoundTrip(hi);
    HexDigitRoundTrip(lo);
    assert h[0] == HexDigit(hi) && h[1] == HexDigit(lo);
    assert h[2..] == rest;
    assert (HexDigitValue(h[0]) * 16 + HexDigitValue(h[1])) as char == c;
  }

  /** bin2hex loses nothing: every byte of the value is recovered from the hex text. */
  lemma {:induction false} HexRoundTrip(s: string)
    requires forall i :: 0 <= i < |s| ==> s[i] as int < 256
    ensures HexDecode(HexEncode(s)) == s
  {
    if s != [] {
      HexRoundTrip(s[1..]);
      HexByteRoundTrip(s[0], HexEncode(s[1..]));
    }
  }

  /** One value of a VALUES tuple written by the streamed formatter. */
  function InsertValue(v: Value, m: Option<EscapeMode>, d: Driver): string {
    if v.None? then "NULL"
    else if m == Some(StringEscape) then d.qstr(v.value)
    else if m == Some(ByteaEscape) then "'\\x" + HexEncode(v.value) + "'"
    else v.value
  }

  function InsertValues(row: Row, modes: seq<EscapeMode>, d: Driver): seq<string> {
    seq(|row|, i requires 0 <= i < |row| => InsertValue(row[i], ModeAt(modes, i), d))
  }

  /** One more part joined onto a prefix and the parts before it. */
  lemma JoinPrefixStep(lead: string, sep: string, parts: seq<string>, i: nat)
    requires i < |parts|
    ensures lead + Join(sep, parts[..i + 1]) == lead + Join(sep, parts[..i]) + (if i == 0 then "" else sep) + parts[i]
  {
    assert parts[..i + 1] == parts[..i] + [parts[i]];
    JoinAppend(sep, parts[..i], parts[i]);
    if i == 0 {
      assert lead + Join(sep, parts[..i]) + "" == lead;
    } else {
      AppendAssoc(lead, Join(sep, parts[..i]) + sep, parts[i]);
      AppendAssoc(lead, Join(sep, parts[..i]), sep);
    }
  }

  /** A parenthesised VALUES tuple, the values separated by commas. */
  function InsertTuple(row: Row, modes: seq<EscapeMode>, d: Driver): string {
    "(" + Join(",", InsertValues(row, modes, d)) + ")"
  }

  // ---------------------------------------------------------------- batching reference

  /** One multi-row INSERT statement holding the tuples of one batch. */
  function Statement(prefix: string, batch: seq<string>): string {
    prefix + "\n" + Join(",\n", batch) + ";\n"
  }

  /** Reference text for multi-row INSERT output: the tuples cut into consecutive
      batches of `b` (the last one possibly shorter), one statement per batch,
      statements separated by a blank line. */
  function Batched(prefix: string, tuples: seq<string>, b: int): string
    requires b >= 1
    decreases |tuples|
  {
    if |tuples| <= b then Statement(prefix, tuples)
    else Statement(prefix, tuples[..b]) + "\n" + Batched(prefix, tuples[b..], b)
  }

  /** The writes of multi-row INSERT output from the point where `r` tuples are in
      the current statement (`r == 0`: no statement opened yet), ending with the
      terminating semicolon when a statement is open. */
  function MultiWrites(prefix: string, r: int, b: int, tuples: seq<string>): seq<string>
    decreases |tuples|
  {
    if tuples == [] then (if r > 0 then [";\n"] else [])
    else MultiLead(prefix, r, b) + [tuples[0]] + MultiWrites(prefix, MultiNext(r, b), b, tuples[1..])
  }

  lemma MultiWritesUnfold(prefix: string, r: int, b: int, tuples: seq<string>)
    requires tuples != []
    ensures MultiWrites(prefix, r, b, tuples)
         == (MultiLead(prefix, r, b) + [tuples[0]]) + MultiWrites(prefix, MultiNext(r, b), b, tuples[1..])
  {
  }

  /** What precedes the next tuple: the statement prefix when none is open, the end
      of the full statement and a new prefix, or a comma. */
  function MultiLead(prefix: string, r: int, b: int): seq<string> {
    if r == 0 then [prefix + "\n"]
    else if r >= b then [";\n\n" + prefix + "\n"]
    else [",\n"]
  }

  /** The number of tuples in the open statement after the next tuple. */
  function MultiNext(r: int, b: int): int {
    if r != 0 && r >= b then 1 else r + 1
  }

  function Min(a: int, b: int): int { if a <= b then a else b }

  /** Reference text for the rest of a statement that has room for `room` more
      tuples: the next tuples join it after a comma until it is full, then it is
      closed and the remaining tuples follow as batched statements. */
  function StatementRest(prefix: string, b: int, room: nat, vals: seq<string>): string
    requires b >= 1
    decreases |vals|
  {
    if vals == [] then ";\n"
    else if room == 0 then ";\n" + "\n" + Batched(prefix, vals, b)
    else ",\n" + vals[0] + StatementRest(prefix, b, room - 1, vals[1..])
  }

  lemma ConcatPair(a: string, b: string, rest: seq<string>)
    ensures Concat([a, b] + rest) == a + b + Concat(rest)
  {
    ConcatAppend([a, b], rest);
    assert Concat([a, b]) == a + Concat([b]);
    assert Concat([b]) == b + Concat([]);
  }

  /** A statement holding its first tuple, with room for all the others, is the
      tuples joined by commas and closed. */
  lemma {:induction false} StatementRestFits(prefix: string, b: int, room: nat, vals: seq<string>)
    requires b >= 1 && 1 <= |vals| <= room + 1
    ensures vals[0] + StatementRest(prefix, b, room, vals[1..]) == Join(",\n", vals) + ";\n"
    decreases |vals|
  {
    if |vals| >= 2 {
      var tail := vals[1..];
      StatementRestFits(prefix, b, room - 1, tail);
      var j := Join(",\n", tail);
      assert Join(",\n", vals) == vals[0] + ",\n" + j;
      var sr := StatementRest(prefix, b, room - 1, tail[1..]);
      assert tail[0] + sr == j + ";\n";
      assert vals[0] + (",\n" + tail[0] + sr) == vals[0] + ",\n" + (tail[0] + sr);
    }
  }

  /** Regrouping the pieces of a statement's text. */
  lemma Regroup(a: string, c: string, y: string, sr: string, j: string, p: string, q: string, r: string)
    requires y + sr == j + p + q + r
    ensures a + (c + y + sr) == a + c + j + p + q + r
  {
    calc {
      a + (c + y + sr);
      a + c + (y + sr);
      a + c + (j + p + q + r);
      a + c + j + p + q + r;
    }
  }

  /** Regrouping a statement opened by its prefix. */
  lemma OpenGroup(p: string, j: string, x: string, y: string, r: string)
    ensures p + j + x + y + r == p + (j + x + y + r)
  {
  }

  /** A statement holding its first tuple, with room for `room` more and more tuples
      than that, takes `room` of them, is closed, and the rest is batched. */
  lemma {:induction false} StatementRestOverflows(prefix: string, b: int, room: nat, vals: seq<string>)
    requires b >= 1 && |vals| > room + 1
    ensures vals[0] + StatementRest(prefix, b, room, vals[1..])
         == Join(",\n", vals[..room + 1]) + ";\n" + "\n" + Batched(prefix, vals[room + 1..], b)
    decreases |vals|
  {
    if room == 0 {
      assert vals[..1] == [vals[0]];
      Regroup(vals[0], "", ";\n", "\n" + Batched(prefix, vals[1..], b), "", ";\n", "\n", Batched(prefix, vals[1..], b));
    } else {
      var tail := vals[1..];
      var rest := Batched(prefix, vals[room + 1..], b);
      var j := Join(",\n", tail[..room]);
      var sr := StatementRest(prefix, b, room - 1, tail[1..]);
      StatementRestOverflows(prefix, b, room - 1, tail);
      assert tail[room..] == vals[room + 1..];
      assert vals[..room + 1][1..] == tail[..room];
      assert Join(",\n", vals[..room + 1]) == vals[0] + ",\n" + j;
      assert StatementRest(prefix, b, room, tail) == ",\n" + tail[0] + sr;
      Regroup(vals[0], ",\n", tail[0], sr, j, ";\n", "\n", rest);
    }
  }

  /** The batched reference text of at least one tuple is a statement opened by the
      first tuple with room for `b - 1` more. */
  lemma BatchedOpen(prefix: string, b: int, vals: seq<string>)
    requires b >= 1 && |vals| >= 1
    ensures Batched(prefix, vals, b) == prefix + "\n" + (vals[0] + StatementRest(prefix, b, b - 1, vals[1..]))
  {
    if |vals| <= b {
      StatementRestFits(prefix, b, b - 1, vals);
      OpenGroup(prefix + "\n", Join(",\n", vals), ";\n", "", "");
      assert Join(",\n", vals) + ";\n" + "" + "" == Join(",\n", vals) + ";\n";
    } else {
      StatementRestOverflows(prefix, b, b - 1, vals);
      OpenGroup(prefix + "\n", Join(",\n", vals[..b]), ";\n", "\n", Batched(prefix, vals[b..], b));
    }
  }

  lemma MultiWritesStep(prefix: string, r: int, b: int, vals: seq<string>)
    requires r >= 1 && vals != []
    ensures Concat(MultiWrites(prefix, r, b, vals))
         == (if r >= b then ";\n\n" + prefix + "\n" else ",\n") + vals[0]
            + Concat(MultiWrites(prefix, MultiNext(r, b), b, vals[1..]))
  {
    var rest := MultiWrites(prefix, MultiNext(r, b), b, vals[1..]);
    var lead := if r >= b then ";\n\n" + prefix + "\n" else ",\n";
    MultiWritesUnfold(prefix, r, b, vals);
    assert MultiLead(prefix, r, b) + [vals[0]] == [lead, vals[0]];
    ConcatPair(lead, vals[0], rest);
  }

  /** Multi-row writes from a statement holding `r` tuples (1 <= r <= b) produce
      the reference rest of that statement. */
  lemma {:induction false} MultiWritesRest(prefix: string, b: int, r: int, vals: seq<string>)
    requires 1 <= r <= b
    ensures Concat(MultiWrites(prefix, r, b, vals)) == StatementRest(prefix, b, b - r, vals)
    decreases |vals|
  {
    if vals == [] {
      assert Concat([";\n"]) == ";\n" + Concat([]);
    } else {
      if r < b {
        MultiWritesRest(prefix, b, r + 1, vals[1..]);
        OpenStatementStep(prefix, b, r, b - r, vals);
      } else {
        MultiWritesRest(prefix, b, 1, vals[1..]);
        FullStatementStep(prefix, b, vals);
      }
    }
  }

  /** A tuple joins a statement that has room for it. */
  lemma OpenStatementStep(prefix: string, b: int, r: int, room: nat, vals: seq<string>)
    requires 1 <= r < b && room == b - r && vals != []
    requires Concat(MultiWrites(prefix, r + 1, b, vals[1..])) == StatementRest(prefix, b, room - 1, vals[1..])
    ensures Concat(MultiWrites(prefix, r, b, vals)) == StatementRest(prefix, b, room, vals)
  {
    assert MultiNext(r, b) == r + 1;
    MultiWritesStep(prefix, r, b, vals);
  }

  /** A tuple after a full statement closes it and opens the next one. */
  lemma FullStatementStep(prefix: string, b: int, vals: seq<string>)
    requires 1 <= b && vals != []
    requires Concat(MultiWrites(prefix, 1, b, vals[1..])) == StatementRest(prefix, b, b - 1, vals[1..])
    ensures Concat(MultiWrites(prefix, b, b, vals)) == StatementRest(prefix, b, 0, vals)
  {
    assert MultiNext(b, b) == 1;
    MultiWritesStep(prefix, b, b, vals);
    FullStatementCloses(prefix, b, vals);
  }

  /** A full statement is closed and the next tuple opens a new one. */
  lemma FullStatementCloses(prefix: string, b: int, vals: seq<string>)
    requires b >= 1 && vals != []
    ensures ";\n\n" + prefix + "\n" + vals[0] + StatementRest(prefix, b, b - 1, vals[1..])
         == StatementRest(prefix, b, 0, vals)
  {
    var t := StatementRest(prefix, b, b - 1, vals[1..]);
    BatchedOpen(prefix, b, vals);
    assert StatementRest(prefix, b, 0, vals) == ";\n" + "\n" + Batched(prefix, vals, b);
    assert ";\n\n" == ";\n" + "\n";
    calc {
      ";\n\n" + prefix + "\n" + vals[0] + t;
      ";\n" + "\n" + prefix + "\n" + vals[0] + t;
      ";\n" + "\n" + (prefix + "\n" + (vals[0] + t));
    }
  }

  /** Multi-row output with a batch size of at least one, over at least one tuple,
      is exactly the batched reference text. */
  lemma MultiWritesAreBatched(prefix: string, b: int, tuples: seq<string>)
    requires b >= 1 && |tuples| >= 1
    ensures Concat(MultiWrites(prefix, 0, b, tuples)) == Batched(prefix, tuples, b)
  {
    var rest := MultiWrites(prefix, 1, b, tuples[1..]);
    assert MultiWrites(prefix, 0, b, tuples) == [prefix + "\n", tuples[0]] + rest;
    ConcatPair(prefix + "\n", tuples[0], rest);
    MultiWritesRest(prefix, b, 1, tuples[1..]);
    BatchedOpen(prefix, b, tuples);
  }

  // ---------------------------------------------------------------- streamed output

  /** The formatter's fields (format, rows in the open batch, batch size, table
      name, INSERT prefix, escape modes). */
  datatype State = State(format: InsertFormat, rowsInBatch: int, batchSize: int,
                         tableName: Option<string>, insertBegin: Option<string>,
                         escapeModes: seq<EscapeMode>)

  /** A new state and the write() calls made on the way to it. */
  datatype Step = Step(next: State, writes: seq<string>)

  const Initial: State := State(Unset, 0, 0, None, None, [])

  /** `insert_format`, defaulting to copy; an unknown name also means copy. */
  function FormatOf(f: Option<string>): InsertFormat {
    var name := f.GetOr("copy");
    if name == "multi" then Multi else if name == "single" then Single else Copy
  }

  function ColumnList(fields: seq<Field>, d: Driver): string {
    Join(", ", seq(|fields|, i requires 0 <= i < |fields| => d.escapeString(fields[i].name.GetOr(""))))
  }

  function InsertPrefix(table: string, fields: seq<Field>, d: Driver): string {
    "INSERT INTO " + table + " (" + ColumnList(fields, d) + ") VALUES"
  }

  /** writeHeader */
  function HeaderStep(st: State, fields: seq<Field>, meta: Metadata, d: Driver): Step {
    var fmt := FormatOf(meta.insertFormat);
    var table := meta.table.GetOr("data");
    var base := st.(format := fmt, rowsInBatch := 0, batchSize := meta.batchSize.GetOr(1000),
                    tableName := Some(table), escapeModes := EscapeModes(fields));
    if fmt == Copy then
      Step(base, ["COPY " + table + " (" + ColumnList(fields, d) + ") FROM stdin;\n"])
    else
      var ib := InsertPrefix(table, fields, d);
      Step(base.(insertBegin := Some(ib)), if fmt == Multi then [ib + "\n"] else [])
  }

  /** writeRow */
  function RowStep(st: State, row: Row, d: Driver): Step {
    var ib := st.insertBegin.GetOr("");
    match st.format
    case Copy => Step(st, [CopyLine(row, st.escapeModes, d)])
    case Multi =>
      var tuple := InsertTuple(row, st.escapeModes, d);
      if st.rowsInBatch >= st.batchSize then
        Step(st.(rowsInBatch := 1), [";\n\n" + ib + "\n", tuple])
      else if st.rowsInBatch > 0 then
        Step(st.(rowsInBatch := st.rowsInBatch + 1), [",\n", tuple])
      else
        Step(st.(rowsInBatch := st.rowsInBatch + 1), [tuple])
    case _ => Step(st, [ib + " ", InsertTuple(row, st.escapeModes, d), ";\n"])
  }

  /** writeFooter */
  function FooterWrites(st: State): seq<string> {
    if st.format == Copy then ["\\.\n"]
    else if st.format == Multi && st.rowsInBatch > 0 then [";\n"]
    else []
  }

  /** writeRow for each row in turn. */
  function RowsStep(st: State, rows: seq<Row>, d: Driver): Step
    decreases |rows|
  {
    if rows == [] then Step(st, [])
    else
      var first := RowStep(st, rows[0], d);
      var rest := RowsStep(first.next, rows[1..], d);
      Step(rest.next, first.writes + rest.writes)
  }

  /** Everything a header, the rows and a footer write. */
  function ExportWrites(st: State, fields: seq<Field>, meta: Metadata, rows: seq<Row>, d: Driver): seq<string> {
    var h := HeaderStep(st, fields, meta, d);
    var r := RowsStep(h.next, rows, d);
    h.writes + r.writes + FooterWrites(r.next)
  }

  /** Streaming one more row continues from the state the earlier rows left. */
  lemma {:induction false} RowsStepSnoc(st: State, rows: seq<Row>, row: Row, d: Driver)
    ensures var p := RowsStep(st, rows, d);
            var q := RowStep(p.next, row, d);
            RowsStep(st, rows + [row], d) == Step(q.next, p.writes + q.writes)
    decreases |rows|
  {
    if rows == [] {
      assert rows + [row] == [row];
    } else {
      var first := RowStep(st, rows[0], d);
      assert (rows + [row])[0] == rows[0];
      assert (rows + [row])[1..] == rows[1..] + [row];
      RowsStepSnoc(first.next, rows[1..], row, d);
      var p := RowsStep(first.next, rows[1..], d);
      var q := RowStep(p.next, row, d);
      AppendAssoc(first.writes, p.writes, q.writes);
    }
  }

  function Tuples(rows: seq<Row>, modes: seq<EscapeMode>, d: Driver): seq<string> {
    seq(|rows|, k requires 0 <= k < |rows| => InsertTuple(rows[k], modes, d))
  }

  /** In multi mode the batch counter never exceeds the batch size. */
  lemma RowStepKeepsBatchBound(st: State, row: Row, d: Driver)
    requires st.format == Multi && st.batchSize >= 1 && 0 <= st.rowsInBatch <= st.batchSize
    ensures var n := RowStep(st, row, d).next;
            n.format == Multi && n.batchSize == st.batchSize && 1 <= n.rowsInBatch <= n.batchSize
  {
  }

  lemma {:induction false} StreamedMultiTail(st: State, rows: seq<Row>, d: Driver)
    requires st.format == Multi && st.rowsInBatch >= 1
    ensures var r := RowsStep(st, rows, d);
            r.writes + FooterWrites(r.next)
            == MultiWrites(st.insertBegin.GetOr(""), st.rowsInBatch, st.batchSize, Tuples(rows, st.escapeModes, d))
    decreases |rows|
  {
    var ts := Tuples(rows, st.escapeModes, d);
    var ib := st.insertBegin.GetOr("");
    if rows != [] {
      var first := RowStep(st, rows[0], d);
      var rest := RowsStep(first.next, rows[1..], d);
      assert first.next == st.(rowsInBatch := MultiNext(st.rowsInBatch, st.batchSize));
      assert first.writes == MultiLead(ib, st.rowsInBatch, st.batchSize) + [ts[0]];
      StreamedMultiTail(first.next, rows[1..], d);
      assert Tuples(rows[1..], st.escapeModes, d) == ts[1..];
      assert RowsStep(st, rows, d) == Step(rest.next, first.writes + rest.writes);
    }
  }

  lemma StreamedMultiHeader(st: State, fields: seq<Field>, meta: Metadata, d: Driver)
    requires meta.insertFormat == Some("multi")
    ensures var h := HeaderStep(st, fields, meta, d);
            var ib := InsertPrefix(meta.table.GetOr("data"), fields, d);
            h.writes == [ib + "\n"]
            && h.next == st.(format := Multi, rowsInBatch := 0, batchSize := meta.batchSize.GetOr(1000),
                             tableName := Some(meta.table.GetOr("data")), insertBegin := Some(ib),
                             escapeModes := EscapeModes(fields))
  {
  }

  lemma StreamedMultiOpen(st: State, rows: seq<Row>, d: Driver)
    requires st.format == Multi && st.rowsInBatch == 0 && st.batchSize >= 1 && |rows| >= 1
    ensures var r := RowsStep(st, rows, d);
            r.writes + FooterWrites(r.next)
            == [Tuples(rows, st.escapeModes, d)[0]]
               + MultiWrites(st.insertBegin.GetOr(""), 1, st.batchSize, Tuples(rows, st.escapeModes, d)[1..])
  {
    var ts := Tuples(rows, st.escapeModes, d);
    var first := RowStep(st, rows[0], d);
    assert first.writes == [ts[0]];
    assert first.next == st.(rowsInBatch := 1);
    var rest := RowsStep(first.next, rows[1..], d);
    StreamedMultiTail(first.next, rows[1..], d);
    assert Tuples(rows[1..], st.escapeModes, d) == ts[1..];
    assert RowsStep(st, rows, d) == Step(rest.next, first.writes + rest.writes);
  }

  /** Streamed multi-row output with a batch size of at least one over at least one
      row is the batched reference text: batches of `batch_size` tuples, one INSERT
      statement each. */
  lemma StreamedMultiIsBatched(st: State, fields: seq<Field>, meta: Metadata, rows: seq<Row>, d: Driver)
    requires meta.insertFormat == Some("multi")
    requires meta.batchSize.GetOr(1000) >= 1 && |rows| >= 1
    ensures Concat(ExportWrites(st, fields, meta, rows, d))
         == Batched(InsertPrefix(meta.table.GetOr("data"), fields, d),
                    Tuples(rows, EscapeModes(fields), d), meta.batchSize.GetOr(1000))
  {
    var h := HeaderStep(st, fields, meta, d);
    var ib := InsertPrefix(meta.table.GetOr("data"), fields, d);
    var b := meta.batchSize.GetOr(1000);
    var ts := Tuples(rows, EscapeModes(fields), d);
    StreamedMultiHeader(st, fields, meta, d);
    StreamedMultiOpen(h.next, rows, d);
    var r := RowsStep(h.next, rows, d);
    assert MultiWrites(ib, 0, b, ts) == [ib + "\n"] + [ts[0]] + MultiWrites(ib, 1, b, ts[1..]);
    assert ExportWrites(st, fields, meta, rows, d) == h.writes + (r.writes + FooterWrites(r.next));
    MultiWritesAreBatched(ib, b, ts);
  }

  /** Streamed multi-row output over no rows leaves the INSERT prefix without any
      tuple and without a terminating semicolon. */
  lemma StreamedMultiWithoutRows(st: State, fields: seq<Field>, meta: Metadata, d: Driver)
    requires meta.insertFormat == Some("multi")
    ensures Concat(ExportWrites(st, fields, meta, [], d)) == InsertPrefix(meta.table.GetOr("data"), fields, d) + "\n"
  {
  }

  lemma {:induction false} StreamedCopyRows(st: State, rows: seq<Row>, d: Driver)
    requires st.format == Copy
    ensures RowsStep(st, rows, d).next == st
    ensures RowsStep(st, rows, d).writes == seq(|rows|, k requires 0 <= k < |rows| => CopyLine(rows[k], st.escapeModes, d))
    decreases |rows|
  {
    if rows != [] {
      StreamedCopyRows(st, rows[1..], d);
    }
  }

  /** Streamed COPY output is the COPY command, one data line per row, then the
      end marker `\.`; every line of a row without bytea columns reads back as
      that row. */
  lemma StreamedCopyOutput(st: State, fields: seq<Field>, meta: Metadata, rows: seq<Row>, d: Driver)
    requires FormatOf(meta.insertFormat) == Copy
    ensures var table := meta.table.GetOr("data");
            ExportWrites(st, fields, meta, rows, d)
            == ["COPY " + table + " (" + ColumnList(fields, d) + ") FROM stdin;\n"]
               + seq(|rows|, k requires 0 <= k < |rows| => CopyLine(rows[k], EscapeModes(fields), d))
               + ["\\.\n"]
    ensures forall k :: 0 <= k < |rows| && |rows[k]| >= 1
              && (forall i :: 0 <= i < |rows[k]| ==> ModeAt(EscapeModes(fields), i) != Some(ByteaEscape))
              ==> ParseLine(CopyLine(rows[k], EscapeModes(fields), d)) == rows[k]
  {
    var h := HeaderStep(st, fields, meta, d);
    StreamedCopyRows(h.next, rows, d);
    forall k | 0 <= k < |rows| && |rows[k]| >= 1
              && (forall i :: 0 <= i < |rows[k]| ==> ModeAt(EscapeModes(fields), i) != Some(ByteaEscape))
      ensures ParseLine(CopyLine(rows[k], EscapeModes(fields), d)) == rows[k]
    {
      CopyLineRoundTrip(rows[k], EscapeModes(fields), d);
    }
  }

  lemma {:induction false} StreamedSingleRows(st: State, rows: seq<Row>, d: Driver)
    requires st.format == Single
    ensures RowsStep(st, rows, d).next == st
    ensures Concat(RowsStep(st, rows, d).writes)
         == Concat(seq(|rows|, k requires 0 <= k < |rows| =>
                     st.insertBegin.GetOr("") + " " + InsertTuple(rows[k], st.escapeModes, d) + ";\n"))
    decreases |rows|
  {
    if rows != [] {
      StreamedSingleRows(st, rows[1..], d);
      var ib := st.insertBegin.GetOr("");
      var t0 := InsertTuple(rows[0], st.escapeModes, d);
      var first := RowStep(st, rows[0], d);
      var rest := RowsStep(st, rows[1..], d);
      assert first.writes == [ib + " ", t0, ";\n"];
      ConcatAppend(first.writes, rest.writes);
      assert Concat(first.writes) == ib + " " + t0 + ";\n" by {
        assert Concat([";\n"]) == ";\n" + Concat([]);
        assert Concat([t0, ";\n"]) == t0 + Concat([";\n"]);
      }
      var stmts := seq(|rows|, k requires 0 <= k < |rows| => ib + " " + InsertTuple(rows[k], st.escapeModes, d) + ";\n");
      assert stmts[1..] == seq(|rows| - 1, k requires 0 <= k < |rows| - 1 =>
                     ib + " " + InsertTuple(rows[1..][k], st.escapeModes, d) + ";\n");
    }
  }

  /** Streamed single-row output is one complete INSERT statement per row and no
      footer. */
  lemma StreamedSingleOutput(st: State, fields: seq<Field>, meta: Metadata, rows: seq<Row>, d: Driver)
    requires meta.insertFormat == Some("single")
    ensures var ib := InsertPrefix(meta.table.GetOr("data"), fields, d);
            Concat(ExportWrites(st, fields, meta, rows, d))
            == Concat(seq(|rows|, k requires 0 <= k < |rows| =>
                        ib + " " + InsertTuple(rows[k], EscapeModes(fields), d) + ";\n"))
  {
    var h := HeaderStep(st, fields, meta, d);
    StreamedSingleRows(h.next, rows, d);
    var r := RowsStep(h.next, rows, d);
    assert ExportWrites(st, fields, meta, rows, d) == r.writes;
  }

  // ---------------------------------------------------------------- one-shot output

  function ColumnName(f: Field, i: nat): string {
    f.name.GetOr("column_" + NatToString(i))
  }

  /** One value of a VALUES tuple written by the one-shot formatter. */
  function LiteralValue(v: Value, m: Option<EscapeMode>, d: Driver): string {
    if v.None? then "NULL"
    else if m == Some(StringEscape) then d.escapeLiteral(v.value)
    else if m == Some(ByteaEscape) then "'" + d.escapeBytea(v.value) + "'"
    else v.value
  }

  function LiteralTuple(row: Row, modes: seq<EscapeMode>, d: Driver): string {
    "(" + Join(",", seq(|row|, i requires 0 <= i < |row| => LiteralValue(row[i], ModeAt(modes, i), d))) + ")"
  }

  function QuotedColumns(fields: seq<Field>, d: Driver): string {
    Join(", ", seq(|fields|, i requires 0 <= i < |fields| => d.escapeIdentifier(ColumnName(fields[i], i))))
  }

  function LiteralTuples(rows: seq<Row>, modes: seq<EscapeMode>, d: Driver): seq<string> {
    seq(|rows|, k requires 0 <= k < |rows| => LiteralTuple(rows[k], modes, d))
  }

  /** The INSERT part of format(): batched statements in multi mode, otherwise one
      statement per tuple. */
  function InsertStatements(prefix: string, tuples: seq<string>, isMulti: bool, batch: int): seq<string> {
    if isMulti then MultiWrites(prefix, 0, batch, tuples)
    else seq(|tuples|, k requires 0 <= k < |tuples| => prefix + " " + tuples[k] + ";\n")
  }

  function CopyLines(rows: seq<Row>, modes: seq<EscapeMode>, d: Driver): seq<string> {
    seq(|rows|, k requires 0 <= k < |rows| => CopyLine(rows[k], modes, d))
  }

  /** format(): what the one-shot formatter writes for a whole record set. */
  function FormatWrites(rs: RecordSet, meta: Metadata, d: Driver): seq<string> {
    if rs.rows == [] then []
    else
      var table := d.escapeIdentifier(meta.table.GetOr("data"));
      var fmt := meta.insertFormat.GetOr("multi");
      var modes := EscapeModes(rs.fields);
      var cols := QuotedColumns(rs.fields, d);
      if fmt == "copy" then
        ["COPY " + table + " (" + cols + ") FROM stdin;\n"] + CopyLines(rs.rows, modes, d) + ["\\.\n"]
      else
        InsertStatements("INSERT INTO " + table + " (" + cols + ") VALUES",
                         LiteralTuples(rs.rows, modes, d), fmt == "multi", meta.batchSize.GetOr(100))
  }

  /** One-shot multi-row output (the default) with a batch size of at least one is
      the batched reference text; an empty record set produces nothing. */
  lemma OneShotMultiIsBatched(rs: RecordSet, meta: Metadata, d: Driver)
    requires meta.insertFormat.GetOr("multi") == "multi"
    requires meta.batchSize.GetOr(100) >= 1
    ensures rs.rows == [] ==> FormatWrites(rs, meta, d) == []
    ensures rs.rows != [] ==>
              Concat(FormatWrites(rs, meta, d))
              == Batched("INSERT INTO " + d.escapeIdentifier(meta.table.GetOr("data"))
                           + " (" + QuotedColumns(rs.fields, d) + ") VALUES",
                         LiteralTuples(rs.rows, EscapeModes(rs.fields), d), meta.batchSize.GetOr(100))
  {
    if rs.rows != [] {
      MultiWritesAreBatched("INSERT INTO " + d.escapeIdentifier(meta.table.GetOr("data"))
                              + " (" + QuotedColumns(rs.fields, d) + ") VALUES",
                            meta.batchSize.GetOr(100), LiteralTuples(rs.rows, EscapeModes(rs.fields), d));
    }
  }

  // ---------------------------------------------------------------- the formatter

  class SqlFormatter {
    const driver: Driver
    const out: Writer
    var insertFormat: InsertFormat
    var rowsInBatch: int
    var batchSize: int
    var tableName: Option<string>
    var insertBegin: Option<string>
    var escapeModes: seq<EscapeMode>

    function Current(): State
      reads this
    {
      State(insertFormat, rowsInBatch, batchSize, tableName, insertBegin, escapeModes)
    }

    constructor (driver: Driver, out: Writer)
      ensures this.driver == driver && this.out == out
      ensures Current() == Initial
    {
      this.driver := driver;
      this.out := out;
      insertFormat := Unset;
      rowsInBatch := 0;
      batchSize := 0;
      tableName := None;
      insertBegin := None;
      escapeModes := [];
    }

    /** determineEscapeModes */
    method DetermineEscapeModes(fields: seq<Field>) returns (modes: seq<EscapeMode>)
      ensures |modes| == |fields|
      ensures forall i :: 0 <= i < |fields| ==> modes[i] == EscapeModeFor(fields[i].typ)
    {
      modes := [];
      var i := 0;
      while i < |fields|
        invariant 0 <= i <= |fields|
        invariant |modes| == i
        invariant forall j :: 0 <= j < i ==> modes[j] == EscapeModeFor(fields[j].typ)
      {
        var t := Lower(fields[i].typ.GetOr(""));
        var m;
        if t in NumericTypes {
          m := NoEscape;
        } else if t in BooleanTypes {
          m := NoEscape;
        } else if t == "bytea" {
          m := ByteaEscape;
        } else {
          m := StringEscape;
        }
        modes := modes + [m];
        i := i + 1;
      }
    }

    /** writeHeader */
    method WriteHeader(fields: seq<Field>, meta: Metadata)
      modifies this, out
      ensures Current() == HeaderStep(old(Current()), fields, meta, driver).next
      ensures out.writes == old(out.writes) + HeaderStep(old(Current()), fields, meta, driver).writes
    {
      insertFormat := FormatOf(meta.insertFormat);
      rowsInBatch := 0;
      batchSize := meta.batchSize.GetOr(1000);
      var table := meta.table.GetOr("data");
      tableName := Some(table);
      var columns := ColumnList(fields, driver);
      escapeModes := DetermineEscapeModes(fields);
      assert escapeModes == EscapeModes(fields);
      if insertFormat == Copy {
        out.Write("COPY " + table + " (" + columns + ") FROM stdin;\n");
      } else {
        insertBegin := Some("INSERT INTO " + table + " (" + columns + ") VALUES");
        if insertFormat == Multi {
          out.Write(insertBegin.value + "\n");
        }
      }
    }

    /** writeRow */
    method WriteRow(row: Row)
      modifies this, out
      ensures Current() == RowStep(old(Current()), row, driver).next
      ensures out.writes == old(out.writes) + RowStep(old(Current()), row, driver).writes
    {
      if insertFormat == Copy {
        WriteCopyRow(row, escapeModes);
      } else if insertFormat == Multi {
        if rowsInBatch >= batchSize {
          out.Write(";\n\n" + insertBegin.GetOr("") + "\n");
          rowsInBatch := 0;
        } else if rowsInBatch > 0 {
          out.Write(",\n");
        }
        WriteInsertValues(row, escapeModes);
        rowsInBatch := rowsInBatch + 1;
      } else {
        out.Write(insertBegin.GetOr("") + " ");
        WriteInsertValues(row, escapeModes);
        out.Write(";\n");
      }
    }

    /** writeFooter */
    method WriteFooter()
      modifies out
      ensures out.writes == old(out.writes) + FooterWrites(Current())
    {
      if insertFormat == Copy {
        out.Write("\\.\n");
      } else if insertFormat == Multi && rowsInBatch > 0 {
        out.Write(";\n");
      }
    }

    /** writeCopyRow: builds the line (`CopyLineOf`), then writes it. */
    method WriteCopyRow(row: Row, modes: seq<EscapeMode>)
      modifies out
      ensures out.writes == old(out.writes) + [CopyLine(row, modes, driver)]
    {
      var line := CopyLineOf(row, modes);
      out.Write(line);
    }

    /** The loop of writeCopyRow: the tab-separated fields, then a newline. */
    method CopyLineOf(row: Row, modes: seq<EscapeMode>) returns (line: string)
      ensures line == CopyLine(row, modes, driver)
    {
      ghost var parts := CopyFields(row, modes, driver);
      line := "";
      var first := true;
      var i := 0;
      while i < |row|
        invariant 0 <= i <= |row|
        invariant first <==> i == 0
        invariant line == Join("\t", parts[..i])
      {
        assert parts[..i + 1] == parts[..i] + [parts[i]];
        JoinAppend("\t", parts[..i], parts[i]);
        if !first {
          line := line + "\t";
        }
        first := false;
        var piece;
        if row[i].None? {
          piece := "\\N";
        } else if ModeAt(modes, i) == Some(ByteaEscape) {
          piece := driver.byteaToOctal(row[i].value);
        } else {
          piece := Escape(row[i].value);
        }
        assert piece == parts[i];
        line := line + piece;
        i := i + 1;
      }
      assert parts[..i] == parts;
      line := line + "\n";
    }

    /** writeInsertValues: builds the tuple (`InsertTupleOf`), then writes it. */
    method WriteInsertValues(row: Row, modes: seq<EscapeMode>)
      modifies out
      ensures out.writes == old(out.writes) + [InsertTuple(row, modes, driver)]
    {
      var values := InsertTupleOf(row, modes);
      out.Write(values);
    }

    /** The loop of writeInsertValues: the values separated by commas, in parentheses. */
    method InsertTupleOf(row: Row, modes: seq<EscapeMode>) returns (values: string)
      ensures values == InsertTuple(row, modes, driver)
    {
      ghost var parts := InsertValues(row, modes, driver);
      values := "(";
      var first := true;
      var i := 0;
      while i < |row|
        invariant 0 <= i <= |row|
        invariant first <==> i == 0
        invariant values == "(" + Join(",", parts[..i])
      {
        JoinPrefixStep("(", ",", parts, i);
        if !first {
          values := values + ",";
        }
        first := false;
        var piece;
        if row[i].None? {
          piece := "NULL";
        } else if ModeAt(modes, i) == Some(StringEscape) {
          piece := driver.qstr(row[i].value);
        } else if ModeAt(modes, i) == Some(ByteaEscape) {
          piece := "'\\x" + HexEncode(row[i].value) + "'";
        } else {
          piece := row[i].value;
        }
        assert piece == parts[i];
        values := values + piece;
        i := i + 1;
      }
      assert parts[..i] == parts;
      values := values + ")";
    }

    /** format: the one-shot rendering of a whole record set. */
    method Format(rs: RecordSet, meta: Metadata)
      modifies out
      ensures out.writes == old(out.writes) + FormatWrites(rs, meta, driver)
    {
      var table := meta.table.GetOr("data");
      var fmt := meta.insertFormat.GetOr("multi");
      if rs.rows == [] {
        return;
      }
      var modes := DetermineEscapeModes(rs.fields);
      assert modes == EscapeModes(rs.fields);
      var cols := QuotedColumns(rs.fields, driver);
      if fmt == "copy" {
        var header := "COPY " + driver.escapeIdentifier(table) + " (" + cols + ") FROM stdin;\n";
        ghost var lines := CopyLines(rs.rows, modes, driver);
        assert FormatWrites(rs, meta, driver) == [header] + lines + ["\\.\n"];
        out.Write(header);
        WriteCopyLines(rs.rows, modes);
        out.Write("\\.\n");
        AppendAssoc(old(out.writes), [header], lines);
        AppendAssoc(old(out.writes), [header] + lines, ["\\.\n"]);
      } else {
        var prefix := "INSERT INTO " + driver.escapeIdentifier(table) + " (" + cols + ") VALUES";
        assert FormatWrites(rs, meta, driver)
            == InsertStatements(prefix, LiteralTuples(rs.rows, modes, driver), fmt == "multi", meta.batchSize.GetOr(100));
        WriteInsertStatements(prefix, rs.rows, modes, fmt == "multi", meta.batchSize.GetOr(100));
      }
    }

    /** The COPY loop of format: one data line per row. */
    method WriteCopyLines(rows: seq<Row>, modes: seq<EscapeMode>)
      modifies out
      ensures out.writes == old(out.writes) + CopyLines(rows, modes, driver)
    {
      var k := 0;
      while k < |rows|
        invariant 0 <= k <= |rows|
        invariant out.writes == old(out.writes) + CopyLines(rows[..k], modes, driver)
      {
        assert CopyLines(rows[..k + 1], modes, driver) == CopyLines(rows[..k], modes, driver) + [CopyLine(rows[k], modes, driver)];
        WriteCopyRow(rows[k], modes);
        k := k + 1;
      }
      assert rows[..k] == rows;
    }

    /** The tuple format builds for one row (its inner loop over the values). */
    method LiteralTupleOf(row: Row, modes: seq<EscapeMode>) returns (values: string)
      ensures values == LiteralTuple(row, modes, driver)
    {
      ghost var parts := seq(|row|, i requires 0 <= i < |row| => LiteralValue(row[i], ModeAt(modes, i), driver));
      values := "(";
      var sep := "";
      var i := 0;
      while i < |row|
        invariant 0 <= i <= |row|
        invariant sep == (if i == 0 then "" else ",")
        invariant values == "(" + Join(",", parts[..i])
      {
        JoinPrefixStep("(", ",", parts, i);
        values := values + sep;
        sep := ",";
        var piece;
        if row[i].None? {
          piece := "NULL";
        } else if ModeAt(modes, i) == Some(StringEscape) {
          piece := driver.escapeLiteral(row[i].value);
        } else if ModeAt(modes, i) == Some(ByteaEscape) {
          piece := "'" + driver.escapeBytea(row[i].value) + "'";
        } else {
          piece := row[i].value;
        }
        assert piece == parts[i];
        values := values + piece;
        i := i + 1;
      }
      assert parts[..i] == parts;
      values := values + ")";
    }

    /** The INSERT loop of format: batched statements in multi mode, one statement
        per row otherwise (the mode test is hoisted out of the loop). */
    method WriteInsertStatements(prefix: string, rows: seq<Row>, modes: seq<EscapeMode>, isMulti: bool, batch: int)
      modifies out
      ensures out.writes == old(out.writes) + InsertStatements(prefix, LiteralTuples(rows, modes, driver), isMulti, batch)
    {
      if isMulti {
        WriteMultiStatements(prefix, rows, modes, batch);
      } else {
        WriteSingleStatements(prefix, rows, modes);
      }
    }

    method WriteMultiStatements(prefix: string, rows: seq<Row>, modes: seq<EscapeMode>, batch: int)
      modifies out
      ensures out.writes == old(out.writes) + MultiWrites(prefix, 0, batch, LiteralTuples(rows, modes, driver))
    {
      ghost var tuples := LiteralTuples(rows, modes, driver);
      ghost var goal := old(out.writes) + MultiWrites(prefix, 0, batch, tuples);
      var rowsInBatch := 0;
      var k := 0;
      while k < |rows|
        invariant 0 <= k <= |rows|
        invariant rowsInBatch >= 0 && (rowsInBatch == 0 <==> k == 0)
        invariant goal == out.writes + MultiWrites(prefix, rowsInBatch, batch, tuples[k..])
      {
        var values := LiteralTupleOf(rows[k], modes);
        ghost var before := out.writes;
        ghost var r0 := rowsInBatch;
        ghost var later := MultiWrites(prefix, MultiNext(rowsInBatch, batch), batch, tuples[k + 1..]);
        assert values == tuples[k..][0];
        assert tuples[k..][1..] == tuples[k + 1..];
        MultiWritesUnfold(prefix, rowsInBatch, batch, tuples[k..]);
        if rowsInBatch == 0 {
          out.Write(prefix + "\n");
        } else if rowsInBatch >= batch {
          out.Write(";\n\n" + prefix + "\n");
          rowsInBatch := 0;
        } else {
          out.Write(",\n");
        }
        out.Write(values);
        ghost var step := MultiLead(prefix, r0, batch) + [values];
        assert out.writes == before + step;
        rowsInBatch := rowsInBatch + 1;
        assert rowsInBatch == MultiNext(r0, batch);
        AppendAssoc(before, step, later);
        k := k + 1;
      }
      assert tuples[k..] == [];
      if rowsInBatch > 0 {
        out.Write(";\n");
      }
    }

    method WriteSingleStatements(prefix: string, rows: seq<Row>, modes: seq<EscapeMode>)
      modifies out
      ensures out.writes == old(out.writes) + InsertStatements(prefix, LiteralTuples(rows, modes, driver), false, 0)
    {
      ghost var tuples := LiteralTuples(rows, modes, driver);
      var k := 0;
      while k < |rows|
        invariant 0 <= k <= |rows|
        invariant out.writes == old(out.writes) + InsertStatements(prefix, tuples[..k], false, 0)
      {
        var values := LiteralTupleOf(rows[k], modes);
        assert InsertStatements(prefix, tuples[..k + 1], false, 0)
            == InsertStatements(prefix, tuples[..k], false, 0) + [prefix + " " + values + ";\n"];
        out.Write(prefix + " " + values + ";\n");
        k := k + 1;
      }
      assert tuples[..k] == tuples;
    }
  }
}

=== FILE: sql_match.dfy ===
/** The anchored, case-insensitive regular expressions the import engine applies to
    statements (`/^\s*CREATE\s+SCHEMA\b/i` and the like), written as token lists.
    Every literal of these patterns starts with a character that is not white space and
    no alternative is a prefix of another, so matching each token greedily, without
    backtracking inside a token list, finds exactly the matches PCRE finds. */
module SqlMatch {
  import opened Php

  /** One piece of a pattern. */
  datatype Tok =
    | Spaces          // \s*
    | Spaces1         // \s+
    | Lit(w: string)  // literal text; ASCII letters compare without case (the /i flag)
    | Boundary        // \b

  /** Two characters equal under the /i flag. */
  predicate SameLetter(a: char, b: char) {
    LowerChar(a) == LowerChar(b)
  }

  /** `w` appears at position i, ignoring ASCII case. */
  predicate LitAt(s: string, i: nat, w: string) {
    i + |w| <= |s| && forall k :: 0 <= k < |w| ==> SameLetter(s[i + k], w[k])
  }

  /** Where a run of white space starting at i ends (`\s*` taken greedily). */
  function SpaceEnd(s: string, i: nat): (j: nat)
    requires i <= |s|
    ensures i <= j <= |s|
    ensures forall k :: i <= k < j ==> IsPcreSpace(s[k])
    ensures j < |s| ==> !IsPcreSpace(s[j])
    decreases |s| - i
  {
    if i < |s| && IsPcreSpace(s[i]) then SpaceEnd(s, i + 1) else i
  }

  /** `\b` at position j: a word character on exactly one side. */
  predicate BoundaryAt(s: string, j: nat)
    requires j <= |s|
  {
    (j > 0 && IsWordChar(s[j - 1])) != (j < |s| && IsWordChar(s[j]))
  }

  /** One token at position i: where it ends, or None when it does not match. */
  function StepTok(s: string, i: nat, t: Tok): (r: Option<nat>)
    requires i <= |s|
    ensures r.Some? ==> i <= r.value <= |s|
  {
    match t
    case Spaces => Some(SpaceEnd(s, i))
    case Spaces1 => if SpaceEnd(s, i) > i then Some(SpaceEnd(s, i)) else None
    case Lit(w) => if LitAt(s, i, w) then Some(i + |w|) else None
    case Boundary => if BoundaryAt(s, i) then Some(i) else None
  }

  /** A token list from position i: where the match ends. */
  function Run(s: string, i: nat, ts: seq<Tok>): (r: Option<nat>)
    requires i <= |s|
    ensures r.Some? ==> i <= r.value <= |s|
    decreases |ts|
  {
    if ts == [] then Some(i)
    else
      match StepTok(s, i, ts[0])
      case None => None
      case Some(j) => Run(s, j, ts[1..])
  }

  /** `(A|B|...)` followed by `rest`, at position i: PCRE tries the alternatives in order
      and keeps the first with which the rest matches.  The result is where the group
      ends and where the whole match ends. */
  function RunAlt(s: string, i: nat, alts: seq<seq<Tok>>, rest: seq<Tok>): (r: Option<(nat, nat)>)
    requires i <= |s|
    ensures r.Some? ==> i <= r.value.0 <= r.value.1 <= |s|
    ensures r.Some? ==> exists a :: a in alts && Run(s, i, a) == Some(r.value.0)
    ensures r.None? ==> forall a :: a in alts && Run(s, i, a).Some? ==> Run(s, Run(s, i, a).value, rest).None?
    decreases |alts|
  {
    if alts == [] then None
    else
      match Run(s, i, alts[0])
      case Some(g) =>
        (match Run(s, g, rest)
         case Some(e) => Some((g, e))
         case None => RunAlt(s, i, alts[1..], rest))
      case None => RunAlt(s, i, alts[1..], rest)
  }

  /** An anchored pattern without capture matches the start of `s`. */
  predicate Matches(s: string, ts: seq<Tok>) {
    Run(s, 0, ts).Some?
  }

  /** An anchored pattern with alternatives, or a list of patterns tried in turn,
      matches when one of its spelled-out alternatives does. */
  predicate MatchesAny(s: string, pats: seq<seq<Tok>>)
    decreases |pats|
  {
    pats != [] && (Matches(s, pats[0]) || MatchesAny(s, pats[1..]))
  }

  // ---------------------------------------------------------------- matching lemmas

  /** A list of patterns matches exactly when one of them does. */
  lemma {:induction false} MatchesAnyExists(s: string, pats: seq<seq<Tok>>)
    ensures MatchesAny(s, pats) <==> exists i :: 0 <= i < |pats| && Matches(s, pats[i])
    decreases |pats|
  {
    if pats != [] {
      MatchesAnyExists(s, pats[1..]);
      if exists i :: 0 <= i < |pats| && Matches(s, pats[i]) {
        var i :| 0 <= i < |pats| && Matches(s, pats[i]);
        if i > 0 {
          assert pats[1..][i - 1] == pats[i];
        }
      }
      if exists i :: 0 <= i < |pats| - 1 && Matches(s, pats[1..][i]) {
        var i :| 0 <= i < |pats| - 1 && Matches(s, pats[1..][i]);
        assert pats[1..][i] == pats[i + 1];
      }
    }
  }

  /** A literal written out at position i matches there. */
  lemma LitAtSelf(s: string, i: nat, w: string)
    requires i + |w| <= |s| && s[i..i + |w|] == w
    ensures LitAt(s, i, w)
  {
    forall k | 0 <= k < |w|
      ensures SameLetter(s[i + k], w[k])
    {
      assert s[i..i + |w|][k] == s[i + k];
    }
  }

  /** A literal does not match where its first letter does not. */
  lemma LitAtFirst(s: string, i: nat, w: string)
    requires w != [] && i < |s| && !SameLetter(s[i], w[0])
    ensures !LitAt(s, i, w)
  {
  }

  /** A single white-space character followed by something that is not white space. */
  lemma OneSpace(s: string, i: nat)
    requires i + 1 < |s| && IsPcreSpace(s[i]) && !IsPcreSpace(s[i + 1])
    ensures SpaceEnd(s, i) == i + 1
  {
  }

  /** No white space at i. */
  lemma NoSpace(s: string, i: nat)
    requires i <= |s| && (i == |s| || !IsPcreSpace(s[i]))
    ensures SpaceEnd(s, i) == i
  {
  }

  /** When only one alternative matches at i, the alternation picks it. */
  lemma {:induction false} RunAltOnly(s: string, i: nat, alts: seq<seq<Tok>>, rest: seq<Tok>, a: seq<Tok>, g: nat, e: nat)
    requires i <= |s| && a in alts
    requires forall b :: b in alts && Run(s, i, b).Some? ==> b == a
    requires Run(s, i, a) == Some(g) && Run(s, g, rest) == Some(e)
    ensures RunAlt(s, i, alts, rest) == Some((g, e))
  {
    if alts[0] != a {
      assert a in alts[1..];
      RunAltOnly(s, i, alts[1..], rest, a, g, e);
    }
  }

  /** A literal made of two pieces matches piece by piece. */
  lemma LitAtSplit(s: string, i: nat, a: string, b: string)
    requires LitAt(s, i, a + b)
    ensures LitAt(s, i, a) && LitAt(s, i + |a|, b)
  {
    forall k | 0 <= k < |a|
      ensures SameLetter(s[i + k], a[k])
    {
      assert (a + b)[k] == a[k];
    }
    forall k | 0 <= k < |b|
      ensures SameLetter(s[i + |a| + k], b[k])
    {
      assert (a + b)[|a| + k] == b[k];
    }
  }

  /** Two literals that differ in their j-th letter cannot both match at i. */
  lemma LitAtDiffer(s: string, i: nat, w1: string, w2: string, j: nat)
    requires LitAt(s, i, w1) && j < |w1| && j < |w2| && !SameLetter(w1[j], w2[j])
    ensures !LitAt(s, i, w2)
  {
    assert SameLetter(s[i + j], w1[j]);
  }

  /** Only a space matches a space. */
  lemma SameAsSpace(c: char)
    requires SameLetter(c, ' ')
    ensures c == ' '
  {
  }

  /** A piece of a concatenation matches where it sits. */
  lemma LitAtMiddle(a: string, w: string, b: string)
    ensures LitAt(a + w + b, |a|, w)
  {
    forall k | 0 <= k < |w|
      ensures SameLetter((a + w + b)[|a| + k], w[k])
    {
      assert (a + w + b)[|a| + k] == w[k];
    }
  }

  /** A space followed by a word: the space is a space and the word matches after it. */
  lemma SpaceThenLit(s: string, i: nat, w: string)
    requires LitAt(s, i, " " + w)
    ensures i < |s| && s[i] == ' ' && LitAt(s, i + 1, w)
  {
    LitAtSplit(s, i, " ", w);
    assert SameLetter(s[i + 0], " "[0]);
    SameAsSpace(s[i]);
  }

  /** A token list runs by its first token and then the rest. */
  lemma RunStep(s: string, i: nat, t: Tok, ts: seq<Tok>, j: nat)
    requires i <= |s| && StepTok(s, i, t) == Some(j)
    ensures Run(s, i, [t] + ts) == Run(s, j, ts)
  {
    assert ([t] + ts)[0] == t && ([t] + ts)[1..] == ts;
  }

  /** The four pieces of a concatenation, read back by position: i, j and k are where
      the second, third and fourth pieces start. */
  lemma Pieces(p: string, q: string, t: string, r: string, i: nat, j: nat, k: nat)
    requires i == |p| && j == i + |q| && k == j + |t|
    ensures var s := p + q + t + r;
            && |s| == k + |r|
            && s[..i] == p && s[i..j] == q && s[j..k] == t && s[k..] == r
            && (q != [] ==> s[i] == q[0])
            && (t != [] ==> s[j] == t[0])
            && (r != [] ==> s[k] == r[0])
  {
    var s := p + q + t + r;
    assert s == p + (q + (t + r));
  }

  /** When no alternative matches at i, neither does the alternation. */
  lemma {:induction false} RunAltNone(s: string, i: nat, alts: seq<seq<Tok>>, rest: seq<Tok>)
    requires i <= |s|
    requires forall b :: b in alts ==> Run(s, i, b).None?
    ensures RunAlt(s, i, alts, rest).None?
  {
    if alts != [] {
      assert alts[0] in alts;
      RunAltNone(s, i, alts[1..], rest);
    }
  }

  /** A character that matches a non-space character under /i is not a space. */
  lemma NotSpaceLike(c: char, d: char)
    requires SameLetter(c, d) && !IsPcreSpace(d)
    ensures !IsPcreSpace(c)
  {
  }

  /** `w\s+` on the text `w ` followed by a non-space character (or the end); j is
      where the match ends. */
  lemma LitSpaceStep(s: string, i: nat, j: nat, w: string, rest: seq<Tok>)
    requires j == i + |w| + 1 && LitAt(s, i, w + " ")
    requires j == |s| || !IsPcreSpace(s[j])
    ensures Run(s, i, [Lit(w), Spaces1] + rest) == Run(s, j, rest)
  {
    var m := i + |w|;
    LitAtSplit(s, i, w, " ");
    assert SameLetter(s[m + 0], " "[0]);
    SameAsSpace(s[m]);
    assert SpaceEnd(s, j) == j;
    assert SpaceEnd(s, m) == j;
    RunStep(s, m, Spaces1, rest, j);
    assert [Lit(w), Spaces1] + rest == [Lit(w)] + ([Spaces1] + rest);
    RunStep(s, i, Lit(w), [Spaces1] + rest, m);
  }

  /** `A\s+B\s+` on the text "A B " followed by a non-space character; j is where B
      starts and e where the match ends. */
  lemma TwoWordsRun(s: string, i: nat, j: nat, e: nat, b: string, c: string)
    requires c != [] && !IsPcreSpace(c[0])
    requires j == i + |b| + 1 && e == j + |c| + 1
    requires LitAt(s, i, b + " ") && LitAt(s, j, c + " ")
    requires e < |s| && !IsPcreSpace(s[e])
    ensures Run(s, i, [Lit(b), Spaces1, Lit(c), Spaces1]) == Some(e)
  {
    assert SameLetter(s[j + 0], (c + " ")[0]);
    NotSpaceLike(s[j], c[0]);
    var tc := [Lit(c), Spaces1];
    LitSpaceStep(s, j, e, c, []);
    assert tc + [] == tc;
    LitSpaceStep(s, i, j, b, tc);
    assert [Lit(b), Spaces1] + tc == [Lit(b), Spaces1, Lit(c), Spaces1];
  }

  /** `\s*A\s+B\s+C\s+` on the text "A B C " followed by a non-space character; j and k
      are where B and C start, e where the match ends. */
  lemma ThreeWordsRun(s: string, j: nat, k: nat, e: nat, a: string, b: string, c: string)
    requires a != [] && b != [] && c != []
    requires !IsPcreSpace(a[0]) && !IsPcreSpace(b[0]) && !IsPcreSpace(c[0])
    requires j == |a| + 1 && k == j + |b| + 1 && e == k + |c| + 1
    requires LitAt(s, 0, a + " ") && LitAt(s, j, b + " ") && LitAt(s, k, c + " ")
    requires e < |s| && !IsPcreSpace(s[e])
    ensures Run(s, 0, [Spaces, Lit(a), Spaces1, Lit(b), Spaces1, Lit(c), Spaces1]) == Some(e)
  {
    assert SameLetter(s[j + 0], (b + " ")[0]);
    NotSpaceLike(s[j], b[0]);
    assert SameLetter(s[0 + 0], (a + " ")[0]);
    NotSpaceLike(s[0], a[0]);
    var tb := [Lit(b), Spaces1, Lit(c), Spaces1];
    TwoWordsRun(s, j, k, e, b, c);
    LitSpaceStep(s, 0, j, a, tb);
    NoSpace(s, 0);
    RunStep(s, 0, Spaces, [Lit(a), Spaces1] + tb, 0);
    assert [Spaces] + ([Lit(a), Spaces1] + tb) == [Spaces, Lit(a), Spaces1, Lit(b), Spaces1, Lit(c), Spaces1];
  }

  /** `\s+w` on the text " w"; j is where the match ends. */
  lemma SpaceLitStep(s: string, i: nat, j: nat, w: string, rest: seq<Tok>)
    requires w != [] && !IsPcreSpace(w[0]) && LitAt(s, i, " " + w)
    requires j == i + 1 + |w|
    ensures Run(s, i, [Spaces1, Lit(w)] + rest) == Run(s, j, rest)
  {
    var m := i + 1;
    SpaceThenLit(s, i, w);
    assert SameLetter(s[m + 0], w[0]);
    NotSpaceLike(s[m], w[0]);
    OneSpace(s, i);
    RunStep(s, m, Lit(w), rest, j);
    RunStep(s, i, Spaces1, [Lit(w)] + rest, m);
    assert [Spaces1, Lit(w)] + rest == [Spaces1] + ([Lit(w)] + rest);
  }

  /** A word that ends in a word character, followed by the end or a character that
      is not one, ends at a `\b`. */
  lemma WordEndBoundary(s: string, i: nat, e: nat, w: string)
    requires w != [] && IsWordChar(w[|w| - 1]) && LitAt(s, i, w)
    requires e == i + |w| && (e == |s| || !IsWordChar(s[e]))
    ensures BoundaryAt(s, e)
  {
    assert SameLetter(s[i + (|w| - 1)], w[|w| - 1]);
  }

  /** `\s+A\s+B\s+C\b` on the text " A B C" followed by the end or a character that
      does not continue the word; j and k are where " B" and " C" start, e where the
      match ends. */
  lemma SpacedWordsRun(s: string, i: nat, j: nat, k: nat, e: nat, a: string, b: string, c: string)
    requires a != [] && b != [] && c != [] && IsWordChar(c[|c| - 1])
    requires !IsPcreSpace(a[0]) && !IsPcreSpace(b[0]) && !IsPcreSpace(c[0])
    requires j == i + 1 + |a| && k == j + 1 + |b| && e == k + 1 + |c|
    requires LitAt(s, i, " " + a) && LitAt(s, j, " " + b) && LitAt(s, k, " " + c)
    requires e == |s| || !IsWordChar(s[e])
    ensures Run(s, i, [Spaces1, Lit(a), Spaces1, Lit(b), Spaces1, Lit(c), Boundary]) == Some(e)
  {
    SpacedLastWord(s, k, e, c);
    SpacedTwoWords(s, i, j, k, a, b, [Spaces1, Lit(c)] + [Boundary]);
    assert [Spaces1, Lit(a)] + ([Spaces1, Lit(b)] + ([Spaces1, Lit(c)] + [Boundary]))
        == [Spaces1, Lit(a), Spaces1, Lit(b), Spaces1, Lit(c), Boundary];
  }

  /** `\s+C\b` on the text " C" followed by the end or a character that does not
      continue the word. */
  lemma SpacedLastWord(s: string, i: nat, e: nat, c: string)
    requires c != [] && IsWordChar(c[|c| - 1]) && !IsPcreSpace(c[0])
    requires LitAt(s, i, " " + c)
    requires e == i + 1 + |c| && (e == |s| || !IsWordChar(s[e]))
    ensures Run(s, i, [Spaces1, Lit(c)] + [Boundary]) == Some(e)
  {
    SpaceThenLit(s, i, c);
    WordEndBoundary(s, i + 1, e, c);
    RunStep(s, e, Boundary, [], e);
    assert [Boundary] + [] == [Boundary];
    SpaceLitStep(s, i, e, c, [Boundary]);
  }

  /** `\s+A\s+B` on the text " A B", then the rest. */
  lemma SpacedTwoWords(s: string, i: nat, j: nat, k: nat, a: string, b: string, rest: seq<Tok>)
    requires a != [] && b != [] && !IsPcreSpace(a[0]) && !IsPcreSpace(b[0])
    requires j == i + 1 + |a| && k == j + 1 + |b|
    requires LitAt(s, i, " " + a) && LitAt(s, j, " " + b)
    ensures Run(s, i, [Spaces1, Lit(a)] + ([Spaces1, Lit(b)] + rest)) == Run(s, k, rest)
  {
    SpaceLitStep(s, j, k, b, rest);
    SpaceLitStep(s, i, j, a, [Spaces1, Lit(b)] + rest);
  }

  /** `A\s+B` on the text "A B"; m is where " B" starts and e where the match ends. */
  lemma WordSpaceWordRun(s: string, i: nat, m: nat, e: nat, a: string, b: string)
    requires b != [] && !IsPcreSpace(b[0])
    requires m == i + |a| && e == m + 1 + |b|
    requires LitAt(s, i, a) && LitAt(s, m, " " + b)
    ensures Run(s, i, [Lit(a), Spaces1, Lit(b)]) == Some(e)
  {
    SpaceLitStep(s, m, e, b, []);
    assert [Spaces1, Lit(b)] + [] == [Spaces1, Lit(b)];
    RunStep(s, i, Lit(a), [Spaces1, Lit(b)], m);
    assert [Lit(a)] + [Spaces1, Lit(b)] == [Lit(a), Spaces1, Lit(b)];
  }

  /** Every character of `w` is white space (`w` may be empty). */
  predicate Blank(w: string) {
    forall k :: 0 <= k < |w| ==> IsPcreSpace(w[k])
  }

  /** A run of white space from i that stops at j, before a character that is not white
      space or at the end, is what `\s*` takes. */
  lemma {:induction false} SpaceEndAt(s: string, i: nat, j: nat)
    requires i <= j <= |s|
    requires forall k :: i <= k < j ==> IsPcreSpace(s[k])
    requires j == |s| || !IsPcreSpace(s[j])
    ensures SpaceEnd(s, i) == j
    decreases j - i
  {
    if i < j {
      SpaceEndAt(s, i + 1, j);
    }
  }

  /** `w\s*` or `w\s+` at position i of a text whose rest from i is `k + b + r`: `k` spells
      `w` in some letter case, `b` is white space (not empty for `\s+`) and `r` does not
      start with white space.  The match continues at j, where `r` starts. */
  lemma WordBlankStep(s: string, k: string, b: string, r: string, w: string, t: Tok, rest: seq<Tok>, i: nat, j: nat)
    requires i <= |s| && s[i..] == k + b + r && j == i + |k| + |b|
    requires |k| == |w| && LitAt(k, 0, w) && Blank(b)
    requires t == Spaces || (t == Spaces1 && b != [])
    requires r == [] || !IsPcreSpace(r[0])
    ensures j <= |s| && s[j..] == r
    ensures Run(s, i, [Lit(w), t] + rest) == Run(s, j, rest)
  {
    var m := i + |k|;
    var u := s[i..];
    assert u == k + (b + r);
    forall q | 0 <= q < |w|
      ensures SameLetter(s[i + q], w[q])
    {
      assert s[i + q] == u[q] == k[q];
      assert SameLetter(k[0 + q], w[q]);
    }
    assert LitAt(s, i, w);
    forall q | m <= q < j
      ensures IsPcreSpace(s[q])
    {
      assert s[q] == u[q - i] == b[q - m];
    }
    assert s[j..] == u[|k| + |b|..] == r;
    if j < |s| {
      assert s[j] == r[0];
    }
    SpaceEndAt(s, m, j);
    RunStep(s, m, t, rest, j);
    RunStep(s, i, Lit(w), [t] + rest, m);
    assert [Lit(w), t] + rest == [Lit(w)] + ([t] + rest);
  }

  /** `A\s?B\s?` from position i of a text whose rest from i is `k2 + b2 + k3 + b3 + r`,
      in the manner of WordBlankStep: the match ends at e, where r starts. */
  lemma TwoWordsBlankRun(s: string, i: nat, k2: string, b2: string, s3: string, k3: string, b3: string, r: string,
                         w2: string, w3: string, t2: Tok, t3: Tok, e: nat)
    requires i <= |s| && s[i..] == k2 + b2 + s3 && s3 == k3 + b3 + r
    requires |k2| == |w2| && LitAt(k2, 0, w2) && |k3| == |w3| && LitAt(k3, 0, w3)
    requires Blank(b2) && Blank(b3)
    requires t2 == Spaces || (t2 == Spaces1 && b2 != [])
    requires t3 == Spaces || (t3 == Spaces1 && b3 != [])
    requires k3 != [] && !IsPcreSpace(k3[0])
    requires r == [] || !IsPcreSpace(r[0])
    requires e == |s| - |r|
    ensures s[e..] == r
    ensures Run(s, i, [Lit(w2), t2, Lit(w3), t3]) == Some(e)
  {
    var j := i + |k2| + |b2|;
    var last := [Lit(w3), t3];
    assert s3[0] == k3[0];
    WordBlankStep(s, k2, b2, s3, w2, t2, last, i, j);
    WordBlankStep(s, k3, b3, r, w3, t3, [], j, e);
    assert last + [] == last;
    assert [Lit(w2), t2] + last == [Lit(w2), t2, Lit(w3), t3];
  }

  /** `A\s?B\s?C\s?` (each `\s?` standing for `\s*` or `\s+`) over the text
      `k1 + b1 + k2 + b2 + k3 + b3 + r`: the k's spell the words in some letter case, the
      b's are white space; the match ends at e, where r starts. */
  lemma ThreeWordsBlankRun(s: string, k1: string, b1: string, s2: string, k2: string, b2: string, s3: string, k3: string, b3: string, r: string,
                           w1: string, w2: string, w3: string, t1: Tok, t2: Tok, t3: Tok, e: nat)
    requires s == k1 + b1 + s2 && s2 == k2 + b2 + s3 && s3 == k3 + b3 + r
    requires |k1| == |w1| && LitAt(k1, 0, w1) && |k2| == |w2| && LitAt(k2, 0, w2) && |k3| == |w3| && LitAt(k3, 0, w3)
    requires Blank(b1) && Blank(b2) && Blank(b3)
    requires t1 == Spaces || (t1 == Spaces1 && b1 != [])
    requires t2 == Spaces || (t2 == Spaces1 && b2 != [])
    requires t3 == Spaces || (t3 == Spaces1 && b3 != [])
    requires k2 != [] && !IsPcreSpace(k2[0]) && k3 != [] && !IsPcreSpace(k3[0])
    requires r == [] || !IsPcreSpace(r[0])
    requires e == |s| - |r|
    ensures s[e..] == r
    ensures Run(s, 0, [Lit(w1), t1, Lit(w2), t2, Lit(w3), t3]) == Some(e)
  {
    var j := |k1| + |b1|;
    var tail := [Lit(w2), t2, Lit(w3), t3];
    assert s2[0] == k2[0];
    WordBlankStep(s, k1, b1, s2, w1, t1, tail, 0, j);
    TwoWordsBlankRun(s, j, k2, b2, s3, k3, b3, r, w2, w3, t2, t3, e);
    assert [Lit(w1), t1] + tail == [Lit(w1), t1, Lit(w2), t2, Lit(w3), t3];
  }

  /** A token list that matches matches its first literal first. */
  lemma FirstLitMatches(s: string, i: nat, ts: seq<Tok>)
    requires i <= |s| && ts != [] && ts[0].Lit? && Run(s, i, ts).Some?
    ensures LitAt(s, i, ts[0].w)
  {
  }

  /** A token list whose first literal does not match does not match. */
  lemma FirstLitFails(s: string, i: nat, ts: seq<Tok>)
    requires i <= |s| && ts != [] && ts[0].Lit? && !LitAt(s, i, ts[0].w)
    ensures Run(s, i, ts).None?
  {
  }
}

=== FILE: statement_adjust.dfy ===
/** adjustStatementToServer: before a statement is sent, clauses the target server does
    not understand are removed and the trigger syntax is switched to the server's
    spelling.  IF NOT EXISTS goes from CREATE EXTENSION before 9.1, SCHEMA before 9.3,
    MATERIALIZED VIEW before 9.4, SEQUENCE, TABLE and [UNIQUE] INDEX before 9.5 and
    OPERATOR before 9.6; OR REPLACE goes from CREATE AGGREGATE before 12 and
    CREATE [CONSTRAINT] TRIGGER before 14; EXECUTE FUNCTION becomes EXECUTE PROCEDURE
    before 11 and the other way round from 11 on. */
module StatementAdjust {
  import opened Php
  import opened SqlMatch

  /** The CREATE commands whose IF NOT EXISTS clause older servers reject. */
  datatype CreateKind = Extension | Schema | MaterializedView | Sequence | Table | Index | Operator

  /** The OR REPLACE commands older servers reject. */
  datatype ReplaceKind = Aggregate | Trigger

  /** The order in which the version checks add their alternatives to the pattern. */
  const CreateKinds: seq<CreateKind> := [Extension, Schema, MaterializedView, Sequence, Table, Index, Operator]
  const ReplaceKinds: seq<ReplaceKind> := [Aggregate, Trigger]

  /** The first version (in tenths) that accepts CREATE <kind> IF NOT EXISTS. */
  function IfNotExistsSince(k: CreateKind): int {
    match k
    case Extension => 91
    case Schema => 93
    case MaterializedView => 94
    case Sequence => 95
    case Table => 95
    case Index => 95
    case Operator => 96
  }

  /** The first version (in tenths) that accepts CREATE OR REPLACE <kind>. */
  function OrReplaceSince(k: ReplaceKind): int {
    match k
    case Aggregate => 120
    case Trigger => 140
  }

  /** The pattern alternatives each kind contributes; `(?:UNIQUE\s+)?INDEX` tries the
      longer form first, and so does `(?:CONSTRAINT\s+)?TRIGGER`. */
  function CreateAlternatives(k: CreateKind): seq<seq<Tok>> {
    match k
    case Extension => [[Lit("EXTENSION")]]
    case Schema => [[Lit("SCHEMA")]]
    case MaterializedView => [[Lit("MATERIALIZED"), Spaces1, Lit("VIEW")]]
    case Sequence => [[Lit("SEQUENCE")]]
    case Table => [[Lit("TABLE")]]
    case Index => [[Lit("UNIQUE"), Spaces1, Lit("INDEX")], [Lit("INDEX")]]
    case Operator => [[Lit("OPERATOR")]]
  }

  function ReplaceAlternatives(k: ReplaceKind): seq<seq<Tok>> {
    match k
    case Aggregate => [[Lit("AGGREGATE")]]
    case Trigger => [[Lit("CONSTRAINT"), Spaces1, Lit("TRIGGER")], [Lit("TRIGGER")]]
  }

  /** The kinds whose check `version < since` adds them, in the order of the checks. */
  function Enabled<K>(ks: seq<K>, since: K -> int, version: int): (r: seq<K>)
    ensures |r| <= |ks|
  {
    if ks == [] then []
    else (if version < since(ks[0]) then [ks[0]] else []) + Enabled(ks[1..], since, version)
  }

  /** The alternatives of the kinds, in order. */
  function Alternation<K>(ks: seq<K>, alts: K -> seq<seq<Tok>>): seq<seq<Tok>> {
    if ks == [] then [] else alts(ks[0]) + Alternation(ks[1..], alts)
  }

  function IfNotExistsKinds(version: int): seq<CreateKind> {
    Enabled(CreateKinds, IfNotExistsSince, version)
  }

  function OrReplaceKinds(version: int): seq<ReplaceKind> {
    Enabled(ReplaceKinds, OrReplaceSince, version)
  }

  /** `^\s*CREATE\s+` */
  const CreatePrefix: seq<Tok> := [Spaces, Lit("CREATE"), Spaces1]
  /** `\s+IF\s+NOT\s+EXISTS\b` */
  const IfNotExistsTail: seq<Tok> := [Spaces1, Lit("IF"), Spaces1, Lit("NOT"), Spaces1, Lit("EXISTS"), Boundary]
  /** `^\s*CREATE\s+OR\s+REPLACE\s+` */
  const OrReplacePrefix: seq<Tok> := [Spaces, Lit("CREATE"), Spaces1, Lit("OR"), Spaces1, Lit("REPLACE"), Spaces1]
  /** `\b` */
  const OrReplaceTail: seq<Tok> := [Boundary]

  /** `preg_replace('/' prefix '(' alts ')' tail '/i', 'CREATE $1', s)`: an anchored
      pattern matches at most once; the match becomes CREATE followed by the group as
      written. */
  function ReplaceCreate(s: string, prefix: seq<Tok>, alts: seq<seq<Tok>>, tail: seq<Tok>): string {
    match Run(s, 0, prefix)
    case None => s
    case Some(g) =>
      match RunAlt(s, g, alts, tail)
      case None => s
      case Some(m) => "CREATE " + s[g..m.0] + s[m.1..]
  }

  /** Where prefix and alternation match, the match is replaced. */
  lemma ReplaceCreateMatch(s: string, prefix: seq<Tok>, alts: seq<seq<Tok>>, tail: seq<Tok>, g: nat, m0: nat, m1: nat)
    requires Run(s, 0, prefix) == Some(g) && g <= |s|
    requires RunAlt(s, g, alts, tail) == Some((m0, m1))
    ensures ReplaceCreate(s, prefix, alts, tail) == "CREATE " + s[g..m0] + s[m1..]
  {
  }

  function StripIfNotExists(s: string, version: int): string {
    var kinds := IfNotExistsKinds(version);
    if kinds == [] then s
    else ReplaceCreate(s, CreatePrefix, Alternation(kinds, CreateAlternatives), IfNotExistsTail)
  }

  function StripOrReplace(s: string, version: int): string {
    var kinds := OrReplaceKinds(version);
    if kinds == [] then s
    else ReplaceCreate(s, OrReplacePrefix, Alternation(kinds, ReplaceAlternatives), OrReplaceTail)
  }

  /** The two spellings of a trigger's function call: 11 and later write the first. */
  const ExecuteFunction := "EXECUTE FUNCTION"
  const ExecuteProcedure := "EXECUTE PROCEDURE"

  /** str_ireplace of the trigger function syntax, by server version. */
  function TriggerSyntax(s: string, version: int): string {
    if version < 110 then ReplaceAllCI(s, ExecuteFunction, ExecuteProcedure)
    else ReplaceAllCI(s, ExecuteProcedure, ExecuteFunction)
  }

  /** adjustStatementToServer($stmt) */
  function Adjust(s: string, version: int): string {
    TriggerSyntax(StripOrReplace(StripIfNotExists(s, version), version), version)
  }

  // ---------------------------------------------------------------- which clauses go

  /** A kind is in the list exactly when the server is older than the version that
      accepts the clause. */
  lemma {:induction false} EnabledExact<K>(ks: seq<K>, since: K -> int, version: int, k: K)
    ensures k in Enabled(ks, since, version) <==> k in ks && version < since(k)
  {
    if ks != [] {
      EnabledExact(ks[1..], since, version, k);
      assert ks == [ks[0]] + ks[1..];
    }
  }

  lemma IfNotExistsKindsExact(version: int, k: CreateKind)
    ensures k in IfNotExistsKinds(version) <==> version < IfNotExistsSince(k)
  {
    EnabledExact(CreateKinds, IfNotExistsSince, version, k);
  }

  lemma OrReplaceKindsExact(version: int, k: ReplaceKind)
    ensures k in OrReplaceKinds(version) <==> version < OrReplaceSince(k)
  {
    EnabledExact(ReplaceKinds, OrReplaceSince, version, k);
  }

  /** An alternative of the pattern is an alternative of one of its kinds. */
  lemma {:induction false} AlternationMember<K>(ks: seq<K>, alts: K -> seq<seq<Tok>>, a: seq<Tok>)
    requires a in Alternation(ks, alts)
    ensures exists k :: k in ks && a in alts(k)
  {
    if ks != [] {
      if a !in alts(ks[0]) {
        AlternationMember(ks[1..], alts, a);
        var k :| k in ks[1..] && a in alts(k);
        assert k in ks;
      }
    }
  }

  lemma {:induction false} AlternationHas<K>(ks: seq<K>, alts: K -> seq<seq<Tok>>, k: K, a: seq<Tok>)
    requires k in ks && a in alts(k)
    ensures a in Alternation(ks, alts)
  {
    if ks[0] != k {
      AlternationHas(ks[1..], alts, k, a);
    }
  }

  /** From 9.6 on no IF NOT EXISTS is removed, and from 14 on no OR REPLACE: the
      statement reaches the trigger-syntax step unchanged. */
  lemma CurrentServerKeepsClauses(s: string, version: int)
    requires version >= 140
    ensures StripIfNotExists(s, version) == s
    ensures StripOrReplace(s, version) == s
    ensures Adjust(s, version) == ReplaceAllCI(s, ExecuteProcedure, ExecuteFunction)
  {
    assert IfNotExistsKinds(version) == [] by {
      if IfNotExistsKinds(version) != [] {
        IfNotExistsKindsExact(version, IfNotExistsKinds(version)[0]);
      }
    }
    assert OrReplaceKinds(version) == [] by {
      if OrReplaceKinds(version) != [] {
        OrReplaceKindsExact(version, OrReplaceKinds(version)[0]);
      }
    }
  }

  /** `pat` occurs in `s` at i, ignoring ASCII case. */
  predicate OccursAt(s: string, i: nat, pat: string) {
    i + |pat| <= |s| && Lower(s[i..i + |pat|]) == Lower(pat)
  }

  /** str_ireplace leaves a string without an occurrence of the pattern alone. */
  lemma {:induction false} ReplaceAllCIAbsent(s: string, pat: string, rep: string)
    requires |pat| > 0
    requires forall i :: 0 <= i <= |s| - |pat| ==> !OccursAt(s, i, pat)
    ensures ReplaceAllCI(s, pat, rep) == s
    decreases |s|
  {
    if |s| >= |pat| {
      assert !OccursAt(s, 0, pat);
      forall i | 0 <= i <= |s[1..]| - |pat|
        ensures !OccursAt(s[1..], i, pat)
      {
        assert !OccursAt(s, i + 1, pat);
        assert s[1..][i..i + |pat|] == s[i + 1..i + 1 + |pat|];
        assert Lower(s[1..][i..i + |pat|]) == Lower(s[i + 1..i + 1 + |pat|]);
      }
      ReplaceAllCIAbsent(s[1..], pat, rep);
      assert [s[0]] + s[1..] == s;
    }
  }

  /** A statement with nothing to adjust is sent as it is. */
  lemma NothingToAdjust(s: string, version: int)
    requires version >= 140
    requires forall i :: 0 <= i <= |s| - |ExecuteProcedure| ==> !OccursAt(s, i, ExecuteProcedure)
    ensures Adjust(s, version) == s
  {
    CurrentServerKeepsClauses(s, version);
    ReplaceAllCIAbsent(s, ExecuteProcedure, ExecuteFunction);
  }

  // ---------------------------------------------------------------- the trigger spelling

  /** An occurrence is a stretch of the text that agrees with the whole pattern. */
  lemma OccursAgree(s: string, i: nat, pat: string)
    ensures OccursAt(s, i, pat) <==> i + |pat| <= |s| && Agree(pat, s[i..])
  {
    if i + |pat| <= |s| {
      AgreeChars(pat, s[i..]);
      if Agree(pat, s[i..]) {
        assert forall j :: 0 <= j < |pat| ==> s[i..i + |pat|][j] == s[i..][j];
        assert Lower(s[i..i + |pat|]) == Lower(pat);
      } else {
        var j :| 0 <= j < |pat| && j < |s[i..]| && LowerChar(pat[j]) != LowerChar(s[i..][j]);
        assert Lower(s[i..i + |pat|])[j] != Lower(pat)[j];
      }
    }
  }

  /** A stretch that ends a pattern and runs into `rep` would also run into the pattern:
      an occurrence that begins before a replacement would have begun before the
      replaced occurrence too. */
  predicate OverlapsHarmless(pat: string, rep: string) {
    forall m :: 0 < m < |pat| ==> Agree(pat[m..], rep) ==> Agree(pat[m..], pat)
  }

  /** What the replacement output begins with, the input already began with, as long as
      it is the end of the pattern. */
  lemma {:induction false} KeptPrefix(s: string, pat: string, rep: string, m: nat)
    requires 0 < m < |pat| && OverlapsHarmless(pat, rep)
    requires |ReplaceAllCI(s, pat, rep)| >= |pat| - m && Agree(pat[m..], ReplaceAllCI(s, pat, rep))
    ensures |s| >= |pat| - m && Agree(pat[m..], s)
    decreases |s|
  {
    var out := ReplaceAllCI(s, pat, rep);
    if |s| >= |pat| {
      if Lower(s[..|pat|]) == Lower(pat) {
        var tail := ReplaceAllCI(s[|pat|..], pat, rep);
        assert out == rep + tail;
        AgreeChars(pat[m..], out);
        AgreeChars(pat[m..], rep);
        assert Agree(pat[m..], pat);
        AgreeChars(pat[m..], pat);
        OccursAgree(s, 0, pat);
        AgreeChars(pat, s);
        AgreeChars(pat[m..], s);
      } else {
        var out1 := ReplaceAllCI(s[1..], pat, rep);
        assert out == [s[0]] + out1;
        assert out[1..] == out1;
        if m + 1 < |pat| {
          assert pat[m..][1..] == pat[m + 1..];
          KeptPrefix(s[1..], pat, rep, m + 1);
        }
        assert pat[m..][1..] == pat[m + 1..];
      }
    }
  }

  /** str_ireplace leaves no occurrence of the pattern behind when no occurrence can
      begin inside a replacement and none can begin before one. */
  lemma {:induction false} NoneLeft(s: string, pat: string, rep: string)
    requires |pat| > 0 && StartsNowhereIn(pat, rep) && OverlapsHarmless(pat, rep)
    ensures forall i :: !OccursAt(ReplaceAllCI(s, pat, rep), i, pat)
    decreases |s|
  {
    if |s| >= |pat| {
      if Lower(s[..|pat|]) == Lower(pat) {
        var tail := ReplaceAllCI(s[|pat|..], pat, rep);
        NoneLeft(s[|pat|..], pat, rep);
        NoneAfterReplacement(ReplaceAllCI(s, pat, rep), tail, pat, rep);
      } else {
        var out1 := ReplaceAllCI(s[1..], pat, rep);
        NoneLeft(s[1..], pat, rep);
        NoneAfterKept(s, ReplaceAllCI(s, pat, rep), out1, pat, rep);
      }
    }
  }

  /** A replacement adds no occurrence in front of an output that has none. */
  lemma NoneAfterReplacement(out: string, tail: string, pat: string, rep: string)
    requires out == rep + tail && StartsNowhereIn(pat, rep)
    requires forall i :: !OccursAt(tail, i, pat)
    ensures forall i :: !OccursAt(out, i, pat)
  {
    forall i: nat
      ensures !OccursAt(out, i, pat)
    {
      if i < |rep| {
        if OccursAt(out, i, pat) {
          OccursAgree(out, i, pat);
          AgreeChars(pat, out[i..]);
          AgreeChars(pat, rep[i..]);
          assert false;
        }
      } else {
        assert !OccursAt(tail, i - |rep|, pat);
        if i + |pat| <= |out| {
          assert out[i..i + |pat|] == tail[i - |rep|..i - |rep| + |pat|];
        }
      }
    }
  }

  /** A character kept where the pattern did not match starts no occurrence either. */
  lemma NoneAfterKept(s: string, out: string, out1: string, pat: string, rep: string)
    requires |pat| > 0 && |s| >= |pat| && Lower(s[..|pat|]) != Lower(pat) && OverlapsHarmless(pat, rep)
    requires out1 == ReplaceAllCI(s[1..], pat, rep) && out == [s[0]] + out1
    requires forall i :: !OccursAt(out1, i, pat)
    ensures forall i :: !OccursAt(out, i, pat)
  {
    forall i: nat
      ensures !OccursAt(out, i, pat)
    {
      if i == 0 {
        if OccursAt(out, 0, pat) {
          OccursAgree(out, 0, pat);
          assert out[0..] == out && out[1..] == out1;
          if |pat| > 1 {
            KeptPrefix(s[1..], pat, rep, 1);
          }
          OccursAgree(s, 0, pat);
          assert false;
        }
      } else {
        assert !OccursAt(out1, i - 1, pat);
        if i + |pat| <= |out| {
          assert out[i..i + |pat|] == out1[i - 1..i - 1 + |pat|];
        }
      }
    }
  }

  /** EXECUTE PROCEDURE begins at no position of EXECUTE FUNCTION: at 0 they part at
      the ninth letter, at the other two E's at the letter after. */
  lemma ProcedureNotInFunction(k: nat)
    requires k < |ExecuteFunction|
    ensures !Agree(ExecuteProcedure, ExecuteFunction[k..])
  {
    if k == 0 {
      Differs(ExecuteProcedure, ExecuteFunction[k..], 8);
    } else if k == 2 || k == 6 {
      Differs(ExecuteProcedure, ExecuteFunction[k..], 1);
    } else {
      Differs(ExecuteProcedure, ExecuteFunction[k..], 0);
    }
  }

  /** The only end of EXECUTE PROCEDURE that EXECUTE FUNCTION begins with is its last
      E, which EXECUTE PROCEDURE begins with too. */
  lemma ProcedureEndOverlap(m: nat)
    requires 0 < m < |ExecuteProcedure|
    ensures Agree(ExecuteProcedure[m..], ExecuteFunction) ==> Agree(ExecuteProcedure[m..], ExecuteProcedure)
  {
    if m == 16 {
      AgreeChars(ExecuteProcedure[m..], ExecuteProcedure);
    } else if m == 2 || m == 6 || m == 12 {
      Differs(ExecuteProcedure[m..], ExecuteFunction, 1);
    } else {
      Differs(ExecuteProcedure[m..], ExecuteFunction, 0);
    }
  }

  /** From 11 on, no EXECUTE PROCEDURE in any spelling of case is left in a statement
      once it is adjusted. */
  lemma ProcedureSpellingGone(s: string, version: int)
    requires version >= 110
    ensures forall i :: !OccursAt(Adjust(s, version), i, ExecuteProcedure)
  {
    forall k | 0 <= k < |ExecuteFunction|
      ensures !Agree(ExecuteProcedure, ExecuteFunction[k..])
    {
      ProcedureNotInFunction(k);
    }
    forall m | 0 < m < |ExecuteProcedure|
      ensures Agree(ExecuteProcedure[m..], ExecuteFunction) ==> Agree(ExecuteProcedure[m..], ExecuteProcedure)
    {
      ProcedureEndOverlap(m);
    }
    NoneLeft(StripOrReplace(StripIfNotExists(s, version), version), ExecuteProcedure, ExecuteFunction);
  }

  /** When a replacement ends with the first letter of the pattern, an occurrence
      followed by the rest of the pattern leaves a new occurrence behind. */
  lemma ReplacementStartsOccurrence(pat: string, rep: string, rest: string)
    requires |pat| > 1 && rep != [] && rep[|rep| - 1] == pat[0] && rest == pat[1..]
    ensures OccursAt(ReplaceAllCI(pat + rest, pat, rep), |rep| - 1, pat)
  {
    var s := pat + rest;
    assert s[..|pat|] == pat;
    ReplacedAtStart(s, pat, rep);
    assert s[|pat|..] == rest;
    ShortUnchanged(rest, pat, rep);
    LastLetterStartsPattern(rep, rest, pat);
    OccursWhereEqual(rep + rest, |rep| - 1, pat);
  }

  lemma ReplacedAtStart(s: string, pat: string, rep: string)
    requires |pat| > 0 && |s| >= |pat| && s[..|pat|] == pat
    ensures ReplaceAllCI(s, pat, rep) == rep + ReplaceAllCI(s[|pat|..], pat, rep)
  {
  }

  lemma ShortUnchanged(s: string, pat: string, rep: string)
    requires |pat| > |s|
    ensures ReplaceAllCI(s, pat, rep) == s
  {
  }

  lemma LastLetterStartsPattern(rep: string, rest: string, pat: string)
    requires |pat| > 0 && rep != [] && rep[|rep| - 1] == pat[0] && rest == pat[1..]
    ensures (rep + rest)[|rep| - 1..] == pat
  {
    var out, i := rep + rest, |rep| - 1;
    forall j | 0 <= j < |pat|
      ensures out[i..][j] == pat[j]
    {
      if j > 0 {
        assert out[i + j] == rest[j - 1];
      }
    }
  }

  lemma OccursWhereEqual(s: string, i: nat, pat: string)
    requires i + |pat| == |s| && s[i..] == pat
    ensures OccursAt(s, i, pat)
  {
    assert s[i..i + |pat|] == pat;
  }

  /** A statement that does not begin with CREATE reaches the trigger-syntax step
      unchanged. */
  lemma NotCreateKeepsClauses(s: string, version: int)
    requires !LitAt(s, SpaceEnd(s, 0), "CREATE")
    ensures StripOrReplace(StripIfNotExists(s, version), version) == s
  {
    var j := SpaceEnd(s, 0);
    FirstLitFails(s, j, CreatePrefix[1..]);
    assert Run(s, 0, CreatePrefix).None?;
    FirstLitFails(s, j, OrReplacePrefix[1..]);
    assert Run(s, 0, OrReplacePrefix).None?;
  }

  /** Before 11 the mirror image fails: str_ireplace does not look at its own output
      again, so the E that ends an inserted EXECUTE PROCEDURE can begin an EXECUTE
      FUNCTION with the letters that follow. */
  lemma FunctionSpellingCanSurvive(s: string)
    requires s == ExecuteFunction + ExecuteFunction[1..]
    ensures OccursAt(Adjust(s, 100), 16, ExecuteFunction)
  {
    assert s[0] == 'E' && !IsPcreSpace('E');
    assert SpaceEnd(s, 0) == 0;
    assert !SameLetter(s[0], "CREATE"[0]);
    NotCreateKeepsClauses(s, 100);
    assert ExecuteProcedure[16] == ExecuteFunction[0];
    ReplacementStartsOccurrence(ExecuteFunction, ExecuteProcedure, ExecuteFunction[1..]);
  }

  /** No letter e is directly followed by a letter x, in either case: neither spelling
      of the call begins anywhere in the text. */
  predicate NoCallStart(h: string) {
    forall i :: 0 <= i < |h| - 1 ==> !(LowerChar(h[i]) == 'e' && LowerChar(h[i + 1]) == 'x')
  }

  /** Text in which no occurrence begins is copied through by str_ireplace. */
  lemma {:induction false} CopiedHead(h: string, r: string, pat: string, rep: string)
    requires |pat| > 0
    requires forall i :: 0 <= i < |h| ==> !Agree(pat, (h + r)[i..])
    ensures ReplaceAllCI(h + r, pat, rep) == h + ReplaceAllCI(r, pat, rep)
    decreases |h|
  {
    if h != [] {
      assert !Agree(pat, (h + r)[0..]);
      assert (h + r)[0..] == h + r;
      if |h + r| < |pat| {
        ShortUnchanged(h + r, pat, rep);
        ShortUnchanged(r, pat, rep);
      } else {
        CopiedStep(h, r, pat, rep);
        ShiftedNoStart(h, r, pat);
        CopiedHead(h[1..], r, pat, rep);
        Reattach(h, ReplaceAllCI(r, pat, rep));
      }
    }
  }

  lemma Reattach(h: string, x: string)
    requires h != []
    ensures [h[0]] + (h[1..] + x) == h + x
  {
    assert [h[0]] + h[1..] == h;
  }

  lemma CopiedStep(h: string, r: string, pat: string, rep: string)
    requires |pat| > 0 && h != [] && |h + r| >= |pat| && !Agree(pat, h + r)
    ensures ReplaceAllCI(h + r, pat, rep) == [h[0]] + ReplaceAllCI(h[1..] + r, pat, rep)
  {
    var s := h + r;
    OccursAgree(s, 0, pat);
    assert s[0..] == s && s[0..|pat|] == s[..|pat|];
    assert s[1..] == h[1..] + r;
  }

  lemma ShiftedNoStart(h: string, r: string, pat: string)
    requires h != [] && forall i :: 0 <= i < |h| ==> !Agree(pat, (h + r)[i..])
    ensures forall i :: 0 <= i < |h[1..]| ==> !Agree(pat, (h[1..] + r)[i..])
  {
    forall i | 0 <= i < |h[1..]|
      ensures !Agree(pat, (h[1..] + r)[i..])
    {
      assert (h[1..] + r)[i..] == (h + r)[i + 1..];
    }
  }

  /** A call with nothing before it that could begin one, and no occurrence after it,
      is the one thing str_ireplace changes. */
  lemma CallRespelled(h: string, t: string, pat: string, rep: string)
    requires |pat| >= 2 && LowerChar(pat[0]) == 'e' && LowerChar(pat[1]) == 'x' && NoCallStart(h)
    requires forall i :: 0 <= i <= |t| - |pat| ==> !OccursAt(t, i, pat)
    ensures ReplaceAllCI(h + pat + t, pat, rep) == h + rep + t
  {
    var r := pat + t;
    forall i | 0 <= i < |h|
      ensures !Agree(pat, (h + r)[i..])
    {
      var y := (h + r)[i..];
      if LowerChar(h[i]) == 'e' {
        assert y[1] == if i + 1 < |h| then h[i + 1] else pat[0];
        Differs(pat, y, 1);
      } else {
        assert y[0] == h[i];
        Differs(pat, y, 0);
      }
    }
    CopiedHead(h, r, pat, rep);
    assert r[..|pat|] == pat;
    ReplacedAtStart(r, pat, rep);
    assert r[|pat|..] == t;
    ReplaceAllCIAbsent(t, pat, rep);
    assert h + pat + t == h + r;
  }

  /** Before 14 a CREATE TRIGGER without OR REPLACE is left alone by the OR REPLACE step,
      and from 9.6 on no IF NOT EXISTS is looked for. */
  lemma CreateTriggerKeepsClauses(s: string, version: int)
    requires version >= 96 && LitAt(s, 0, "CREATE TRIGGER")
    ensures StripOrReplace(StripIfNotExists(s, version), version) == s
  {
    NoIfNotExistsFrom96(version);
    CreateTriggerNoOrReplace(s);
  }

  lemma NoIfNotExistsFrom96(version: int)
    requires version >= 96
    ensures IfNotExistsKinds(version) == []
  {
    if IfNotExistsKinds(version) != [] {
      IfNotExistsKindsExact(version, IfNotExistsKinds(version)[0]);
    }
  }

  /** `^\s*CREATE\s+OR\s+REPLACE\s+` does not match CREATE TRIGGER. */
  lemma CreateTriggerNoOrReplace(s: string)
    requires LitAt(s, 0, "CREATE TRIGGER")
    ensures Run(s, 0, OrReplacePrefix).None?
  {
    assert "CREATE TRIGGER" == ("CREATE" + " ") + "TRIGGER";
    LitAtSplit(s, 0, "CREATE" + " ", "TRIGGER");
    assert SameLetter(s[7 + 0], "TRIGGER"[0]) && SameLetter(s[0 + 0], "CREATE TRIGGER"[0]);
    LitAtDiffer(s, 7, "TRIGGER", "OR", 0);
    var rest := [Lit("OR"), Spaces1, Lit("REPLACE"), Spaces1];
    FirstLitFails(s, 7, rest);
    LitSpaceStep(s, 0, 7, "CREATE", rest);
    NoSpace(s, 0);
    RunStep(s, 0, Spaces, [Lit("CREATE"), Spaces1] + rest, 0);
    assert OrReplacePrefix == [Spaces] + ([Lit("CREATE"), Spaces1] + rest);
  }

  /** A CREATE TRIGGER statement whose call is in the other server's spelling goes out
      with the call respelled and everything else as it was. */
  lemma TriggerCallRespelled(h: string, t: string, version: int)
    requires version >= 96 && LitAt(h, 0, "CREATE TRIGGER") && NoCallStart(h)
    requires forall i :: !OccursAt(t, i, ExecuteFunction) && !OccursAt(t, i, ExecuteProcedure)
    ensures version < 110 ==> Adjust(h + ExecuteFunction + t, version) == h + ExecuteProcedure + t
    ensures version >= 110 ==> Adjust(h + ExecuteProcedure + t, version) == h + ExecuteFunction + t
  {
    if version < 110 {
      TriggerCallSteps(h, t, version, ExecuteFunction, ExecuteProcedure);
    } else {
      TriggerCallSteps(h, t, version, ExecuteProcedure, ExecuteFunction);
    }
  }

  lemma TriggerCallSteps(h: string, t: string, version: int, call: string, other: string)
    requires version >= 96 && LitAt(h, 0, "CREATE TRIGGER") && NoCallStart(h)
    requires |call| >= 2 && LowerChar(call[0]) == 'e' && LowerChar(call[1]) == 'x'
    requires forall i :: !OccursAt(t, i, call)
    ensures StripOrReplace(StripIfNotExists(h + call + t, version), version) == h + call + t
    ensures ReplaceAllCI(h + call + t, call, other) == h + other + t
  {
    assert LitAt(h + call + t, 0, "CREATE TRIGGER");
    CreateTriggerKeepsClauses(h + call + t, version);
    CallRespelled(h, t, call, other);
  }

  /** Text without the letter x holds the start of no call. */
  predicate WithoutX(h: string) {
    forall i :: 0 <= i < |h| ==> LowerChar(h[i]) != 'x'
  }

  lemma WithoutXJoin(a: string, b: string)
    requires WithoutX(a) && WithoutX(b)
    ensures WithoutX(a + b)
  {
    forall i | 0 <= i < |a + b|
      ensures LowerChar((a + b)[i]) != 'x'
    {
      if i >= |a| {
        assert (a + b)[i] == b[i - |a|];
      }
    }
  }

  /** CREATE TRIGGER audit AFTER INSERT ON orders FOR EACH ROW with a call to log_row()
      is sent to a 10 server with EXECUTE PROCEDURE and to an 11 server with EXECUTE
      FUNCTION, whichever spelling it was dumped with. */
  lemma TriggerCallExample(h: string, t: string)
    requires h == "CREATE TRIGGER " + "audit AFTER " + "INSERT ON " + "orders FOR " + "EACH ROW "
    requires t == " log_row()"
    ensures Adjust(h + ExecuteFunction + t, 100) == h + ExecuteProcedure + t
    ensures Adjust(h + ExecuteProcedure + t, 110) == h + ExecuteFunction + t
  {
    AuditTriggerHead(h);
    TriggerCallRespelled(h, t, 100);
    TriggerCallRespelled(h, t, 110);
  }

  lemma AuditWords()
    ensures WithoutX("CREATE TRIGGER ") && WithoutX("audit AFTER ") && WithoutX("INSERT ON ")
    ensures WithoutX("orders FOR ") && WithoutX("EACH ROW ")
  {
    AuditFirstWords();
  }

  lemma AuditFirstWords()
    ensures WithoutX("CREATE TRIGGER ") && WithoutX("audit AFTER ")
  {
  }

  lemma AuditTriggerHead(h: string)
    requires h == "CREATE TRIGGER " + "audit AFTER " + "INSERT ON " + "orders FOR " + "EACH ROW "
    ensures NoCallStart(h) && LitAt(h, 0, "CREATE TRIGGER")
  {
    AuditWords();
    WithoutXJoin("CREATE TRIGGER ", "audit AFTER ");
    WithoutXJoin("CREATE TRIGGER " + "audit AFTER ", "INSERT ON ");
    WithoutXJoin("CREATE TRIGGER " + "audit AFTER " + "INSERT ON ", "orders FOR ");
    WithoutXJoin("CREATE TRIGGER " + "audit AFTER " + "INSERT ON " + "orders FOR ", "EACH ROW ");
    assert NoCallStart(h);
    LitAtSelf(h, 0, "CREATE TRIGGER");
  }

  // ---------------------------------------------------------------- removing IF NOT EXISTS

  /** How each kind is usually written: upper case, one space between words. */
  function Spelling(k: CreateKind): (w: string)
    ensures |w| >= 5 && !IsPcreSpace(w[0]) && IsWordChar(w[|w| - 1])
  {
    match k
    case Extension => "EXTENSION"
    case Schema => "SCHEMA"
    case MaterializedView => "MATERIALIZED VIEW"
    case Sequence => "SEQUENCE"
    case Table => "TABLE"
    case Index => "INDEX"
    case Operator => "OPERATOR"
  }

  /** The alternative that matches the usual spelling. */
  function SpelledAlternative(k: CreateKind): (a: seq<Tok>)
    ensures a in CreateAlternatives(k)
  {
    match k
    case Index => [Lit("INDEX")]
    case _ => CreateAlternatives(k)[0]
  }

  /** The text at i is the usual spelling of k, in any letter case, followed by white
      space. */
  predicate SpelledAt(s: string, i: nat, k: CreateKind) {
    var n := |Spelling(k)|;
    LitAt(s, i, Spelling(k)) && i + n < |s| && IsPcreSpace(s[i + n])
  }

  /** `MATERIALIZED\s+VIEW` matches its usual spelling; e is where it ends. */
  lemma MaterializedViewRun(s: string, i: nat, e: nat)
    requires LitAt(s, i, "MATERIALIZED VIEW") && e == i + 17
    ensures Run(s, i, [Lit("MATERIALIZED"), Spaces1, Lit("VIEW")]) == Some(e)
  {
    assert "MATERIALIZED VIEW" == "MATERIALIZED" + (" " + "VIEW");
    LitAtSplit(s, i, "MATERIALIZED", " " + "VIEW");
    WordSpaceWordRun(s, i, i + 12, e, "MATERIALIZED", "VIEW");
  }

  /** Where a kind is spelled out, its spelled alternative matches the spelling; n is
      where the spelling ends. */
  lemma SpelledAlternativeRun(s: string, i: nat, n: nat, k: CreateKind)
    requires SpelledAt(s, i, k) && n == i + |Spelling(k)|
    ensures Run(s, i, SpelledAlternative(k)) == Some(n)
  {
    if k == MaterializedView {
      MaterializedViewRun(s, i, n);
    }
  }

  /** Where a kind is spelled out, no other alternative of any kind matches. */
  lemma OtherAlternativeFails(s: string, i: nat, k: CreateKind, k2: CreateKind, b: seq<Tok>)
    requires SpelledAt(s, i, k)
    requires b in CreateAlternatives(k2) && b != SpelledAlternative(k)
    ensures Run(s, i, b).None?
  {
    var sp := Spelling(k);
    FirstWordDiffers(k, k2, b);
    var w := b[0].w;
    if !SameLetter(sp[0], w[0]) {
      LitAtDiffer(s, i, sp, w, 0);
    } else {
      LitAtDiffer(s, i, sp, w, 1);
    }
    FirstLitFails(s, i, b);
  }

  /** Every other alternative starts with a word that differs from the kind's spelling
      in its first or second letter. */
  lemma FirstWordDiffers(k: CreateKind, k2: CreateKind, b: seq<Tok>)
    requires b in CreateAlternatives(k2) && b != SpelledAlternative(k)
    ensures |b| > 0 && b[0].Lit? && |b[0].w| >= 2
    ensures !SameLetter(Spelling(k)[0], b[0].w[0]) || !SameLetter(Spelling(k)[1], b[0].w[1])
  {
    match k2
    case Extension =>
    case Schema =>
    case MaterializedView =>
    case Sequence =>
    case Table =>
    case Index =>
    case Operator =>
  }

  /** `^\s*CREATE\s+` on a statement that starts with "CREATE " and a word. */
  lemma CreatePrefixRun(s: string)
    requires LitAt(s, 0, "CREATE ") && |s| > 7 && !IsPcreSpace(s[7])
    ensures Run(s, 0, CreatePrefix) == Some(7)
  {
    assert "CREATE " == "CREATE" + " ";
    LitAtSplit(s, 0, "CREATE", " ");
    assert SameLetter(s[6 + 0], " "[0]);
    SameAsSpace(s[6]);
    assert SameLetter(s[0 + 0], "CREATE"[0]);
    NoSpace(s, 0);
    OneSpace(s, 6);
    assert CreatePrefix[1..] == [Lit("CREATE"), Spaces1] && CreatePrefix[1..][1..] == [Spaces1];
  }

  /** `\s+IF\s+NOT\s+EXISTS\b` on " IF NOT EXISTS", in any letter case, followed by
      something that does not continue the word; e is where it ends. */
  lemma IfNotExistsTailRun(s: string, i: nat, e: nat)
    requires LitAt(s, i, " IF NOT EXISTS") && e == i + 14
    requires e == |s| || !IsWordChar(s[e])
    ensures Run(s, i, IfNotExistsTail) == Some(e)
  {
    assert " IF NOT EXISTS" == (" " + "IF") + ((" " + "NOT") + (" " + "EXISTS"));
    LitAtSplit(s, i, " " + "IF", (" " + "NOT") + (" " + "EXISTS"));
    LitAtSplit(s, i + 3, " " + "NOT", " " + "EXISTS");
    SpacedWordsRun(s, i, i + 3, i + 7, e, "IF", "NOT", "EXISTS");
  }

  /** Only the spelled kind's alternative can match where a kind is spelled out, so the
      alternation picks it; n is where the spelling ends, e where the tail ends. */
  lemma AlternationPicksSpelled(s: string, i: nat, n: nat, e: nat, k: CreateKind, version: int)
    requires SpelledAt(s, i, k) && version < IfNotExistsSince(k) && n == i + |Spelling(k)|
    requires Run(s, n, IfNotExistsTail) == Some(e)
    ensures RunAlt(s, i, Alternation(IfNotExistsKinds(version), CreateAlternatives), IfNotExistsTail)
            == Some((n, e))
  {
    var alts := Alternation(IfNotExistsKinds(version), CreateAlternatives);
    IfNotExistsKindsExact(version, k);
    AlternationHas(IfNotExistsKinds(version), CreateAlternatives, k, SpelledAlternative(k));
    forall b | b in alts && Run(s, i, b).Some?
      ensures b == SpelledAlternative(k)
    {
      AlternationMember(IfNotExistsKinds(version), CreateAlternatives, b);
      var k2 :| k2 in IfNotExistsKinds(version) && b in CreateAlternatives(k2);
      if b != SpelledAlternative(k) {
        OtherAlternativeFails(s, i, k, k2, b);
      }
    }
    SpelledAlternativeRun(s, i, n, k);
    RunAltOnly(s, i, alts, IfNotExistsTail, SpelledAlternative(k), n, e);
  }

  /** The statement CREATE <kind> IF NOT EXISTS ... with the usual spelling. */
  function IfNotExistsStatement(k: CreateKind, r: string): string {
    "CREATE " + Spelling(k) + " IF NOT EXISTS" + r
  }

  /** The prefix of such a statement matches, its kind is spelled after it, and the
      clause follows; n is where the spelling ends and e where the clause ends. */
  lemma IfNotExistsStatementParts(k: CreateKind, r: string, n: nat, e: nat)
    requires n == 7 + |Spelling(k)| && e == n + 14
    ensures var s := IfNotExistsStatement(k, r);
            && |s| == e + |r|
            && Run(s, 0, CreatePrefix) == Some(7)
            && SpelledAt(s, 7, k)
            && LitAt(s, n, " IF NOT EXISTS")
            && s[7..n] == Spelling(k)
            && s[e..] == r
            && (r != [] ==> s[e] == r[0])
  {
    var sp := Spelling(k);
    var s := IfNotExistsStatement(k, r);
    Pieces("CREATE ", sp, " IF NOT EXISTS", r, 7, n, e);
    assert " IF NOT EXISTS"[0] == ' ';
    LitAtSelf(s, 0, "CREATE ");
    LitAtSelf(s, 7, sp);
    LitAtSelf(s, n, " IF NOT EXISTS");
    CreatePrefixRun(s);
  }

  /** Before the version that accepts it, CREATE <kind> IF NOT EXISTS loses the clause
      and the rest of the statement is kept. */
  lemma StripsIfNotExists(k: CreateKind, version: int, r: string)
    requires version < IfNotExistsSince(k)
    requires r == [] || !IsWordChar(r[0])
    ensures StripIfNotExists(IfNotExistsStatement(k, r), version) == "CREATE " + Spelling(k) + r
  {
    var s := IfNotExistsStatement(k, r);
    var n := 7 + |Spelling(k)|;
    var e := n + 14;
    IfNotExistsStatementParts(k, r, n, e);
    IfNotExistsClauseMatch(s, k, version, n, e);
    IfNotExistsKindsExact(version, k);
    ReplaceCreateMatch(s, CreatePrefix, Alternation(IfNotExistsKinds(version), CreateAlternatives),
                       IfNotExistsTail, 7, n, e);
  }

  /** After CREATE, the spelled kind and the clause are the match of the alternation
      and the tail. */
  lemma IfNotExistsClauseMatch(s: string, k: CreateKind, version: int, n: nat, e: nat)
    requires version < IfNotExistsSince(k) && SpelledAt(s, 7, k)
    requires n == 7 + |Spelling(k)| && e == n + 14
    requires LitAt(s, n, " IF NOT EXISTS")
    requires e == |s| || !IsWordChar(s[e])
    ensures RunAlt(s, 7, Alternation(IfNotExistsKinds(version), CreateAlternatives), IfNotExistsTail)
            == Some((n, e))
  {
    IfNotExistsTailRun(s, n, e);
    AlternationPicksSpelled(s, 7, n, e, k, version);
  }

  /** From the version that accepts it, CREATE <kind> IF NOT EXISTS is left alone. */
  lemma KeepsIfNotExists(k: CreateKind, version: int, r: string)
    requires version >= IfNotExistsSince(k)
    ensures StripIfNotExists(IfNotExistsStatement(k, r), version) == IfNotExistsStatement(k, r)
  {
    var s := IfNotExistsStatement(k, r);
    var kinds := IfNotExistsKinds(version);
    if kinds != [] {
      var n := 7 + |Spelling(k)|;
      IfNotExistsStatementParts(k, r, n, n + 14);
      var alts := Alternation(kinds, CreateAlternatives);
      forall b | b in alts
        ensures Run(s, 7, b).None?
      {
        DisabledKindFails(s, 7, k, version, b);
      }
      RunAltNone(s, 7, alts, IfNotExistsTail);
    }
  }

  /** Where a kind the server accepts with IF NOT EXISTS is spelled out, no alternative
      of the pattern matches. */
  lemma DisabledKindFails(s: string, i: nat, k: CreateKind, version: int, b: seq<Tok>)
    requires SpelledAt(s, i, k) && version >= IfNotExistsSince(k)
    requires b in Alternation(IfNotExistsKinds(version), CreateAlternatives)
    ensures Run(s, i, b).None?
  {
    AlternationMember(IfNotExistsKinds(version), CreateAlternatives, b);
    var k2 :| k2 in IfNotExistsKinds(version) && b in CreateAlternatives(k2);
    IfNotExistsKindsExact(version, k2);
    if b == SpelledAlternative(k) {
      SpelledAlternativeOwn(k, k2, b);
      assert false;
    }
    OtherAlternativeFails(s, i, k, k2, b);
  }

  /** Each kind's spelled alternative belongs to that kind alone. */
  lemma SpelledAlternativeOwn(k: CreateKind, k2: CreateKind, b: seq<Tok>)
    requires b in CreateAlternatives(k2) && b == SpelledAlternative(k)
    ensures k2 == k
  {
  }

  /** Whether IF NOT EXISTS is removed from a CREATE depends on the server version
      alone: it is removed exactly before the version that accepts it. */
  lemma IfNotExistsByVersion(k: CreateKind, version: int, r: string)
    requires r == [] || !IsWordChar(r[0])
    ensures StripIfNotExists(IfNotExistsStatement(k, r), version)
            == if version < IfNotExistsSince(k) then "CREATE " + Spelling(k) + r else IfNotExistsStatement(k, r)
  {
    if version < IfNotExistsSince(k) {
      StripsIfNotExists(k, version, r);
    } else {
      KeepsIfNotExists(k, version, r);
    }
  }

  // ---------------------------------------------------------------- removing OR REPLACE

  function ReplaceSpelling(k: ReplaceKind): (w: string)
    ensures |w| >= 7 && IsWordChar(w[|w| - 1]) && !IsPcreSpace(w[0])
  {
    match k
    case Aggregate => "AGGREGATE"
    case Trigger => "TRIGGER"
  }

  function ReplaceSpelledAlternative(k: ReplaceKind): (a: seq<Tok>)
    ensures a in ReplaceAlternatives(k)
  {
    match k
    case Aggregate => [Lit("AGGREGATE")]
    case Trigger => [Lit("TRIGGER")]
  }

  /** `^\s*CREATE\s+OR\s+REPLACE\s+` on a statement that starts with "CREATE OR REPLACE ",
      in any letter case, and a word. */
  lemma OrReplacePrefixRun(s: string)
    requires LitAt(s, 0, "CREATE" + " ") && LitAt(s, 7, "OR" + " ") && LitAt(s, 10, "REPLACE" + " ")
    requires |s| > 18 && !IsPcreSpace(s[18])
    ensures Run(s, 0, OrReplacePrefix) == Some(18)
  {
    ThreeWordsRun(s, 7, 10, 18, "CREATE", "OR", "REPLACE");
  }

  /** Where an OR REPLACE kind is spelled out, exactly its spelled alternative matches;
      n is where the spelling ends. */
  lemma ReplaceAlternativeRun(s: string, i: nat, n: nat, k: ReplaceKind, k2: ReplaceKind, b: seq<Tok>)
    requires LitAt(s, i, ReplaceSpelling(k)) && n == i + |ReplaceSpelling(k)|
    requires b in ReplaceAlternatives(k2)
    ensures Run(s, i, b) == if b == ReplaceSpelledAlternative(k) then Some(n) else None
  {
    var sp := ReplaceSpelling(k);
    var w := b[0].w;
    if b != ReplaceSpelledAlternative(k) {
      LitAtDiffer(s, i, sp, w, 0);
    }
  }

  /** The statement CREATE OR REPLACE <kind> ... with the usual spelling. */
  function OrReplaceStatement(k: ReplaceKind, r: string): string {
    "CREATE OR REPLACE " + ReplaceSpelling(k) + r
  }

  /** "CREATE OR REPLACE " word by word. */
  lemma OrReplaceWords(s: string)
    requires LitAt(s, 0, "CREATE OR REPLACE ")
    ensures LitAt(s, 0, "CREATE" + " ") && LitAt(s, 7, "OR" + " ") && LitAt(s, 10, "REPLACE" + " ")
  {
    assert "CREATE OR REPLACE " == ("CREATE" + " ") + (("OR" + " ") + ("REPLACE" + " "));
    LitAtSplit(s, 0, "CREATE" + " ", ("OR" + " ") + ("REPLACE" + " "));
    LitAtSplit(s, 7, "OR" + " ", "REPLACE" + " ");
  }

  /** The prefix of such a statement matches, and its kind is spelled after it; n is
      where the spelling ends. */
  lemma OrReplaceStatementParts(k: ReplaceKind, r: string, n: nat)
    requires r == [] || !IsWordChar(r[0])
    requires n == 18 + |ReplaceSpelling(k)|
    ensures var s := OrReplaceStatement(k, r);
            && Run(s, 0, OrReplacePrefix) == Some(18)
            && LitAt(s, 18, ReplaceSpelling(k))
            && BoundaryAt(s, n)
            && s[18..n] == ReplaceSpelling(k)
            && s[n..] == r
  {
    var sp := ReplaceSpelling(k);
    var s := OrReplaceStatement(k, r);
    Pieces("CREATE OR REPLACE ", sp, r, "", 18, n, |s|);
    assert s == "CREATE OR REPLACE " + sp + r + "";
    LitAtSelf(s, 0, "CREATE OR REPLACE ");
    LitAtSelf(s, 18, sp);
    NotSpaceLike(s[18], sp[0]);
    OrReplaceWords(s);
    OrReplacePrefixRun(s);
    WordEndBoundary(s, 18, n, sp);
  }

  /** Before the version that accepts it, CREATE OR REPLACE <kind> loses OR REPLACE and
      the rest of the statement is kept. */
  lemma StripsOrReplace(k: ReplaceKind, version: int, r: string)
    requires version < OrReplaceSince(k)
    requires r == [] || !IsWordChar(r[0])
    ensures StripOrReplace(OrReplaceStatement(k, r), version) == "CREATE " + ReplaceSpelling(k) + r
  {
    var s := OrReplaceStatement(k, r);
    var n := 18 + |ReplaceSpelling(k)|;
    OrReplaceStatementParts(k, r, n);
    OrReplaceKindsExact(version, k);
    OrReplaceClauseMatch(s, k, version, n);
    ReplaceCreateMatch(s, OrReplacePrefix, Alternation(OrReplaceKinds(version), ReplaceAlternatives),
                       OrReplaceTail, 18, n, n);
  }

  /** After CREATE OR REPLACE, the spelled kind is the match of the alternation, and
      the word boundary after it the match of the tail. */
  lemma OrReplaceClauseMatch(s: string, k: ReplaceKind, version: int, n: nat)
    requires version < OrReplaceSince(k)
    requires LitAt(s, 18, ReplaceSpelling(k)) && n == 18 + |ReplaceSpelling(k)| && BoundaryAt(s, n)
    ensures RunAlt(s, 18, Alternation(OrReplaceKinds(version), ReplaceAlternatives), OrReplaceTail)
            == Some((n, n))
  {
    var kinds := OrReplaceKinds(version);
    OrReplaceKindsExact(version, k);
    var alts := Alternation(kinds, ReplaceAlternatives);
    forall b | b in alts && Run(s, 18, b).Some?
      ensures b == ReplaceSpelledAlternative(k)
    {
      OnlySpelledReplaceRuns(s, 18, n, k, version, b);
    }
    AlternationHas(kinds, ReplaceAlternatives, k, ReplaceSpelledAlternative(k));
    ReplaceAlternativeRun(s, 18, n, k, k, ReplaceSpelledAlternative(k));
    RunStep(s, n, Boundary, [], n);
    assert OrReplaceTail == [Boundary] + [];
    RunAltOnly(s, 18, alts, OrReplaceTail, ReplaceSpelledAlternative(k), n, n);
  }

  /** From the version that accepts it, CREATE OR REPLACE <kind> is left alone. */
  lemma KeepsOrReplace(k: ReplaceKind, version: int, r: string)
    requires version >= OrReplaceSince(k)
    requires r == [] || !IsWordChar(r[0])
    ensures StripOrReplace(OrReplaceStatement(k, r), version) == OrReplaceStatement(k, r)
  {
    var s := OrReplaceStatement(k, r);
    var kinds := OrReplaceKinds(version);
    if kinds != [] {
      var n := 18 + |ReplaceSpelling(k)|;
      OrReplaceStatementParts(k, r, n);
      var alts := Alternation(kinds, ReplaceAlternatives);
      forall b | b in alts
        ensures Run(s, 18, b).None?
      {
        DisabledReplaceFails(s, 18, n, k, version, b);
      }
      RunAltNone(s, 18, alts, OrReplaceTail);
    }
  }

  /** Where an OR REPLACE kind is spelled out, only its own alternative of the
      pattern can match. */
  lemma OnlySpelledReplaceRuns(s: string, i: nat, n: nat, k: ReplaceKind, version: int, b: seq<Tok>)
    requires LitAt(s, i, ReplaceSpelling(k)) && n == i + |ReplaceSpelling(k)|
    requires b in Alternation(OrReplaceKinds(version), ReplaceAlternatives) && Run(s, i, b).Some?
    ensures b == ReplaceSpelledAlternative(k)
  {
    AlternationMember(OrReplaceKinds(version), ReplaceAlternatives, b);
    var k2 :| k2 in OrReplaceKinds(version) && b in ReplaceAlternatives(k2);
    ReplaceAlternativeRun(s, i, n, k, k2, b);
  }

  /** Where a kind the server accepts with OR REPLACE is spelled out, no alternative of
      the pattern matches. */
  lemma DisabledReplaceFails(s: string, i: nat, n: nat, k: ReplaceKind, version: int, b: seq<Tok>)
    requires LitAt(s, i, ReplaceSpelling(k)) && n == i + |ReplaceSpelling(k)| && version >= OrReplaceSince(k)
    requires b in Alternation(OrReplaceKinds(version), ReplaceAlternatives)
    ensures Run(s, i, b).None?
  {
    AlternationMember(OrReplaceKinds(version), ReplaceAlternatives, b);
    var k2 :| k2 in OrReplaceKinds(version) && b in ReplaceAlternatives(k2);
    OrReplaceKindsExact(version, k2);
    ReplaceAlternativeRun(s, i, n, k, k2, b);
  }

  /** Whether OR REPLACE is removed depends on the server version alone. */
  lemma OrReplaceByVersion(k: ReplaceKind, version: int, r: string)
    requires r == [] || !IsWordChar(r[0])
    ensures StripOrReplace(OrReplaceStatement(k, r), version)
            == if version < OrReplaceSince(k) then "CREATE " + ReplaceSpelling(k) + r else OrReplaceStatement(k, r)
  {
    if version < OrReplaceSince(k) {
      StripsOrReplace(k, version, r);
    } else {
      KeepsOrReplace(k, version, r);
    }
  }
}

=== FILE: statement_executor.dfy ===
/** StatementExecutor: runs one statement of an import.  The statement is trimmed and
    classified; self-affecting statements are deferred, ownership and rights
    statements are queued, data statements may first truncate their table, and the
    rest pass the policy gates before they are adjusted to the server's version and
    sent.  A failed statement raises under the `abort` error mode and returns false
    under any other. */
module StatementExec {
  import opened Php
  import opened SqlMatch
  import opened ImportCommon
  import opened TruncateTarget
  import StatementAdjust

  /** The options of the import, as the executor reads them.  Each flag is already the
      result of `empty(...)`; `defer_self` and `error_mode` keep their absence
      (None), because they have defaults. */
  datatype Options = Options(
    deferSelf: Option<bool>,
    data: bool,
    truncate: bool,
    allowDrops: bool,
    ownership: bool,
    rights: bool,
    schemaCreate: bool,
    roles: bool,
    tablespaces: bool,
    verbose: bool,
    errorMode: Option<string>)

  /** `($options['error_mode'] ?? 'abort') === 'abort'` */
  predicate Aborts(o: Options) {
    o.errorMode.GetOr("abort") == "abort"
  }

  /** `$options['defer_self'] ?? true`, as a truth value. */
  predicate DeferSelf(o: Options) {
    o.deferSelf.GetOr(true)
  }

  /** What leaves `execute` by an exception: the StatementExecutionException of a failed
      statement, or whatever the driver itself threw. */
  datatype Failure =
    | StatementFailed(stmt: string, code: int, message: string)
    | DriverThrew(message: string)

  /** How a call of `execute` ends: a returned boolean or a raised exception. */
  datatype Outcome = Returned(executed: bool) | Raised(failure: Failure)

  /** Everything a call may change: the four lists of the import state, the statements
      sent to the server, and the log. */
  datatype Session = Session(
    deferred: seq<string>,
    ownershipQueue: seq<string>,
    rightsQueue: seq<string>,
    truncatedTables: seq<string>,
    sent: seq<string>,
    log: seq<LogEntry>)

  /** Everything a call reads and does not change.  `adjust` is the rewrite of a
      statement for the server's version and `target` the table a data statement
      loads; the executor binds them to StatementAdjust.Adjust and
      TruncateTarget.TargetOf (see StatementExecutor.Ctx).  `classify` is
      StatementClassifier::classify, which is not part of this model; `reply` and
      `lastError` are the server's answers (see ImportCommon.Database). */
  datatype Context = Context(
    options: Options,
    isSuper: bool,
    currentUser: string,
    scope: string,
    adjust: string -> string,
    target: string -> Option<Target>,
    classify: (string, string) -> string,
    allowCategory: string -> bool,
    reply: seq<string> -> Reply,
    lastError: seq<string> -> string)

  // ---------------------------------------------------------------- the specification

  function AddLog(ss: Session, e: LogEntry): Session {
    ss.(log := ss.log + [e])
  }

  /** The statement as the verbose log shows it: at most 200 characters, then "...". */
  function Preview(sql: string): (p: string)
    ensures |sql| <= 200 ==> p == sql
    ensures |sql| > 200 ==> |p| == 203 && p[..200] == sql[..200]
  {
    if |sql| > 200 then sql[..200] + "..." else sql
  }

  /** executeStatement: adjust, optionally log, send, and read the reply. */
  function RunStatement(env: Context, ss: Session, stmt: string): (Session, Outcome) {
    var sql := env.adjust(stmt);
    var ss1 := if env.options.verbose then AddLog(ss, Info("Executing: " + Preview(sql))) else ss;
    Report(env, ss1.(sent := ss1.sent + [sql]), sql)
  }

  /** What executeStatement does with the reply to `sql`, the last statement sent. */
  function Report(env: Context, ss: Session, sql: string): (Session, Outcome) {
    match env.reply(ss.sent)
    case Threw(m) => (ss, Raised(DriverThrew(m)))
    case Status(code) =>
      if code != 0 then
        var msg := ErrorText(env.lastError(ss.sent));
        var ss1 := AddLog(ss, Error(WithDetail("Statement execution failed", msg), Some(sql), Some(code)));
        (ss1, if Aborts(env.options) then Raised(StatementFailed(sql, code, msg)) else Returned(false))
      else
        (AddLog(ss, Success("Statement executed", sql)), Returned(true))
  }

  /** Truncating a resolved table, once: the failure is what the driver may throw. */
  function TruncateOnce(env: Context, ss: Session, t: Target): (Session, Option<Failure>) {
    var full := FullName(t);
    if full in ss.truncatedTables then (ss, None)
    else
      var ss1 := ss.(sent := ss.sent + [TruncateSql(t)]);
      match env.reply(ss1.sent)
      case Threw(m) => (ss1, Some(DriverThrew(m)))
      case Status(code) =>
        if code != 0 then
          var msg := ErrorText(env.lastError(ss1.sent));
          (AddLog(ss1, Error(WithDetail("TRUNCATE failed", msg), None, Some(code))), None)
        else
          var ss2 := AddLog(ss1, Truncated("Table truncated before data import", full));
          (ss2.(truncatedTables := ss2.truncatedTables + [full]), None)
  }

  /** truncateTargetTable */
  function Truncate(env: Context, ss: Session, stmt: string): (Session, Option<Failure>) {
    match env.target(stmt)
    case None => (ss, None)
    case Some(t) => TruncateOnce(env, ss, t)
  }

  function Defer(ss: Session, stmt: string, message: string): Session {
    AddLog(ss.(deferred := ss.deferred + [stmt]), Deferred(message, stmt))
  }

  /** Whether a self-affecting statement is deferred rather than run. */
  predicate DefersSelf(env: Context) {
    DeferSelf(env.options) || !(env.isSuper || env.scope == "server")
  }

  function HandleSelfAffecting(env: Context, ss: Session, stmt: string): (Session, Outcome) {
    if !DeferSelf(env.options) then
      if env.isSuper || env.scope == "server" then RunStatement(env, ss, stmt)
      else (Defer(ss, stmt, "Self-affecting statement deferred (not superuser)"), Returned(false))
    else (Defer(ss, stmt, "Self-affecting statement deferred"), Returned(false))
  }

  function HandleData(env: Context, ss: Session, stmt: string): (Session, Outcome) {
    if !env.options.data then
      (AddLog(ss, Skipped("Data import disabled", stmt, Some("data_disabled"), Some("data"))), Returned(false))
    else if env.options.truncate then
      var (ss1, f) := Truncate(env, ss, stmt);
      if f.Some? then (ss1, Raised(f.value)) else RunStatement(env, ss1, stmt)
    else RunStatement(env, ss, stmt)
  }

  function HandleDrop(env: Context, ss: Session, stmt: string): (Session, Outcome) {
    if !env.options.allowDrops then
      (AddLog(ss, Blocked("DROP statements not allowed", stmt, "drops_not_allowed")), Returned(false))
    else RunStatement(env, ss, stmt)
  }

  function HandleOwnership(env: Context, ss: Session, stmt: string): (Session, Outcome) {
    if !env.options.ownership then
      (AddLog(ss, Skipped("Ownership changes disabled", stmt, Some("ownership_disabled"), None)), Returned(false))
    else
      (AddLog(ss.(ownershipQueue := ss.ownershipQueue + [stmt]), QueuedOwnership("Ownership statement queued", stmt)),
       Returned(false))
  }

  function HandleRights(env: Context, ss: Session, stmt: string): (Session, Outcome) {
    if !env.options.rights then
      (AddLog(ss, Skipped("Rights statements disabled", stmt, Some("rights_disabled"), None)), Returned(false))
    else
      (AddLog(ss.(rightsQueue := ss.rightsQueue + [stmt]), QueuedRights("Rights statement queued", stmt)),
       Returned(false))
  }

  // ---------------------------------------------------------------- policy patterns

  /** `^\s*VERB\s+OBJECT\b` */
  function Phrase(verb: string, noun: string): seq<Tok> {
    [Spaces, Lit(verb), Spaces1, Lit(noun), Boundary]
  }

  /** `/^\s*CREATE\s+SCHEMA\b/i` */
  predicate CreatesSchema(s: string) {
    Matches(s, Phrase("CREATE", "SCHEMA"))
  }

  /** `/^\s*(CREATE|ALTER|DROP)\s+(ROLE|USER)\b/i` */
  predicate ChangesRole(s: string) {
    MatchesAny(s, [Phrase("CREATE", "ROLE"), Phrase("CREATE", "USER"), Phrase("ALTER", "ROLE"),
                   Phrase("ALTER", "USER"), Phrase("DROP", "ROLE"), Phrase("DROP", "USER")])
  }

  /** `/^\s*(CREATE|ALTER|DROP)\s+TABLESPACE\b/i` */
  predicate ChangesTablespace(s: string) {
    MatchesAny(s, [Phrase("CREATE", "TABLESPACE"), Phrase("ALTER", "TABLESPACE"), Phrase("DROP", "TABLESPACE")])
  }

  /** The first gate that holds a statement back, with its log message and reason. */
  function PolicyBlock(env: Context, stmt: string): Option<(string, string)> {
    if CreatesSchema(stmt) && !env.options.schemaCreate then
      Some(("Schema creation disabled", "schema_create_disabled"))
    else if ChangesRole(stmt) && !env.options.roles then
      Some(("Role operations disabled", "roles_disabled"))
    else if ChangesTablespace(stmt) && !env.options.tablespaces then
      Some(("Tablespace operations disabled", "tablespaces_disabled"))
    else None
  }

  function HandlePolicies(env: Context, ss: Session, stmt: string, category: string): (Session, Outcome) {
    match PolicyBlock(env, stmt)
    case Some((message, reason)) => (AddLog(ss, Skipped(message, stmt, Some(reason), None)), Returned(false))
    case None =>
      if !env.allowCategory(category) then
        (AddLog(ss, Skipped("Statement category not allowed", stmt, None, Some(category))), Returned(false))
      else RunStatement(env, ss, stmt)
  }

  /** The five categories with a handler of their own. */
  predicate Special(category: string) {
    category in {"self_affecting", "data", "drop", "ownership_change", "rights"}
  }

  /** execute($statement) */
  function ExecuteSpec(env: Context, ss: Session, statement: string): (Session, Outcome) {
    var t := Trim(statement);
    if t == "" then (ss, Returned(false))
    else Dispatch(env, ss, t, env.classify(t, env.currentUser))
  }

  /** The handler of each category. */
  function Dispatch(env: Context, ss: Session, t: string, category: string): (Session, Outcome) {
    if category == "self_affecting" then HandleSelfAffecting(env, ss, t)
    else if category == "data" then HandleData(env, ss, t)
    else if category == "drop" then HandleDrop(env, ss, t)
    else if category == "ownership_change" then HandleOwnership(env, ss, t)
    else if category == "rights" then HandleRights(env, ss, t)
    else HandlePolicies(env, ss, t, category)
  }

  // ---------------------------------------------------------------- properties

  /** Each list of `after` continues the same list of `before`. */
  predicate Extends(before: Session, after: Session) {
    && before.deferred <= after.deferred
    && before.ownershipQueue <= after.ownershipQueue
    && before.rightsQueue <= after.rightsQueue
    && before.truncatedTables <= after.truncatedTables
    && before.sent <= after.sent
    && before.log <= after.log
  }

  /** Where the two outcomes of a failed or successful statement come from. */
  lemma RunStatementOutcome(env: Context, ss: Session, stmt: string)
    ensures var (after, r) := RunStatement(env, ss, stmt);
            var sql := env.adjust(stmt);
            var reply := env.reply(after.sent);
            && after.sent == ss.sent + [sql]
            && after.deferred == ss.deferred && after.ownershipQueue == ss.ownershipQueue
            && after.rightsQueue == ss.rightsQueue && after.truncatedTables == ss.truncatedTables
            && (r == Returned(true) <==> reply == Status(0))
            && (r == Returned(false) <==> reply.Status? && reply.code != 0 && !Aborts(env.options))
            && (r.Raised? && r.failure.StatementFailed? <==> reply.Status? && reply.code != 0 && Aborts(env.options))
            && (r.Raised? && r.failure.StatementFailed? ==> r.failure.stmt == sql && r.failure.code == reply.code)
            && (r.Raised? && r.failure.DriverThrew? <==> reply.Threw?)
  {
  }

  /** A statement that is blank after trimming is ignored: nothing changes, nothing
      is sent, and false is returned. */
  lemma BlankIgnored(env: Context, ss: Session, statement: string)
    requires Trim(statement) == ""
    ensures ExecuteSpec(env, ss, statement) == (ss, Returned(false))
  {
  }

  /** The category of a statement that is not blank. */
  function CategoryOf(env: Context, statement: string): string {
    env.classify(Trim(statement), env.currentUser)
  }

  /** A self-affecting statement is deferred, unless deferring is switched off and the
      user is a superuser or the import is server-wide, in which case it is run. */
  lemma SelfAffectingDeferred(env: Context, ss: Session, statement: string)
    requires Trim(statement) != "" && CategoryOf(env, statement) == "self_affecting"
    ensures var (after, r) := ExecuteSpec(env, ss, statement);
            DefersSelf(env) ==>
              && after.deferred == ss.deferred + [Trim(statement)]
              && after.sent == ss.sent
              && r == Returned(false)
    ensures !DefersSelf(env) ==> ExecuteSpec(env, ss, statement) == RunStatement(env, ss, Trim(statement))
  {
  }

  /** With data import switched off, a data statement is only logged as skipped. */
  lemma DataDisabledSkips(env: Context, ss: Session, statement: string)
    requires Trim(statement) != "" && CategoryOf(env, statement) == "data" && !env.options.data
    ensures var (after, r) := ExecuteSpec(env, ss, statement);
            && after == ss.(log := ss.log + [Skipped("Data import disabled", Trim(statement), Some("data_disabled"), Some("data"))])
            && r == Returned(false)
  {
  }

  /** Ownership and rights statements are never sent: they are queued when their
      option is on and skipped otherwise, and false is returned either way. */
  lemma QueuedNeverSent(env: Context, ss: Session, statement: string)
    requires Trim(statement) != ""
    requires CategoryOf(env, statement) == "ownership_change" || CategoryOf(env, statement) == "rights"
    ensures var (after, r) := ExecuteSpec(env, ss, statement);
            && after.sent == ss.sent
            && r == Returned(false)
            && after.deferred == ss.deferred && after.truncatedTables == ss.truncatedTables
            && (CategoryOf(env, statement) == "ownership_change" ==>
                  after.rightsQueue == ss.rightsQueue
                  && after.ownershipQueue == ss.ownershipQueue + (if env.options.ownership then [Trim(statement)] else []))
            && (CategoryOf(env, statement) == "rights" ==>
                  after.ownershipQueue == ss.ownershipQueue
                  && after.rightsQueue == ss.rightsQueue + (if env.options.rights then [Trim(statement)] else []))
  {
    var t := Trim(statement);
    var category := CategoryOf(env, statement);
    Dispatched(env, ss, statement);
    if category == "ownership_change" {
      assert Dispatch(env, ss, t, category) == HandleOwnership(env, ss, t);
    } else {
      assert Dispatch(env, ss, t, category) == HandleRights(env, ss, t);
    }
  }

  /** A DROP is run only when drops are allowed; otherwise it is blocked. */
  lemma DropGate(env: Context, ss: Session, statement: string)
    requires Trim(statement) != "" && CategoryOf(env, statement) == "drop"
    ensures env.options.allowDrops ==> ExecuteSpec(env, ss, statement) == RunStatement(env, ss, Trim(statement))
    ensures !env.options.allowDrops ==>
              ExecuteSpec(env, ss, statement)
              == (ss.(log := ss.log + [Blocked("DROP statements not allowed", Trim(statement), "drops_not_allowed")]),
                  Returned(false))
  {
  }

  /** Any other statement is run only when no policy gate holds it back and the
      category callback allows its category. */
  lemma PolicyGates(env: Context, ss: Session, statement: string)
    requires Trim(statement) != "" && !Special(CategoryOf(env, statement))
    ensures var (after, r) := ExecuteSpec(env, ss, statement);
            (PolicyBlock(env, Trim(statement)).Some? || !env.allowCategory(CategoryOf(env, statement))) ==>
              after.sent == ss.sent && r == Returned(false) && after == ss.(log := after.log)
    ensures PolicyBlock(env, Trim(statement)).None? && env.allowCategory(CategoryOf(env, statement)) ==>
              ExecuteSpec(env, ss, statement) == RunStatement(env, ss, Trim(statement))
  {
  }

  /** Running a statement only appends: one statement sent, entries logged. */
  lemma RunStatementExtends(env: Context, ss: Session, stmt: string)
    ensures Extends(ss, RunStatement(env, ss, stmt).0)
  {
    RunStatementOutcome(env, ss, stmt);
    var sql := env.adjust(stmt);
    var ss1 := if env.options.verbose then AddLog(ss, Info("Executing: " + Preview(sql))) else ss;
    var ss2 := ss1.(sent := ss1.sent + [sql]);
    assert ss.log <= ss1.log;
    assert ss2.log <= Report(env, ss2, sql).0.log;
  }

  /** Only a statement that was sent, adjusted, and answered with status 0 makes a data
      statement succeed. */
  lemma DataTrueMeansExecuted(env: Context, ss: Session, t: string)
    ensures var (after, r) := HandleData(env, ss, t);
            r == Returned(true) ==>
              && after.sent != []
              && after.sent[|after.sent| - 1] == env.adjust(t)
              && env.reply(after.sent) == Status(0)
  {
    if env.options.data && env.options.truncate {
      var (ss1, f) := Truncate(env, ss, t);
      if f.None? {
        RunStatementOutcome(env, ss1, t);
      }
    } else {
      RunStatementOutcome(env, ss, t);
    }
  }

  /** Only a statement that was sent, adjusted, and answered with status 0 makes
      `execute` return true. */
  lemma TrueMeansExecuted(env: Context, ss: Session, statement: string)
    ensures var (after, r) := ExecuteSpec(env, ss, statement);
            r == Returned(true) ==>
              && Trim(statement) != ""
              && CategoryOf(env, statement) !in {"ownership_change", "rights"}
              && after.sent != []
              && after.sent[|after.sent| - 1] == env.adjust(Trim(statement))
              && env.reply(after.sent) == Status(0)
  {
    if Trim(statement) != "" {
      Dispatched(env, ss, statement);
      DispatchTrue(env, ss, Trim(statement), CategoryOf(env, statement));
    }
  }

  lemma DispatchTrue(env: Context, ss: Session, t: string, category: string)
    ensures var (after, r) := Dispatch(env, ss, t, category);
            r == Returned(true) ==>
              && category !in {"ownership_change", "rights"}
              && after.sent != []
              && after.sent[|after.sent| - 1] == env.adjust(t)
              && env.reply(after.sent) == Status(0)
  {
    var res := Dispatch(env, ss, t, category);
    if category == "data" {
      assert res == HandleData(env, ss, t);
      DataTrueMeansExecuted(env, ss, t);
    } else {
      RunsOrHoldsBack(env, ss, t, category);
      if res == RunStatement(env, ss, t) {
        RunStatementOutcome(env, ss, t);
      } else {
        assert res.1 == Returned(false);
      }
    }
  }

  /** A statement that is not blank goes to the handler of its category. */
  lemma Dispatched(env: Context, ss: Session, statement: string)
    requires Trim(statement) != ""
    ensures ExecuteSpec(env, ss, statement) == Dispatch(env, ss, Trim(statement), CategoryOf(env, statement))
  {
  }

  /** A list without repeated entries. */
  predicate Distinct(xs: seq<string>) {
    forall i, j :: 0 <= i < j < |xs| ==> xs[i] != xs[j]
  }

  lemma DistinctAppend(xs: seq<string>, x: string)
    requires Distinct(xs) && x !in xs
    ensures Distinct(xs + [x])
  {
  }

  /** Truncating records a table only when it was not recorded yet and the TRUNCATE
      succeeded, and it sends at most the one TRUNCATE statement. */
  lemma TruncateOnceRecords(env: Context, ss: Session, t: Target)
    ensures var (after, f) := TruncateOnce(env, ss, t);
            && (after.truncatedTables == ss.truncatedTables
                || (FullName(t) !in ss.truncatedTables
                    && after.truncatedTables == ss.truncatedTables + [FullName(t)]
                    && after.sent == ss.sent + [TruncateSql(t)]
                    && env.reply(after.sent) == Status(0)))
            && (FullName(t) in ss.truncatedTables ==> after == ss && f.None?)
            && (after.sent == ss.sent || after.sent == ss.sent + [TruncateSql(t)])
            && after.deferred == ss.deferred && after.ownershipQueue == ss.ownershipQueue
            && after.rightsQueue == ss.rightsQueue
            && Extends(ss, after)
  {
  }

  /** What a data statement does to the import state's lists and to the statements
      sent: at most a TRUNCATE of its own table, recorded once, and the statement. */
  lemma DataFacts(env: Context, ss: Session, t: string)
    ensures var (after, r) := HandleData(env, ss, t);
            var sql := env.adjust(t);
            && Extends(ss, after)
            && (Distinct(ss.truncatedTables) ==> Distinct(after.truncatedTables))
            && (|| after.sent == ss.sent
                || after.sent == ss.sent + [sql]
                || (exists tg :: env.target(t) == Some(tg)
                      && (after.sent == ss.sent + [TruncateSql(tg)] || after.sent == ss.sent + [TruncateSql(tg), sql])))
  {
    if !env.options.data {
    } else if env.options.truncate {
      match env.target(t)
      case None =>
        RunStatementOutcome(env, ss, t);
        RunStatementExtends(env, ss, t);
      case Some(tg) =>
        TruncateOnceRecords(env, ss, tg);
        var (ss1, f) := TruncateOnce(env, ss, tg);
        if ss1.truncatedTables != ss.truncatedTables && Distinct(ss.truncatedTables) {
          DistinctAppend(ss.truncatedTables, FullName(tg));
        }
        if f.None? {
          RunStatementOutcome(env, ss1, t);
          RunStatementExtends(env, ss1, t);
          if ss1.sent != ss.sent {
            assert ss1.sent + [env.adjust(t)] == ss.sent + [TruncateSql(tg), env.adjust(t)];
          }
        }
    } else {
      RunStatementOutcome(env, ss, t);
      RunStatementExtends(env, ss, t);
    }
  }

  /** A statement held back: false is returned, nothing is sent, no table is
      recorded, and the lists only grow. */
  predicate HeldBack(ss: Session, res: (Session, Outcome)) {
    && res.1 == Returned(false)
    && res.0.sent == ss.sent
    && res.0.truncatedTables == ss.truncatedTables
    && Extends(ss, res.0)
  }

  /** Logging one entry and returning false holds a statement back. */
  lemma LoggedOnly(ss: Session, e: LogEntry)
    ensures HeldBack(ss, (AddLog(ss, e), Returned(false)))
  {
    assert ss.log <= ss.log + [e];
  }

  lemma SelfAffectingRunsOrHolds(env: Context, ss: Session, t: string)
    ensures var res := HandleSelfAffecting(env, ss, t);
            res == RunStatement(env, ss, t) || HeldBack(ss, res)
  {
    if DefersSelf(env) {
      var after := Defer(ss, t, if DeferSelf(env.options) then "Self-affecting statement deferred"
                                else "Self-affecting statement deferred (not superuser)");
      assert ss.deferred <= after.deferred && ss.log <= after.log;
    }
  }

  lemma DropRunsOrHolds(env: Context, ss: Session, t: string)
    ensures var res := HandleDrop(env, ss, t);
            res == RunStatement(env, ss, t) || HeldBack(ss, res)
  {
    LoggedOnly(ss, Blocked("DROP statements not allowed", t, "drops_not_allowed"));
  }

  lemma OwnershipHolds(env: Context, ss: Session, t: string)
    ensures HeldBack(ss, HandleOwnership(env, ss, t))
  {
    if env.options.ownership {
      var after := HandleOwnership(env, ss, t).0;
      assert ss.ownershipQueue <= after.ownershipQueue && ss.log <= after.log;
    } else {
      LoggedOnly(ss, Skipped("Ownership changes disabled", t, Some("ownership_disabled"), None));
    }
  }

  lemma RightsHold(env: Context, ss: Session, t: string)
    ensures HeldBack(ss, HandleRights(env, ss, t))
  {
    if env.options.rights {
      var after := HandleRights(env, ss, t).0;
      assert ss.rightsQueue <= after.rightsQueue && ss.log <= after.log;
    } else {
      LoggedOnly(ss, Skipped("Rights statements disabled", t, Some("rights_disabled"), None));
    }
  }

  lemma PoliciesRunOrHold(env: Context, ss: Session, t: string, category: string)
    ensures var res := HandlePolicies(env, ss, t, category);
            res == RunStatement(env, ss, t) || HeldBack(ss, res)
  {
    match PolicyBlock(env, t)
    case Some((message, reason)) =>
      LoggedOnly(ss, Skipped(message, t, Some(reason), None));
    case None =>
      LoggedOnly(ss, Skipped("Statement category not allowed", t, None, Some(category)));
  }

  /** Every category but `data` either runs the statement as it is or holds it back. */
  lemma {:induction false} RunsOrHoldsBack(env: Context, ss: Session, t: string, category: string)
    requires category != "data"
    ensures var res := Dispatch(env, ss, t, category);
            res == RunStatement(env, ss, t) || HeldBack(ss, res)
    ensures category == "ownership_change" || category == "rights" ==> HeldBack(ss, Dispatch(env, ss, t, category))
  {
    if category == "self_affecting" {
      SelfAffectingRunsOrHolds(env, ss, t);
    } else if category == "drop" {
      DropRunsOrHolds(env, ss, t);
    } else if category == "ownership_change" {
      OwnershipHolds(env, ss, t);
    } else if category == "rights" {
      RightsHold(env, ss, t);
    } else {
      PoliciesRunOrHold(env, ss, t, category);
    }
  }

  /** No table is ever recorded twice as truncated, so no table is truncated twice
      after a TRUNCATE of it succeeded. */
  lemma {:induction false} TruncatedStaysDistinct(env: Context, ss: Session, statement: string)
    requires Distinct(ss.truncatedTables)
    ensures Distinct(ExecuteSpec(env, ss, statement).0.truncatedTables)
  {
    var t := Trim(statement);
    if t != "" {
      var category := CategoryOf(env, statement);
      Dispatched(env, ss, statement);
      if category == "data" {
        assert Dispatch(env, ss, t, category) == HandleData(env, ss, t);
        DataFacts(env, ss, t);
      } else {
        RunsOrHoldsBack(env, ss, t, category);
        RunStatementOutcome(env, ss, t);
        RunStatementExtends(env, ss, t);
      }
    }
  }

  /** A data statement whose table is already recorded as truncated is run without a
      TRUNCATE. */
  lemma AlreadyTruncatedNotAgain(env: Context, ss: Session, statement: string, tg: Target)
    requires Trim(statement) != "" && CategoryOf(env, statement) == "data"
    requires env.options.data && env.options.truncate
    requires env.target(Trim(statement)) == Some(tg) && FullName(tg) in ss.truncatedTables
    ensures ExecuteSpec(env, ss, statement) == RunStatement(env, ss, Trim(statement))
  {
    TruncateOnceRecords(env, ss, tg);
  }

  /** A call only appends: to the lists of the import state, to the statements sent
      and to the log. */
  lemma {:induction false} ExecuteExtends(env: Context, ss: Session, statement: string)
    ensures Extends(ss, ExecuteSpec(env, ss, statement).0)
  {
    var t := Trim(statement);
    if t != "" {
      var category := CategoryOf(env, statement);
      Dispatched(env, ss, statement);
      if category == "data" {
        assert Dispatch(env, ss, t, category) == HandleData(env, ss, t);
        DataFacts(env, ss, t);
      } else {
        RunsOrHoldsBack(env, ss, t, category);
        RunStatementOutcome(env, ss, t);
        RunStatementExtends(env, ss, t);
      }
    }
  }

  /** A call sends at most two statements: the TRUNCATE of its table and the
      statement itself, adjusted to the server. */
  lemma {:induction false} AtMostTwoSent(env: Context, ss: Session, statement: string)
    ensures var after := ExecuteSpec(env, ss, statement).0;
            var sql := env.adjust(Trim(statement));
            || after.sent == ss.sent
            || after.sent == ss.sent + [sql]
            || (exists tg :: env.target(Trim(statement)) == Some(tg)
                  && (after.sent == ss.sent + [TruncateSql(tg)] || after.sent == ss.sent + [TruncateSql(tg), sql]))
  {
    var t := Trim(statement);
    if t != "" {
      var category := CategoryOf(env, statement);
      Dispatched(env, ss, statement);
      if category == "data" {
        assert Dispatch(env, ss, t, category) == HandleData(env, ss, t);
        DataFacts(env, ss, t);
      } else {
        RunsOrHoldsBack(env, ss, t, category);
        RunStatementOutcome(env, ss, t);
        RunStatementExtends(env, ss, t);
      }
    }
  }

  // ---------------------------------------------------------------- the executor

  /** The default `allowCategory`: every category is allowed. */
  function AllowAll(category: string): bool {
    true
  }

  class StatementExecutor {
    const logs: LogCollector
    const state: ImportState
    const pg: Database
    const isSuper: bool
    const currentUser: string
    const options: Options
    /** StatementClassifier::classify */
    const classify: (string, string) -> string
    const allowCategory: string -> bool

    /** A missing `allowCategory` allows every category. */
    constructor (logs: LogCollector, state: ImportState, pg: Database, isSuper: bool, currentUser: string,
                 options: Options, classify: (string, string) -> string, allowCategory: Option<string -> bool>)
      ensures this.logs == logs && this.state == state && this.pg == pg
      ensures this.isSuper == isSuper && this.currentUser == currentUser && this.options == options
      ensures this.classify == classify
      ensures allowCategory.Some? ==> this.allowCategory == allowCategory.value
      ensures allowCategory.None? ==> forall c :: this.allowCategory(c)
    {
      this.logs := logs;
      this.state := state;
      this.pg := pg;
      this.isSuper := isSuper;
      this.currentUser := currentUser;
      this.options := options;
      this.classify := classify;
      if allowCategory.Some? {
        this.allowCategory := allowCategory.value;
      } else {
        this.allowCategory := AllowAll;
      }
    }

    function Ctx(): Context
      reads state
    {
      var version := pg.majorVersion;
      var scope := state.scope;
      var scopeIdent := state.scopeIdent;
      Context(options, isSuper, currentUser, scope,
              (stmt: string) => StatementAdjust.Adjust(stmt, version),
              (stmt: string) => TargetOf(stmt, scope, scopeIdent),
              classify, allowCategory, pg.reply, pg.lastError)
    }

    ghost function Current(): Session
      reads state, pg, logs
    {
      Session(state.deferred, state.ownershipQueue, state.rightsQueue, state.truncatedTables,
              pg.executed, logs.entries)
    }

    method Execute(statement: string) returns (r: Outcome)
      modifies state`deferred, state`ownershipQueue, state`rightsQueue, state`truncatedTables, pg, logs
      ensures (Current(), r) == ExecuteSpec(old(Ctx()), old(Current()), statement)
    {
      var t := Trim(statement);
      if t == "" {
        return Returned(false);
      }
      var category := classify(t, currentUser);
      if category == "self_affecting" {
        r := HandleSelfAffectingStep(t);
      } else if category == "data" {
        r := HandleDataStep(t);
      } else if category == "drop" {
        r := HandleDropStep(t);
      } else if category == "ownership_change" {
        r := HandleOwnershipStep(t);
      } else if category == "rights" {
        r := HandleRightsStep(t);
      } else {
        r := HandlePoliciesStep(t, category);
      }
    }

    method HandleSelfAffectingStep(stmt: string) returns (r: Outcome)
      modifies state`deferred, pg, logs
      ensures (Current(), r) == HandleSelfAffecting(old(Ctx()), old(Current()), stmt)
    {
      if !DeferSelf(options) && (isSuper || state.scope == "server") {
        r := ExecuteStatement(stmt);
      } else {
        state.deferred := state.deferred + [stmt];
        if !DeferSelf(options) {
          logs.Add(Deferred("Self-affecting statement deferred (not superuser)", stmt));
        } else {
          logs.Add(Deferred("Self-affecting statement deferred", stmt));
        }
        r := Returned(false);
      }
    }

    method HandleDataStep(stmt: string) returns (r: Outcome)
      modifies state`truncatedTables, pg, logs
      ensures (Current(), r) == HandleData(old(Ctx()), old(Current()), stmt)
    {
      if !options.data {
        logs.Add(Skipped("Data import disabled", stmt, Some("data_disabled"), Some("data")));
        return Returned(false);
      }
      if options.truncate {
        var f := TruncateTargetTable(stmt);
        if f.Some? {
          return Raised(f.value);
        }
      }
      r := ExecuteStatement(stmt);
    }

    method HandleDropStep(stmt: string) returns (r: Outcome)
      modifies pg, logs
      ensures (Current(), r) == HandleDrop(old(Ctx()), old(Current()), stmt)
    {
      if !options.allowDrops {
        logs.Add(Blocked("DROP statements not allowed", stmt, "drops_not_allowed"));
        return Returned(false);
      }
      r := ExecuteStatement(stmt);
    }

    method HandleOwnershipStep(stmt: string) returns (r: Outcome)
      modifies state`ownershipQueue, logs
      ensures (Current(), r) == HandleOwnership(old(Ctx()), old(Current()), stmt)
    {
      if !options.ownership {
        logs.Add(Skipped("Ownership changes disabled", stmt, Some("ownership_disabled"), None));
        return Returned(false);
      }
      state.ownershipQueue := state.ownershipQueue + [stmt];
      logs.Add(QueuedOwnership("Ownership statement queued", stmt));
      r := Returned(false);
    }

    method HandleRightsStep(stmt: string) returns (r: Outcome)
      modifies state`rightsQueue, logs
      ensures (Current(), r) == HandleRights(old(Ctx()), old(Current()), stmt)
    {
      if !options.rights {
        logs.Add(Skipped("Rights statements disabled", stmt, Some("rights_disabled"), None));
        return Returned(false);
      }
      state.rightsQueue := state.rightsQueue + [stmt];
      logs.Add(QueuedRights("Rights statement queued", stmt));
      r := Returned(false);
    }

    method HandlePoliciesStep(stmt: string, category: string) returns (r: Outcome)
      modifies pg, logs
      ensures (Current(), r) == HandlePolicies(old(Ctx()), old(Current()), stmt, category)
    {
      var block := PolicyBlock(Ctx(), stmt);
      if block.Some? {
        logs.Add(Skipped(block.value.0, stmt, Some(block.value.1), None));
        return Returned(false);
      }
      if !allowCategory(category) {
        logs.Add(Skipped("Statement category not allowed", stmt, None, Some(category)));
        return Returned(false);
      }
      r := ExecuteStatement(stmt);
    }

    /** executeStatement */
    method ExecuteStatement(stmt: string) returns (r: Outcome)
      modifies pg, logs
      ensures (Current(), r) == RunStatement(old(Ctx()), old(Current()), stmt)
    {
      var sql := StatementAdjust.Adjust(stmt, pg.majorVersion);
      if options.verbose {
        logs.Add(Info("Executing: " + Preview(sql)));
      }
      var reply := pg.Execute(sql);
      r := ReportReply(sql, reply);
    }

    /** The reply handling of executeStatement. */
    method ReportReply(sql: string, reply: Reply) returns (r: Outcome)
      requires reply == pg.reply(pg.executed)
      modifies logs
      ensures (Current(), r) == Report(Ctx(), old(Current()), sql)
    {
      match reply
      case Threw(m) =>
        r := Raised(DriverThrew(m));
      case Status(code) =>
        if code != 0 {
          var msg := ErrorText(pg.lastError(pg.executed));
          logs.Add(Error(WithDetail("Statement execution failed", msg), Some(sql), Some(code)));
          r := if Aborts(options) then Raised(StatementFailed(sql, code, msg)) else Returned(false);
        } else {
          logs.Add(Success("Statement executed", sql));
          r := Returned(true);
        }
    }

    /** truncateTargetTable */
    method TruncateTargetTable(stmt: string) returns (f: Option<Failure>)
      modifies state`truncatedTables, pg, logs
      ensures (Current(), f) == Truncate(old(Ctx()), old(Current()), stmt)
    {
      var target := TargetOf(stmt, state.scope, state.scopeIdent);
      if target.None? {
        return None;
      }
      f := TruncateTable(target.value);
    }

    /** The part of truncateTargetTable after the name is known. */
    method TruncateTable(t: Target) returns (f: Option<Failure>)
      modifies state`truncatedTables, pg, logs
      ensures (Current(), f) == TruncateOnce(old(Ctx()), old(Current()), t)
    {
      var full := FullName(t);
      if full in state.truncatedTables {
        return None;
      }
      var reply := pg.Execute(TruncateSql(t));
      f := None;
      match reply
      case Threw(m) =>
        f := Some(DriverThrew(m));
      case Status(code) =>
        if code != 0 {
          var msg := ErrorText(pg.lastError(pg.executed));
          logs.Add(Error(WithDetail("TRUNCATE failed", msg), None, Some(code)));
        } else {
          logs.Add(Truncated("Table truncated before data import", full));
          state.truncatedTables := state.truncatedTables + [full];
        }
    }
  }
}

=== FILE: table_dumper.dfy ===
/** TableDumper: the definition of one table (columns, constraints, per-column ALTERs,
    comments, privileges), its autovacuum settings, its data through the SQL
    formatter, and its indexes, triggers and rules. */
module TableDump {
  import opened Php
  import opened Output
  import opened PgDriver
  import opened DumpCommon
  import SqlFormat

  // ---------------------------------------------------------------- catalog rows

  /** The one row getTable must return. */
  datatype TableRow = TableRow(relname: string, relowner: string, relcomment: Option<string>)

  /** A row of getTableAttributes.  `attstattarget` is `None` when the column is NULL
      or the empty string. */
  datatype AttributeRow = AttributeRow(
    attname: string, typ: string, atttypmod: string, attisserial: bool, attnotnull: bool,
    adsrc: Option<string>, comment: Option<string>, attstattarget: Option<int>,
    attstorage: string, typstorage: string)

  /** A row of getConstraints. */
  datatype ConstraintRow = ConstraintRow(conname: string, contype: string, consrc: Option<string>, indkey: string)

  /** One entry of the privileges array: [kind, name, privileges, grantor, grantable]. */
  datatype PrivilegeEntry = PrivilegeEntry(
    kind: string, name: string, privileges: seq<string>, grantor: string, grantable: seq<string>)

  /** A key of a fetched row: ADOdb returns every column both by position and by name. */
  datatype FieldKey = Position(i: int) | Column(name: string)

  type AutovacuumRow = seq<(FieldKey, Option<string>)>

  /** What reading the table's rows through the cursor yields: an exception with its
      message, or the result columns and the rows. */
  datatype DataOutcome = DataFailed(message: string) | DataRows(fields: seq<SqlFormat.Field>, rows: seq<SqlFormat.Row>)

  /** The catalog queries the dumper makes. */
  datatype TableCatalog = TableCatalog(
    table: string -> Records<TableRow>,
    attributes: string -> Records<AttributeRow>,
    constraints: string -> Records<ConstraintRow>,
    /** getAttributeNames($table, $attnums) */
    attributeNames: (string, seq<string>) -> seq<string>,
    hasObjectID: string -> bool,
    /** getPrivileges($table, 'table'); `None` when it is not an array. */
    privileges: string -> Option<seq<PrivilegeEntry>>,
    /** getTableAutovacuum($table) with the connection's schema set to the first argument. */
    autovacuum: (string, string) -> Records<AutovacuumRow>,
    /** The rows of the given SELECT, read through a cursor. */
    data: string -> DataOutcome,
    indexes: string -> Records<string>,
    triggers: string -> Records<string>,
    rules: string -> Records<string>)

  /** The writes of a step that may stop early (`return false` / `return`), and whether
      it ran to its end. */
  datatype Partial = Partial(writes: seq<string>, complete: bool)

  // ---------------------------------------------------------------- columns

  predicate IsSerial(att: AttributeRow) {
    att.attisserial && (att.typ == "integer" || att.typ == "bigint")
  }

  /** What follows a column's name: SERIAL or BIGSERIAL for a serial integer column,
      otherwise its type, NOT NULL and DEFAULT. */
  function ColumnType(d: Driver, att: AttributeRow): (w: seq<string>)
    ensures IsSerial(att) ==> w == [if att.typ == "integer" then " SERIAL" else " BIGSERIAL"]
    ensures !IsSerial(att) ==> |w| == 1 + Count(att.attnotnull) + Count(att.adsrc.Some?)
                               && w[0] == " " + d.formatType(att.typ, att.atttypmod)
    ensures !IsSerial(att) && att.attnotnull ==> w[1] == " NOT NULL"
    ensures !IsSerial(att) && att.adsrc.Some? ==> w[|w| - 1] == " DEFAULT " + att.adsrc.value
  {
    if IsSerial(att) then [if att.typ == "integer" then " SERIAL" else " BIGSERIAL"]
    else [" " + d.formatType(att.typ, att.atttypmod)]
         + Optional(att.attnotnull, " NOT NULL")
         + Optional(att.adsrc.Some?, " DEFAULT " + att.adsrc.GetOr(""))
  }

  function ColumnEntry(d: Driver, att: AttributeRow, first: bool): seq<string> {
    (if first then [] else [",\n"]) + ["    " + d.quoteIdentifier(att.attname)] + ColumnType(d, att)
  }

  /** The column definitions, separated by `,\n` writes. */
  function ColumnWrites(d: Driver, atts: seq<AttributeRow>): (w: seq<string>)
    ensures atts == [] <==> w == []
    ensures atts != [] ==> w[0] == "    " + d.quoteIdentifier(atts[0].attname)
    decreases |atts|
  {
    if atts == [] then []
    else ColumnWrites(d, atts[..|atts| - 1]) + ColumnEntry(d, atts[|atts| - 1], |atts| == 1)
  }

  lemma ColumnWritesStep(d: Driver, atts: seq<AttributeRow>, k: nat)
    requires k < |atts|
    ensures ColumnWrites(d, atts[..k + 1]) == ColumnWrites(d, atts[..k]) + ColumnEntry(d, atts[k], k == 0)
  {
    assert atts[..k + 1][..k] == atts[..k];
  }

  function ColumnComment(d: Driver, qualified: string, att: AttributeRow): string {
    if att.comment.Some? then
      "COMMENT ON COLUMN " + qualified + "." + d.quoteIdentifier(att.attname) + " IS '" + d.clean(att.comment.value) + "';\n"
    else ""
  }

  /** The COMMENT ON COLUMN statements gathered while the columns are written. */
  function ColumnComments(d: Driver, qualified: string, atts: seq<AttributeRow>): string
    decreases |atts|
  {
    if atts == [] then ""
    else ColumnComments(d, qualified, atts[..|atts| - 1]) + ColumnComment(d, qualified, atts[|atts| - 1])
  }

  lemma ColumnCommentsStep(d: Driver, qualified: string, atts: seq<AttributeRow>, k: nat)
    requires k < |atts|
    ensures ColumnComments(d, qualified, atts[..k + 1]) == ColumnComments(d, qualified, atts[..k]) + ColumnComment(d, qualified, atts[k])
  {
    assert atts[..k + 1][..k] == atts[..k];
  }

  /** The gathered comments are empty exactly when no column has a comment. */
  lemma {:induction false} ColumnCommentsEmpty(d: Driver, qualified: string, atts: seq<AttributeRow>)
    ensures ColumnComments(d, qualified, atts) == "" <==> forall k :: 0 <= k < |atts| ==> atts[k].comment.None?
    decreases |atts|
  {
    if atts != [] {
      var prefix := atts[..|atts| - 1];
      ColumnCommentsEmpty(d, qualified, prefix);
      assert forall k :: 0 <= k < |atts| - 1 ==> prefix[k] == atts[k];
      var last := ColumnComment(d, qualified, atts[|atts| - 1]);
      assert |last| > 0 <==> atts[|atts| - 1].comment.Some?;
    }
  }

  // ---------------------------------------------------------------- constraints

  /** The text after `CONSTRAINT "name" `: the stored source, or a key built from the
      index columns; `None` for a kind the dumper cannot write. */
  function ConstraintBody(cat: TableCatalog, table: string, con: ConstraintRow): (b: Option<string>)
    ensures b.None? <==> con.consrc.None? && con.contype != "p" && con.contype != "u"
    ensures con.consrc.Some? ==> b == con.consrc
    ensures con.consrc.None? && con.contype == "p" ==>
              b == Some("PRIMARY KEY (" + Join(",", cat.attributeNames(table, Split(con.indkey, ' '))) + ")")
    ensures con.consrc.None? && con.contype == "u" ==>
              b == Some("UNIQUE (" + Join(",", cat.attributeNames(table, Split(con.indkey, ' '))) + ")")
  {
    if con.consrc.Some? then con.consrc
    else if con.contype == "p" then Some("PRIMARY KEY (" + Join(",", cat.attributeNames(table, Split(con.indkey, ' '))) + ")")
    else if con.contype == "u" then Some("UNIQUE (" + Join(",", cat.attributeNames(table, Split(con.indkey, ' '))) + ")")
    else None
  }

  /** NOT NULL constraints are written with their columns and skipped here. */
  predicate Writable(cat: TableCatalog, table: string, con: ConstraintRow) {
    con.contype == "n" || ConstraintBody(cat, table, con).Some?
  }

  function ConstraintEntry(d: Driver, cat: TableCatalog, table: string, con: ConstraintRow): (p: Partial)
    ensures p.complete <==> Writable(cat, table, con)
  {
    if con.contype == "n" then Partial([], true)
    else
      var lead := [",\n", "    CONSTRAINT \"" + d.fieldClean(con.conname) + "\" "];
      match ConstraintBody(cat, table, con)
      case Some(b) => Partial(lead + [b], true)
      case None => Partial(lead, false)
  }

  /** The constraint loop: it stops at the first constraint it cannot write. */
  function Constraints(d: Driver, cat: TableCatalog, table: string, cons: seq<ConstraintRow>): Partial
    decreases |cons|
  {
    if cons == [] then Partial([], true)
    else
      var p := Constraints(d, cat, table, cons[..|cons| - 1]);
      if !p.complete then p
      else
        var e := ConstraintEntry(d, cat, table, cons[|cons| - 1]);
        Partial(p.writes + e.writes, e.complete)
  }

  /** The constraint loop runs to its end exactly when every constraint is writable. */
  lemma {:induction false} ConstraintsComplete(d: Driver, cat: TableCatalog, table: string, cons: seq<ConstraintRow>)
    ensures Constraints(d, cat, table, cons).complete <==> forall k :: 0 <= k < |cons| ==> Writable(cat, table, cons[k])
    decreases |cons|
  {
    if cons != [] {
      var prefix := cons[..|cons| - 1];
      ConstraintsComplete(d, cat, table, prefix);
      assert forall k :: 0 <= k < |cons| - 1 ==> prefix[k] == cons[k];
    }
  }

  /** NOT NULL constraints alone add nothing to the definition. */
  lemma {:induction false} NotNullConstraintsWriteNothing(d: Driver, cat: TableCatalog, table: string, cons: seq<ConstraintRow>)
    requires forall k :: 0 <= k < |cons| ==> cons[k].contype == "n"
    ensures Constraints(d, cat, table, cons) == Partial([], true)
    decreases |cons|
  {
    if cons != [] {
      var prefix := cons[..|cons| - 1];
      assert forall k :: 0 <= k < |cons| - 1 ==> prefix[k] == cons[k];
      NotNullConstraintsWriteNothing(d, cat, table, prefix);
    }
  }

  /** `\n)`, the OIDS clause and `;\n`. */
  function Closing(cat: TableCatalog, table: string): seq<string> {
    ["\n)", if cat.hasObjectID(table) then " WITH OIDS" else " WITHOUT OIDS", ";\n"]
  }

  // ---------------------------------------------------------------- per-column ALTERs

  /** SET STATISTICS is written for a target that is set and not negative. */
  predicate HasStatistics(att: AttributeRow) {
    att.attstattarget.Some? && att.attstattarget.value >= 0
  }

  /** Whether some column of `atts` has a statistics target to write. */
  predicate AnyStatistics(atts: seq<AttributeRow>)
    decreases |atts|
  {
    atts != [] && (AnyStatistics(atts[..|atts| - 1]) || HasStatistics(atts[|atts| - 1]))
  }

  /** The SET STORAGE keyword for a storage code; `None` for an unknown code. */
  function StorageKeyword(code: string): (k: Option<string>)
    ensures k.Some? <==> code in {"p", "e", "m", "x"}
    ensures code == "p" ==> k == Some("PLAIN")
    ensures code == "e" ==> k == Some("EXTERNAL")
    ensures code == "m" ==> k == Some("MAIN")
    ensures code == "x" ==> k == Some("EXTENDED")
  {
    if code == "p" then Some("PLAIN")
    else if code == "e" then Some("EXTERNAL")
    else if code == "m" then Some("MAIN")
    else if code == "x" then Some("EXTENDED")
    else None
  }

  /** A column can be altered unless its storage differs from its type's and the code
      is unknown. */
  predicate Alterable(att: AttributeRow) {
    att.attstorage == att.typstorage || StorageKeyword(att.attstorage).Some?
  }

  /** The ALTERs of one column.  The column name has been passed through fieldClean
      before it is quoted; a blank line precedes the first SET STATISTICS. */
  function AlterEntry(d: Driver, qualified: string, att: AttributeRow, first: bool): (p: Partial)
    ensures p.complete <==> Alterable(att)
    ensures var w := p.writes;
            var alter := "ALTER TABLE ONLY " + qualified + " ALTER COLUMN " + d.quoteIdentifier(d.fieldClean(att.attname));
            var n := if !HasStatistics(att) then 0 else if first then 2 else 1;
            && n <= |w|
            && (HasStatistics(att) ==>
                  && w[n - 1] == alter + " SET STATISTICS " + IntToString(att.attstattarget.value) + ";\n"
                  && (first ==> w[0] == "\n"))
            && (att.attstorage == att.typstorage ==> |w| == n)
            && (att.attstorage != att.typstorage && Alterable(att) ==>
                  w[n..] == [alter + " SET STORAGE " + StorageKeyword(att.attstorage).value + ";\n"])
  {
    var column := d.quoteIdentifier(d.fieldClean(att.attname));
    var stats := StatisticsWrites(qualified, column, att, first);
    if att.attstorage == att.typstorage then Partial(stats, true)
    else
      match StorageKeyword(att.attstorage)
      case None => Partial(stats, false)
      case Some(k) => Partial(stats + ["ALTER TABLE ONLY " + qualified + " ALTER COLUMN " + column + " SET STORAGE " + k + ";\n"], true)
  }

  /** SET STATISTICS for a column that has a target, after a blank line for the first. */
  function StatisticsWrites(qualified: string, column: string, att: AttributeRow, first: bool): seq<string> {
    if HasStatistics(att) then
      (if first then ["\n"] else [])
      + ["ALTER TABLE ONLY " + qualified + " ALTER COLUMN " + column + " SET STATISTICS " + IntToString(att.attstattarget.value) + ";\n"]
    else []
  }

  /** The ALTER loop: it stops at the first column with an unknown storage code. */
  function Alters(d: Driver, qualified: string, atts: seq<AttributeRow>): Partial
    decreases |atts|
  {
    if atts == [] then Partial([], true)
    else
      var prefix := atts[..|atts| - 1];
      var p := Alters(d, qualified, prefix);
      if !p.complete then p
      else
        var e := AlterEntry(d, qualified, atts[|atts| - 1], !AnyStatistics(prefix));
        Partial(p.writes + e.writes, e.complete)
  }

  /** The ALTER loop runs to its end exactly when every column is alterable. */
  lemma {:induction false} AltersComplete(d: Driver, qualified: string, atts: seq<AttributeRow>)
    ensures Alters(d, qualified, atts).complete <==> forall k :: 0 <= k < |atts| ==> Alterable(atts[k])
    decreases |atts|
  {
    if atts != [] {
      var prefix := atts[..|atts| - 1];
      AltersComplete(d, qualified, prefix);
      assert forall k :: 0 <= k < |atts| - 1 ==> prefix[k] == atts[k];
    }
  }

  /** The table comment, under its own heading. */
  function CommentWrites(d: Driver, qualified: string, t: TableRow): (w: seq<string>)
    ensures |w| == 2 * Count(t.relcomment.Some?)
  {
    if t.relcomment.Some? then
      ["\n-- Comment\n\n", "COMMENT ON TABLE " + qualified + " IS '" + d.clean(t.relcomment.value) + "';\n"]
    else []
  }

  // ---------------------------------------------------------------- privileges

  /** array_diff: the entries of `a` that are not in `b`, in order. */
  function ArrayDiff(a: seq<string>, b: seq<string>): (r: seq<string>)
    ensures forall x :: x in r <==> x in a && x !in b
    ensures |r| <= |a|
  {
    if a == [] then []
    else (if a[0] in b then [] else [a[0]]) + ArrayDiff(a[1..], b)
  }

  /** Who a GRANT goes to; `None` for an unknown kind. */
  function Grantee(d: Driver, kind: string, name: string): (g: Option<string>)
    ensures g.Some? <==> kind in {"public", "user", "group"}
  {
    if kind == "public" then Some("PUBLIC")
    else if kind == "user" then Some("\"" + d.fieldClean(name) + "\"")
    else if kind == "group" then Some("GROUP \"" + d.fieldClean(name) + "\"")
    else None
  }

  /** The end of the first GRANT of an entry: the grantee and the semicolon. */
  function GranteeLine(d: Driver, kind: string, name: string): (g: Option<string>)
    ensures g.Some? <==> kind in {"public", "user", "group"}
  {
    if kind == "public" then Some("PUBLIC;\n")
    else if kind == "user" then Some("\"" + d.fieldClean(name) + "\";\n")
    else if kind == "group" then Some("GROUP \"" + d.fieldClean(name) + "\";\n")
    else None
  }

  /** An entry with no privileges, or the owner's own entry, writes nothing. */
  predicate SkippedEntry(t: TableRow, v: PrivilegeEntry) {
    |v.privileges| == 0 || (v.kind == "user" && v.name == t.relowner)
  }

  function SetAuthorization(d: Driver, grantor: string, asGrantor: bool): seq<string> {
    Optional(asGrantor, "SET SESSION AUTHORIZATION '" + d.clean(grantor) + "';\n")
  }

  function ResetAuthorization(asGrantor: bool): seq<string> {
    Optional(asGrantor, "RESET SESSION AUTHORIZATION;\n")
  }

  /** The GRANT of the privileges held without grant option (array_diff of the two
      lists); it stops at an unknown kind. */
  function PlainGrant(d: Driver, t: TableRow, v: PrivilegeEntry, asGrantor: bool): (p: Partial)
    ensures p.complete <==> v.kind in {"public", "user", "group"}
  {
    var grant := SetAuthorization(d, v.grantor, asGrantor)
                 + ["GRANT " + Join(", ", ArrayDiff(v.privileges, v.grantable)) + " ON TABLE \"" + t.relname + "\" TO "];
    match GranteeLine(d, v.kind, v.name)
    case None => Partial(grant, false)
    case Some(g) => Partial(grant + [g] + ResetAuthorization(asGrantor), true)
  }

  /** The GRANT ... WITH GRANT OPTION of the grantable privileges; the name goes
      through fieldClean a second time here. */
  function GrantOption(d: Driver, t: TableRow, v: PrivilegeEntry, asGrantor: bool): (w: seq<string>)
    ensures var lead := Count(asGrantor);
            && |w| == 3 + 2 * lead
            && w[lead] == "GRANT " + Join(", ", v.grantable) + " ON \"" + t.relname + "\" TO "
            && w[lead + 1] == Grantee(d, v.kind, d.fieldClean(v.name)).GetOr("")
            && w[lead + 2] == " WITH GRANT OPTION;\n"
    ensures asGrantor ==> w[0] == "SET SESSION AUTHORIZATION '" + d.clean(v.grantor) + "';\n"
                          && w[4] == "RESET SESSION AUTHORIZATION;\n"
  {
    SetAuthorization(d, v.grantor, asGrantor) + GrantOptionLine(d, t, v) + ResetAuthorization(asGrantor)
  }

  function GrantOptionLine(d: Driver, t: TableRow, v: PrivilegeEntry): seq<string> {
    ["GRANT " + Join(", ", v.grantable) + " ON \"" + t.relname + "\" TO ",
     Grantee(d, v.kind, d.fieldClean(v.name)).GetOr(""),
     " WITH GRANT OPTION;\n"]
  }

  /** The GRANTs of one entry: the privileges without grant option, then (when there
      are any) those with it, each wrapped in SET/RESET SESSION AUTHORIZATION when the
      grantor is not the owner.  An unknown kind stops the loop. */
  function EntryWrites(d: Driver, t: TableRow, v: PrivilegeEntry): (p: Partial)
    ensures SkippedEntry(t, v) ==> p == Partial([], true)
    ensures p.complete <==> SkippedEntry(t, v) || v.kind in {"public", "user", "group"}
    ensures !SkippedEntry(t, v) ==>
              var asGrantor := v.grantor != t.relowner;
              var plain := PlainGrant(d, t, v, asGrantor);
              p.writes == plain.writes + (if plain.complete && |v.grantable| > 0 then GrantOption(d, t, v, asGrantor) else [])
  {
    if SkippedEntry(t, v) then Partial([], true)
    else
      var asGrantor := v.grantor != t.relowner;
      var plain := PlainGrant(d, t, v, asGrantor);
      if !plain.complete || |v.grantable| == 0 then plain
      else Partial(plain.writes + GrantOption(d, t, v, asGrantor), true)
  }

  /** A grantor other than the owner is switched to before the GRANTs and switched
      back from after them; the owner's grants start with GRANT itself. */
  lemma EntryAuthorizationBalanced(d: Driver, t: TableRow, v: PrivilegeEntry)
    requires !SkippedEntry(t, v) && EntryWrites(d, t, v).complete
    ensures var w := EntryWrites(d, t, v).writes;
            && |w| >= 2
            && (v.grantor != t.relowner ==>
                  && w[0] == "SET SESSION AUTHORIZATION '" + d.clean(v.grantor) + "';\n"
                  && w[|w| - 1] == "RESET SESSION AUTHORIZATION;\n")
            && (v.grantor == t.relowner ==>
                  w[0] == "GRANT " + Join(", ", ArrayDiff(v.privileges, v.grantable)) + " ON TABLE \"" + t.relname + "\" TO ")
  {
    var asGrantor := v.grantor != t.relowner;
    var plain := PlainGrant(d, t, v, asGrantor);
    var w := EntryWrites(d, t, v).writes;
    assert |plain.writes| >= 2 && w[0] == plain.writes[0];
    if asGrantor {
      assert plain.writes[|plain.writes| - 1] == "RESET SESSION AUTHORIZATION;\n";
      if |v.grantable| > 0 {
        var option := GrantOption(d, t, v, asGrantor);
        assert w[|w| - 1] == option[|option| - 1];
      }
    }
  }

  predicate EntryHandled(t: TableRow, v: PrivilegeEntry) {
    SkippedEntry(t, v) || v.kind in {"public", "user", "group"}
  }

  /** writePrivilegesFromArray: stops at the first entry of unknown kind. */
  function Privileges(d: Driver, t: TableRow, privs: seq<PrivilegeEntry>): Partial
    decreases |privs|
  {
    if privs == [] then Partial([], true)
    else
      var prefix := privs[..|privs| - 1];
      var p := Privileges(d, t, prefix);
      if !p.complete then p
      else
        var e := EntryWrites(d, t, privs[|privs| - 1]);
        Partial(p.writes + e.writes, e.complete)
  }

  /** The privileges loop runs to its end exactly when every entry is handled. */
  lemma {:induction false} PrivilegesComplete(d: Driver, t: TableRow, privs: seq<PrivilegeEntry>)
    ensures Privileges(d, t, privs).complete <==> forall k :: 0 <= k < |privs| ==> EntryHandled(t, privs[k])
    decreases |privs|
  {
    if privs != [] {
      var prefix := privs[..|privs| - 1];
      PrivilegesComplete(d, t, prefix);
      assert forall k :: 0 <= k < |privs| - 1 ==> prefix[k] == privs[k];
    }
  }

  /** The privileges section (only when there are entries) and the closing newline. */
  function PrivilegeBlock(d: Driver, qualified: string, t: TableRow, privs: seq<PrivilegeEntry>): (w: seq<string>)
    ensures |w| >= 1 && w[|w| - 1] == "\n"
    ensures privs == [] ==> w == ["\n"]
    ensures privs != [] ==>
              && |w| == 3 + |Privileges(d, t, privs).writes|
              && w[0] == "\n-- Privileges\n\n"
              && w[1] == "REVOKE ALL ON TABLE " + qualified + " FROM PUBLIC;\n"
  {
    (if |privs| > 0 then ["\n-- Privileges\n\n", "REVOKE ALL ON TABLE " + qualified + " FROM PUBLIC;\n"] + Privileges(d, t, privs).writes
     else [])
    + ["\n"]
  }

  /** Between the REVOKE and the closing blank line come exactly the entries' GRANTs. */
  lemma PrivilegeBlockGrants(d: Driver, qualified: string, t: TableRow, privs: seq<PrivilegeEntry>)
    requires privs != []
    ensures var w := PrivilegeBlock(d, qualified, t, privs);
            w[2..|w| - 1] == Privileges(d, t, privs).writes
  {
  }

  // ---------------------------------------------------------------- structure

  /** The lookups the structure needs: exactly one table row, and the attribute and
      constraint queries succeeding. */
  predicate LookupsSucceed(cat: TableCatalog, table: string) {
    cat.table(table).Records? && |cat.table(table).rows| == 1
    && cat.attributes(table).Records? && cat.constraints(table).Records?
  }

  function CreateHead(d: Driver, e: Exporter, options: Options, qualified: string, atts: seq<AttributeRow>): (w: seq<string>)
    ensures |w| >= 1 && w[0] == "-- Definition\n\n"
  {
    ["-- Definition\n\n"] + e.dropWrites("TABLE", qualified, options) + ["CREATE TABLE " + qualified + " (\n"]
    + ColumnWrites(d, atts)
  }

  function Trailer(d: Driver, qualified: string, t: TableRow, atts: seq<AttributeRow>): seq<string> {
    var cc := ColumnComments(d, qualified, atts);
    CommentWrites(d, qualified, t) + Optional(cc != "", cc)
  }

  /** The privileges part: nothing more when getPrivileges fails. */
  function PrivilegePart(d: Driver, cat: TableCatalog, table: string, qualified: string, t: TableRow): Partial
  {
    match cat.privileges(table)
    case None => Partial([], false)
    case Some(privs) => Partial(PrivilegeBlock(d, qualified, t, privs), true)
  }

  /** What follows the closing parenthesis: the ALTERs, the comments and the privileges. */
  function Tail(d: Driver, cat: TableCatalog, table: string, qualified: string, t: TableRow, atts: seq<AttributeRow>): Partial
  {
    var a := Alters(d, qualified, atts);
    if !a.complete then a
    else
      var rest := PrivilegePart(d, cat, table, qualified, t);
      Partial(a.writes + Trailer(d, qualified, t, atts) + rest.writes, rest.complete)
  }

  lemma TailUnfold(d: Driver, cat: TableCatalog, table: string, qualified: string, t: TableRow, atts: seq<AttributeRow>)
    requires Alters(d, qualified, atts).complete
    ensures Tail(d, cat, table, qualified, t, atts).writes
            == Alters(d, qualified, atts).writes + Trailer(d, qualified, t, atts) + PrivilegePart(d, cat, table, qualified, t).writes
    ensures Tail(d, cat, table, qualified, t, atts).complete == PrivilegePart(d, cat, table, qualified, t).complete
  {
  }

  /** The tail runs to its end exactly when the ALTERs do and the privileges can be
      read. */
  lemma TailComplete(d: Driver, cat: TableCatalog, table: string, qualified: string, t: TableRow, atts: seq<AttributeRow>)
    ensures Tail(d, cat, table, qualified, t, atts).complete
            <==> Alters(d, qualified, atts).complete && cat.privileges(table).Some?
  {
    PrivilegePartEnds(d, cat, table, qualified, t);
  }

  /** A complete tail ends with the blank line of the privilege block. */
  lemma TailEnds(d: Driver, cat: TableCatalog, table: string, qualified: string, t: TableRow, atts: seq<AttributeRow>)
    ensures Tail(d, cat, table, qualified, t, atts).complete ==> EndsWithBlank(Tail(d, cat, table, qualified, t, atts).writes)
  {
    var a := Alters(d, qualified, atts);
    var rest := PrivilegePart(d, cat, table, qualified, t);
    if a.complete && rest.complete {
      PrivilegePartEnds(d, cat, table, qualified, t);
      TailUnfold(d, cat, table, qualified, t, atts);
      EndsWithBlankLine(a.writes + Trailer(d, qualified, t, atts), rest.writes);
    } else {
      TailComplete(d, cat, table, qualified, t, atts);
      PrivilegePartEnds(d, cat, table, qualified, t);
    }
  }

  lemma PrivilegePartEnds(d: Driver, cat: TableCatalog, table: string, qualified: string, t: TableRow)
    ensures PrivilegePart(d, cat, table, qualified, t).complete <==> cat.privileges(table).Some?
    ensures PrivilegePart(d, cat, table, qualified, t).complete ==> EndsWithBlank(PrivilegePart(d, cat, table, qualified, t).writes)
  {
    if cat.privileges(table).Some? {
      var w := PrivilegeBlock(d, qualified, t, cat.privileges(table).value);
      assert PrivilegePart(d, cat, table, qualified, t).writes == w;
    }
  }

  /** The last write is the blank line. */
  predicate EndsWithBlank(w: seq<string>) {
    |w| >= 1 && w[|w| - 1] == "\n"
  }

  lemma EndsWithBlankLine(a: seq<string>, b: seq<string>)
    requires EndsWithBlank(b)
    ensures EndsWithBlank(a + b)
  {
  }

  /** What dumpTableStructure writes after the columns: the constraints, the closing
      parenthesis and the tail, stopping where the source gives up. */
  function AfterColumns(d: Driver, cat: TableCatalog, table: string, qualified: string,
                        t: TableRow, atts: seq<AttributeRow>, cons: seq<ConstraintRow>): Partial
  {
    var c := Constraints(d, cat, table, cons);
    if !c.complete then c
    else
      var rest := Tail(d, cat, table, qualified, t, atts);
      Partial(c.writes + Closing(cat, table) + rest.writes, rest.complete)
  }

  lemma AfterColumnsUnfold(d: Driver, cat: TableCatalog, table: string, qualified: string,
                            t: TableRow, atts: seq<AttributeRow>, cons: seq<ConstraintRow>)
    requires Constraints(d, cat, table, cons).complete
    ensures AfterColumns(d, cat, table, qualified, t, atts, cons).writes
            == Constraints(d, cat, table, cons).writes + Closing(cat, table) + Tail(d, cat, table, qualified, t, atts).writes
    ensures AfterColumns(d, cat, table, qualified, t, atts, cons).complete == Tail(d, cat, table, qualified, t, atts).complete
  {
  }

  /** After the columns, the dump runs to its end exactly when the constraint loop and
      the tail do; it then ends with a blank line. */
  lemma AfterColumnsEnds(d: Driver, cat: TableCatalog, table: string, qualified: string,
                         t: TableRow, atts: seq<AttributeRow>, cons: seq<ConstraintRow>)
    ensures AfterColumns(d, cat, table, qualified, t, atts, cons).complete
            <==> Constraints(d, cat, table, cons).complete && Tail(d, cat, table, qualified, t, atts).complete
    ensures AfterColumns(d, cat, table, qualified, t, atts, cons).complete ==>
              EndsWithBlank(AfterColumns(d, cat, table, qualified, t, atts, cons).writes)
  {
    TailComplete(d, cat, table, qualified, t, atts);
    TailEnds(d, cat, table, qualified, t, atts);
    var c := Constraints(d, cat, table, cons);
    var tail := Tail(d, cat, table, qualified, t, atts);
    if !c.complete {
      assert AfterColumns(d, cat, table, qualified, t, atts, cons) == c;
    } else {
      assert AfterColumns(d, cat, table, qualified, t, atts, cons) == Partial(c.writes + Closing(cat, table) + tail.writes, tail.complete);
      if tail.complete {
        EndsWithBlankLine(c.writes + Closing(cat, table), tail.writes);
      }
    }
  }

  /** dumpTableStructure once the lookups have succeeded. */
  function StructureFound(d: Driver, e: Exporter, options: Options, cat: TableCatalog, table: string, qualified: string,
                          t: TableRow, atts: seq<AttributeRow>, cons: seq<ConstraintRow>): (p: Partial)
    ensures |p.writes| >= 1 && p.writes[0] == "-- Definition\n\n"
  {
    var rest := AfterColumns(d, cat, table, qualified, t, atts, cons);
    Partial(CreateHead(d, e, options, qualified, atts) + rest.writes, rest.complete)
  }

  /** Once the lookups succeed, the structure is complete exactly when what follows the
      columns is, and then ends as that part does. */
  lemma StructureFoundEnds(d: Driver, e: Exporter, options: Options, cat: TableCatalog, table: string, qualified: string,
                           t: TableRow, atts: seq<AttributeRow>, cons: seq<ConstraintRow>)
    requires AfterColumns(d, cat, table, qualified, t, atts, cons).complete ==>
               EndsWithBlank(AfterColumns(d, cat, table, qualified, t, atts, cons).writes)
    ensures StructureFound(d, e, options, cat, table, qualified, t, atts, cons).complete
            == AfterColumns(d, cat, table, qualified, t, atts, cons).complete
    ensures StructureFound(d, e, options, cat, table, qualified, t, atts, cons).complete ==>
              EndsWithBlank(StructureFound(d, e, options, cat, table, qualified, t, atts, cons).writes)
  {
    var rest := AfterColumns(d, cat, table, qualified, t, atts, cons);
    if rest.complete {
      EndsWithBlankLine(CreateHead(d, e, options, qualified, atts), rest.writes);
    }
  }

  /** dumpTableStructure: nothing when a lookup fails; otherwise it writes up to the
      point where it gives up. */
  function Structure(d: Driver, e: Exporter, options: Options, cat: TableCatalog, table: string, qualified: string): (p: Partial)
    ensures !LookupsSucceed(cat, table) ==> p == Partial([], false)
    ensures LookupsSucceed(cat, table) ==> |p.writes| >= 1 && p.writes[0] == "-- Definition\n\n"
  {
    if !LookupsSucceed(cat, table) then Partial([], false)
    else StructureFound(d, e, options, cat, table, qualified, cat.table(table).rows[0],
                        cat.attributes(table).rows, cat.constraints(table).rows)
  }

  /** The structure is reported written exactly when the lookups succeed, every
      constraint and every column can be written and the privileges can be read; it
      then ends with a blank line. */
  lemma StructureComplete(d: Driver, e: Exporter, options: Options, cat: TableCatalog, table: string, qualified: string)
    ensures var p := Structure(d, e, options, cat, table, qualified);
            && (p.complete <==>
                  && LookupsSucceed(cat, table)
                  && (forall k :: 0 <= k < |cat.constraints(table).rows| ==> Writable(cat, table, cat.constraints(table).rows[k]))
                  && (forall k :: 0 <= k < |cat.attributes(table).rows| ==> Alterable(cat.attributes(table).rows[k]))
                  && cat.privileges(table).Some?)
            && (p.complete ==> p.writes[|p.writes| - 1] == "\n")
  {
    if LookupsSucceed(cat, table) {
      var atts := cat.attributes(table).rows;
      var cons := cat.constraints(table).rows;
      var t := cat.table(table).rows[0];
      ConstraintsComplete(d, cat, table, cons);
      AltersComplete(d, qualified, atts);
      TailComplete(d, cat, table, qualified, t, atts);
      AfterColumnsEnds(d, cat, table, qualified, t, atts, cons);
      StructureFoundEnds(d, e, options, cat, table, qualified, t, atts, cons);
      assert Structure(d, e, options, cat, table, qualified) == StructureFound(d, e, options, cat, table, qualified, t, atts, cons);
    }
  }

  // ---------------------------------------------------------------- autovacuum

  /** A field that becomes a storage parameter: named, not nspname or relname, and
      neither NULL nor empty. */
  predicate IsOption(f: (FieldKey, Option<string>)) {
    f.0.Column? && f.0.name != "nspname" && f.0.name != "relname" && f.1.Some? && f.1.value != ""
  }

  /** The `key=value` storage parameters of one row, in column order. */
  function AutovacuumOptions(row: AutovacuumRow): seq<string>
    decreases |row|
  {
    if row == [] then []
    else
      var f := row[|row| - 1];
      AutovacuumOptions(row[..|row| - 1]) + (if IsOption(f) then [f.0.name + "=" + f.1.value] else [])
  }

  /** Every storage parameter comes from a named, non-empty field other than nspname
      and relname, and there are no more parameters than fields. */
  lemma {:induction false} AutovacuumOptionsAreFields(row: AutovacuumRow)
    ensures |AutovacuumOptions(row)| <= |row|
    ensures forall o :: o in AutovacuumOptions(row) ==> exists f :: f in row && IsOption(f) && o == f.0.name + "=" + f.1.value
    decreases |row|
  {
    if row != [] {
      var prefix := row[..|row| - 1];
      AutovacuumOptionsAreFields(prefix);
      assert forall g :: g in prefix ==> g in row;
      assert row[|row| - 1] in row;
    }
  }

  function AutovacuumEntry(schema: string, table: string, row: AutovacuumRow): seq<string> {
    var opts := AutovacuumOptions(row);
    if opts == [] then []
    else ["ALTER TABLE " + Quoted2(schema, table) + " SET (" + Join(", ", opts) + ");\n", "\n"]
  }

  /** dumpAutovacuumSettings: one ALTER TABLE ... SET (...) and a blank line per row
      that has parameters. */
  function AutovacuumWrites(schema: string, table: string, rows: seq<AutovacuumRow>): seq<string>
    decreases |rows|
  {
    if rows == [] then []
    else AutovacuumWrites(schema, table, rows[..|rows| - 1]) + AutovacuumEntry(schema, table, rows[|rows| - 1])
  }

  lemma AutovacuumWritesStep(schema: string, table: string, rows: seq<AutovacuumRow>, k: nat)
    requires k < |rows|
    ensures AutovacuumWrites(schema, table, rows[..k + 1])
            == AutovacuumWrites(schema, table, rows[..k]) + AutovacuumEntry(schema, table, rows[k])
  {
    assert rows[..k + 1][..k] == rows[..k];
  }

  /** Two writes at most per row, and none at all when no row has a parameter. */
  lemma {:induction false} AutovacuumWritesBound(schema: string, table: string, rows: seq<AutovacuumRow>)
    ensures |AutovacuumWrites(schema, table, rows)| <= 2 * |rows|
    ensures (forall k :: 0 <= k < |rows| ==> AutovacuumOptions(rows[k]) == []) ==> AutovacuumWrites(schema, table, rows) == []
    decreases |rows|
  {
    if rows != [] {
      var prefix := rows[..|rows| - 1];
      AutovacuumWritesBound(schema, table, prefix);
      assert forall k :: 0 <= k < |rows| - 1 ==> prefix[k] == rows[k];
    }
  }

  // ---------------------------------------------------------------- data

  /** The metadata handed to the formatter: the quoted table name, `batch_size`
      defaulting to 1000 and `insert_format` defaulting to copy. */
  function DataMetadata(qualified: string, options: Options): SqlFormat.Metadata {
    SqlFormat.Metadata(Some(qualified), Some(options.insertFormat.GetOr("copy")), Some(options.batchSize.GetOr(1000)))
  }

  function DataHeader(schema: string, table: string): string {
    "\n-- Data for table " + Quoted2(schema, table) + "\n"
  }

  /** dumpData: the heading, then either what a fresh formatter writes for the rows or
      the error line. */
  function DataWrites(d: Driver, schema: string, table: string, qualified: string, options: Options, outcome: DataOutcome): (w: seq<string>)
    ensures |w| >= 1 && w[0] == DataHeader(schema, table)
    ensures outcome.DataFailed? ==> w == [DataHeader(schema, table), "-- Error dumping data: " + outcome.message + "\n"]
  {
    [DataHeader(schema, table)]
    + match outcome
      case DataFailed(msg) => ["-- Error dumping data: " + msg + "\n"]
      case DataRows(fields, rows) => SqlFormat.ExportWrites(SqlFormat.Initial, fields, DataMetadata(qualified, options), rows, d)
  }

  /** With no `insert_format` the data is a COPY block: the COPY line, one line per row,
      and the end-of-data marker. */
  lemma DataDefaultsToCopy(d: Driver, schema: string, table: string, qualified: string, options: Options,
                           fields: seq<SqlFormat.Field>, rows: seq<SqlFormat.Row>)
    requires options.insertFormat.None?
    ensures var w := DataWrites(d, schema, table, qualified, options, DataRows(fields, rows));
            && w[1] == "COPY " + qualified + " (" + SqlFormat.ColumnList(fields, d) + ") FROM stdin;\n"
            && |w| == |rows| + 3
            && w[|w| - 1] == "\\.\n"
  {
    SqlFormat.StreamedCopyOutput(SqlFormat.Initial, fields, DataMetadata(qualified, options), rows, d);
  }

  // ---------------------------------------------------------------- indexes, triggers, rules

  /** With `if_not_exists` on 9.5 or later, CREATE [UNIQUE] INDEX gains IF NOT EXISTS. */
  function IndexDefinition(def: string, ifNotExists: bool, version: int): (r: string)
    ensures !ifNotExists || version < 95 ==> r == def
  {
    if ifNotExists && version >= 95 then
      ReplaceAll(ReplaceAll(def, "CREATE UNIQUE INDEX", "CREATE UNIQUE INDEX IF NOT EXISTS"), "CREATE INDEX", "CREATE INDEX IF NOT EXISTS")
    else def
  }

  /** With `if_not_exists` on 14 or later, CREATE [CONSTRAINT] TRIGGER becomes CREATE OR REPLACE. */
  function TriggerDefinition(def: string, ifNotExists: bool, version: int): (r: string)
    ensures !ifNotExists || version < 140 ==> r == def
  {
    if ifNotExists && version >= 140 then
      ReplaceAll(ReplaceAll(def, "CREATE CONSTRAINT TRIGGER", "CREATE OR REPLACE CONSTRAINT TRIGGER"), "CREATE TRIGGER", "CREATE OR REPLACE TRIGGER")
    else def
  }

  /** CREATE UNIQUE INDEX begins nowhere in "CREATE INDEX ". */
  lemma PlainIndexHead()
    ensures StartsNowhereIn("CREATE UNIQUE INDEX", "CREATE INDEX ")
  {
    var pat, w := "CREATE UNIQUE INDEX", "CREATE INDEX ";
    forall k | 0 <= k < |w|
      ensures !Agree(pat, w[k..])
    {
      Differs(pat, w[k..], if k == 0 then 7 else 0);
    }
  }

  /** CREATE INDEX begins nowhere in "CREATE UNIQUE INDEX IF NOT EXISTS ". */
  lemma UniqueIndexHead()
    ensures StartsNowhereIn("CREATE INDEX", "CREATE UNIQUE INDEX IF NOT EXISTS ")
  {
    var pat, a, b := "CREATE INDEX", "CREATE U", "NIQUE INDEX IF NOT EXISTS ";
    UniqueIndexHeadStart();
    UniqueIndexHeadRest();
    StartsNowhereJoin(pat, a, b);
    UniqueIndexHeadWords();
  }

  lemma UniqueIndexHeadWords()
    ensures "CREATE U" + "NIQUE INDEX IF NOT EXISTS " == "CREATE UNIQUE INDEX IF NOT EXISTS "
  {
  }

  lemma UniqueIndexHeadStart()
    ensures StartsNowhereIn("CREATE INDEX", "CREATE U")
  {
    var pat, a := "CREATE INDEX", "CREATE U";
    forall k | 0 <= k < |a|
      ensures !Agree(pat, a[k..])
    {
      Differs(pat, a[k..], if k == 0 then 7 else 0);
    }
  }

  lemma UniqueIndexHeadRest()
    ensures StartsNowhereIn("CREATE INDEX", "NIQUE INDEX IF NOT EXISTS ")
  {
    var b := "NIQUE INDEX IF NOT EXISTS ";
    assert WithoutLetter(b, 'c');
    WithoutFirstLetter("CREATE INDEX", b);
  }

  /** CREATE CONSTRAINT TRIGGER begins nowhere in "CREATE TRIGGER ". */
  lemma PlainTriggerHead()
    ensures StartsNowhereIn("CREATE CONSTRAINT TRIGGER", "CREATE TRIGGER ")
  {
    var pat, w := "CREATE CONSTRAINT TRIGGER", "CREATE TRIGGER ";
    forall k | 0 <= k < |w|
      ensures !Agree(pat, w[k..])
    {
      Differs(pat, w[k..], if k == 0 then 7 else 0);
    }
  }

  /** CREATE TRIGGER begins nowhere in "CREATE OR REPLACE CONSTRAINT TRIGGER ". */
  lemma ConstraintTriggerHead()
    ensures StartsNowhereIn("CREATE TRIGGER", "CREATE OR REPLACE CONSTRAINT TRIGGER ")
  {
    var pat, a, b := "CREATE TRIGGER", "CREATE OR REPLACE ", "CONSTRAINT TRIGGER ";
    ConstraintTriggerHeadStart();
    ConstraintTriggerHeadRest();
    StartsNowhereJoin(pat, a, b);
    ConstraintTriggerHeadWords();
  }

  lemma ConstraintTriggerHeadWords()
    ensures "CREATE OR REPLACE " + "CONSTRAINT TRIGGER " == "CREATE OR REPLACE CONSTRAINT TRIGGER "
  {
  }

  lemma ConstraintTriggerHeadStart()
    ensures StartsNowhereIn("CREATE TRIGGER", "CREATE OR REPLACE ")
  {
    var pat, a := "CREATE TRIGGER", "CREATE OR REPLACE ";
    forall k | 0 <= k < |a|
      ensures !Agree(pat, a[k..])
    {
      Differs(pat, a[k..], if k == 0 then 7 else if k == 15 then 1 else 0);
    }
  }

  lemma ConstraintTriggerHeadRest()
    ensures StartsNowhereIn("CREATE TRIGGER", "CONSTRAINT TRIGGER ")
  {
    var pat, b := "CREATE TRIGGER", "CONSTRAINT TRIGGER ";
    forall k | 0 <= k < |b|
      ensures !Agree(pat, b[k..])
    {
      Differs(pat, b[k..], if k == 0 then 1 else 0);
    }
  }

  /** A pattern beginning with C cannot begin at a space. */
  lemma SpaceStartsNothing(pat: string)
    requires pat != [] && pat[0] == 'C'
    ensures StartsNowhereIn(pat, " ")
  {
    assert WithoutLetter(" ", 'c');
    WithoutFirstLetter(pat, " ");
  }

  /** A definition that begins with the pattern and a space, and has no other
      occurrence, has just that beginning replaced. */
  lemma RewriteLeading(pat: string, rep: string, rest: string)
    requires |pat| > 0 && pat[0] == 'C' && Absent(rest, pat)
    ensures ReplaceAll(pat + " " + rest, pat, rep) == rep + " " + rest
  {
    assert pat + " " + rest == pat + (" " + rest);
    ReplaceAllAtStart(pat, " " + rest, rep);
    SpaceStartsNothing(pat);
    ReplaceAllCopiedHead(" ", rest, pat, rep);
    ReplaceAllAbsent(rest, pat, rep);
  }

  /** A definition in whose beginning the pattern cannot start, and which has no
      occurrence after it, is left alone. */
  lemma KeepLeading(head: string, rest: string, pat: string, rep: string)
    requires |pat| > 0 && StartsNowhereIn(pat, head) && Absent(rest, pat)
    ensures ReplaceAll(head + rest, pat, rep) == head + rest
  {
    ReplaceAllCopiedHead(head, rest, pat, rep);
    ReplaceAllAbsent(rest, pat, rep);
  }

  /** With `if_not_exists` on 9.5 or later, CREATE INDEX gains IF NOT EXISTS and the
      rest of the definition is kept. */
  lemma PlainIndexGainsIfNotExists(rest: string, version: int)
    requires version >= 95 && Absent(rest, "CREATE UNIQUE INDEX") && Absent(rest, "CREATE INDEX")
    ensures IndexDefinition("CREATE INDEX " + rest, true, version) == "CREATE INDEX IF NOT EXISTS " + rest
  {
    PlainIndexHead();
    KeepLeading("CREATE INDEX ", rest, "CREATE UNIQUE INDEX", "CREATE UNIQUE INDEX IF NOT EXISTS");
    assert "CREATE INDEX " + rest == "CREATE INDEX" + " " + rest;
    RewriteLeading("CREATE INDEX", "CREATE INDEX IF NOT EXISTS", rest);
    assert "CREATE INDEX IF NOT EXISTS" + " " + rest == "CREATE INDEX IF NOT EXISTS " + rest;
  }

  /** With `if_not_exists` on 9.5 or later, CREATE UNIQUE INDEX gains IF NOT EXISTS and
      the rest of the definition is kept. */
  lemma UniqueIndexGainsIfNotExists(rest: string, version: int)
    requires version >= 95 && Absent(rest, "CREATE UNIQUE INDEX") && Absent(rest, "CREATE INDEX")
    ensures IndexDefinition("CREATE UNIQUE INDEX " + rest, true, version) == "CREATE UNIQUE INDEX IF NOT EXISTS " + rest
  {
    assert "CREATE UNIQUE INDEX " + rest == "CREATE UNIQUE INDEX" + " " + rest;
    RewriteLeading("CREATE UNIQUE INDEX", "CREATE UNIQUE INDEX IF NOT EXISTS", rest);
    assert "CREATE UNIQUE INDEX IF NOT EXISTS" + " " + rest == "CREATE UNIQUE INDEX IF NOT EXISTS " + rest;
    UniqueIndexHead();
    KeepLeading("CREATE UNIQUE INDEX IF NOT EXISTS ", rest, "CREATE INDEX", "CREATE INDEX IF NOT EXISTS");
  }

  /** With `if_not_exists` on 14 or later, CREATE TRIGGER becomes CREATE OR REPLACE
      TRIGGER and the rest of the definition is kept. */
  lemma PlainTriggerGainsOrReplace(rest: string, version: int)
    requires version >= 140 && Absent(rest, "CREATE CONSTRAINT TRIGGER") && Absent(rest, "CREATE TRIGGER")
    ensures TriggerDefinition("CREATE TRIGGER " + rest, true, version) == "CREATE OR REPLACE TRIGGER " + rest
  {
    PlainTriggerHead();
    KeepLeading("CREATE TRIGGER ", rest, "CREATE CONSTRAINT TRIGGER", "CREATE OR REPLACE CONSTRAINT TRIGGER");
    assert "CREATE TRIGGER " + rest == "CREATE TRIGGER" + " " + rest;
    RewriteLeading("CREATE TRIGGER", "CREATE OR REPLACE TRIGGER", rest);
    assert "CREATE OR REPLACE TRIGGER" + " " + rest == "CREATE OR REPLACE TRIGGER " + rest;
  }

  /** With `if_not_exists` on 14 or later, CREATE CONSTRAINT TRIGGER becomes CREATE OR
      REPLACE CONSTRAINT TRIGGER and the rest of the definition is kept. */
  lemma ConstraintTriggerGainsOrReplace(rest: string, version: int)
    requires version >= 140 && Absent(rest, "CREATE CONSTRAINT TRIGGER") && Absent(rest, "CREATE TRIGGER")
    ensures TriggerDefinition("CREATE CONSTRAINT TRIGGER " + rest, true, version)
            == "CREATE OR REPLACE CONSTRAINT TRIGGER " + rest
  {
    assert "CREATE CONSTRAINT TRIGGER " + rest == "CREATE CONSTRAINT TRIGGER" + " " + rest;
    RewriteLeading("CREATE CONSTRAINT TRIGGER", "CREATE OR REPLACE CONSTRAINT TRIGGER", rest);
    assert "CREATE OR REPLACE CONSTRAINT TRIGGER" + " " + rest == "CREATE OR REPLACE CONSTRAINT TRIGGER " + rest;
    ConstraintTriggerHead();
    KeepLeading("CREATE OR REPLACE CONSTRAINT TRIGGER ", rest, "CREATE TRIGGER", "CREATE OR REPLACE TRIGGER");
  }

  /** Rules are always written as CREATE OR REPLACE RULE. */
  function RuleDefinition(def: string): string {
    ReplaceAll(def, "CREATE RULE", "CREATE OR REPLACE RULE")
  }

  /** CREATE RULE becomes CREATE OR REPLACE RULE and the rest of the definition is kept. */
  lemma RuleGainsOrReplace(rest: string)
    requires Absent(rest, "CREATE RULE")
    ensures RuleDefinition("CREATE RULE " + rest) == "CREATE OR REPLACE RULE " + rest
  {
    assert "CREATE RULE " + rest == "CREATE RULE" + " " + rest;
    RewriteLeading("CREATE RULE", "CREATE OR REPLACE RULE", rest);
    assert "CREATE OR REPLACE RULE" + " " + rest == "CREATE OR REPLACE RULE " + rest;
  }

  /** Each definition followed by `;`. */
  function Terminated(defs: seq<string>): (w: seq<string>)
    ensures |w| == |defs|
  {
    seq(|defs|, k requires 0 <= k < |defs| => defs[k] + ";\n")
  }

  lemma TerminatedSnoc(defs: seq<string>, k: nat)
    requires k < |defs|
    ensures Terminated(defs[..k + 1]) == Terminated(defs[..k]) + [defs[k] + ";\n"]
  {
    assert defs[..k + 1][..k] == defs[..k];
  }

  /** A heading and one `def;\n` write per definition, or nothing at all when there are
      no definitions (or the query failed). */
  function DefinitionWrites(title: string, defs: seq<string>): (w: seq<string>)
    ensures defs == [] ==> w == []
    ensures defs != [] ==> |w| == |defs| + 1 && w[0] == title
                           && forall k :: 0 <= k < |defs| ==> w[k + 1] == defs[k] + ";\n"
  {
    if defs == [] then [] else [title] + Terminated(defs)
  }

  function IndexDefinitions(rows: seq<string>, ifNotExists: bool, version: int): seq<string> {
    seq(|rows|, k requires 0 <= k < |rows| => IndexDefinition(rows[k], ifNotExists, version))
  }

  function TriggerDefinitions(rows: seq<string>, ifNotExists: bool, version: int): seq<string> {
    seq(|rows|, k requires 0 <= k < |rows| => TriggerDefinition(rows[k], ifNotExists, version))
  }

  function RuleDefinitions(rows: seq<string>): seq<string> {
    seq(|rows|, k requires 0 <= k < |rows| => RuleDefinition(rows[k]))
  }

  function IndexWrites(cat: TableCatalog, table: string, options: Options, version: int): seq<string> {
    DefinitionWrites("\n-- Indexes\n\n", IndexDefinitions(RowsOf(cat.indexes(table)), options.ifNotExists, version))
  }

  function TriggerWrites(cat: TableCatalog, table: string, options: Options, version: int): seq<string> {
    DefinitionWrites("\n-- Triggers\n\n", TriggerDefinitions(RowsOf(cat.triggers(table)), options.ifNotExists, version))
  }

  function RuleWrites(cat: TableCatalog, table: string): seq<string> {
    DefinitionWrites("\n-- Rules\n\n", RuleDefinitions(RowsOf(cat.rules(table))))
  }

  // ---------------------------------------------------------------- dump

  function Qualified(d: Driver, schema: string, table: string): string {
    d.quoteIdentifier(schema) + "." + d.quoteIdentifier(table)
  }

  function TableHeader(schema: string, table: string): string {
    "\n-- Table: " + Quoted2(schema, table) + "\n\n"
  }

  function StructureWrites(d: Driver, e: Exporter, options: Options, cat: TableCatalog, schema: string, table: string): seq<string> {
    Structure(d, e, options, cat, table, Qualified(d, schema, table)).writes
    + AutovacuumWrites(schema, table, RowsOf(cat.autovacuum(schema, table)))
  }

  function ObjectWrites(cat: TableCatalog, table: string, options: Options, version: int): seq<string> {
    IndexWrites(cat, table, options, version) + TriggerWrites(cat, table, options, version) + RuleWrites(cat, table)
  }

  /** The write() calls dump() makes: nothing without a table name; otherwise the
      heading, the structure and autovacuum settings unless `data_only`, the data unless
      `structure_only`, and the indexes, triggers and rules unless `data_only`. */
  function TableWrites(params: Params, options: Options, connSchema: string, d: Driver, version: int,
                       e: Exporter, cat: TableCatalog): (w: seq<string>)
    ensures Missing(Param(params, "table")) ==> w == []
    ensures !Missing(Param(params, "table")) ==>
              |w| >= 1 && w[0] == TableHeader(ParamOr(params, "schema", connSchema), params["table"])
  {
    if Missing(Param(params, "table")) then []
    else
      var table := params["table"];
      var schema := ParamOr(params, "schema", connSchema);
      var qualified := Qualified(d, schema, table);
      Assemble(options, TableHeader(schema, table), StructureWrites(d, e, options, cat, schema, table),
               DataWrites(d, schema, table, qualified, options, cat.data("SELECT * FROM " + qualified)),
               ObjectWrites(cat, table, options, version))
  }

  /** The sections of a table dump in order, each kept or dropped by the options. */
  function Assemble(options: Options, header: string, structure: seq<string>, data: seq<string>, objects: seq<string>): (w: seq<string>)
    ensures |w| >= 1 && w[0] == header
    ensures options.dataOnly && options.structureOnly ==> w == [header]
    ensures options.dataOnly && !options.structureOnly ==> w == [header] + data
    ensures !options.dataOnly && options.structureOnly ==> w == [header] + structure + objects
  {
    [header] + Sections(options, structure, data, objects)
  }

  function Sections(options: Options, structure: seq<string>, data: seq<string>, objects: seq<string>): seq<string> {
    (if !options.dataOnly then structure else [])
    + (if !options.structureOnly then data else [])
    + (if !options.dataOnly then objects else [])
  }

  /** What dump() writes after the heading. */
  function SectionWrites(options: Options, d: Driver, version: int, e: Exporter, cat: TableCatalog,
                         schema: string, table: string): seq<string>
  {
    var qualified := Qualified(d, schema, table);
    Sections(options, StructureWrites(d, e, options, cat, schema, table),
             DataWrites(d, schema, table, qualified, options, cat.data("SELECT * FROM " + qualified)),
             ObjectWrites(cat, table, options, version))
  }

  lemma TableWritesSections(params: Params, options: Options, connSchema: string, d: Driver, version: int,
                            e: Exporter, cat: TableCatalog)
    requires !Missing(Param(params, "table"))
    ensures TableWrites(params, options, connSchema, d, version, e, cat)
            == [TableHeader(ParamOr(params, "schema", connSchema), params["table"])]
               + SectionWrites(options, d, version, e, cat, ParamOr(params, "schema", connSchema), params["table"])
  {
  }

  // ---------------------------------------------------------------- early returns

  /** Once the constraint loop has given up, later constraints change nothing. */
  lemma {:induction false} ConstraintsStayStopped(d: Driver, cat: TableCatalog, table: string, cons: seq<ConstraintRow>, j: nat)
    requires j <= |cons| && !Constraints(d, cat, table, cons[..j]).complete
    ensures Constraints(d, cat, table, cons) == Constraints(d, cat, table, cons[..j])
    decreases |cons| - j
  {
    if j < |cons| {
      assert cons[..j + 1][..j] == cons[..j];
      ConstraintsStayStopped(d, cat, table, cons, j + 1);
    } else {
      assert cons[..j] == cons;
    }
  }

  /** Once the ALTER loop has given up, later columns change nothing. */
  lemma {:induction false} AltersStayStopped(d: Driver, qualified: string, atts: seq<AttributeRow>, j: nat)
    requires j <= |atts| && !Alters(d, qualified, atts[..j]).complete
    ensures Alters(d, qualified, atts) == Alters(d, qualified, atts[..j])
    decreases |atts| - j
  {
    if j < |atts| {
      assert atts[..j + 1][..j] == atts[..j];
      AltersStayStopped(d, qualified, atts, j + 1);
    } else {
      assert atts[..j] == atts;
    }
  }

  /** Once the privileges loop has given up, later entries change nothing. */
  lemma {:induction false} PrivilegesStayStopped(d: Driver, t: TableRow, privs: seq<PrivilegeEntry>, j: nat)
    requires j <= |privs| && !Privileges(d, t, privs[..j]).complete
    ensures Privileges(d, t, privs) == Privileges(d, t, privs[..j])
    decreases |privs| - j
  {
    if j < |privs| {
      assert privs[..j + 1][..j] == privs[..j];
      PrivilegesStayStopped(d, t, privs, j + 1);
    } else {
      assert privs[..j] == privs;
    }
  }

  // ---------------------------------------------------------------- the dumper

  class TableDumper {
    const conn: Connection
    const exporter: Exporter
    const out: Writer
    const catalog: TableCatalog

    constructor (conn: Connection, exporter: Exporter, out: Writer, catalog: TableCatalog)
      ensures this.conn == conn && this.exporter == exporter && this.out == out && this.catalog == catalog
    {
      this.conn := conn;
      this.exporter := exporter;
      this.out := out;
      this.catalog := catalog;
    }

    /** dump: the connection's schema is the same afterwards. */
    method Dump(params: Params, options: Options)
      modifies out, conn
      ensures conn.schema == old(conn.schema)
      ensures out.writes == old(out.writes)
                            + TableWrites(params, options, old(conn.schema), conn.driver, conn.majorVersion, exporter, catalog)
    {
      var table := Param(params, "table");
      var schema := ParamOr(params, "schema", conn.schema);
      if Missing(table) {
        return;
      }
      var name := table.value;
      var qualified := conn.driver.quoteIdentifier(schema) + "." + conn.driver.quoteIdentifier(name);
      ghost var start := out.writes;
      out.Write(TableHeader(schema, name));
      DumpSections(name, schema, qualified, options);
      TableWritesSections(params, options, old(conn.schema), conn.driver, conn.majorVersion, exporter, catalog);
      AppendAssoc(start, [TableHeader(schema, name)],
                  SectionWrites(options, conn.driver, conn.majorVersion, exporter, catalog, schema, name));
    }

    /** The body of dump() after the heading. */
    method DumpSections(table: string, schema: string, qualified: string, options: Options)
      requires qualified == Qualified(conn.driver, schema, table)
      modifies out, conn
      ensures conn.schema == old(conn.schema)
      ensures out.writes == old(out.writes) + SectionWrites(options, conn.driver, conn.majorVersion, exporter, catalog, schema, table)
    {
      ghost var start := out.writes;
      if !options.dataOnly {
        DumpDefinition(table, schema, qualified, options);
      }
      ghost var structure := if !options.dataOnly then StructureWrites(conn.driver, exporter, options, catalog, schema, table) else [];
      assert out.writes == start + structure;
      if !options.structureOnly {
        DumpData(table, schema, qualified, options);
      }
      ghost var data := if !options.structureOnly then DataWrites(conn.driver, schema, table, qualified, options, catalog.data("SELECT * FROM " + qualified)) else [];
      assert out.writes == start + structure + data;
      if !options.dataOnly {
        DumpObjects(table, options);
      }
      ghost var objects := if !options.dataOnly then ObjectWrites(catalog, table, options, conn.majorVersion) else [];
      assert out.writes == start + structure + data + objects;
      AppendAssoc(start, structure, data);
      AppendAssoc(start, structure + data, objects);
    }

    /** The indexes, triggers and rules. */
    method DumpObjects(table: string, options: Options)
      modifies out
      ensures out.writes == old(out.writes) + ObjectWrites(catalog, table, options, conn.majorVersion)
    {
      ghost var start := out.writes;
      WriteIndexes(table, options);
      WriteTriggers(table, options);
      ghost var indexes := IndexWrites(catalog, table, options, conn.majorVersion);
      ghost var triggers := TriggerWrites(catalog, table, options, conn.majorVersion);
      AppendAssoc(start, indexes, triggers);
      WriteRules(table);
      AppendAssoc(start, indexes + triggers, RuleWrites(catalog, table));
    }

    /** The structure followed by the autovacuum settings. */
    method DumpDefinition(table: string, schema: string, qualified: string, options: Options)
      requires qualified == Qualified(conn.driver, schema, table)
      modifies out, conn
      ensures conn.schema == old(conn.schema)
      ensures out.writes == old(out.writes) + StructureWrites(conn.driver, exporter, options, catalog, schema, table)
    {
      ghost var start := out.writes;
      var ok := DumpTableStructure(table, qualified, options);
      DumpAutovacuumSettings(table, schema);
      AppendAssoc(start, Structure(conn.driver, exporter, options, catalog, table, qualified).writes,
                  AutovacuumWrites(schema, table, RowsOf(catalog.autovacuum(schema, table))));
    }

    /** dumpTableStructure: true when the whole definition was written. */
    method DumpTableStructure(table: string, qualified: string, options: Options) returns (ok: bool)
      modifies out
      ensures ok == Structure(conn.driver, exporter, options, catalog, table, qualified).complete
      ensures out.writes == old(out.writes) + Structure(conn.driver, exporter, options, catalog, table, qualified).writes
    {
      var t := catalog.table(table);
      if !t.Records? || |t.rows| != 1 {
        return false;
      }
      var atts := catalog.attributes(table);
      if !atts.Records? {
        return false;
      }
      var cons := catalog.constraints(table);
      if !cons.Records? {
        return false;
      }
      ok := WriteStructure(table, qualified, options, t.rows[0], atts.rows, cons.rows);
    }

    method WriteStructure(table: string, qualified: string, options: Options,
                          t: TableRow, atts: seq<AttributeRow>, cons: seq<ConstraintRow>) returns (ok: bool)
      modifies out
      ensures ok == StructureFound(conn.driver, exporter, options, catalog, table, qualified, t, atts, cons).complete
      ensures out.writes == old(out.writes) + StructureFound(conn.driver, exporter, options, catalog, table, qualified, t, atts, cons).writes
    {
      ghost var start := out.writes;
      ghost var drop := exporter.dropWrites("TABLE", qualified, options);
      out.Write("-- Definition\n\n");
      out.WriteAll(exporter.dropWrites("TABLE", qualified, options));
      out.Write("CREATE TABLE " + qualified + " (\n");
      ghost var opening := ["-- Definition\n\n"] + drop + ["CREATE TABLE " + qualified + " (\n"];
      assert out.writes == start + opening;
      var comments := WriteColumns(qualified, atts);
      AppendAssoc(start, opening, ColumnWrites(conn.driver, atts));
      ok := WriteAfterColumns(table, qualified, t, atts, cons, comments);
      AppendAssoc(start, CreateHead(conn.driver, exporter, options, qualified, atts),
                  AfterColumns(conn.driver, catalog, table, qualified, t, atts, cons).writes);
    }

    /** The column loop; it returns the COMMENT ON COLUMN statements it gathered. */
    method WriteColumns(qualified: string, atts: seq<AttributeRow>) returns (comments: string)
      modifies out
      ensures out.writes == old(out.writes) + ColumnWrites(conn.driver, atts)
      ensures comments == ColumnComments(conn.driver, qualified, atts)
    {
      ghost var start := out.writes;
      comments := "";
      var first := true;
      var k := 0;
      while k < |atts|
        invariant 0 <= k <= |atts|
        invariant first == (k == 0)
        invariant out.writes == start + ColumnWrites(conn.driver, atts[..k])
        invariant comments == ColumnComments(conn.driver, qualified, atts[..k])
      {
        var att := atts[k];
        WriteColumn(att, first);
        first := false;
        AppendAssoc(start, ColumnWrites(conn.driver, atts[..k]), ColumnEntry(conn.driver, att, k == 0));
        ColumnWritesStep(conn.driver, atts, k);
        ColumnCommentsStep(conn.driver, qualified, atts, k);
        if att.comment.Some? {
          var comment := conn.driver.clean(att.comment.value);
          comments := comments + ("COMMENT ON COLUMN " + qualified + "." + conn.driver.quoteIdentifier(att.attname) + " IS '" + comment + "';\n");
        }
        k := k + 1;
      }
      assert atts[..k] == atts;
    }

    /** One column definition, after a `,\n` unless it is the first. */
    method WriteColumn(att: AttributeRow, first: bool)
      modifies out
      ensures out.writes == old(out.writes) + ColumnEntry(conn.driver, att, first)
    {
      ghost var before := out.writes;
      if !first {
        out.Write(",\n");
      }
      var name := conn.driver.quoteIdentifier(att.attname);
      out.Write("    " + name);
      ghost var lead := (if first then [] else [",\n"]) + ["    " + name];
      assert out.writes == before + lead;
      WriteColumnType(att);
      AppendAssoc(before, lead, ColumnType(conn.driver, att));
    }

    /** A column's type, or SERIAL / BIGSERIAL. */
    method WriteColumnType(att: AttributeRow)
      modifies out
      ensures out.writes == old(out.writes) + ColumnType(conn.driver, att)
    {
      if att.attisserial && (att.typ == "integer" || att.typ == "bigint") {
        out.Write(if att.typ == "integer" then " SERIAL" else " BIGSERIAL");
      } else {
        ghost var start := out.writes;
        var typ := conn.driver.formatType(att.typ, att.atttypmod);
        out.Write(" " + typ);
        if att.attnotnull {
          out.Write(" NOT NULL");
        }
        ghost var notNull := Optional(att.attnotnull, " NOT NULL");
        if att.adsrc.Some? {
          out.Write(" DEFAULT " + att.adsrc.value);
        }
        AppendAssoc(start, [" " + typ] + notNull, Optional(att.adsrc.Some?, " DEFAULT " + att.adsrc.GetOr("")));
      }
    }

    /** Everything after the columns; false where the source returns false. */
    method WriteAfterColumns(table: string, qualified: string, t: TableRow, atts: seq<AttributeRow>,
                             cons: seq<ConstraintRow>, comments: string) returns (ok: bool)
      requires comments == ColumnComments(conn.driver, qualified, atts)
      modifies out
      ensures ok == AfterColumns(conn.driver, catalog, table, qualified, t, atts, cons).complete
      ensures out.writes == old(out.writes) + AfterColumns(conn.driver, catalog, table, qualified, t, atts, cons).writes
    {
      ghost var start := out.writes;
      ok := WriteConstraints(table, cons);
      if !ok {
        return;
      }
      ghost var c := Constraints(conn.driver, catalog, table, cons).writes;
      WriteClosing(table);
      AppendAssoc(start, c, Closing(catalog, table));
      ok := WriteTail(table, qualified, t, atts, comments);
      AppendAssoc(start, c + Closing(catalog, table), Tail(conn.driver, catalog, table, qualified, t, atts).writes);
      AfterColumnsUnfold(conn.driver, catalog, table, qualified, t, atts, cons);
    }

    method WriteClosing(table: string)
      modifies out
      ensures out.writes == old(out.writes) + Closing(catalog, table)
    {
      out.Write("\n)");
      if catalog.hasObjectID(table) {
        out.Write(" WITH OIDS");
      } else {
        out.Write(" WITHOUT OIDS");
      }
      out.Write(";\n");
    }

    method WriteTail(table: string, qualified: string, t: TableRow, atts: seq<AttributeRow>, comments: string) returns (ok: bool)
      requires comments == ColumnComments(conn.driver, qualified, atts)
      modifies out
      ensures ok == Tail(conn.driver, catalog, table, qualified, t, atts).complete
      ensures out.writes == old(out.writes) + Tail(conn.driver, catalog, table, qualified, t, atts).writes
    {
      ghost var start := out.writes;
      ok := WriteAlters(qualified, atts);
      if !ok {
        return;
      }
      ghost var a := Alters(conn.driver, qualified, atts).writes;
      ghost var tc := CommentWrites(conn.driver, qualified, t);
      ghost var cc := Optional(comments != "", comments);
      WriteComments(qualified, t, comments);
      AppendAssoc(start + a, tc, cc);
      AppendAssoc(start, a, tc + cc);
      ok := WritePrivilegePart(table, qualified, t);
      ghost var p := PrivilegePart(conn.driver, catalog, table, qualified, t).writes;
      AppendAssoc(start, a + (tc + cc), p);
      TailUnfold(conn.driver, catalog, table, qualified, t, atts);
    }

    /** The privileges, or false when getPrivileges does not return an array. */
    method WritePrivilegePart(table: string, qualified: string, t: TableRow) returns (ok: bool)
      modifies out
      ensures ok == PrivilegePart(conn.driver, catalog, table, qualified, t).complete
      ensures out.writes == old(out.writes) + PrivilegePart(conn.driver, catalog, table, qualified, t).writes
    {
      var privs := catalog.privileges(table);
      if privs.None? {
        return false;
      }
      WritePrivilegeSection(qualified, t, privs.value);
      return true;
    }

    /** The table comment and the gathered column comments. */
    method WriteComments(qualified: string, t: TableRow, comments: string)
      modifies out
      ensures out.writes == old(out.writes) + CommentWrites(conn.driver, qualified, t) + Optional(comments != "", comments)
    {
      if t.relcomment.Some? {
        var comment := conn.driver.clean(t.relcomment.value);
        out.Write("\n-- Comment\n\n");
        out.Write("COMMENT ON TABLE " + qualified + " IS '" + comment + "';\n");
      }
      if comments != "" {
        out.Write(comments);
      }
    }

    /** The constraint loop; false at the first constraint it cannot write. */
    method WriteConstraints(table: string, cons: seq<ConstraintRow>) returns (ok: bool)
      modifies out
      ensures ok == Constraints(conn.driver, catalog, table, cons).complete
      ensures out.writes == old(out.writes) + Constraints(conn.driver, catalog, table, cons).writes
    {
      ghost var start := out.writes;
      var k := 0;
      while k < |cons|
        invariant 0 <= k <= |cons|
        invariant Constraints(conn.driver, catalog, table, cons[..k]).complete
        invariant out.writes == start + Constraints(conn.driver, catalog, table, cons[..k]).writes
      {
        assert cons[..k + 1][..k] == cons[..k];
        var con := cons[k];
        var written := WriteConstraint(table, con);
        AppendAssoc(start, Constraints(conn.driver, catalog, table, cons[..k]).writes,
                    ConstraintEntry(conn.driver, catalog, table, con).writes);
        if !written {
          ConstraintsStayStopped(conn.driver, catalog, table, cons, k + 1);
          return false;
        }
        k := k + 1;
      }
      assert cons[..k] == cons;
      return true;
    }

    /** One pass of the constraint loop: nothing for NOT NULL, otherwise the
        CONSTRAINT clause, stopping at a kind it cannot write. */
    method WriteConstraint(table: string, con: ConstraintRow) returns (ok: bool)
      modifies out
      ensures ok == ConstraintEntry(conn.driver, catalog, table, con).complete
      ensures out.writes == old(out.writes) + ConstraintEntry(conn.driver, catalog, table, con).writes
    {
      if con.contype == "n" {
        return true;
      }
      out.Write(",\n");
      var name := conn.driver.fieldClean(con.conname);
      out.Write("    CONSTRAINT \"" + name + "\" ");
      if con.consrc.Some? {
        out.Write(con.consrc.value);
      } else if con.contype == "p" {
        var keys := catalog.attributeNames(table, Split(con.indkey, ' '));
        out.Write("PRIMARY KEY (" + Join(",", keys) + ")");
      } else if con.contype == "u" {
        var keys := catalog.attributeNames(table, Split(con.indkey, ' '));
        out.Write("UNIQUE (" + Join(",", keys) + ")");
      } else {
        return false;
      }
      return true;
    }

    /** The per-column ALTER loop; false at the first unknown storage code. */
    method WriteAlters(qualified: string, atts: seq<AttributeRow>) returns (ok: bool)
      modifies out
      ensures ok == Alters(conn.driver, qualified, atts).complete
      ensures out.writes == old(out.writes) + Alters(conn.driver, qualified, atts).writes
    {
      ghost var start := out.writes;
      var first := true;
      var k := 0;
      while k < |atts|
        invariant 0 <= k <= |atts|
        invariant first == !AnyStatistics(atts[..k])
        invariant Alters(conn.driver, qualified, atts[..k]).complete
        invariant out.writes == start + Alters(conn.driver, qualified, atts[..k]).writes
      {
        assert atts[..k + 1][..k] == atts[..k];
        var att := atts[k];
        ok := WriteAlter(qualified, att, first);
        AppendAssoc(start, Alters(conn.driver, qualified, atts[..k]).writes,
                    AlterEntry(conn.driver, qualified, att, first).writes);
        if !ok {
          AltersStayStopped(conn.driver, qualified, atts, k + 1);
          return;
        }
        first := first && !HasStatistics(att);
        k := k + 1;
      }
      assert atts[..k] == atts;
      return true;
    }

    /** The ALTERs of one column; false for an unknown storage code. */
    method WriteAlter(qualified: string, att: AttributeRow, first: bool) returns (ok: bool)
      modifies out
      ensures ok == AlterEntry(conn.driver, qualified, att, first).complete
      ensures out.writes == old(out.writes) + AlterEntry(conn.driver, qualified, att, first).writes
    {
      var name := conn.driver.fieldClean(att.attname);
      var column := conn.driver.quoteIdentifier(name);
      ghost var stats := StatisticsWrites(qualified, column, att, first);
      if att.attstattarget.Some? && att.attstattarget.value >= 0 {
        if first {
          out.Write("\n");
        }
        out.Write("ALTER TABLE ONLY " + qualified + " ALTER COLUMN " + column + " SET STATISTICS " + IntToString(att.attstattarget.value) + ";\n");
      }
      assert out.writes == old(out.writes) + stats;
      if att.attstorage != att.typstorage {
        var storage;
        if att.attstorage == "p" {
          storage := "PLAIN";
        } else if att.attstorage == "e" {
          storage := "EXTERNAL";
        } else if att.attstorage == "m" {
          storage := "MAIN";
        } else if att.attstorage == "x" {
          storage := "EXTENDED";
        } else {
          return false;
        }
        out.Write("ALTER TABLE ONLY " + qualified + " ALTER COLUMN " + column + " SET STORAGE " + storage + ";\n");
      }
      return true;
    }

    /** The privileges heading, the REVOKE and the GRANTs when there are entries, then
        the closing blank line. */
    method WritePrivilegeSection(qualified: string, t: TableRow, privs: seq<PrivilegeEntry>)
      modifies out
      ensures out.writes == old(out.writes) + PrivilegeBlock(conn.driver, qualified, t, privs)
    {
      ghost var start := out.writes;
      if |privs| > 0 {
        out.Write("\n-- Privileges\n\n");
        out.Write("REVOKE ALL ON TABLE " + qualified + " FROM PUBLIC;\n");
        ghost var lead := ["\n-- Privileges\n\n", "REVOKE ALL ON TABLE " + qualified + " FROM PUBLIC;\n"];
        assert out.writes == start + lead;
        WritePrivilegesFromArray(privs, t);
        AppendAssoc(start, lead, Privileges(conn.driver, t, privs).writes);
      }
      out.Write("\n");
    }

    /** writePrivilegesFromArray */
    method WritePrivilegesFromArray(privs: seq<PrivilegeEntry>, t: TableRow)
      modifies out
      ensures out.writes == old(out.writes) + Privileges(conn.driver, t, privs).writes
    {
      ghost var start := out.writes;
      var k := 0;
      while k < |privs|
        invariant 0 <= k <= |privs|
        invariant Privileges(conn.driver, t, privs[..k]).complete
        invariant out.writes == start + Privileges(conn.driver, t, privs[..k]).writes
      {
        assert privs[..k + 1][..k] == privs[..k];
        var ok := WritePrivilegeEntry(privs[k], t);
        AppendAssoc(start, Privileges(conn.driver, t, privs[..k]).writes, EntryWrites(conn.driver, t, privs[k]).writes);
        if !ok {
          PrivilegesStayStopped(conn.driver, t, privs, k + 1);
          return;
        }
        k := k + 1;
      }
      assert privs[..k] == privs;
    }

    /** One entry of the privileges array; false for an unknown kind. */
    method WritePrivilegeEntry(v: PrivilegeEntry, t: TableRow) returns (ok: bool)
      modifies out
      ensures ok == EntryWrites(conn.driver, t, v).complete
      ensures out.writes == old(out.writes) + EntryWrites(conn.driver, t, v).writes
    {
      var nongrant := ArrayDiff(v.privileges, v.grantable);
      if |v.privileges| == 0 || (v.kind == "user" && v.name == t.relowner) {
        return true;
      }
      ghost var start := out.writes;
      var asGrantor := v.grantor != t.relowner;
      var name;
      ok, name := WritePlainGrant(v, t, nongrant, asGrantor);
      if !ok || |v.grantable| == 0 {
        return;
      }
      WriteGrantOption(v, t, asGrantor, name);
      AppendAssoc(start, PlainGrant(conn.driver, t, v, asGrantor).writes, GrantOption(conn.driver, t, v, asGrantor));
    }

    /** The first half of an entry; it returns the name as the switch left it. */
    method WritePlainGrant(v: PrivilegeEntry, t: TableRow, nongrant: seq<string>, asGrantor: bool) returns (ok: bool, name: string)
      requires nongrant == ArrayDiff(v.privileges, v.grantable)
      modifies out
      ensures ok == PlainGrant(conn.driver, t, v, asGrantor).complete
      ensures out.writes == old(out.writes) + PlainGrant(conn.driver, t, v, asGrantor).writes
      ensures ok && v.kind != "public" ==> name == conn.driver.fieldClean(v.name)
    {
      ghost var start := out.writes;
      WriteSetAuthorization(v.grantor, asGrantor);
      out.Write("GRANT " + Join(", ", nongrant) + " ON TABLE \"" + t.relname + "\" TO ");
      ghost var grant := SetAuthorization(conn.driver, v.grantor, asGrantor)
                         + ["GRANT " + Join(", ", nongrant) + " ON TABLE \"" + t.relname + "\" TO "];
      assert out.writes == start + grant;
      name := v.name;
      if v.kind == "public" {
        out.Write("PUBLIC;\n");
      } else if v.kind == "user" {
        name := conn.driver.fieldClean(name);
        out.Write("\"" + name + "\";\n");
      } else if v.kind == "group" {
        name := conn.driver.fieldClean(name);
        out.Write("GROUP \"" + name + "\";\n");
      } else {
        return false, name;
      }
      if asGrantor {
        out.Write("RESET SESSION AUTHORIZATION;\n");
      }
      AppendAssoc(start, grant + [GranteeLine(conn.driver, v.kind, v.name).value], ResetAuthorization(asGrantor));
      ok := true;
    }

    method WriteSetAuthorization(grantor: string, asGrantor: bool)
      modifies out
      ensures out.writes == old(out.writes) + SetAuthorization(conn.driver, grantor, asGrantor)
    {
      if asGrantor {
        var cleaned := conn.driver.clean(grantor);
        out.Write("SET SESSION AUTHORIZATION '" + cleaned + "';\n");
      }
    }

    /** The GRANT ... WITH GRANT OPTION half of an entry.  `name` is the entry's name as
        the first half left it: already through fieldClean for a user or a group. */
    method WriteGrantOption(v: PrivilegeEntry, t: TableRow, asGrantor: bool, name: string)
      requires v.kind in {"public", "user", "group"}
      requires v.kind != "public" ==> name == conn.driver.fieldClean(v.name)
      modifies out
      ensures out.writes == old(out.writes) + GrantOption(conn.driver, t, v, asGrantor)
    {
      ghost var start := out.writes;
      WriteSetAuthorization(v.grantor, asGrantor);
      WriteGrantOptionLine(v, t, name);
      AppendAssoc(start, SetAuthorization(conn.driver, v.grantor, asGrantor), GrantOptionLine(conn.driver, t, v));
      if asGrantor {
        out.Write("RESET SESSION AUTHORIZATION;\n");
      }
      AppendAssoc(start, SetAuthorization(conn.driver, v.grantor, asGrantor) + GrantOptionLine(conn.driver, t, v),
                  ResetAuthorization(asGrantor));
    }

    /** The GRANT ... WITH GRANT OPTION itself, between the SET and the RESET. */
    method WriteGrantOptionLine(v: PrivilegeEntry, t: TableRow, name: string)
      requires v.kind in {"public", "user", "group"}
      requires v.kind != "public" ==> name == conn.driver.fieldClean(v.name)
      modifies out
      ensures out.writes == old(out.writes) + GrantOptionLine(conn.driver, t, v)
    {
      out.Write("GRANT " + Join(", ", v.grantable) + " ON \"" + t.relname + "\" TO ");
      // The kind passed the first switch, so one of these three cases applies.
      if v.kind == "public" {
        out.Write("PUBLIC");
      } else if v.kind == "user" {
        var again := conn.driver.fieldClean(name);
        out.Write("\"" + again + "\"");
      } else {
        var again := conn.driver.fieldClean(name);
        out.Write("GROUP \"" + again + "\"");
      }
      out.Write(" WITH GRANT OPTION;\n");
    }

    /** dumpAutovacuumSettings: the query runs with the connection's schema set to the
        table's, and the old schema is put back. */
    method DumpAutovacuumSettings(table: string, schema: string)
      modifies out, conn
      ensures conn.schema == old(conn.schema)
      ensures out.writes == old(out.writes) + AutovacuumWrites(schema, table, RowsOf(catalog.autovacuum(schema, table)))
    {
      var oldSchema := conn.schema;
      conn.schema := schema;
      var autovacs := catalog.autovacuum(conn.schema, table);
      conn.schema := oldSchema;
      WriteAutovacuumRows(schema, table, RowsOf(autovacs));
    }

    /** One row of dumpAutovacuumSettings: an ALTER TABLE when it has parameters. */
    method WriteAutovacuumRow(schema: string, table: string, row: AutovacuumRow)
      modifies out
      ensures out.writes == old(out.writes) + AutovacuumEntry(schema, table, row)
    {
      var opts := CollectOptions(row);
      if opts != [] {
        out.Write("ALTER TABLE " + Quoted2(schema, table) + " SET (" + Join(", ", opts) + ");\n");
        out.Write("\n");
      }
    }

    /** The row loop of dumpAutovacuumSettings. */
    method WriteAutovacuumRows(schema: string, table: string, rows: seq<AutovacuumRow>)
      modifies out
      ensures out.writes == old(out.writes) + AutovacuumWrites(schema, table, rows)
    {
      ghost var start := out.writes;
      var k := 0;
      while k < |rows|
        invariant 0 <= k <= |rows|
        invariant out.writes == start + AutovacuumWrites(schema, table, rows[..k])
      {
        WriteAutovacuumRow(schema, table, rows[k]);
        AppendAssoc(start, AutovacuumWrites(schema, table, rows[..k]), AutovacuumEntry(schema, table, rows[k]));
        AutovacuumWritesStep(schema, table, rows, k);
        k := k + 1;
      }
      assert rows[..k] == rows;
    }

    /** The inner foreach of dumpAutovacuumSettings. */
    static method CollectOptions(row: AutovacuumRow) returns (opts: seq<string>)
      ensures opts == AutovacuumOptions(row)
    {
      opts := [];
      var k := 0;
      while k < |row|
        invariant 0 <= k <= |row|
        invariant opts == AutovacuumOptions(row[..k])
      {
        assert row[..k + 1][..k] == row[..k];
        var (key, value) := row[k];
        if key.Column? && key.name != "nspname" && key.name != "relname" && value.Some? && value.value != "" {
          opts := opts + [key.name + "=" + value.value];
        }
        k := k + 1;
      }
      assert row[..k] == row;
    }

    /** dumpData */
    method DumpData(table: string, schema: string, qualified: string, options: Options)
      modifies out
      ensures out.writes == old(out.writes)
                            + DataWrites(conn.driver, schema, table, qualified, options, catalog.data("SELECT * FROM " + qualified))
    {
      ghost var start := out.writes;
      out.Write(DataHeader(schema, table));
      var outcome := catalog.data("SELECT * FROM " + qualified);
      match outcome
      case DataFailed(message) =>
        out.Write("-- Error dumping data: " + message + "\n");
      case DataRows(fields, rows) =>
        var meta := DataMetadata(qualified, options);
        ProcessRows(fields, rows, meta);
        AppendAssoc(start, [DataHeader(schema, table)], SqlFormat.ExportWrites(SqlFormat.Initial, fields, meta, rows, conn.driver));
    }

    /** The reader handing the rows to a fresh formatter: the header, each row, the footer. */
    method ProcessRows(fields: seq<SqlFormat.Field>, rows: seq<SqlFormat.Row>, meta: SqlFormat.Metadata)
      modifies out
      ensures out.writes == old(out.writes) + SqlFormat.ExportWrites(SqlFormat.Initial, fields, meta, rows, conn.driver)
    {
      ghost var start := out.writes;
      var formatter := new SqlFormat.SqlFormatter(conn.driver, out);
      formatter.WriteHeader(fields, meta);
      ghost var h := SqlFormat.HeaderStep(SqlFormat.Initial, fields, meta, conn.driver);
      StreamRows(formatter, rows);
      ghost var r := SqlFormat.RowsStep(h.next, rows, conn.driver);
      AppendAssoc(start, h.writes, r.writes);
      formatter.WriteFooter();
      AppendAssoc(start, h.writes + r.writes, SqlFormat.FooterWrites(r.next));
    }

    /** The row loop: each row goes through the formatter in turn. */
    method StreamRows(formatter: SqlFormat.SqlFormatter, rows: seq<SqlFormat.Row>)
      requires formatter.out == out && formatter.driver == conn.driver
      modifies formatter, out
      ensures formatter.Current() == SqlFormat.RowsStep(old(formatter.Current()), rows, conn.driver).next
      ensures out.writes == old(out.writes) + SqlFormat.RowsStep(old(formatter.Current()), rows, conn.driver).writes
    {
      ghost var start := out.writes;
      ghost var first := formatter.Current();
      var k := 0;
      while k < |rows|
        invariant 0 <= k <= |rows|
        invariant formatter.Current() == SqlFormat.RowsStep(first, rows[..k], conn.driver).next
        invariant out.writes == start + SqlFormat.RowsStep(first, rows[..k], conn.driver).writes
      {
        SqlFormat.RowsStepSnoc(first, rows[..k], rows[k], conn.driver);
        assert rows[..k + 1] == rows[..k] + [rows[k]];
        ghost var p := SqlFormat.RowsStep(first, rows[..k], conn.driver);
        formatter.WriteRow(rows[k]);
        AppendAssoc(start, p.writes, SqlFormat.RowStep(p.next, rows[k], conn.driver).writes);
        k := k + 1;
      }
      assert rows[..k] == rows;
    }

    /** writeIndexes */
    method WriteIndexes(table: string, options: Options)
      modifies out
      ensures out.writes == old(out.writes) + IndexWrites(catalog, table, options, conn.majorVersion)
    {
      var rows := RowsOf(catalog.indexes(table));
      if rows == [] {
        return;
      }
      out.Write("\n-- Indexes\n\n");
      WriteIndexList(rows, options);
    }

    /** The loop of writeIndexes. */
    method WriteIndexList(rows: seq<string>, options: Options)
      modifies out
      ensures out.writes == old(out.writes) + Terminated(IndexDefinitions(rows, options.ifNotExists, conn.majorVersion))
    {
      ghost var defs := IndexDefinitions(rows, options.ifNotExists, conn.majorVersion);
      ghost var start := out.writes;
      var k := 0;
      while k < |rows|
        invariant 0 <= k <= |rows|
        invariant out.writes == start + Terminated(defs[..k])
      {
        var def := rows[k];
        if options.ifNotExists {
          if conn.majorVersion >= 95 {
            def := ReplaceAll(def, "CREATE UNIQUE INDEX", "CREATE UNIQUE INDEX IF NOT EXISTS");
            def := ReplaceAll(def, "CREATE INDEX", "CREATE INDEX IF NOT EXISTS");
          }
        }
        out.Write(def + ";\n");
        TerminatedSnoc(defs, k);
        k := k + 1;
      }
      assert defs[..k] == defs;
    }

    /** writeTriggers */
    method WriteTriggers(table: string, options: Options)
      modifies out
      ensures out.writes == old(out.writes) + TriggerWrites(catalog, table, options, conn.majorVersion)
    {
      var rows := RowsOf(catalog.triggers(table));
      if rows == [] {
        return;
      }
      out.Write("\n-- Triggers\n\n");
      WriteTriggerList(rows, options);
    }

    /** The loop of writeTriggers. */
    method WriteTriggerList(rows: seq<string>, options: Options)
      modifies out
      ensures out.writes == old(out.writes) + Terminated(TriggerDefinitions(rows, options.ifNotExists, conn.majorVersion))
    {
      ghost var defs := TriggerDefinitions(rows, options.ifNotExists, conn.majorVersion);
      ghost var start := out.writes;
      var k := 0;
      while k < |rows|
        invariant 0 <= k <= |rows|
        invariant out.writes == start + Terminated(defs[..k])
      {
        var def := rows[k];
        if options.ifNotExists {
          if conn.majorVersion >= 140 {
            def := ReplaceAll(def, "CREATE CONSTRAINT TRIGGER", "CREATE OR REPLACE CONSTRAINT TRIGGER");
            def := ReplaceAll(def, "CREATE TRIGGER", "CREATE OR REPLACE TRIGGER");
          }
        }
        out.Write(def + ";\n");
        TerminatedSnoc(defs, k);
        k := k + 1;
      }
      assert defs[..k] == defs;
    }

    /** writeRules */
    method WriteRules(table: string)
      modifies out
      ensures out.writes == old(out.writes) + RuleWrites(catalog, table)
    {
      var rows := RowsOf(catalog.rules(table));
      if rows == [] {
        return;
      }
      out.Write("\n-- Rules\n\n");
      WriteRuleList(rows);
    }

    /** The loop of writeRules. */
    method WriteRuleList(rows: seq<string>)
      modifies out
      ensures out.writes == old(out.writes) + Terminated(RuleDefinitions(rows))
    {
      ghost var defs := RuleDefinitions(rows);
      ghost var start := out.writes;
      var k := 0;
      while k < |rows|
        invariant 0 <= k <= |rows|
        invariant out.writes == start + Terminated(defs[..k])
      {
        var def := ReplaceAll(rows[k], "CREATE RULE", "CREATE OR REPLACE RULE");
        out.Write(def + ";\n");
        TerminatedSnoc(defs, k);
        k := k + 1;
      }
      assert defs[..k] == defs;
    }
  }
}

=== FILE: trigger_dumper.dfy ===
/** TriggerDumper: the CREATE TRIGGER text of one trigger, as pg_get_triggerdef
    renders it, after a header and an optional DROP. */
module TriggerDump {
  import opened Php
  import opened Output
  import opened PgDriver
  import opened DumpCommon

  /** What the pg_get_triggerdef query returns, looked up by the cleaned trigger,
      table and schema names it interpolates. */
  type TriggerDefs = (string, string, string) -> Fetch<string>

  /** `"name" ON "schema"."table"`, each name cleaned and then passed through addslashes. */
  function Target(d: Driver, name: string, table: string, schema: string): string {
    "\"" + AddSlashes(d.clean(name)) + "\" ON " + Quoted2(AddSlashes(d.clean(schema)), AddSlashes(d.clean(table)))
  }

  function Header(d: Driver, name: string, table: string, schema: string): string {
    "\n-- Trigger: " + Target(d, name, table, schema) + "\n"
  }

  function Drop(d: Driver, name: string, table: string, schema: string): string {
    "DROP TRIGGER IF EXISTS " + Target(d, name, table, schema) + " CASCADE;\n"
  }

  /** The definition lookup dump() makes for a request naming a trigger and a table. */
  function Lookup(params: Params, connSchema: string, d: Driver, defs: TriggerDefs): Fetch<string>
    requires "trigger" in params && "table" in params
  {
    defs(d.clean(params["trigger"]), d.clean(params["table"]), d.clean(ParamOr(params, "schema", connSchema)))
  }

  /** The write() calls dump() makes.  Nothing without a trigger and a table name;
      otherwise the header always, the DROP only under `clean`, and the definition
      followed by `;` only when the lookup found a row. */
  function TriggerWrites(params: Params, options: Options, connSchema: string, d: Driver, defs: TriggerDefs): (w: seq<string>)
    ensures Missing(Param(params, "trigger")) || Missing(Param(params, "table")) ==> w == []
    ensures !Missing(Param(params, "trigger")) && !Missing(Param(params, "table")) ==>
              var name, table := params["trigger"], params["table"];
              var schema := ParamOr(params, "schema", connSchema);
              var found := Lookup(params, connSchema, d, defs);
              && |w| == 1 + Count(options.clean) + Count(found.Found?)
              && w[0] == Header(d, name, table, schema)
              && (options.clean ==> w[1] == Drop(d, name, table, schema))
              && (found.Found? ==> w[|w| - 1] == found.row + ";\n")
  {
    if Missing(Param(params, "trigger")) || Missing(Param(params, "table")) then []
    else
      var name, table := params["trigger"], params["table"];
      var schema := ParamOr(params, "schema", connSchema);
      [Header(d, name, table, schema)]
      + (if options.clean then [Drop(d, name, table, schema)] else [])
      + (match Lookup(params, connSchema, d, defs)
         case Found(def) => [def + ";\n"]
         case _ => [])
  }

  class TriggerDumper {
    const conn: Connection
    const out: Writer
    const defs: TriggerDefs

    constructor (conn: Connection, out: Writer, defs: TriggerDefs)
      ensures this.conn == conn && this.out == out && this.defs == defs
    {
      this.conn := conn;
      this.out := out;
      this.defs := defs;
    }

    /** dump */
    method Dump(params: Params, options: Options)
      modifies out
      ensures out.writes == old(out.writes) + TriggerWrites(params, options, conn.schema, conn.driver, defs)
    {
      var name := Param(params, "trigger");
      var table := Param(params, "table");
      var schema := ParamOr(params, "schema", conn.schema);
      if Missing(name) || Missing(table) {
        return;
      }
      out.Write(Header(conn.driver, name.value, table.value, schema));
      if options.clean {
        out.Write(Drop(conn.driver, name.value, table.value, schema));
      }
      var cName, cTable, cSchema := conn.driver.clean(name.value), conn.driver.clean(table.value), conn.driver.clean(schema);
      var defRs := defs(cName, cTable, cSchema);
      if defRs.QueryFailed? {
        return;
      }
      if defRs.Found? {
        out.Write(defRs.row + ";\n");
      }
    }
  }
}

=== FILE: truncate_target.dfy ===
/** The table a data statement loads, as the executor reads it before truncating:
    the name captured after `INSERT INTO` or `COPY`, split on dots into schema and
    table, and quoted again for the TRUNCATE statement. */
module TruncateTarget {
  import opened Php
  import opened SqlMatch

  /** `^\s*INSERT\s+INTO\s+` */
  const InsertPrefix: seq<Tok> := [Spaces, Lit("INSERT"), Spaces1, Lit("INTO"), Spaces1]
  /** `^\s*COPY\s+` */
  const CopyPrefix: seq<Tok> := [Spaces, Lit("COPY"), Spaces1]

  /** A character of the class `[^\s(]`. */
  predicate IsNameChar(c: char) {
    !IsPcreSpace(c) && c != '('
  }

  /** Where a run of `[^\s(]` starting at i ends (taken greedily). */
  function NameEnd(s: string, i: nat): (j: nat)
    requires i <= |s|
    ensures i <= j <= |s|
    ensures forall k :: i <= k < j ==> IsNameChar(s[k])
    ensures j < |s| ==> !IsNameChar(s[j])
    decreases |s| - i
  {
    if i < |s| && IsNameChar(s[i]) then NameEnd(s, i + 1) else i
  }

  /** The group `([^\s(]+)` after an anchored prefix, when the whole pattern matches. */
  function CaptureAfter(s: string, prefix: seq<Tok>): (r: Option<string>)
    ensures r.Some? ==> r.value != [] && forall k :: 0 <= k < |r.value| ==> IsNameChar(r.value[k])
  {
    match Run(s, 0, prefix)
    case None => None
    case Some(i) =>
      var j := NameEnd(s, i);
      if j > i then Some(s[i..j]) else None
  }

  /** The raw table name of a data statement (`$m[1]`), or None when neither pattern
      matches. */
  function RawTable(stmt: string): (r: Option<string>)
    ensures r.Some? ==> r.value != [] && forall k :: 0 <= k < |r.value| ==> IsNameChar(r.value[k])
  {
    var m := CaptureAfter(stmt, InsertPrefix);
    if m.Some? then m else CaptureAfter(stmt, CopyPrefix)
  }

  /** `preg_replace('/^"(.*)"$/', '$1', $p)`: one pair of surrounding double quotes is
      dropped.  Exact for text without a newline, which is all this function is given
      (a raw table name has no white space). */
  function StripQuotes(p: string): (r: string)
    ensures r == p || (|p| >= 2 && p[0] == '"' && p[|p| - 1] == '"' && r == p[1..|p| - 1])
  {
    if |p| >= 2 && p[0] == '"' && p[|p| - 1] == '"' then p[1..|p| - 1] else p
  }

  /** Each dot-separated part, trimmed and with its quotes dropped. */
  function CleanParts(parts: seq<string>): (r: seq<string>)
    ensures |r| == |parts|
    ensures forall k :: 0 <= k < |parts| ==> r[k] == StripQuotes(Trim(parts[k]))
  {
    if parts == [] then [] else [StripQuotes(Trim(parts[0]))] + CleanParts(parts[1..])
  }

  /** The resolved target: a schema (None for PHP's null) and a table. */
  datatype Target = Target(schema: Option<string>, table: string)

  /** One part is a bare table name, whose schema is the import's schema when the
      import is scoped to one; otherwise the last two parts are schema and table. */
  function FromParts(parts: seq<string>, scope: string, scopeIdent: string): (t: Target)
    requires |parts| >= 1
    ensures t.table == parts[|parts| - 1]
    ensures |parts| == 1 ==> t.schema == (if scope == "schema" then Some(scopeIdent) else None)
    ensures |parts| >= 2 ==> t.schema == Some(parts[|parts| - 2])
  {
    if |parts| == 1 then Target(if scope == "schema" then Some(scopeIdent) else None, parts[0])
    else Target(Some(parts[|parts| - 2]), parts[|parts| - 1])
  }

  /** The name resolution the executor performs: the whole name loses a pair of
      surrounding quotes before it is split, and then each part loses its own. */
  function ResolveAsWritten(raw: string, scope: string, scopeIdent: string): Target {
    FromParts(CleanParts(Split(StripQuotes(Trim(raw)), '.')), scope, scopeIdent)
  }

  /** The evidently intended resolution: split first, then strip each part. */
  function Resolve(raw: string, scope: string, scopeIdent: string): Target {
    FromParts(CleanParts(Split(Trim(raw), '.')), scope, scopeIdent)
  }

  /** The table a data statement loads, resolved against the import's scope as the
      executor resolves it. */
  function TargetOf(stmt: string, scope: string, scopeIdent: string): Option<Target> {
    match RawTable(stmt)
    case None => None
    case Some(raw) => Some(ResolveAsWritten(raw, scope, scopeIdent))
  }

  /** Whether the schema is used at all (`$schema ? ... : ...`). */
  predicate HasSchema(t: Target) {
    t.schema.Some? && Truthy(t.schema.value)
  }

  /** `$fullName`: the name recorded in `truncated_tables`. */
  function FullName(t: Target): (n: string)
    ensures HasSchema(t) ==> n == t.schema.value + "." + t.table
    ensures !HasSchema(t) ==> n == t.table
  {
    if HasSchema(t) then t.schema.value + "." + t.table else t.table
  }

  /** The `$quoteIdent` closure: double quotes around the name, inner quotes doubled. */
  function QuoteIdent(n: string): (q: string)
    ensures |q| >= 2 && q[0] == '"' && q[|q| - 1] == '"'
  {
    "\"" + ReplaceAll(n, "\"", "\"\"") + "\""
  }

  /** The identifier the TRUNCATE names. */
  function Ident(t: Target): string {
    if HasSchema(t) then QuoteIdent(t.schema.value) + "." + QuoteIdent(t.table) else QuoteIdent(t.table)
  }

  function TruncateSql(t: Target): string {
    "TRUNCATE TABLE " + Ident(t)
  }

  // ---------------------------------------------------------------- quoting

  /** How the server reads the inside of a quoted identifier: a doubled quote stands
      for one quote character. */
  function Unquote(s: string): string
    decreases |s|
  {
    if |s| >= 2 && s[0] == '"' && s[1] == '"' then "\"" + Unquote(s[2..])
    else if s == [] then []
    else [s[0]] + Unquote(s[1..])
  }

  /** The server reads back exactly the name that was quoted. */
  lemma {:induction false} UnquoteQuoted(n: string)
    ensures Unquote(ReplaceAll(n, "\"", "\"\"")) == n
  {
    if n != [] {
      UnquoteQuoted(n[1..]);
      var d := ReplaceAll(n[1..], "\"", "\"\"");
      if n[0] == '"' {
        assert n[..1] == "\"";
        assert ReplaceAll(n, "\"", "\"\"") == "\"\"" + d;
        assert ("\"\"" + d)[2..] == d;
        assert n == "\"" + n[1..];
      } else {
        assert n[..1] != "\"";
        assert ReplaceAll(n, "\"", "\"\"") == [n[0]] + d;
        assert ([n[0]] + d)[1..] == d;
        assert n == [n[0]] + n[1..];
      }
    }
  }

  /** The inside of a quoted name, read back by the server, is the name. */
  lemma QuoteIdentReadBack(n: string)
    ensures var q := QuoteIdent(n); Unquote(q[1..|q| - 1]) == n
  {
    var q := QuoteIdent(n);
    assert q[1..|q| - 1] == ReplaceAll(n, "\"", "\"\"");
    UnquoteQuoted(n);
  }

  // ---------------------------------------------------------------- capture

  /** `[^\s(]*` over a run of name characters that ends at j. */
  lemma {:induction false} NameEndAt(s: string, i: nat, j: nat)
    requires i <= j <= |s|
    requires forall k :: i <= k < j ==> IsNameChar(s[k])
    requires j == |s| || !IsNameChar(s[j])
    ensures NameEnd(s, i) == j
    decreases j - i
  {
    if i < j {
      NameEndAt(s, i + 1, j);
    }
  }

  /** A name of name characters, read from position i of p + n + rest. */
  lemma NameAfter(p: string, n: string, rest: string, i: nat)
    requires i == |p| && n != []
    requires forall k :: 0 <= k < |n| ==> IsNameChar(n[k])
    requires rest == [] || !IsNameChar(rest[0])
    ensures var s := p + n + rest; i + |n| <= |s| && NameEnd(s, i) == i + |n| && s[i..i + |n|] == n
  {
    var s := p + n + rest;
    assert s == p + (n + rest);
    forall k | i <= k < i + |n|
      ensures IsNameChar(s[k])
    {
      assert s[k] == n[k - i];
    }
    if rest != [] {
      assert s[i + |n|] == rest[0];
    }
    NameEndAt(s, i, i + |n|);
  }

  /** Spelled-out keywords at the start of a statement. */
  lemma LeadingLits(p: string, n: string, rest: string, a: string, b: string)
    requires p == a + b
    ensures LitAt(p + n + rest, 0, a) && LitAt(p + n + rest, |a|, b)
  {
    LitAtMiddle([], p, n + rest);
    assert [] + p + (n + rest) == p + n + rest;
    LitAtSplit(p + n + rest, 0, a, b);
  }

  /** `\s*INSERT\s+INTO\s+` over "INSERT INTO " followed by a non-space character. */
  lemma InsertRun(s: string)
    requires LitAt(s, 0, "INSERT ") && LitAt(s, 7, "INTO ") && 12 < |s| && !IsPcreSpace(s[12])
    ensures Run(s, 0, InsertPrefix) == Some(12)
  {
    assert "INSERT" + " " == "INSERT " && "INTO" + " " == "INTO ";
    assert "INTO"[0] == 'I';
    TwoWordsRun(s, 0, 7, 12, "INSERT", "INTO");
    assert SameLetter(s[0 + 0], "INSERT "[0]);
    NoSpace(s, 0);
    RunStep(s, 0, Spaces, [Lit("INSERT"), Spaces1, Lit("INTO"), Spaces1], 0);
    assert [Spaces] + [Lit("INSERT"), Spaces1, Lit("INTO"), Spaces1] == InsertPrefix;
  }

  /** `\s*COPY\s+` over "COPY " followed by a non-space character. */
  lemma CopyRun(s: string)
    requires LitAt(s, 0, "COPY ") && 5 < |s| && !IsPcreSpace(s[5])
    ensures Run(s, 0, CopyPrefix) == Some(5)
    ensures Run(s, 0, InsertPrefix).None?
  {
    assert SameLetter(s[0 + 0], "COPY "[0]);
    NotInsert(s);
    assert "COPY" + " " == "COPY ";
    LitSpaceStep(s, 0, 5, "COPY", []);
    assert [Lit("COPY"), Spaces1] + [] == [Lit("COPY"), Spaces1];
    assert SameLetter(s[0 + 0], "COPY "[0]);
    NoSpace(s, 0);
    RunStep(s, 0, Spaces, [Lit("COPY"), Spaces1], 0);
    assert [Spaces] + [Lit("COPY"), Spaces1] == CopyPrefix;
  }

  /** A statement that starts with C is not an INSERT. */
  lemma NotInsert(s: string)
    requires 0 < |s| && SameLetter(s[0], 'C')
    ensures Run(s, 0, InsertPrefix).None?
  {
    NoSpace(s, 0);
    RunStep(s, 0, Spaces, [Lit("INSERT"), Spaces1, Lit("INTO"), Spaces1], 0);
    assert [Spaces] + [Lit("INSERT"), Spaces1, Lit("INTO"), Spaces1] == InsertPrefix;
    LitAtFirst(s, 0, "INSERT");
  }

  /** The group after a matching prefix is the run of name characters found there. */
  lemma CaptureAt(s: string, prefix: seq<Tok>, i: nat, n: string)
    requires Run(s, 0, prefix) == Some(i) && n != []
    requires i + |n| <= |s| && NameEnd(s, i) == i + |n| && s[i..i + |n|] == n
    ensures CaptureAfter(s, prefix) == Some(n)
  {
  }

  /** `INSERT INTO <name>` names its table. */
  lemma InsertTarget(n: string, rest: string)
    requires n != [] && forall k :: 0 <= k < |n| ==> IsNameChar(n[k])
    requires rest == [] || !IsNameChar(rest[0])
    ensures RawTable("INSERT INTO " + n + rest) == Some(n)
  {
    var s := "INSERT INTO " + n + rest;
    LeadingLits("INSERT INTO ", n, rest, "INSERT ", "INTO ");
    NameAfter("INSERT INTO ", n, rest, 12);
    assert s[12] == s[12..12 + |n|][0];
    InsertRun(s);
    CaptureAt(s, InsertPrefix, 12, n);
  }

  /** `COPY <name>` names its table. */
  lemma CopyTarget(n: string, rest: string)
    requires n != [] && forall k :: 0 <= k < |n| ==> IsNameChar(n[k])
    requires rest == [] || !IsNameChar(rest[0])
    ensures RawTable("COPY " + n + rest) == Some(n)
  {
    var s := "COPY " + n + rest;
    LeadingLits("COPY ", n, rest, "COPY ", "");
    NameAfter("COPY ", n, rest, 5);
    assert s[5] == s[5..5 + |n|][0];
    CopyRun(s);
    CaptureAt(s, CopyPrefix, 5, n);
  }

  // ---------------------------------------------------------------- resolution

  /** A name part with no dot and no quote that trim leaves alone. */
  predicate PlainPart(n: string) {
    n != [] && '.' !in n && '"' !in n && n[0] !in DefaultTrimSet && n[|n| - 1] !in DefaultTrimSet
  }

  lemma PlainTrim(n: string)
    requires n == [] || (n[0] !in DefaultTrimSet && n[|n| - 1] !in DefaultTrimSet)
    ensures Trim(n) == n
  {
  }

  lemma PlainClean(n: string)
    requires PlainPart(n)
    ensures StripQuotes(Trim(n)) == n
  {
    PlainTrim(n);
    assert n[0] in n;
  }

  /** The ends of a three-piece concatenation. */
  lemma Ends(a: string, m: string, b: string)
    requires a != [] && b != []
    ensures var s := a + m + b; |s| == |a| + |m| + |b| && s[0] == a[0] && s[|s| - 1] == b[|b| - 1]
  {
    var s := a + m + b;
    assert s == a + (m + b);
    assert s[|s| - 1] == (m + b)[|m + b| - 1];
  }

  /** A piece between two quote characters. */
  lemma Surround(n: string)
    ensures var q := "\"" + n + "\"";
            |q| == |n| + 2 && q[0] == '"' && q[|q| - 1] == '"' && q[1..|q| - 1] == n
  {
    var q := "\"" + n + "\"";
    assert q == ['"'] + (n + ['"']);
  }

  /** Text between two quote characters loses them. */
  lemma StripSurrounded(q: string, n: string)
    requires |q| == |n| + 2 && q[0] == '"' && q[|q| - 1] == '"' && q[1..|q| - 1] == n
    ensures StripQuotes(Trim(q)) == n
  {
    StripOnly(q, n);
    PlainTrim(q);
  }

  lemma StripOnly(q: string, n: string)
    requires |q| == |n| + 2 && q[0] == '"' && q[|q| - 1] == '"' && q[1..|q| - 1] == n
    ensures StripQuotes(q) == n
  {
  }

  /** `"n"` loses its quotes in one step. */
  lemma QuotedClean(n: string)
    ensures StripQuotes(Trim("\"" + n + "\"")) == n
  {
    Surround(n);
    StripSurrounded("\"" + n + "\"", n);
  }

  /** Two dot-free pieces split into two parts. */
  lemma SplitTwo(a: string, b: string)
    requires '.' !in a && '.' !in b
    ensures Split(a + "." + b, '.') == [a, b]
  {
    SplitNoSeparator(b, '.');
    SplitAtSeparator(a, '.', b);
    assert a + "." + b == a + ['.'] + b;
  }

  /** A name that trim leaves alone and that splits into two parts resolves to their
      cleaned forms. */
  lemma ResolveTwoParts(raw: string, a: string, b: string, scope: string, scopeIdent: string)
    requires Trim(raw) == raw && Split(raw, '.') == [a, b]
    ensures Resolve(raw, scope, scopeIdent) == Target(Some(StripQuotes(Trim(a))), StripQuotes(Trim(b)))
  {
  }

  /** `s.t` resolves to schema s and table t. */
  lemma ResolveDotted(s: string, t: string, scope: string, scopeIdent: string)
    requires PlainPart(s) && PlainPart(t)
    ensures Resolve(s + "." + t, scope, scopeIdent) == Target(Some(s), t)
  {
    Ends(s, ".", t);
    PlainTrim(s + "." + t);
    SplitTwo(s, t);
    PlainClean(s);
    PlainClean(t);
    ResolveTwoParts(s + "." + t, s, t, scope, scopeIdent);
  }

  /** `"s"."t"` is the quoted schema, a dot and the quoted table. */
  lemma SameRaw(s: string, t: string)
    ensures "\"" + s + "\"." + "\"" + t + "\"" == ("\"" + s + "\"") + "." + ("\"" + t + "\"")
  {
    var q := "\"";
    var x := q + s + q + ".";
    assert "\"." == q + ".";
    assert q + s + "\"." == x;
    assert x + q + t + q == x + (q + t + q);
  }

  /** Two quoted pieces joined by a dot. */
  lemma QuotedPair(s: string, t: string)
    requires '.' !in s && '.' !in t
    ensures var raw := "\"" + s + "\"." + "\"" + t + "\"";
            Trim(raw) == raw && Split(raw, '.') == ["\"" + s + "\"", "\"" + t + "\""]
  {
    var qs := "\"" + s + "\"";
    var qt := "\"" + t + "\"";
    SameRaw(s, t);
    QuotedJoin(qs, qt, s, t);
  }

  /** Two quoted dot-free pieces joined by a dot: trim keeps them, split separates them. */
  lemma QuotedJoin(qs: string, qt: string, s: string, t: string)
    requires qs == "\"" + s + "\"" && qt == "\"" + t + "\"" && '.' !in s && '.' !in t
    ensures Trim(qs + "." + qt) == qs + "." + qt && Split(qs + "." + qt, '.') == [qs, qt]
  {
    Surround(s);
    Surround(t);
    assert '.' !in qs by {
      assert qs == ['"'] + s + ['"'];
    }
    assert '.' !in qt by {
      assert qt == ['"'] + t + ['"'];
    }
    Ends(qs, ".", qt);
    PlainTrim(qs + "." + qt);
    SplitTwo(qs, qt);
  }

  /** `"s"."t"` resolves to schema s and table t. */
  lemma ResolveQuotedDotted(s: string, t: string, scope: string, scopeIdent: string)
    requires '.' !in s && '.' !in t
    ensures Resolve("\"" + s + "\"." + "\"" + t + "\"", scope, scopeIdent) == Target(Some(s), t)
  {
    QuotedPair(s, t);
    QuotedClean(s);
    QuotedClean(t);
    ResolveTwoParts("\"" + s + "\"." + "\"" + t + "\"", "\"" + s + "\"", "\"" + t + "\"", scope, scopeIdent);
  }

  /** A name without a dot that trim leaves alone resolves to a bare table. */
  lemma ResolveOnePart(raw: string, scope: string, scopeIdent: string)
    requires Trim(raw) == raw && '.' !in raw
    ensures Resolve(raw, scope, scopeIdent)
         == Target(if scope == "schema" then Some(scopeIdent) else None, StripQuotes(Trim(raw)))
  {
    SplitNoSeparator(raw, '.');
  }

  /** A quoted name without a dot: trim leaves it alone and it has no dot. */
  lemma QuotedOne(t: string)
    requires '.' !in t
    ensures var qt := "\"" + t + "\""; Trim(qt) == qt && '.' !in qt
  {
    var qt := "\"" + t + "\"";
    Surround(t);
    assert '.' !in qt by {
      assert qt == ['"'] + t + ['"'];
    }
    PlainTrim(qt);
  }

  /** A bare table name takes the import's schema when the import is scoped to a
      schema, and no schema otherwise. */
  lemma ResolveBare(t: string, scope: string, scopeIdent: string)
    requires PlainPart(t)
    ensures Resolve(t, scope, scopeIdent) == Target(if scope == "schema" then Some(scopeIdent) else None, t)
  {
    PlainTrim(t);
    PlainClean(t);
    ResolveOnePart(t, scope, scopeIdent);
  }

  /** So does a quoted one, which loses its quotes. */
  lemma ResolveQuotedBare(t: string, scope: string, scopeIdent: string)
    requires '.' !in t
    ensures Resolve("\"" + t + "\"", scope, scopeIdent)
         == Target(if scope == "schema" then Some(scopeIdent) else None, t)
  {
    QuotedOne(t);
    QuotedClean(t);
    ResolveOnePart("\"" + t + "\"", scope, scopeIdent);
  }

  /** The whole-name strip of the written resolution, on `"s"."t"`. */
  lemma OuterStrip(s: string, t: string)
    ensures var raw := "\"" + s + "\"." + "\"" + t + "\"";
            StripQuotes(Trim(raw)) == (s + "\"") + "." + ("\"" + t)
  {
    var inner := (s + "\"") + "." + ("\"" + t);
    var raw := "\"" + s + "\"." + "\"" + t + "\"";
    assert raw == "\"" + inner + "\"";
    QuotedClean(inner);
  }

  /** `s"` and `"t` have quotes on one side only, so cleaning keeps them. */
  lemma HalfQuoted(s: string, t: string)
    requires PlainPart(s) && PlainPart(t)
    ensures StripQuotes(Trim(s + "\"")) == s + "\""
    ensures StripQuotes(Trim("\"" + t)) == "\"" + t
  {
    var a := s + "\"";
    var b := "\"" + t;
    assert a[0] == s[0] && a[|a| - 1] == '"';
    assert b[0] == '"' && b[|b| - 1] == t[|t| - 1];
    PlainTrim(a);
    PlainTrim(b);
    assert s[0] in s && t[|t| - 1] in t;
  }

  /** As written, `"s"."t"` loses its outermost quotes first, leaving `s"` and `"t`,
      which no longer have quotes on both sides: the schema and table come out with a
      stray quote each. */
  lemma QuotedDottedMisread(s: string, t: string, scope: string, scopeIdent: string)
    requires PlainPart(s) && PlainPart(t)
    ensures ResolveAsWritten("\"" + s + "\"." + "\"" + t + "\"", scope, scopeIdent)
         == Target(Some(s + "\""), "\"" + t)
    ensures ResolveAsWritten("\"" + s + "\"." + "\"" + t + "\"", scope, scopeIdent)
         != Resolve("\"" + s + "\"." + "\"" + t + "\"", scope, scopeIdent)
  {
    var a := s + "\"";
    var b := "\"" + t;
    OuterStrip(s, t);
    assert '.' !in a by {
      assert forall k :: 0 <= k < |s| ==> a[k] == s[k];
    }
    assert '.' !in b by {
      assert forall k :: 0 <= k < |t| ==> b[k + 1] == t[k];
    }
    SplitTwo(a, b);
    HalfQuoted(s, t);
    ResolveQuotedDotted(s, t, scope, scopeIdent);
    assert |a| != |s|;
  }

  // ---------------------------------------------------------------- as the executor reads it

  /** Without quotes around the whole name the whole-name strip changes nothing, and the
      written resolution agrees with the intended one. */
  lemma AsWrittenUnquoted(raw: string, scope: string, scopeIdent: string)
    requires Trim(raw) == [] || Trim(raw)[0] != '"'
    ensures ResolveAsWritten(raw, scope, scopeIdent) == Resolve(raw, scope, scopeIdent)
  {
  }

  /** `s.t` resolves to schema s and table t as written too. */
  lemma AsWrittenDotted(s: string, t: string, scope: string, scopeIdent: string)
    requires PlainPart(s) && PlainPart(t)
    ensures ResolveAsWritten(s + "." + t, scope, scopeIdent) == Target(Some(s), t)
  {
    Ends(s, ".", t);
    PlainTrim(s + "." + t);
    assert s[0] in s;
    AsWrittenUnquoted(s + "." + t, scope, scopeIdent);
    ResolveDotted(s, t, scope, scopeIdent);
  }

  /** A quoted bare name loses its quotes as written too, and takes the import's schema
      when the import is scoped to one. */
  lemma AsWrittenQuotedBare(t: string, scope: string, scopeIdent: string)
    requires PlainPart(t)
    ensures ResolveAsWritten("\"" + t + "\"", scope, scopeIdent)
         == Target(if scope == "schema" then Some(scopeIdent) else None, t)
  {
    QuotedOne(t);
    QuotedClean(t);
    SplitNoSeparator(t, '.');
    PlainClean(t);
  }

  /** The name characters of `s.t` when s and t are made of name characters. */
  lemma DottedNameChars(s: string, t: string)
    requires forall k :: 0 <= k < |s| ==> IsNameChar(s[k])
    requires forall k :: 0 <= k < |t| ==> IsNameChar(t[k])
    ensures var n := s + "." + t; forall k :: 0 <= k < |n| ==> IsNameChar(n[k])
  {
    var n := s + "." + t;
    forall k | 0 <= k < |n|
      ensures IsNameChar(n[k])
    {
      if k < |s| {
        assert n[k] == s[k];
      } else if k > |s| {
        assert n[k] == t[k - |s| - 1];
      }
    }
  }

  /** The target of a statement whose raw name is known. */
  lemma TargetOfRaw(stmt: string, raw: string, scope: string, scopeIdent: string)
    requires RawTable(stmt) == Some(raw)
    ensures TargetOf(stmt, scope, scopeIdent) == Some(ResolveAsWritten(raw, scope, scopeIdent))
  {
  }

  /** `INSERT INTO s.t ...` truncates table t of schema s. */
  lemma InsertDottedTarget(n: string, s: string, t: string, rest: string, scope: string, scopeIdent: string)
    requires n == s + "." + t && PlainPart(s) && PlainPart(t)
    requires forall k :: 0 <= k < |s| ==> IsNameChar(s[k])
    requires forall k :: 0 <= k < |t| ==> IsNameChar(t[k])
    requires rest == [] || !IsNameChar(rest[0])
    ensures TargetOf("INSERT INTO " + n + rest, scope, scopeIdent) == Some(Target(Some(s), t))
  {
    DottedNameChars(s, t);
    InsertTarget(n, rest);
    AsWrittenDotted(s, t, scope, scopeIdent);
    TargetOfRaw("INSERT INTO " + n + rest, n, scope, scopeIdent);
  }
}

=== FILE: type_dumper.dfy ===
/** TypeDumper: DROP (through the exporter), the CREATE TYPE of an enum, composite or
    base type, its comment, and the privileges of one type. */
module TypeDump {
  import opened Php
  import opened Output
  import opened PgDriver
  import opened DumpCommon

  /** The row the type lookup returns; `None` stands for SQL NULL or a missing column. */
  datatype TypeRow = TypeRow(
    typtype: string, typname: string, typin: string, typout: string, typlen: int,
    typalign: string, typstorage: Option<string>, comment: Option<string>)

  /** A row of the composite type's attribute query. */
  datatype AttributeRow = AttributeRow(attname: string, typ: string)

  /** The catalog queries the dumper makes, each by the type name as given. */
  datatype TypeCatalog = TypeCatalog(
    typeInfo: string -> Fetch<TypeRow>,
    enumValues: string -> Records<string>,
    attributes: string -> Records<AttributeRow>)

  /** getAlignmentName */
  function AlignmentName(align: string): (r: string)
    ensures align == "c" ==> r == "char"
    ensures align == "s" ==> r == "int2"
    ensures align == "i" ==> r == "int4"
    ensures align == "d" ==> r == "double"
    ensures align !in {"c", "s", "i", "d"} ==> r == align
  {
    if align == "c" then "char"
    else if align == "s" then "int2"
    else if align == "i" then "int4"
    else if align == "d" then "double"
    else align
  }

  /** getStorageName */
  function StorageName(storage: string): (r: string)
    ensures storage == "p" ==> r == "plain"
    ensures storage == "e" ==> r == "external"
    ensures storage == "m" ==> r == "main"
    ensures storage == "x" ==> r == "extended"
    ensures storage !in {"p", "e", "m", "x"} ==> r == storage
  {
    if storage == "p" then "plain"
    else if storage == "e" then "external"
    else if storage == "m" then "main"
    else if storage == "x" then "extended"
    else storage
  }

  /** The four alignment codes get four different names, none of them a code. */
  lemma AlignmentNamesDistinct(a: string, b: string)
    requires a in {"c", "s", "i", "d"} && b in {"c", "s", "i", "d"} && a != b
    ensures AlignmentName(a) != AlignmentName(b) && AlignmentName(a) !in {"c", "s", "i", "d"}
  {
  }

  /** The four storage codes get four different names, none of them a code. */
  lemma StorageNamesDistinct(a: string, b: string)
    requires a in {"p", "e", "m", "x"} && b in {"p", "e", "m", "x"} && a != b
    ensures StorageName(a) != StorageName(b) && StorageName(a) !in {"p", "e", "m", "x"}
  {
  }

  /** The enum labels, each cleaned and single-quoted. */
  function EnumLabels(d: Driver, values: seq<string>): (r: seq<string>)
    ensures |r| == |values| && forall k :: 0 <= k < |values| ==> r[k] == "'" + d.clean(values[k]) + "'"
  {
    seq(|values|, k requires 0 <= k < |values| => "'" + d.clean(values[k]) + "'")
  }

  /** The composite type's fields, each as `"name" type`. */
  function CompositeFields(atts: seq<AttributeRow>): (r: seq<string>)
    ensures |r| == |atts| && forall k :: 0 <= k < |atts| ==> r[k] == "\"" + atts[k].attname + "\" " + atts[k].typ
  {
    seq(|atts|, k requires 0 <= k < |atts| => "\"" + atts[k].attname + "\" " + atts[k].typ)
  }

  /** The COMMENT ON TYPE a second lookup of the type yields, when it has a comment. */
  function CommentWrites(d: Driver, cat: TypeCatalog, schema: string, typeName: string): (w: seq<string>)
    ensures |w| <= 1
    ensures w != [] <==> cat.typeInfo(typeName).Found? && cat.typeInfo(typeName).row.comment.Some?
  {
    match cat.typeInfo(typeName)
    case Found(info) =>
      Optional(info.comment.Some?,
               "COMMENT ON TYPE " + Quoted2(AddSlashes(schema), AddSlashes(typeName)) + " IS '" + d.clean(info.comment.GetOr("")) + "';\n")
    case _ => []
  }

  /** dumpEnum: the labels joined with `, ` inside `AS ENUM (...)`; the comment only
      when comments are requested. */
  function EnumWrites(d: Driver, e: Exporter, options: Options, cat: TypeCatalog, schema: string, typeName: string): (w: seq<string>)
    ensures |w| >= 1
    ensures w[0] == "CREATE TYPE " + Quoted2(schema, typeName) + " AS ENUM ("
                    + Join(", ", EnumLabels(d, RowsOf(cat.enumValues(typeName)))) + ");\n"
    ensures !e.includeComments(options) ==> |w| == 1
    ensures e.includeComments(options) ==> w[1..] == CommentWrites(d, cat, schema, typeName)
  {
    ["CREATE TYPE " + Quoted2(schema, typeName) + " AS ENUM (" + Join(", ", EnumLabels(d, RowsOf(cat.enumValues(typeName)))) + ");\n"]
    + (if e.includeComments(options) then CommentWrites(d, cat, schema, typeName) else [])
  }

  /** dumpComposite: the fields joined with `, ` inside `AS (...)`; the comment is
      written whether or not comments were requested. */
  function CompositeWrites(d: Driver, cat: TypeCatalog, schema: string, typeName: string): (w: seq<string>)
    ensures |w| >= 1
    ensures w[0] == "CREATE TYPE " + Quoted2(schema, typeName) + " AS ("
                    + Join(", ", CompositeFields(RowsOf(cat.attributes(typeName)))) + ");\n"
    ensures w[1..] == CommentWrites(d, cat, schema, typeName)
  {
    ["CREATE TYPE " + Quoted2(schema, typeName) + " AS (" + Join(", ", CompositeFields(RowsOf(cat.attributes(typeName)))) + ");\n"]
    + CommentWrites(d, cat, schema, typeName)
  }

  predicate HasStorage(row: TypeRow) {
    row.typstorage.Some? && Truthy(row.typstorage.value)
  }

  /** dumpBase: INPUT and OUTPUT always; INTERNALLENGTH unless the length is -1;
      ALIGNMENT when the code is not empty; STORAGE when the code is present and true. */
  function BaseWrites(schema: string, row: TypeRow): (w: seq<string>)
    ensures |w| == 4 + Count(row.typlen != -1) + Count(row.typalign != "") + Count(HasStorage(row))
    ensures w[0] == "CREATE TYPE " + Quoted2(AddSlashes(schema), AddSlashes(row.typname)) + " (\n"
    ensures w[3..|w| - 1] == BaseOptions(row)
    ensures w[1] == "    INPUT = " + row.typin + ",\n" && w[2] == "    OUTPUT = " + row.typout
    ensures w[|w| - 1] == "\n);\n"
    ensures HasStorage(row) ==> w[|w| - 2] == ",\n    STORAGE = " + StorageName(row.typstorage.value)
  {
    ["CREATE TYPE " + Quoted2(AddSlashes(schema), AddSlashes(row.typname)) + " (\n",
     "    INPUT = " + row.typin + ",\n",
     "    OUTPUT = " + row.typout]
    + BaseOptions(row)
    + ["\n);\n"]
  }

  /** The optional lines of a base type, in order: INTERNALLENGTH, ALIGNMENT, STORAGE. */
  function BaseOptions(row: TypeRow): (w: seq<string>)
    ensures |w| == Count(row.typlen != -1) + Count(row.typalign != "") + Count(HasStorage(row))
    ensures row.typlen != -1 ==> w[0] == ",\n    INTERNALLENGTH = " + IntToString(row.typlen)
    ensures row.typalign != "" ==>
              w[Count(row.typlen != -1)] == ",\n    ALIGNMENT = " + AlignmentName(row.typalign)
    ensures HasStorage(row) ==> w[|w| - 1] == ",\n    STORAGE = " + StorageName(row.typstorage.value)
  {
    Optional(row.typlen != -1, ",\n    INTERNALLENGTH = " + IntToString(row.typlen))
    + Optional(row.typalign != "", ",\n    ALIGNMENT = " + AlignmentName(row.typalign))
    + Optional(HasStorage(row), ",\n    STORAGE = " + StorageName(row.typstorage.GetOr("")))
  }

  /** The CREATE part chosen by `typtype`: e, c and b; nothing for any other kind. */
  function BodyWrites(d: Driver, e: Exporter, options: Options, cat: TypeCatalog, schema: string, typeName: string, row: TypeRow): (w: seq<string>)
    ensures row.typtype == "e" ==> w == EnumWrites(d, e, options, cat, schema, typeName)
    ensures row.typtype == "c" ==> w == CompositeWrites(d, cat, schema, typeName)
    ensures row.typtype == "b" ==> w == BaseWrites(schema, row)
    ensures row.typtype !in {"e", "c", "b"} ==> w == []
  {
    if row.typtype == "e" then EnumWrites(d, e, options, cat, schema, typeName)
    else if row.typtype == "c" then CompositeWrites(d, cat, schema, typeName)
    else if row.typtype == "b" then BaseWrites(schema, row)
    else []
  }

  function FoundWrites(d: Driver, e: Exporter, options: Options, cat: TypeCatalog, schema: string, typeName: string, row: TypeRow): seq<string> {
    ["\n-- Type: " + Quoted2(schema, typeName) + "\n"]
    + e.dropWrites("TYPE", schema + "\".\"" + typeName, options)
    + BodyWrites(d, e, options, cat, schema, typeName, row)
    + e.privilegeWrites(typeName, "type", schema)
  }

  /** The write() calls dump() makes: nothing without a name or when the lookup finds
      no row; otherwise the header, the DROP, the CREATE for the kind, and the
      privileges.  A kind other than e, c or b gets no CREATE at all. */
  function TypeWrites(params: Params, options: Options, connSchema: string, d: Driver, e: Exporter, cat: TypeCatalog): (w: seq<string>)
    ensures Missing(Param(params, "type")) || !cat.typeInfo(params["type"]).Found? ==> w == []
    ensures !Missing(Param(params, "type")) && cat.typeInfo(params["type"]).Found? ==>
              var schema := ParamOr(params, "schema", connSchema);
              var typeName := params["type"];
              var drop := e.dropWrites("TYPE", schema + "\".\"" + typeName, options);
              var privileges := e.privilegeWrites(typeName, "type", schema);
              && |w| >= 1 && w[0] == "\n-- Type: " + Quoted2(schema, typeName) + "\n"
              && w == [w[0]] + drop + BodyWrites(d, e, options, cat, schema, typeName, cat.typeInfo(typeName).row) + privileges
              && (cat.typeInfo(typeName).row.typtype !in {"e", "c", "b"} ==> w == [w[0]] + drop + privileges)
  {
    if Missing(Param(params, "type")) then []
    else
      var typeName := params["type"];
      match cat.typeInfo(typeName)
      case Found(row) => FoundWrites(d, e, options, cat, ParamOr(params, "schema", connSchema), typeName, row)
      case _ => []
  }

  class TypeDumper {
    const conn: Connection
    const exporter: Exporter
    const out: Writer
    const catalog: TypeCatalog

    constructor (conn: Connection, exporter: Exporter, out: Writer, catalog: TypeCatalog)
      ensures this.conn == conn && this.exporter == exporter && this.out == out && this.catalog == catalog
    {
      this.conn := conn;
      this.exporter := exporter;
      this.out := out;
      this.catalog := catalog;
    }

    /** dump */
    method Dump(params: Params, options: Options)
      modifies out
      ensures out.writes == old(out.writes) + TypeWrites(params, options, conn.schema, conn.driver, exporter, catalog)
    {
      var typeName := Param(params, "type");
      var schema := ParamOr(params, "schema", conn.schema);
      if Missing(typeName) {
        return;
      }
      var rs := catalog.typeInfo(typeName.value);
      if rs.Found? {
        DumpFound(options, schema, typeName.value, rs.row);
      }
    }

    /** The body of dump() once the type is found. */
    method DumpFound(options: Options, schema: string, typeName: string, row: TypeRow)
      modifies out
      ensures out.writes == old(out.writes) + FoundWrites(conn.driver, exporter, options, catalog, schema, typeName, row)
    {
      ghost var start := out.writes;
      ghost var header := ["\n-- Type: " + Quoted2(schema, typeName) + "\n"];
      var drop := exporter.dropWrites("TYPE", schema + "\".\"" + typeName, options);
      ghost var body := BodyWrites(conn.driver, exporter, options, catalog, schema, typeName, row);
      var privileges := exporter.privilegeWrites(typeName, "type", schema);
      out.Write("\n-- Type: " + Quoted2(schema, typeName) + "\n");
      out.WriteAll(drop);
      AppendAssoc(start, header, drop);
      var typtype := row.typtype;
      if typtype == "e" {
        DumpEnum(typeName, schema, options);
      } else if typtype == "c" {
        DumpComposite(typeName, schema);
      } else if typtype == "b" {
        DumpBase(row, schema);
      }
      AppendAssoc(start, header + drop, body);
      out.WriteAll(privileges);
      AppendAssoc(start, header + drop + body, privileges);
    }

    /** dumpEnum */
    method DumpEnum(typeName: string, schema: string, options: Options)
      modifies out
      ensures out.writes == old(out.writes) + EnumWrites(conn.driver, exporter, options, catalog, schema, typeName)
    {
      var valuesRs := RowsOf(catalog.enumValues(typeName));
      var values := [];
      var k := 0;
      while k < |valuesRs|
        invariant 0 <= k <= |valuesRs|
        invariant values == EnumLabels(conn.driver, valuesRs[..k])
      {
        var val := conn.driver.clean(valuesRs[k]);
        values := values + ["'" + val + "'"];
        k := k + 1;
      }
      assert valuesRs[..k] == valuesRs;
      out.Write("CREATE TYPE " + Quoted2(schema, typeName) + " AS ENUM (" + Join(", ", values) + ");\n");
      if exporter.includeComments(options) {
        WriteComment(typeName, schema);
      }
    }

    /** dumpComposite */
    method DumpComposite(typeName: string, schema: string)
      modifies out
      ensures out.writes == old(out.writes) + CompositeWrites(conn.driver, catalog, schema, typeName)
    {
      var rs := RowsOf(catalog.attributes(typeName));
      var fields := [];
      var k := 0;
      while k < |rs|
        invariant 0 <= k <= |rs|
        invariant fields == CompositeFields(rs[..k])
      {
        fields := fields + ["\"" + rs[k].attname + "\" " + rs[k].typ];
        k := k + 1;
      }
      assert rs[..k] == rs;
      out.Write("CREATE TYPE " + Quoted2(schema, typeName) + " AS (" + Join(", ", fields) + ");\n");
      WriteComment(typeName, schema);
    }

    /** The comment dumpEnum and dumpComposite write after looking the type up again. */
    method WriteComment(typeName: string, schema: string)
      modifies out
      ensures out.writes == old(out.writes) + CommentWrites(conn.driver, catalog, schema, typeName)
    {
      var typeInfo := catalog.typeInfo(typeName);
      if typeInfo.Found? && typeInfo.row.comment.Some? {
        var comment := conn.driver.clean(typeInfo.row.comment.value);
        out.Write("COMMENT ON TYPE " + Quoted2(AddSlashes(schema), AddSlashes(typeName)) + " IS '" + comment + "';\n");
      }
    }

    /** dumpBase */
    method DumpBase(row: TypeRow, schema: string)
      modifies out
      ensures out.writes == old(out.writes) + BaseWrites(schema, row)
    {
      ghost var start := out.writes;
      var typeName := row.typname;
      ghost var head := ["CREATE TYPE " + Quoted2(AddSlashes(schema), AddSlashes(typeName)) + " (\n",
                         "    INPUT = " + row.typin + ",\n", "    OUTPUT = " + row.typout];
      out.Write("CREATE TYPE " + Quoted2(AddSlashes(schema), AddSlashes(typeName)) + " (\n");
      out.Write("    INPUT = " + row.typin + ",\n");
      out.Write("    OUTPUT = " + row.typout);
      assert out.writes == start + head;
      WriteBaseOptions(row);
      AppendAssoc(start, head, BaseOptions(row));
      out.Write("\n);\n");
      AppendAssoc(start, head + BaseOptions(row), ["\n);\n"]);
    }

    method WriteBaseOptions(row: TypeRow)
      modifies out
      ensures out.writes == old(out.writes) + BaseOptions(row)
    {
      ghost var start := out.writes;
      ghost var length := Optional(row.typlen != -1, ",\n    INTERNALLENGTH = " + IntToString(row.typlen));
      ghost var align := Optional(row.typalign != "", ",\n    ALIGNMENT = " + AlignmentName(row.typalign));
      ghost var storage := Optional(HasStorage(row), ",\n    STORAGE = " + StorageName(row.typstorage.GetOr("")));
      if row.typlen != -1 {
        out.Write(",\n    INTERNALLENGTH = " + IntToString(row.typlen));
      }
      if row.typalign != "" {
        out.Write(",\n    ALIGNMENT = " + AlignmentName(row.typalign));
      }
      AppendAssoc(start, length, align);
      if row.typstorage.Some? && Truthy(row.typstorage.value) {
        out.Write(",\n    STORAGE = " + StorageName(row.typstorage.value));
      }
      AppendAssoc(start, length + align, storage);
    }
  }
}
